=== FILE: README.md ===
# Turnos: a Dafny model

A model, in Dafny, of the logic of an appointment ("turno") administration system for a
network of health-care providers. A React frontend lets staff browse appointments per
provider (efector), service (servicio) and specialty (especialidad), keep a waiting list,
and configure, per provider–service–specialty association, which WhatsApp messages are
sent (confirmation, cancellation, rescheduling, reminder) and with which template. A Django
backend mirrors appointment states from the hospital system's Informix database, decides
which message a state change triggers, schedules reminders and records every flag change.

Every screen and handler is modelled as pure functions over immutable datatypes: a React
state update `setX(prev => …)` is a function from state to state, a request is an oracle
that answers `Ok` or `Err` per key, and `Promise.all`/`Promise.allSettled` are folds over
those answers in request order. Database tables and messaging-API answers are inputs.

| module | file | what it models |
|---|---|---|
| `Wrappers`, `Ui` | wrappers.dfy, ui.dfy | optional values (`undefined`/`null`/`None`), results, alerts and navigation |
| `Text`, `Seqs`, `Keyed`, `Sorting`, `Url`, `Csv` | text.dfy, seqs.dfy, keyed.dfy, sorting.dfy, url.dfy, csv.dfy | the language behaviour the code leans on: `String(n)`/`int()`, `strip`/`split`/`join`, array `filter`/`map`/`find`, a `Map` keyed by id, a stable `sort`, `encodeURIComponent` read back by Django's `QueryDict`, and the CSV cell quoting of the exports with a reader for it |
| `Assoc` | assoc.dfy | the association row with its four flags and templates, and the two-level (provider, service) cache |
| `Availability` | availability.dfy | the start page's faceted filter and its count request |
| `PairCache` | paircache.dfy | both service blocks: the pair cache, the fetch of missing pairs and the merged visible list |
| `ServiceIndex` | serviceindex.dfy | the provider screen and its service → providers index |
| `BulkToggle` | bulktoggle.dfy | switching a flag for many rows or one, the confirmation dialog and settle-all accounting |
| `Templates` | templates.dfy | the template screen: type tables, grouping, the days input and the assignment |
| `Audit` | audit.dfy | the flag-change audit trail written before a row is saved |
| `CountQuery` | countquery.dfy | the count and listing requests and the views that parse and answer them |
| `Notify` | notify.dfy | state mapping, template choice, placeholder filling, acknowledgement codes, phone assembly, reminder selection and send times |
| `SqlRewrite` | sqlrewrite.dfy | the Informix cursor's statement rewriting, identifier quoting and the query builders' `WHERE` clauses |
| `Serializers` | serializers.dfy | the REST serializers' normalisation, waiting-list creation and closing, message views and answer dates |
| `WaitList`, `WaitForm`, `RoutePicker` | waitlist.dfy, waitform.dfy, routepicker.dfy | the waiting-list screen, the add-to-waiting-list form and its service/specialty/provider picker |
| `TurnoTable`, `History`, `WaitHistory`, `PatientLookup` | turnotable.dfy, history.dfy, waithistory.dfy, patientlookup.dfy | the appointment table, the two patient histories and the patient picker |

`check_turno` and `format_plantilla` exist twice, in `backend/src/utils/utils.py` and in the
older `backend/src/utils.py`; the two copies have the same logic, so one definition
(`Notify.CheckTurno`, `Notify.Format`) stands for both.

Some properties one might expect do not hold of the code, and the model proves the
counterexample instead. The Informix rewriting does not remove every `LIMIT n`: a `LIMIT`
word without a number hides the clause after it (`SqlRewrite.LimitCanSurvive`). A total
failure of a bulk switch-off gives the same warning as a partial one, and the count request
has no guard against a late answer overwriting a newer one, so neither is claimed.

## Model

| member | source | states |
|---|---|---|
| Availability.Matching | frontend/src/pages/IncioPage.tsx:110 | the configuration rows kept are exactly those whose id in the given dimension is among the given ids |
| Availability.Project | frontend/src/pages/IncioPage.tsx:111-112 | the projection has one id per row, and an id occurs exactly when some row carries it |
| Availability.Reach | frontend/src/pages/IncioPage.tsx:110-112 | an id is reachable exactly when some configuration row links it to one of the given ids |
| Availability.Narrow | frontend/src/pages/IncioPage.tsx:114-115 | the narrowed list is no longer than before and keeps exactly the previously available ids that are reachable |
| Availability.FilterByEfec | frontend/src/pages/IncioPage.tsx:94-116 | selections are untouched; with no provider and no service every master id is available; with no provider but services, all services and exactly the providers and specialties linked to a selected service; with providers, the providers stay and services and specialties keep exactly their available ids linked to a selected provider |
| Availability.FilterByServ | frontend/src/pages/IncioPage.tsx:118-142 | clearing the services also clears the selected specialties and makes every provider available, and the services and specialties become all of them or exactly those linked to a selected provider; with services, the services stay and providers and specialties keep exactly their available ids linked to a selected service |
| Availability.ServiceAndProvider | frontend/src/pages/IncioPage.tsx:152-153 | the rows kept are exactly those of a selected service offered by a selected provider |
| Availability.FilterByEsp | frontend/src/pages/IncioPage.tsx:145-164 | with specialties, only the providers change, keeping exactly the available ones linked to a selected specialty; with no specialty selected before or now, nothing changes |
| Availability.Toggle | frontend/src/pages/IncioPage.tsx:216-232 | the toggled id is in the result exactly when it was not before, and every other id keeps its membership |
| Availability.Step | frontend/src/pages/IncioPage.tsx:198-232 | a toggle changes only its own selection, except that emptying the services also empties the selected specialties |
| Availability.Selected | frontend/src/pages/IncioPage.tsx:168-170 | an empty selection is left out of the request, any other is sent as it is |
| Availability.OnCount | frontend/src/pages/IncioPage.tsx:167-191 | a failed request shows three zeros; an answer shows its count and its two message counts |
| Availability.ToggleKeepsNoDup | frontend/src/pages/IncioPage.tsx:216-232 | toggling never repeats an id in a selection |
| Availability.ClearProvidersResets | frontend/src/pages/IncioPage.tsx:95-100 | clearing the providers with no service selected makes every master id available again |
| Availability.ProviderFilterIsStable | frontend/src/pages/IncioPage.tsx:94-116 | filtering by the same providers twice gives the same page as once |
| Availability.ServiceFilterIsStable | frontend/src/pages/IncioPage.tsx:118-142 | filtering by the same services twice gives the same page as once |
| Availability.EmptySpecialtyFilterIsInert | frontend/src/pages/IncioPage.tsx:145-157 | running the specialty filter on an empty specialty selection never changes the page, in either wiring |
| Availability.ToggleTwiceAbsent | frontend/src/pages/IncioPage.tsx:216-232 | toggling an unselected id twice restores the selection exactly |
| Availability.ToggleTwicePresent | frontend/src/pages/IncioPage.tsx:216-232 | toggling a selected id twice keeps the same ids, each once |
| Availability.CountMatchesSelection | frontend/src/pages/IncioPage.tsx:167-178 | the server, reading the count request back, filters by exactly the non-empty selections and state 0 |
| Availability.StaleProviderReset | frontend/src/pages/IncioPage.tsx:94-116 | as written, deselecting the last provider while a service is selected can make available a provider that offers no selected service |
| Availability.ClearProvidersKeepsServiceScope | frontend/src/pages/IncioPage.tsx:101-106 | reading the current selections, deselecting the last provider leaves available exactly the providers linked to a selected service |
| Availability.SelectedOfCsv | frontend/src/features/turno/api.ts:79-85 | the ids the page sends are read back by the server as exactly the selection, and an empty selection as no filter |
| Availability.Init | frontend/src/pages/IncioPage.tsx:83-86 | after loading, every master provider, service and specialty id is available |
| Availability.CountRequest | frontend/src/pages/IncioPage.tsx:167-178 | the server reads the count URL back as exactly the selected services, specialties and providers, an empty selection as no filter, and state 0 |
| PairCache.PairsFor | frontend/src/features/plantilla/components/ServicioBlock.tsx:79-80 | the pairs of a service are exactly its mapped providers that are selected |
| PairCache.Considered | frontend/src/features/turno/components/ServicioBlock.tsx:78-92 | the turn copy fails exactly when some service has no mapping entry; otherwise the pairs are exactly the selected mapped providers of each service, as in the template copy, which treats a missing entry as empty |
| PairCache.CachedRows | frontend/src/features/plantilla/components/ServicioBlock.tsx:82-85 | the rows taken from the cache are exactly those of pairs whose cache entry is non-empty |
| PairCache.Missing | frontend/src/features/plantilla/components/ServicioBlock.tsx:86-88 | a pair is fetched exactly when its cache entry is missing or empty |
| PairCache.FetchedRows | frontend/src/features/plantilla/components/ServicioBlock.tsx:111-116 | the rows gathered are exactly those of the requests that succeeded |
| PairCache.Updates | frontend/src/features/plantilla/components/ServicioBlock.tsx:108-122 | the update holds, per provider and service, exactly the rows of each successful request, and is empty exactly when every request failed |
| PairCache.Merge | frontend/src/features/plantilla/components/ServicioBlock.tsx:125-136 | after the merge each entry is the update's when it has one and the old one otherwise; an empty update changes nothing |
| PairCache.Collect | frontend/src/features/plantilla/components/ServicioBlock.tsx:71-149 | nothing is selected or no service: no rows and nothing requested; otherwise it fails exactly when the pairs cannot be listed, requests exactly the uncached pairs, counts the failed ones, keys the rows by id with a later row winning over cached ones, and caches exactly the successful fetches |
| PairCache.Deselect | frontend/src/features/plantilla/components/ServicioBlock.tsx:156-161 | clicking a selected service unselects it, hides exactly its rows and keeps cache and mapping |
| PairCache.CachedFor | frontend/src/features/plantilla/components/ServicioBlock.tsx:173-180 | the cached rows of a click are the cached rows of its providers' pairs |
| PairCache.MissingFor | frontend/src/features/plantilla/components/ServicioBlock.tsx:173-180 | a provider is fetched exactly when its entry for the service is missing or empty |
| PairCache.StoreResults | frontend/src/features/plantilla/components/ServicioBlock.tsx:214-225 | every requested provider's entry for the service is written, a failed request as an empty list, and nothing else changes |
| PairCache.NewRows | frontend/src/features/plantilla/components/ServicioBlock.tsx:230-240 | the rows a click adds are drawn from the gathered rows, carry each row id and each specialty once, and under each specialty stand for the last row, among the rows deduplicated by id, with that specialty |
| PairCache.SpecialtyKeyEntries | frontend/src/features/plantilla/components/ServicioBlock.tsx:239-244 | as written, the merged map reads each new row's specialty id as that row, and any other key as the last visible row whose ROW id it is (absent when there is none) |
| PairCache.MergeBySpecialtyKey | frontend/src/features/plantilla/components/ServicioBlock.tsx:185-196 | as written, every new row is shown, and a visible row stays when its row id is not the specialty id of a new row |
| PairCache.MergeByRowId | frontend/src/features/plantilla/components/ServicioBlock.tsx:230-247 | the intended merge keeps row ids unique and only holds rows that were visible or newly loaded; every new row (deduplicated by row id, then by specialty) is shown, replacing the visible row with its id, and every other row id keeps the last visible row with it |
| PairCache.Targets | frontend/src/features/turno/components/ServicioBlock.tsx:165-167 | the providers clicked are always selected ones: the mapped ones when the service has an entry; without one, none in the template copy and all selected in the turn copy |
| PairCache.ClickWithoutProviders | frontend/src/features/plantilla/components/ServicioBlock.tsx:153 | without a selected provider a click changes nothing |
| PairCache.ClickSelectedDeselects | frontend/src/features/plantilla/components/ServicioBlock.tsx:156-161 | clicking a selected service removes it and exactly its visible rows, keeping the cache |
| PairCache.TurnMergeUnion | frontend/src/features/turno/components/ServicioBlock.tsx:187-232 | the turn copy's merge keys the previous and new rows by id, a new row replacing an old one |
| PairCache.TurnClickUnion | frontend/src/features/turno/components/ServicioBlock.tsx:154-248 | after adding a service in the turn copy, the visible rows are the previous ones and the service's cached and fetched rows, keyed by id, and the service is selected |
| PairCache.TurnClickRecordsMapping | frontend/src/features/turno/components/ServicioBlock.tsx:169-172 | a service without an entry records every selected provider as its mapping, once each, and no other entry changes |
| PairCache.ClickFetchStoresAll | frontend/src/features/plantilla/components/ServicioBlock.tsx:201-225 | the fetch path stores exactly the rows of every uncached provider, failures as empty lists, and leaves other entries alone |
| PairCache.SpecialtyKeyDropsRow | frontend/src/features/plantilla/components/ServicioBlock.tsx:239-246 | as written, a visible row of another service vanishes when its row id equals the specialty id of a new row |
| PairCache.RowIdMergeKeepsOthers | frontend/src/features/plantilla/components/ServicioBlock.tsx:243-246 | keyed by row id, every visible row that no new row replaces stays visible |
| PairCache.Click | frontend/src/features/plantilla/components/ServicioBlock.tsx:152-262 | without providers nothing changes; a selected service is deselected and exactly its rows hidden, cache and mapping kept; otherwise the service is appended to the selection and no other service's cache entry or mapping changes; the empty-list notice shows exactly when the click went to the server and the list is empty; in the template copy every new row of the service is shown, and as intended each new row replaces the visible row with its id while every other row id keeps its row (as written, a visible row stays unless its id is a new row's specialty id) |
| PairCache.TemplateFetchesWhenUncached | frontend/src/features/plantilla/components/ServicioBlock.tsx:171-183 | the template copy goes to the server exactly when some provider it looks at has no cached rows for the service |
| ServiceIndex.MergeUnique | frontend/src/pages/EfectoresPage.tsx:40-45 | one service per id, the ids being exactly those of either list, and the second list's service winning for an id |
| ServiceIndex.Add | frontend/src/pages/EfectoresPage.tsx:47-52 | the service's entry then holds the provider and its previous providers, each once; every other entry is unchanged |
| ServiceIndex.Del | frontend/src/pages/EfectoresPage.tsx:54-64 | without an entry nothing changes; otherwise the entry loses the provider and is deleted exactly when nothing is left; every other entry is unchanged |
| ServiceIndex.AddAll | frontend/src/pages/EfectoresPage.tsx:114-120 | each of the provider's services then lists the provider once besides its previous providers; every other entry is unchanged |
| ServiceIndex.AddStep | frontend/src/pages/EfectoresPage.tsx:116-118 | adding for one more service extends the all-services addition by that service |
| ServiceIndex.DelAll | frontend/src/pages/EfectoresPage.tsx:76-85 | each of the provider's services loses the provider, its entry deleted when left empty; every other entry is unchanged |
| ServiceIndex.DelStep | frontend/src/pages/EfectoresPage.tsx:81-85 | removing for one more service extends the all-services removal by that service |
| ServiceIndex.Deselect | frontend/src/pages/EfectoresPage.tsx:70-100 | the provider is unselected and leaves its services' entries; services, selected services and rows are kept exactly when they still have a provider, or belong to another provider |
| ServiceIndex.ProviderClick | frontend/src/pages/EfectoresPage.tsx:67-148 | a selected provider is deselected without a request; another is selected, with a request exactly when no services are cached for it; a failed request changes no cache, a successful one caches its services |
| ServiceIndex.AddDelKeepNonEmpty | frontend/src/pages/EfectoresPage.tsx:47-64 | adding and removing never leave an empty entry behind |
| ServiceIndex.AddIdempotent | frontend/src/pages/EfectoresPage.tsx:47-52 | adding the same provider twice is adding it once |
| ServiceIndex.AddThenDel | frontend/src/pages/EfectoresPage.tsx:47-64 | adding a new provider and removing it again restores the index |
| ServiceIndex.AddThenDelOfEmptyEntry | frontend/src/pages/EfectoresPage.tsx:56-59 | an empty entry is deleted by the round trip instead of restored |
| ServiceIndex.DeselectDropsProvider | frontend/src/pages/EfectoresPage.tsx:78-85 | after deselection no entry of the provider's services lists it |
| ServiceIndex.SelectIndexesServices | frontend/src/pages/EfectoresPage.tsx:104-141 | after selection every service of the provider lists it, and the service ids are those before plus the provider's |
| BulkToggle.Close | frontend/src/features/plantilla/components/Confirmacion.tsx:64-68 | while requests are in flight the dialog keeps its state; otherwise it closes |
| BulkToggle.Settle | frontend/src/features/plantilla/components/Confirmacion.tsx:111-132 | every target is either reported updated or listed as failed; a row is updated exactly when its request succeeded, and an id is listed exactly when a target with that id failed |
| BulkToggle.Confirm | frontend/src/features/plantilla/components/Confirmacion.tsx:70-157 | with no targets only an information alert; switching on sends nothing and navigates to the type's template screen with the target ids; switching off sends one body per target clearing the flag and its template, warns exactly when some request failed and reports success exactly when none did; the dialog always closes |
| BulkToggle.SetFlagWhere | frontend/src/features/plantilla/components/SendAll.tsx:125-129 | the list keeps its length and every other field of every row; only rows with the given id get the new flag value |
| BulkToggle.BulkUpdateCache | frontend/src/features/plantilla/components/SendAll.tsx:96-122 | the row's pair entry exists afterwards, keeps its length and has the row with the same id replaced by the updated row; every other pair entry is untouched |
| BulkToggle.ToggleAll | frontend/src/features/plantilla/components/SendAll.tsx:56-94 | a second toggle while one is being prepared does nothing; a failed preparation raises an error alert; otherwise the dialog opens on exactly the prepared rows whose flag differs from the value, in their prepared order, or an information alert says nothing needs changing |
| BulkToggle.SectionClick | frontend/src/features/plantilla/components/EspecialidadBlock.tsx:102-111 | the dialog opens for that row alone, asking to switch the flag off exactly when it is on |
| BulkToggle.ConfirmClosed | frontend/src/features/plantilla/components/EspecialidadBlock.tsx:118-121 | closing the dialog empties its targets |
| BulkToggle.RowUpdateCache | frontend/src/features/plantilla/components/EspecialidadBlock.tsx:71-89 | nothing changes when the row's provider or service id is 0; otherwise the pair entry, seeded from the visible rows of that pair when missing, gets the flag on the rows with the same id, and every other entry is untouched |
| BulkToggle.ApplyAllVisible | frontend/src/features/plantilla/components/SendAll.tsx:132-140 | after the successes are applied a visible row has the new value exactly when a succeeded row has its id, and nothing else about any visible row changes |
| BulkToggle.BulkOffClearsVisible | frontend/src/features/plantilla/components/Confirmacion.tsx:111-132 | after switching off in bulk every visible row whose request succeeded shows the flag off, and every other visible row is unchanged |
| BulkToggle.IdsOfSucceeded | frontend/src/features/plantilla/components/Confirmacion.tsx:119-129 | the ids handed to the success callback are exactly those of the targets whose request succeeded |
| BulkToggle.SectionClickAlternates | frontend/src/features/plantilla/components/EspecialidadBlock.tsx:102-106 | clicking the same row twice asks for one value and then the other |
| BulkToggle.BulkOnSuccess | frontend/src/features/plantilla/components/SendAll.tsx:132-140 | the row's flag is set to the value in the visible and in the pending list, every other field and row unchanged; only the row's own cache entry changes, and it exists afterwards |
| BulkToggle.ApplyAll | frontend/src/features/plantilla/components/Confirmacion.tsx:119-129 | handing every updated row to the callback keeps both lists' lengths, leaves a cache entry for each row, and changes no entry no row belongs to |
| BulkToggle.RowOnSuccess | frontend/src/features/plantilla/components/EspecialidadBlock.tsx:71-100 | the pending list is untouched; the row's flag is set in the visible list and nothing else changes there; a missing provider or service leaves the cache as it was, otherwise only the row's own entry changes |
| Templates.GroupByType | frontend/src/pages/PlantillasPage.tsx:113-131 | the four type buckets always exist, every other bucket holds at least one template, and each bucket holds exactly the templates of its type in their original order |
| Templates.DaysProblem | frontend/src/pages/PlantillasPage.tsx:139-156 | no warning exactly when the text is non-blank and a number from 0 to 5; blank or non-numeric text gets the invalid-number warning, an out-of-range number the range warning |
| Templates.SendAll | frontend/src/pages/PlantillasPage.tsx:161-176 | every row gets the same payload, in order; success exactly when every update succeeds, and only then does the button stay blocked and the page navigate |
| Templates.Assign | frontend/src/pages/PlantillasPage.tsx:133-177 | without a type or rows nothing is sent and a warning is shown; a reminder is sent exactly when the days are a number from 0 to 5; otherwise every row gets the type's payload, succeeding only when every update does |
| Templates.TipoTablesInverse | frontend/src/pages/PlantillasPage.tsx:28-40 | the type-to-id and id-to-type tables are inverse to each other, defined exactly on the four types and ids 1 to 4 |
| Templates.AssignPayloadFields | frontend/src/pages/PlantillasPage.tsx:144-158 | the payload sets the type's flag to 1 and its paired template field to the chosen template, with the days only for a reminder |
| Templates.NamesDistinct | frontend/src/pages/PlantillasPage.tsx:42-47 | a type's flag, its template field and the days field never collide, so no assignment overwrites another |
| Templates.UnknownTypeUsesReminderTemplate | frontend/src/pages/PlantillasPage.tsx:144 | an unknown type still writes the chosen template into the reminder's template field |
| Templates.DaysAcceptedWholeDays | frontend/src/pages/PlantillasPage.tsx:197-201 | the days input lets through exactly the whole numbers 0 to 5 |
| Templates.AcceptedDaysAssign | frontend/src/pages/PlantillasPage.tsx:139-158 | any non-blank days text the input lets through is also accepted by the assignment |
| Templates.GroupedByType | frontend/src/pages/PlantillasPage.tsx:120-128 | every template appears in the bucket of its own type |
| Templates.TipoToId | frontend/src/pages/PlantillasPage.tsx:28-33 | a type name has an id exactly when it is one of the four names, and the id is 1 to 4 |
| Templates.IdToTipoKey | frontend/src/pages/PlantillasPage.tsx:35-40 | an id has a name exactly when it is 1 to 4, and the name is one of the four |
| Templates.DaysAccepted | frontend/src/pages/PlantillasPage.tsx:197-201 | the days input takes a value exactly when it is blank or a number from 0 to 5 |
| Templates.AssignPayload | frontend/src/pages/PlantillasPage.tsx:144-158 | the body sets the type's template field to the template id and the type's flag to 1, carries the days before only for a reminder, and for any other type no days |
| Audit.ChangedFlags | backend/src/signals.py:29-63 | a flag is reported exactly when its stored and new values differ, in ascending type-id order |
| Audit.Changes | backend/src/signals.py:11-74 | a new row, a zero key or a row no longer stored writes nothing; otherwise there is one record per changed flag and none for an unchanged one, at most four, in ascending type-id order, each carrying the new value and the new paired template |
| Audit.TypeIdInjective | backend/src/signals.py:6-9 | the four flags have four different type ids |
| Audit.UnchangedWritesNothing | backend/src/signals.py:11-74 | saving a row unchanged writes no record |
| Audit.OneFlagOneRecord | backend/src/signals.py:11-74 | switching one flag writes exactly one record, for that flag, with the new value |
| CountQuery.ToCsv | frontend/src/features/turno/api.ts:79-80 | a value is rendered exactly when one is given |
| CountQuery.Opt | frontend/src/features/turno/api.ts:82-85 | a defined value adds exactly one parameter under its key; an undefined one adds none |
| CountQuery.CountUrl | frontend/src/features/turno/api.ts:70-94 | the URL carries a query exactly when some filter is given, and is the bare path otherwise |
| CountQuery.ReadCounts | frontend/src/features/turno/api.ts:96-105 | a missing body reads as five zeros; otherwise each counter is its field, or 0 when the field is missing |
| CountQuery.OrUndefined | frontend/src/features/turno/api.ts:117-118 | a non-empty list is kept element by element; a missing or empty one becomes a single "any" |
| CountQuery.Product | frontend/src/features/turno/api.ts:120-125 | one request per pair: the count is the product of the lengths and every service meets every specialty |
| CountQuery.CombineResponses | frontend/src/features/turno/api.ts:127-131 | the call fails exactly when some request fails; otherwise the rows are those of every response keyed by id, each id once in the order it first appears, holding the last row sent with that id |
| CountQuery.AllOk | frontend/src/features/turno/api.ts:127 | all results exactly when none failed, each in its place |
| CountQuery.MergedLimitRequest | frontend/src/features/turno/api.ts:136-142 | a non-positive amount sends nothing; a positive one sends exactly that amount |
| CountQuery.MergedAllRequest | frontend/src/features/turno/api.ts:145-152 | an empty id list sends nothing; no list fetches everything unfiltered |
| CountQuery.ParseCsvParam | backend/src/views.py:53-70 | a missing or empty value gives no filter; otherwise the filter exists exactly when some piece parses, and is then the numbers of the pieces that parse, in order, bad pieces skipped |
| CountQuery.ParseInts | backend/src/views.py:62-69 | the numbers are those of the pieces that parse, in their order, every other piece skipped |
| CountQuery.ParsePiece | backend/src/views.py:64-69 | a piece that parses gives exactly its number, and any other piece gives nothing |
| CountQuery.EstadoFilter | backend/src/views.py:87-93 | the state filter applies exactly when the value is present, non-empty and an integer, and then filters on that integer |
| CountQuery.Queryset | backend/src/views.py:72-102 | a row is kept exactly when it meets every filter that is present |
| CountQuery.CountAction | backend/src/views.py:105-137 | the count is the number of filtered rows, and the four other counters are the sums of the reminder, confirmed, cancelled and rescheduled flags over those rows |
| CountQuery.ParseCantidad | backend/src/views.py:398-408 | a missing or empty amount means no limit; any other amount is accepted exactly when `int()` reads it as a positive integer, and then as that integer |
| CountQuery.NormalizeIds | backend/src/views.py:412-420 | the id list fails exactly when some non-blank piece is not an integer; otherwise blank pieces are dropped and every other piece becomes the decimal text of its integer, in order |
| CountQuery.NormalizePiece | backend/src/views.py:415 | one piece fails exactly when it is non-blank and not an integer; a blank piece gives nothing and an integer piece gives the decimal text of its value |
| CountQuery.Take | backend/src/views.py:423-424 | no limit keeps everything; a limit keeps a prefix of length min(limit, length) |
| CountQuery.FindRow | backend/src/views.py:432 | a row is found exactly when some row has the id, and it is one of them |
| CountQuery.InRequestedOrder | backend/src/views.py:431-433 | no more rows than requested ids, each a stored row with a requested id |
| CountQuery.MergedLocal | backend/src/views.py:391-443 | an invalid amount is a bad request; with ids, a bad id is a bad request and otherwise the ids of the rows are the first `cantidad` requested ids that are stored, in requested order; without ids, the rows are stored rows newest first, as many as the amount allows, and no stored row left out is newer than a row returned |
| CountQuery.CountParamsRoundTrip | frontend/src/features/turno/api.ts:70-94 | the server parses the query of the count URL back into exactly the parameters pushed |
| CountQuery.CountParamsGet | backend/src/views.py:82-87 | the server reads each filter of the count URL under its own name, and never finds an `id_efector` |
| CountQuery.ParseCsvOfCsv | backend/src/views.py:53-70 | the ids the frontend joins with commas are read back as the same list, and an empty list as no filter |
| CountQuery.ParseIntsOfParsable | backend/src/views.py:62-69 | pieces that each parse give back exactly their numbers, in order |
| CountQuery.ParseIntsOfRendered | backend/src/views.py:62-69 | rendered integers parse back to themselves, in order |
| CountQuery.RenderedPiece | backend/src/views.py:66 | a rendered integer is non-blank and parses back to itself |
| CountQuery.ReadCountsOfJson | frontend/src/features/turno/api.ts:96-105 | the counters the server sends reach the page unchanged |
| CountQuery.CombinationCount | frontend/src/features/turno/api.ts:117-125 | the fallback issues max(1, services) times max(1, specialties) requests |
| CountQuery.MergedIdsRoundTrip | frontend/src/features/turno/api.ts:145-152 | numeric ids the frontend sends are read back by the server as the same rendered ids, in order |
| CountQuery.NormalizeRendered | backend/src/views.py:415 | rendered integers are normalised to themselves |
| CountQuery.RequestedOrderIds | backend/src/views.py:431-433 | with ids, the rows are exactly the requested ids that exist, in the requested order |
| CountQuery.NewestFirstIsPreorder | backend/src/views.py:435 | newest-first by day then time is a total preorder, so sorting by it is well defined |
| CountQuery.CountParamsEmpty | frontend/src/features/turno/api.ts:87-94 | the count request carries no query exactly when no filter was given |
| CountQuery.NewestPrefix | backend/src/views.py:434-440 | without ids, the rows returned are sorted newest first, drawn from the stored rows without repetition, as many as the amount allows, and no stored row left out is newer than a row returned |
| CountQuery.NewestPrefixBeatsRest | backend/src/views.py:434-440 | every stored row the amount leaves out is no newer (by date, then time) than every row returned |
| CountQuery.CombineOfDistinct | frontend/src/features/turno/api.ts:127-131 | responses whose rows have distinct ids combine to all of their rows, in order |
| CountQuery.CombineLastWins | frontend/src/features/turno/api.ts:127-131 | when two responses send a row with the same id, the combined list holds the second response's row |
| CountQuery.CountActionAppend | backend/src/views.py:105-137 | counting two lists of rows gives the sum of counting each, counter by counter |
| CountQuery.CountActionBounds | backend/src/views.py:120-134 | with 0/1 flags every counter lies between 0 and the number of rows |
| CountQuery.CantidadWithUnderscore | backend/src/views.py:398-408 | an amount written with an underscore between digit groups reads as the same amount without it |
| Notify.MapEstado | backend/src/utils/utils.py:334-343 | hospital states 1 to 8 map to local states 1 to 4; any other state has no mapping |
| Notify.StateField | backend/src/utils/utils.py:118-125 | states 1, 2 and 3 select the message type with that id; any other state selects the reminder |
| Notify.CheckTurno | backend/src/utils/utils.py:109-139 | a message is sent exactly when a configuration row exists with the flag of the state's type on, and then with that type's template; otherwise no template |
| Notify.PlaceholderAt | backend/src/utils/utils.py:153 | a match is a non-empty key between an opening and a closing brace at the front of the text |
| Notify.FlagAfterSend | backend/src/tasks.py:441-450 | a turn flag is set exactly when the stored state is non-negative and the turn state is 1, 2 or 3 |
| Notify.Phone | backend/src/tasks.py:391-392 | a number exists exactly when both parts are non-empty; it has no spaces and is "549", the area code and the number with spaces removed |
| Notify.Handle | backend/src/tasks.py:247-464 | a turn is skipped exactly when its state is unmapped, its details are missing for a confirmed or rescheduled state, a confirmed turn could not be created, or another state has no local turn; otherwise the local state is the mapped one; a state other than 4 whose configuration sends a template is always recorded, unsent exactly when there is no phone and otherwise sent, filled, to that phone |
| Notify.BestRaw | backend/src/tasks.py:237-245 | the mark exists exactly when some row was seen; it is one of the stamps without its fraction, and no stamp is greater |
| Notify.Candidates | backend/src/tasks.py:503-531 | a turn is reminded today exactly when confirmed, not yet reminded, configured, within the next five days and due its configured days before (0 when none) |
| Notify.SendAt | backend/src/tasks.py:591-610 | on the day itself the reminder is due 2 to 4 hours ahead, 2 hours for a turn by 10:30; on a later day it is due at 10:00 plus two minutes per reminder already placed that day |
| Notify.Eta | backend/src/tasks.py:620-623 | the time handed to the queue is always in the future: the planned time, or five seconds from now |
| Notify.Schedule | backend/src/tasks.py:552-625 | one time per reminder, each the planned time given how many reminders before it fall on the same day |
| Notify.ReminderAsWritten | backend/src/tasks.py:625 | as written, the phone is built from the text renderings of its parts, so a missing part takes part as "None" |
| Notify.ReminderSend | backend/src/tasks.py:657-689 | a reminder is sent exactly when the local turn is still confirmed and not reminded, the configuration sends a template, and both phone parts are non-empty, then to the assembled number; a missing phone is recorded exactly when the same holds but a phone part is empty; whenever it does not abort it uses the configured template |
| Notify.StateTablesAgree | backend/src/tasks.py:247-257 | the polling task's inline table and the helper's mapping agree on every state |
| Notify.StateFieldOfTypeId | backend/src/utils/utils.py:119-125 | each message type is selected by the state equal to its type id |
| Notify.AssignedTemplateIsSent | backend/src/utils/utils.py:128-132 | a template assigned with its flag on is the one sent for that type's state |
| Notify.HandleSendsAssignedTemplate | backend/src/tasks.py:247-464 | a turn that passes the checks, in a state whose message type has its template assigned with the flag on, records that template: unsent without a phone, filled with the turn's values and sent with one |
| Notify.ClearedFlagIsSilent | backend/src/utils/utils.py:128-135 | a flag switched off sends nothing, with no template |
| Notify.CancelledStatesNeverMessage | backend/src/tasks.py:381-382 | hospital states 4, 5 and 6 only update the local state, never sending or recording a message |
| Notify.FormatWithoutBraces | backend/src/utils/utils.py:143-153 | text without an opening brace is left unchanged |
| Notify.FormatWithoutValues | backend/src/utils/utils.py:148-150 | with no values every placeholder is left as written |
| Notify.FormatPlaceholder | backend/src/utils/utils.py:148-153 | a placeholder is replaced by its value, or kept when the key has none, and the rest is formatted after it |
| Notify.WordRunOfKey | backend/src/utils/utils.py:153 | a placeholder key is the whole run of word characters before the closing brace |
| Notify.SinglePass | backend/src/utils/utils.py:153 | an inserted value is not formatted again, even when it looks like a placeholder |
| Notify.AckTablesDiffer | backend/src/tasks.py:417-426 | the tasks' status table is one above the helper's on 503, 400 and 404, equal on 500, and only the helper maps 422 |
| Notify.ErrorStatusSetsNoFlag | backend/src/tasks.py:417-450 | an error status never marks the turn as notified |
| Notify.PhoneHasNoSpaces | backend/src/tasks.py:392 | removing spaces from an assembled number changes nothing |
| Notify.StrLessIrreflexive | backend/src/tasks.py:244 | no stamp is less than itself |
| Notify.StrLessTransitive | backend/src/tasks.py:244 | the comparison of stamps is transitive |
| Notify.CandidateDaysBefore | backend/src/tasks.py:504-531 | a turn due its configured days ahead is reminded today exactly when those days are between 0 and 5 |
| Notify.NoDaysMeansSameDay | backend/src/tasks.py:529-530 | without configured days, only a turn of today is reminded |
| Notify.FutureRemindersSpaced | backend/src/tasks.py:599-610 | two reminders for the same later day go out in order, at least two minutes apart |
| Notify.SameDayLeadTime | backend/src/tasks.py:591-623 | a same-day reminder goes out at least two hours ahead, or five seconds from now when that moment has passed |
| Notify.ReminderSendsToNone | backend/src/tasks.py:625-689 | as written, a reminder whose area code is missing is sent to "549None4123456"; as intended it records a missing phone |
| Notify.Format | backend/src/utils/utils.py:143-153 | a template without a closing brace is sent verbatim |
| Notify.DecodeRes | backend/src/utils/utils.py:346-362 | status 503 gives -5, 400 gives -4, 404 gives -3, 422 gives -2 and 500 gives -1; any other status gives the answer's ack, or -5 without one |
| Notify.TaskAck | backend/src/tasks.py:417-426 | status 503 gives -4, 400 gives -3, 404 gives -2 and 500 gives -1; any other status passes the answer's ack on unchanged |
| Notify.DecodeResSignalsErrors | backend/src/utils/utils.py:346-362 | with a non-negative ack, the helper's state is negative exactly for its five error statuses, and distinct error statuses give distinct states |
| Notify.TaskAckSignalsErrors | backend/src/tasks.py:417-426 | with a non-negative ack, the tasks' state is negative exactly for their four error statuses, and distinct error statuses give distinct states |
| SqlRewrite.LimitMatch | backend/core/informix_jdbc_backend/base.py:52 | a match starts with LIMIT in any letter case, followed by spaces and a non-empty run of digits |
| SqlRewrite.FirstFrom | backend/core/informix_jdbc_backend/base.py:52 | the position found is the leftmost one in range where the test holds, and none exists exactly when it holds nowhere in range |
| SqlRewrite.FirstMatch | backend/core/informix_jdbc_backend/base.py:52 | the search finds a match exactly when one exists from the start position, and it is a real match |
| SqlRewrite.SearchLimit | backend/core/informix_jdbc_backend/base.py:52-54 | a limit is found exactly when the pattern matches from the start position, and it is the digits of the leftmost match |
| SqlRewrite.RemovableAt | backend/core/informix_jdbc_backend/base.py:56 | a removable clause is non-empty and within the text |
| SqlRewrite.StripLimits | backend/core/informix_jdbc_backend/base.py:56 | removing the clauses never lengthens the text; what it removes and keeps is stated by StripLimitsSplit, ClauseDropped and NoLimitKept |
| SqlRewrite.StripLimitsChars | backend/core/informix_jdbc_backend/base.py:56 | removing the clauses brings in no character of its own |
| SqlRewrite.SelectDistinctLen | backend/core/informix_jdbc_backend/base.py:59 | a leading SELECT DISTINCT match lies within the text |
| SqlRewrite.SelectLen | backend/core/informix_jdbc_backend/base.py:63 | a leading SELECT match lies within the text |
| SqlRewrite.InsertFirst | backend/core/informix_jdbc_backend/base.py:58-64 | inserting the limit brings in only the limit's digits and the words of the replacement, and text without a leading SELECT is unchanged |
| SqlRewrite.ReplacePlaceholders | backend/core/informix_jdbc_backend/base.py:66-68 | only question marks are brought in; text without a percent sign is unchanged; the text never grows and stays non-empty |
| SqlRewrite.Normalize | backend/core/informix_jdbc_backend/base.py:46-70 | the normalised statement never contains a backtick |
| SqlRewrite.SearchLimitDigits | backend/core/informix_jdbc_backend/base.py:52-54 | the limit's digits all come from the statement |
| SqlRewrite.Execute | backend/core/informix_jdbc_backend/base.py:72-80 | the parameters are passed on unchanged; text is normalised, rewriting placeholders exactly when there are parameters; anything else is passed on as it is |
| SqlRewrite.ExecuteMany | backend/core/informix_jdbc_backend/base.py:82-86 | the parameter lists are passed on unchanged; text is normalised, rewriting placeholders exactly when the list is non-empty |
| SqlRewrite.QuoteName | backend/core/informix_jdbc_backend/operations.py:8-13 | anything but text is returned as it is; text comes back quoted, unchanged when it already was, otherwise with exactly one quote added on each side |
| SqlRewrite.Repeat | backend/src/utils/querys_informix.py:7 | size copies of the mark, none for a negative size |
| SqlRewrite.WhereIds | backend/src/utils/querys_informix.py:2-8 | one id gives an equality, any other size an IN list; the clause holds exactly one mark per id |
| SqlRewrite.OccurrencesOfMarks | backend/src/utils/querys_informix.py:7 | the joined marks hold exactly size marks |
| SqlRewrite.TurnoWherePlaceholders | backend/src/tasks.py:20-29 | the turn-details clause holds exactly one mark per id |
| SqlRewrite.ParamWhereOnePlaceholder | backend/src/utils/querys_informix.py:60 | a clause comparing a column with one parameter holds exactly one mark |
| SqlRewrite.PersonaWhereOnePlaceholder | backend/src/utils/querys_informix.py:60 | the patient query filters on exactly one parameter |
| SqlRewrite.EfectorWhereOnePlaceholder | backend/src/utils/querys_informix.py:76 | the provider query filters on exactly one parameter |
| SqlRewrite.HistoricoWhereOnePlaceholder | backend/src/utils/querys_informix.py:84 | the history query filters on exactly one parameter |
| SqlRewrite.QuoteNameIdempotent | backend/core/informix_jdbc_backend/operations.py:8-13 | quoting a quoted name changes nothing |
| SqlRewrite.WithoutLimitOnlyTicksAndMarks | backend/core/informix_jdbc_backend/base.py:46-70 | a statement without a LIMIT clause only loses its backticks and, with parameters, has its placeholders rewritten |
| SqlRewrite.PlainStatementUnchanged | backend/core/informix_jdbc_backend/base.py:46-70 | a statement without backticks, percent signs or LIMIT is passed on verbatim |
| SqlRewrite.NoPercentSLeft | backend/core/informix_jdbc_backend/base.py:66-68 | no placeholder is left after the rewriting |
| SqlRewrite.LimitCanSurvive | backend/core/informix_jdbc_backend/base.py:56 | a LIMIT word without a number hides the following clause from the removal, so one LIMIT clause survives |
| SqlRewrite.ClauseRemovable | backend/core/informix_jdbc_backend/base.py:56 | spaces, LIMIT, spaces, a number and then a non-word character or the end form a removable clause of exactly that length |
| SqlRewrite.WordNotRemovable | backend/core/informix_jdbc_backend/base.py:56 | spaces, LIMIT and spaces not followed by a number are not removable |
| SqlRewrite.LimitMatchOfClause | backend/core/informix_jdbc_backend/base.py:52 | LIMIT, spaces, a number and a non-word character or the end match, with the number as the group |
| SqlRewrite.LimitMatchWithoutNumber | backend/core/informix_jdbc_backend/base.py:52 | LIMIT and spaces followed by something other than a number do not match |
| SqlRewrite.StripLimitsWord | backend/core/informix_jdbc_backend/base.py:56 | text with no space is kept as it is by the removal |
| SqlRewrite.DigitsStay | backend/core/informix_jdbc_backend/base.py:56 | a space and a number are not removed |
| SqlRewrite.ReplacedStart | backend/core/informix_jdbc_backend/base.py:66-68 | the rewritten text starts with a question mark or with the text's own first character |
| SqlRewrite.ParamWhere | backend/src/utils/querys_informix.py:60 | a column compared with one parameter adds exactly one mark to those of its column and operator, and ends in that mark |
| SqlRewrite.LimitFound | backend/core/informix_jdbc_backend/base.py:52-54 | with no LIMIT before it, the first clause's number is the limit found |
| SqlRewrite.StripLimitsSplit | backend/core/informix_jdbc_backend/base.py:56 | text in which no clause starts is kept verbatim and the removal goes on after it |
| SqlRewrite.ClauseDropped | backend/core/informix_jdbc_backend/base.py:56 | a whole clause (spaces, LIMIT, spaces, a number, then a non-word character or the end) is removed and the removal goes on after it |
| SqlRewrite.NoLimitKept | backend/core/informix_jdbc_backend/base.py:56 | text in which no LIMIT starts comes out of the removal unchanged |
| SqlRewrite.InsertFirstPlain | backend/core/informix_jdbc_backend/base.py:62-64 | a leading SELECT, in any case and after any spaces, not followed by DISTINCT becomes SELECT FIRST n |
| SqlRewrite.InsertFirstDistinct | backend/core/informix_jdbc_backend/base.py:58-61 | a leading SELECT DISTINCT, in any case and spacing, becomes SELECT DISTINCT FIRST n |
| SqlRewrite.LimitBecomesFirst | backend/core/informix_jdbc_backend/base.py:46-70 | `SELECT body LIMIT n rest`, with no other LIMIT and no backtick, is sent as `SELECT FIRST n body rest`, with placeholders rewritten when there are parameters |
| SqlRewrite.DistinctLimitBecomesFirst | backend/core/informix_jdbc_backend/base.py:46-70 | `SELECT DISTINCT body LIMIT n rest`, with no other LIMIT and no backtick, is sent as `SELECT DISTINCT FIRST n body rest`, with placeholders rewritten when there are parameters |
| Serializers.PhonePart | backend/src/serializers.py:214-217 | a phone part stays present exactly when it was, loses every space and keeps every other character |
| Serializers.Representation | backend/src/serializers.py:212-218 | the name is kept, each phone part stays present exactly when it was, and neither holds a space |
| Serializers.Least | backend/src/serializers.py:303 | the least key is one of the keys and no key is smaller |
| Serializers.DefaultEstado | backend/src/serializers.py:301-305 | a default state exists exactly when some state does; it is state 0 when that exists, else the first by key |
| Serializers.SortedSet | backend/src/serializers.py:319 | the listed ids are exactly the given ones, strictly ascending |
| Serializers.MissingStudies | backend/src/serializers.py:311-320 | a validation error arises only when every study is given by id, and it lists, each once and ascending, exactly the requested ids with no row; without an error every study given by id exists |
| Serializers.Create | backend/src/serializers.py:288-329 | the entry keeps the priority, takes the request's user and time or else the caller's and the clock, takes the requested state or else the default, and is never closed; it links exactly the requested studies, or none when some id is unknown, in which case the error is raised after storing |
| Serializers.Close | backend/src/serializers.py:337-347 | closing succeeds exactly when the closed state exists; it sets state 1, the time and the user, and nothing else |
| Serializers.ApplyRefresh | backend/src/utils/utils.py:17-64 | no usable answer leaves the message as it was; an answer stamps its time and takes its state when it carries one; nothing else changes |
| Serializers.ProcesarMensaje | backend/src/serializers.py:427-450 | the view keeps the message's ids and send time, shows an empty number as missing, shows a settled message as stored, and stamps a pending one with the provider's answer time |
| Serializers.MensajesAsociados | backend/src/serializers.py:453-467 | one view per message, newest first: the views are a permutation of the messages' processed views |
| Serializers.FirstKey | backend/src/serializers.py:476-477 | the first key in order is missing exactly when some key is missing; otherwise it is the least one |
| Serializers.Earliest | backend/src/serializers.py:474-486 | the date is the least key among the answer flows, and is missing when there are none or some key is missing |
| Serializers.FechaEstadoPaciente | backend/src/serializers.py:469-486 | the date is the earliest closing time of a template-1 flow for an answered turn, the earliest start time otherwise, and missing exactly when no template-1 flow exists or one of them has no such time |
| Serializers.PhonePartIdempotent | backend/src/serializers.py:214-217 | normalising a phone part twice is normalising it once |
| Serializers.PhonePartKeepsClean | backend/src/serializers.py:214-217 | a phone part without spaces is shown as stored |
| Serializers.RepresentationIdempotent | backend/src/serializers.py:212-218 | rendering a rendered patient changes nothing |
| Serializers.UnknownStudyStillStored | backend/src/serializers.py:308-320 | an unknown study id is reported in the error, and the entry is already stored, with no studies |
| Serializers.CloseTwice | backend/src/serializers.py:337-347 | closing twice is closing once with the later time and user |
| Serializers.SettledMessageIgnoresProvider | backend/src/serializers.py:428-429 | a message past the first three states is shown the same whatever the provider answers |
| Serializers.PendingMessageTakesAck | backend/src/serializers.py:428-429 | a pending message with a reported state is shown in that state, stamped with the answer time |
| Serializers.OtherFlowsIgnored | backend/src/serializers.py:475 | a flow of another template never moves the date |
| Serializers.SingleFlowDate | backend/src/serializers.py:473-486 | one answer flow gives its closing time for an answered turn and its start time otherwise |
| Serializers.OpenFlowHidesDate | backend/src/serializers.py:476-479 | an answer flow without that time hides every other, because a missing value sorts first |
| Serializers.KnownStudiesLinked | backend/src/serializers.py:311-329 | a request listing only existing studies raises no error and links exactly those studies |
| Serializers.Pending | backend/src/serializers.py:428 | a message is refreshed exactly when its state is 0, 1 or 2 |
| WaitList.Destinations | frontend/src/pages/ListaEsperaPage.tsx:119-123 | the destinations carry each provider id at most once, and exactly the ids some referral points to, in order of first appearance, each shown as the last referral's destination with that id |
| WaitList.Options | frontend/src/pages/ListaEsperaPage.tsx:254-262 | one option per specialty id, and looking an id up among the options finds what the first entry of that specialty carries |
| WaitList.ResetSelection | frontend/src/pages/ListaEsperaPage.tsx:265-269 | a selection survives exactly when some option carries it, and is otherwise dropped |
| WaitList.Visible | frontend/src/pages/ListaEsperaPage.tsx:272-302 | the visible list is a permutation of the entries of the selected specialty (all entries without a selection), sorted by the chosen order |
| WaitList.TelefonoEstado | frontend/src/pages/ListaEsperaPage.tsx:378-383 | a phone is missing exactly when a part is absent and valid exactly for a 3-character area code with a 7-character number |
| WaitList.HandleRemove | frontend/src/pages/ListaEsperaPage.tsx:314-339 | without an open entry nothing happens; otherwise the entry's id is marked while the request runs (without duplicating a mark), is unmarked afterwards, the dialog closes, and on success exactly the entries with that id leave the list with the success alert, while a failure keeps the list and shows the error |
| WaitList.OrdersArePreorders | frontend/src/pages/ListaEsperaPage.tsx:281-298 | both comparators are total preorders |
| WaitList.MissingPriorityLast | frontend/src/pages/ListaEsperaPage.tsx:281-289 | in priority order an entry without a priority comes after every entry with a priority below 99 |
| WaitList.LongerWaitFirst | frontend/src/pages/ListaEsperaPage.tsx:291-298 | in days order an entry that has waited longer comes first |
| WaitList.FirstNameWins | frontend/src/pages/ListaEsperaPage.tsx:256-260 | the option for a specialty carries the name of the first entry with that id |
| WaitList.ResetKeepsPresentSpecialty | frontend/src/pages/ListaEsperaPage.tsx:254-269 | after the options are rebuilt from the entries, a selection is kept exactly when some entry still has that specialty |
| WaitList.NoSelectionShowsAll | frontend/src/pages/ListaEsperaPage.tsx:272-279 | without a selected specialty the visible list is a permutation of all entries |
| WaitList.RemoveTwice | frontend/src/pages/ListaEsperaPage.tsx:322 | removing the same entry again changes the list no further |
| WaitList.ByPriority | frontend/src/pages/ListaEsperaPage.tsx:281-289 | one entry may precede another exactly when its priority, with a missing one as 99, is not larger |
| WaitList.ByDays | frontend/src/pages/ListaEsperaPage.tsx:290-298 | an entry that has waited more days strictly precedes; with equal days, one may precede exactly when its priority is not larger |
| WaitForm.MapPriority | frontend/src/pages/AddEsperaPage.tsx:55 | exactly the three levels have a number, each between 0 and 2 |
| WaitForm.Settle | frontend/src/pages/AddEsperaPage.tsx:121-124 | after the effect a priority is only held while all four selections are set; a form that may select a priority is left as it is; only the priority ever changes |
| WaitForm.Step | frontend/src/pages/AddEsperaPage.tsx:97-129 | after any event a held priority implies all four selections; picking a level takes effect exactly when a priority may be selected |
| WaitForm.FailureText | frontend/src/pages/AddEsperaPage.tsx:168-171 | the error shown is never empty, and is the server's detail whenever that is non-empty |
| WaitForm.Confirm | frontend/src/pages/AddEsperaPage.tsx:140-177 | a request is sent exactly when the form can confirm and is not already submitting, carrying the route, professional, requesting provider (the loaded one, else the route's id), patient and mapped priority; success keeps the button blocked and shows the success alert; failure re-enables it and shows the error text; without a request nothing changes |
| WaitForm.AfterDelay | frontend/src/pages/AddEsperaPage.tsx:162-165 | the timer unblocks the button and navigates to the waiting list |
| WaitForm.PriorityLevelsOrdered | frontend/src/pages/AddEsperaPage.tsx:55 | alta is stored below media and media below baja |
| WaitForm.FiledEntriesPrecedeUnprioritised | frontend/src/pages/AddEsperaPage.tsx:150-154 | an entry filed with a mapped level sorts, in the waiting list's priority order, ahead of every entry without a priority |
| WaitForm.NoDoubleSubmit | frontend/src/pages/AddEsperaPage.tsx:140-165 | after a successful confirm, a second confirm before the timer sends nothing and changes nothing |
| WaitForm.ResetsClearPriority | frontend/src/pages/AddEsperaPage.tsx:98-114 | each reset clears its own selection, its done flag and the priority, and nothing else |
| WaitForm.PriorityNeedsSelections | frontend/src/pages/AddEsperaPage.tsx:117-138 | along any sequence of events a held priority implies all four selections, so the form can confirm exactly when a non-empty priority is held |
| WaitForm.CanSelectPriority | frontend/src/pages/AddEsperaPage.tsx:116-119 | a priority can be chosen only with a patient, a professional, a route and a provider (loaded or from the route), and always when all four are loaded |
| WaitForm.CanConfirm | frontend/src/pages/AddEsperaPage.tsx:131-138 | confirming is possible exactly when a priority can be chosen and a non-empty one has been |
| WaitForm.Apply | frontend/src/pages/AddEsperaPage.tsx:97-129 | no event touches the submission, alert or navigation; a priority is taken only when one can be chosen, and otherwise nothing changes; a reset clears the priority and disables choosing one; other events keep the priority |
| RoutePicker.Offered | frontend/src/features/turno/components/LookEfeSerEsp.tsx:93-101 | the services on offer carry each id once; an id of the provider's own services is offered as the last own service with that id, and any other id as the first referral service that names it |
| RoutePicker.Present | frontend/src/features/turno/components/LookEfeSerEsp.tsx:166-168 | the present values are exactly those held in the list |
| RoutePicker.ServiceChosen | frontend/src/features/turno/components/LookEfeSerEsp.tsx:124-192 | no service clears the choice; an own service lists the requesting provider alone and exactly the ids of that service's specialties; a referred service lists only specialties some referral of it names, and every one named, with the first such referral's destination as the only provider; the specialty is cleared and there is no quota either way |
| RoutePicker.SpecialtyChosen | frontend/src/features/turno/components/LookEfeSerEsp.tsx:198-238 | the chosen specialty is recorded; without service or specialty nothing else changes; without an exact referral the quota is off; with one, its destination becomes the provider, is listed (added when its id was missing, the rest kept), and the quota is on exactly when the referral's quota is 1 |
| RoutePicker.Clear | frontend/src/features/turno/components/LookEfeSerEsp.tsx:269-278 | clearing leaves no service, no choice, no error, no selected row and not finished |
| RoutePicker.Confirm | frontend/src/features/turno/components/LookEfeSerEsp.tsx:243-267 | a lookup is sent exactly when provider, service and specialty are chosen, for those three ids; otherwise only the "missing selection" error is set; an answer selects the row and finishes; a failure shows its text |
| RoutePicker.ReferralSpecialties | frontend/src/features/turno/components/LookEfeSerEsp.tsx:162-174 | the specialties listed for a referred service are exactly those its referrals name, up to id |
| RoutePicker.OwnServiceWins | frontend/src/features/turno/components/LookEfeSerEsp.tsx:93-101 | an own service is offered under its own name even when a referral names the same id |
| RoutePicker.ReferralOnlyService | frontend/src/features/turno/components/LookEfeSerEsp.tsx:98-101 | a service that only referrals name is offered as the first referral names it |
| RoutePicker.ServiceChosenListsProvider | frontend/src/features/turno/components/LookEfeSerEsp.tsx:124-192 | after choosing a service the chosen provider, if any, is among the listed ones |
| RoutePicker.SpecialtyChosenKeepsListed | frontend/src/features/turno/components/LookEfeSerEsp.tsx:209-216 | choosing a specialty keeps the chosen provider among the listed ones |
| RoutePicker.OwnServiceStaysHome | frontend/src/features/turno/components/LookEfeSerEsp.tsx:135-159 | for an own service without an exact referral, any specialty keeps the requesting provider and no quota |
| RoutePicker.QuotaOnlyFromExactReferral | frontend/src/features/turno/components/LookEfeSerEsp.tsx:203-230 | the quota flag is on exactly when the first exact referral has quota 1 |
| RoutePicker.ConfirmGuard | frontend/src/features/turno/components/LookEfeSerEsp.tsx:243-249 | confirming an incomplete choice twice changes nothing more than once |
| TurnoTable.LoadServicio | frontend/src/pages/TurnoPage.tsx:81-109 | with no provider selected the services and the selection are emptied; a failed request empties the services and keeps the selection; otherwise the list holds each service id once, exactly the ids some provider returned, each with the last service fetched for it, and the selection keeps exactly the selected ids still listed |
| TurnoTable.LoadPageAsWritten | frontend/src/pages/TurnoPage.tsx:125-147 | as written: a request is made exactly when a provider is selected, and it carries only `cantidad=25` (no offset) because `getTurnosMergedLimit` takes only the amount (frontend/src/features/turno/api.ts:136-141); an answered load leaves the rows and the count undefined, a failed one keeps the page; without a provider the table is emptied with a count of 0 |
| TurnoTable.LoadPage | frontend/src/pages/TurnoPage.tsx:125-147 | as intended: a request is made exactly when a provider is selected, for 25 rows from `(page - 1) * 25`; without a provider the table is emptied with a count of 0; a failure keeps the previous table |
| TurnoTable.LaterPagesRepeatFirst | frontend/src/pages/TurnoPage.tsx:135-141 | as written, every page sends the same request as page 1 and an answered load leaves no rows and a `NaN` page count; as intended, page 2 asks for the rows right after page 1's |
| TurnoTable.LoadPageCoversRow | frontend/src/pages/TurnoPage.tsx:135-141 | as intended, every row the server counts is asked for by exactly one page the pager offers |
| TurnoTable.TotalPagesShown | frontend/src/pages/TurnoPage.tsx:259 | the page count is `NaN` exactly when the total is undefined; otherwise it is the fewest pages of 25, at least one, that hold every row |
| TurnoTable.TotalPages | frontend/src/pages/TurnoPage.tsx:259 | there is always at least one page, exactly one for up to 25 rows, and otherwise the fewest pages of 25 that hold every row |
| TurnoTable.GetMsj | frontend/src/pages/TurnoPage.tsx:243-247 | a message is found exactly when the list holds one of the type, and it is the first such message |
| TurnoTable.Shown | frontend/src/pages/TurnoPage.tsx:326 | a column is exported exactly when it is visible |
| TurnoTable.CsvRow | frontend/src/pages/TurnoPage.tsx:333-358 | a data line has one cell per visible column, each the column's text for the turn |
| TurnoTable.CsvRows | frontend/src/pages/TurnoPage.tsx:331-360 | the export has the header of visible labels first and then exactly one line per turn, in order |
| TurnoTable.KeyInFlatten | frontend/src/pages/TurnoPage.tsx:93-98 | a service id is in the merged requests exactly when some provider's list holds it |
| TurnoTable.RowOnPage | frontend/src/pages/TurnoPage.tsx:135 | with the offset `(page - 1) * 25` and the page count of line 259, every counted row lies in the window of exactly one page the pager offers |
| TurnoTable.PagesGrowByBlocks | frontend/src/pages/TurnoPage.tsx:259 | with no rows there is still one page, and each further block of 25 rows adds one |
| TurnoTable.ReminderIsTypeFour | frontend/src/pages/TurnoPage.tsx:243-253 | the reminder lookup is the message lookup for type 4 |
| TurnoTable.ReminderCell | frontend/src/pages/TurnoPage.tsx:348-351 | the reminder cell is the state meaning of the first reminder message, empty when there is none or it has no meaning |
| TurnoTable.MessageColumnsExportBlank | frontend/src/pages/TurnoPage.tsx:337-355 | the confirmation, cancellation and rescheduling columns always export empty, because the export's switch has no case for them |
| TurnoTable.CsvReadsBack | frontend/src/pages/TurnoPage.tsx:331-360 | with a visible column, reading the exported text back as CSV gives exactly the header labels and every cell |
| TurnoTable.RowsNotEmpty | frontend/src/pages/TurnoPage.tsx:332-358 | with a visible column every exported line, the header included, has a cell |
| TurnoTable.GetMsjReco | frontend/src/pages/TurnoPage.tsx:249-253 | a reminder is found exactly when some message has type 4, and it is the first such message |
| History.ValidateDni | frontend/src/pages/HistoricoPage.tsx:122-127 | no error exactly when the trimmed input is 3 to 15 digits; the "required" error exactly when the input is blank |
| History.DniInput | frontend/src/pages/HistoricoPage.tsx:226 | the input keeps no whitespace and keeps every other character typed, and nothing else |
| History.Search | frontend/src/pages/HistoricoPage.tsx:129-148 | the input's error is always the validation's; a request is made exactly when validation passes, and then asks for the number JavaScript reads from the input; a list answer replaces the rows, anything else empties them with "Respuesta inesperada del servidor", and a failure empties them with the error's message or the fixed text; without a request only the two errors change |
| History.Displayed | frontend/src/pages/HistoricoPage.tsx:172-180 | the rows shown are a permutation of the fetched rows, newest modification first when sorting down and oldest first otherwise, a missing time counting as 0 |
| History.Shown | frontend/src/pages/HistoricoPage.tsx:34-48 | a column is exported exactly when it is visible |
| History.CsvRow | frontend/src/pages/HistoricoPage.tsx:67-72 | a data line has one cell per visible column, each the column's text for the row |
| History.CsvRows | frontend/src/pages/HistoricoPage.tsx:62-74 | the export has the header of visible labels first and then exactly one line per displayed row, in order |
| History.JsNumberOfDni | frontend/src/pages/HistoricoPage.tsx:137 | `Number` of an input whose trimmed form passed the check is the number its digits spell |
| History.InputNeedsNoTrim | frontend/src/pages/HistoricoPage.tsx:226 | what the input lets through is already trimmed, so validation sees what was typed minus the whitespace |
| History.ValidDniPadded | frontend/src/pages/HistoricoPage.tsx:122-127 | whitespace around the digits does not change the verdict |
| History.SearchSendsDigits | frontend/src/pages/HistoricoPage.tsx:129-138 | the search sends the number the digits spell, whatever whitespace surrounds them |
| History.SearchSendsTrimmed | frontend/src/pages/HistoricoPage.tsx:131-138 | a search that passes validation sends the number the trimmed input spells |
| History.UndatedLastWhenNewestFirst | frontend/src/pages/HistoricoPage.tsx:172-180 | newest first, a row without a modification time comes after every row modified after the epoch |
| History.CsvReadsBack | frontend/src/pages/HistoricoPage.tsx:62-76 | with a visible column, reading the exported text back as CSV gives exactly the header labels and the cell texts |
| History.RowsNotEmpty | frontend/src/pages/HistoricoPage.tsx:63-73 | with a visible column every exported line, the header included, has a cell |
| History.HeaderNeedsNoEscape | frontend/src/pages/HistoricoPage.tsx:63 | the header cells, written without escaping, are the same as escaped ones because no label holds a quote |
| History.MissingDateIsDash | frontend/src/pages/HistoricoPage.tsx:51-52 | a missing or empty date exports as a dash, whatever the formatter does |
| History.ColorIgnoresCase | frontend/src/pages/HistoricoPage.tsx:85-92 | the chip colour does not depend on letter case |
| History.CancelWins | frontend/src/pages/HistoricoPage.tsx:88-89 | a state that mentions a cancellation is red even when it also mentions a confirmation |
| History.EstadoColor | frontend/src/pages/HistoricoPage.tsx:85-92 | no state gives no colour; otherwise, on the lower-cased state, red exactly when it contains `cancel`, green exactly when not that and it contains `conf`, amber exactly when neither and it contains `pend` or `espera` |
| WaitHistory.Fetch | frontend/src/pages/EsperaHistoricoPage.tsx:116-139 | a request is made exactly when the picker is done and the patient has a non-zero id, and asks for that patient; the answer replaces the rows and clears the error; a failure empties the rows and shows the error's message or "Error al consultar turnos"; without a request nothing changes |
| WaitHistory.Clear | frontend/src/pages/EsperaHistoricoPage.tsx:141-146 | clearing drops the patient, the done flag, the rows and the error |
| WaitHistory.Deselect | frontend/src/pages/EsperaHistoricoPage.tsx:149-154 | deselecting drops the patient, the done flag, the rows and the error |
| WaitHistory.Displayed | frontend/src/pages/EsperaHistoricoPage.tsx:170-178 | the rows shown are a permutation of the fetched rows, newest first when sorting down and oldest first otherwise |
| WaitHistory.SafeFormat | frontend/src/pages/EsperaHistoricoPage.tsx:37-44 | a missing or empty date shows as a dash |
| WaitHistory.Shown | frontend/src/pages/EsperaHistoricoPage.tsx:22-34 | a column is exported exactly when it is visible |
| WaitHistory.CsvRow | frontend/src/pages/EsperaHistoricoPage.tsx:51-69 | a data line has one cell per visible column, each the text of that column for the entry |
| WaitHistory.CsvRows | frontend/src/pages/EsperaHistoricoPage.tsx:46-71 | the export has the header of visible labels first and then exactly one line per displayed entry, in order |
| WaitHistory.EstadoColor | frontend/src/pages/EsperaHistoricoPage.tsx:83-90 | the chip is amber exactly for the state ESPERA and green exactly for OTORGADO, compared trimmed and upper-cased |
| WaitHistory.ClearIsDeselect | frontend/src/pages/EsperaHistoricoPage.tsx:141-154 | the two ways back to the patient picker leave the same screen |
| WaitHistory.ResetStopsFetching | frontend/src/pages/EsperaHistoricoPage.tsx:116-146 | after clearing, nothing is fetched until the picker reports a patient again |
| WaitHistory.CsvReadsBack | frontend/src/pages/EsperaHistoricoPage.tsx:46-74 | with a visible column, reading the exported text back as CSV gives exactly the header labels and the cell texts |
| WaitHistory.RowsNotEmpty | frontend/src/pages/EsperaHistoricoPage.tsx:47-70 | with a visible column every exported line, the header included, has a cell |
| WaitHistory.ProfessionalOneName | frontend/src/pages/EsperaHistoricoPage.tsx:60 | with only one name part known the professional is exported as that part alone |
| WaitHistory.NoProfessionalIsEmpty | frontend/src/pages/EsperaHistoricoPage.tsx:60 | without a professional the cell is empty, not a lone space |
| WaitHistory.PriorityTableAndExport | frontend/src/pages/EsperaHistoricoPage.tsx:64-67 | a missing priority is a dash in the table and an empty cell in the export; a present one is the same text in both, and reads back as the same number |
| WaitHistory.ColorIgnoresPadding | frontend/src/pages/EsperaHistoricoPage.tsx:85 | surrounding whitespace does not change the chip colour |
| WaitHistory.ColorIgnoresCase | frontend/src/pages/EsperaHistoricoPage.tsx:85 | letter case does not change the chip colour of a state without spaces |
| PatientLookup.FailureText | frontend/src/features/turno/components/LookPaciente.tsx:61-66 | the error shown is the server's detail when present (even empty), else the response body, else the error message, else the fixed "Error al consultar pacientes." |
| PatientLookup.Buscar | frontend/src/features/turno/components/LookPaciente.tsx:41-70 | a blank DNI sends no request and shows "Ingresá un DNI válido."; otherwise the trimmed DNI is searched; every search clears the list and the selection and keeps the parent's patient; an answer is shown as a list, with "No se encontraron pacientes" exactly when that list is empty; a failure shows its text and no patients |
| PatientLookup.Lookup | frontend/src/features/turno/components/LookPaciente.tsx:74 | the patient found is a listed one with the searched id; nothing is found exactly when no listed patient has that id |
| PatientLookup.Select | frontend/src/features/turno/components/LookPaciente.tsx:72-76 | choosing an id selects it and hands the parent the listed patient with that id, or nothing when none is listed with it |
| PatientLookup.Sync | frontend/src/features/turno/components/LookPaciente.tsx:34-39 | a patient handed down by the parent becomes the selection; nothing else of the picker changes |
| PatientLookup.Seleccionado | frontend/src/features/turno/components/LookPaciente.tsx:78 | the patient shown is the listed one under the selection, and the parent's patient when the selection matches no listed one |
| PatientLookup.PhoneProblems | frontend/src/features/turno/components/LookPaciente.tsx:97-99 | the area-code message is listed exactly when the area code is not 3 characters long and the number message exactly when the number is not 7 long, in that order |
| PatientLookup.PhoneAlert | frontend/src/features/turno/components/LookPaciente.tsx:80-102 | no alert without a patient; information exactly when both phone parts are blank; success exactly for a 3-character area code and a 7-character number, showing both; otherwise a warning naming the wrong parts; never an error |
| PatientLookup.SelectShowsChoice | frontend/src/features/turno/components/LookPaciente.tsx:72-78 | picking a listed patient whose id no other listed patient shares shows that patient and hands it to the parent |
| PatientLookup.SearchShowsParentPatient | frontend/src/features/turno/components/LookPaciente.tsx:41-78 | after any search, until a new pick, the patient shown is the parent's |
| PatientLookup.BothPartsWrong | frontend/src/features/turno/components/LookPaciente.tsx:97-101 | with a present but wrong area code and a wrong number the warning reads "Característica inválida. Número inválido" |
| PatientLookup.AgreesWithWaitListOnValid | frontend/src/features/turno/components/LookPaciente.tsx:93-95 | the picker's success alert and the waiting list's valid-phone state hold for the same phones |
| PatientLookup.DisagreesWithWaitListOnBlank | frontend/src/features/turno/components/LookPaciente.tsx:89-99 | two empty parts are "no phone" here but an invalid phone in the waiting list; a missing area code beside a good number is a warning here and a missing phone there |
| Csv.Escape | frontend/src/pages/TurnoPage.tsx:360 | escaping never shortens a cell |
| Csv.Quote | frontend/src/pages/TurnoPage.tsx:360 | a written cell starts and ends with a double quote |
| Csv.ReadLine | frontend/src/pages/TurnoPage.tsx:360 | a line that reads back holds at least one cell and consumes some text |
| Csv.ReadDocument | frontend/src/pages/TurnoPage.tsx:360 | a document that reads back holds at least one line |
| Csv.ScanEscaped | frontend/src/pages/TurnoPage.tsx:360 | the escaped text of a cell is read back as the text itself up to the closing quote, whatever follows that is not a quote |
| Csv.ReadQuoted | frontend/src/pages/TurnoPage.tsx:360 | a quoted cell reads back as the original text |
| Csv.ReadLineOfLine | frontend/src/pages/TurnoPage.tsx:360 | a written line of cells reads back as the same cells |
| Csv.ReadDocumentOfDocument | frontend/src/pages/TurnoPage.tsx:360 | reading back an exported table gives exactly the rows it was written from |
| Csv.EscapeWithoutQuotes | frontend/src/pages/HistoricoPage.tsx:71 | a cell without quotes is written unchanged between its quotes |
| Sorting.Insert | frontend/src/pages/ListaEsperaPage.tsx:282-300 | inserting adds exactly the one element, keeping every other |
| Sorting.InsertSorted | frontend/src/pages/ListaEsperaPage.tsx:282-300 | inserting into a sorted list by a well-behaved comparator keeps it sorted |
| Sorting.SortBy | frontend/src/pages/ListaEsperaPage.tsx:282-300 | sorting rearranges the list without adding or losing any element; SortByStable states that it is stable |
| Sorting.SortByMembers | frontend/src/pages/HistoricoPage.tsx:174-180 | sorting keeps exactly the elements it was given |
| Sorting.SortBySorted | frontend/src/pages/HistoricoPage.tsx:174-180 | sorting by a well-behaved comparator gives a sorted list |
| Sorting.AscendingIsPreorder | frontend/src/pages/HistoricoPage.tsx:174-178 | ordering by an integer key ascending is total and transitive |
| Sorting.DescendingIsPreorder | backend/src/serializers.py:462 | ordering by an integer key descending is total and transitive |
| Sorting.SortSorted | frontend/src/pages/HistoricoPage.tsx:174-180 | a list already sorted is left exactly as it is, so sorting twice changes nothing |
| Sorting.InsertAtEnd | frontend/src/pages/ListaEsperaPage.tsx:282-300 | an element that may follow every element of a sorted list is placed last |
| Sorting.SortByStable | frontend/src/pages/ListaEsperaPage.tsx:281-298 | sorting by a total preorder is stable: the elements tied with any given one appear in the same order as before |
| Sorting.InsertTied | frontend/src/pages/ListaEsperaPage.tsx:281-298 | inserting into a sorted list places the new element after every element tied with it |
| Keyed.Lookup | frontend/src/features/turno/components/ServicioBlock.tsx:87 | a key is found exactly when some row carries it, and what is found is a row carrying that key |
| Keyed.Set | frontend/src/features/turno/components/ServicioBlock.tsx:87 | setting a present key keeps the key order and replaces its value; a new key goes to the end; every other key reads as before |
| Keyed.SetAll | frontend/src/features/turno/components/ServicioBlock.tsx:229-230 | each key reads as the last row given for it, or as before when none was given; keys stay unique and the existing keys keep their positions at the front |
| Keyed.ById | frontend/src/features/turno/api.ts:130 | the result has one row per id, and each id reads as the last row given with it |
| Keyed.SetIfAbsent | frontend/src/features/turno/components/LookEfeSerEsp.tsx:100 | a key already present keeps its value; a new key reads as the row given |
| Keyed.SetAllIfAbsent | frontend/src/features/turno/components/LookEfeSerEsp.tsx:93-101 | each key keeps its existing value, and a new key reads as the first row given for it |
| Keyed.SetAllById | frontend/src/features/turno/components/ServicioBlock.tsx:225-230 | merging the deduplicated new rows into the deduplicated old ones finds, for every id, the last row with that id among the old rows followed by the new ones |
| Keyed.SetAllAfterById | frontend/src/features/turno/components/ServicioBlock.tsx:189-192 | setting rows one by one into the deduplicated old rows finds, for every id, the last row with that id among the old rows followed by the new ones |
| Keyed.LastWithAppend | frontend/src/features/turno/components/ServicioBlock.tsx:229-230 | in a concatenation the last row with an id comes from the second part when it has one |
| Keyed.KeysSetAll | frontend/src/features/turno/components/ServicioBlock.tsx:229-230 | setting rows into a keyed list keeps its keys in order and appends each new key once, in the order it first appears |
| Keyed.ByIdOfUnique | frontend/src/features/turno/api.ts:130 | keying a list whose keys are already distinct leaves it as it is |
| Url.Encode | frontend/src/features/turno/api.ts:84 | an encoded value never contains the characters that separate pairs, keys from values, or the path from the query |
| Url.WithQuery | frontend/src/features/turno/api.ts:92-94 | the path is left alone exactly when there are no parameters, and otherwise gains exactly one question mark |
| Url.Get | backend/src/views.py:59 | a name that is never given reads as absent; otherwise the value read is one given for that name |
| Url.GetAppend | backend/src/views.py:59 | the last value given for a name wins |
| Url.DecodeEncode | frontend/src/features/turno/api.ts:84 | decoding a percent-encoded ASCII value gives back the value |
| Url.ParsePairOfPair | frontend/src/features/turno/api.ts:84 | a name and value written as one piece read back as the same name and value |
| Url.ParseQueryOfUrl | frontend/src/features/turno/api.ts:82-94 | the server reads back exactly the parameters the client wrote, in order |
| Text.ParseIntOfIntToString | backend/src/views.py:66 | an id the client renders as decimal text is read back by the server as the same id |
| Text.StripIdempotent | backend/src/views.py:62 | stripping a piece twice is stripping it once, and the number read from a piece does not depend on stripping it first |
| Text.ParseIntIgnoresPadding | backend/src/views.py:62-66 | spaces around a piece do not change the number read from it |
| Text.SplitJoin | backend/src/views.py:62 | splitting at commas text made by joining comma-free pieces with commas gives back the pieces |
| Text.JoinSplit | frontend/src/features/turno/api.ts:80 | joining the pieces of a split with the same separator gives back the text |
| Text.StripBlank | frontend/src/pages/HistoricoPage.tsx:122-127 | a text trims to nothing exactly when it is all whitespace |
| Text.JsNumberOfIntToString | frontend/src/pages/PlantillasPage.tsx:152 | a whole number written as decimal text is read back as that number |
| Text.JsNumberOfBlank | frontend/src/pages/PlantillasPage.tsx:199 | blank text reads as the number 0 |
| Text.PyStripBlank | backend/src/views.py:62 | a piece strips to nothing exactly when it is all Python whitespace, including the separators 0x1C to 0x1F |
| Text.ParseIntSkipsUnderscore | backend/src/views.py:66 | an underscore between two digit groups does not change the number read |
| Text.ParseIntOfNumeral | backend/src/views.py:66 | any numeral `int()` accepts, underscores included, is read as its value |

## Left out

- Network, database and messaging I/O: every request, ORM query, Informix query and WhatsApp call is an input (an oracle per key or a given sequence of rows); the HTTP clients, the Celery plumbing, the listener and the JDBC connection handling are not part of this model.
- Concurrency: `Promise.all`, `Promise.allSettled`, the serializer's thread pool and the JDBC lock are modelled as sequential folds in request order; interleavings, and a late answer overwriting a newer one, are not modelled.
- Dates, times and time zones: `Date`, `toLocaleString`, `strptime` and `make_aware` are left out; days are whole numbers and times are whole seconds, which keeps the arithmetic of the reminder send times.
- Locale-aware ordering (`localeCompare`): the order of the service lists and of the picker's lists is not modelled; the contracts speak of which entries appear, not in which order.
- Text: characters are compared as code points. Python's `int()`, `str.strip` and `re`'s `\s` are modelled on their ASCII behaviour: whitespace is space, tab, line feed, vertical tab, form feed, carriage return and the separators 0x1C to 0x1F, and `int()` takes an optional sign, digits and single underscores between digits. Non-ASCII digits and whitespace, which `int()` and `\s` also accept, are not modelled. JavaScript's `trim` is modelled on ASCII whitespace only. `\d`, `\w`, case mapping and percent-encoding are the ASCII ones, and Unicode normalisation is not modelled.
- JavaScript numbers: integers are unbounded; `Number(text)` is modelled for decimal text only (no exponents, `Infinity`, hexadecimal or `NaN` arithmetic).
- Emoji expansion of template text (`emoji.emojize`) is left out; templates are opaque ids.
- Rendering, styling, routing, local storage, authentication and the Blob download of the CSV exports are left out; only the CSV text is modelled.
- The Informix part of the merged turn listing in `TurnosMergedAllAPIView.get` is left out: the model stops at the local rows.
- CountQuery.MergedLocal: the internal-error answer of a failing database read is not modelled, since database reads cannot fail in the model.
- Notify.Schedule: takes one current time for the whole run, while the task reads the clock again for every reminder.
- Notify.Handle: the printing of diagnostics and the swallowing of exceptions around each row are not modelled.
- The base class's fallback `quote_name` in `base.py` is left out; `SqlRewrite.QuoteName` models the one the backend's operations class defines.
- StripLimits (SqlRewrite.StripLimits): its own contract bounds only the length; which text the removal drops and which it keeps is stated by the lemmas StripLimitsSplit, ClauseDropped and NoLimitKept, each over all inputs of its shape, not as one closed-form ensures.
- InsertFirst (SqlRewrite.InsertFirst): its own contract states where the characters come from and that text without a leading SELECT is unchanged; the replacement of the leading SELECT or SELECT DISTINCT is stated by the lemmas InsertFirstPlain and InsertFirstDistinct.
- Normalize (SqlRewrite.Normalize): its own contract states only that no backtick remains; the LIMIT-to-FIRST rewrite is stated by LimitBecomesFirst and DistinctLimitBecomesFirst for statements with one LIMIT clause and no backtick, and the other cases by WithoutLimitOnlyTicksAndMarks and PlainStatementUnchanged. Statements with several LIMIT clauses are covered only by the general lemmas about the removal.

## Findings

| source | as written | input that shows it | evidently intended | confidence | as-written member | corrected member |
|---|---|---|---|---|---|---|
| frontend/src/pages/IncioPage.tsx:94-116 | the provider filter is memoised on the master data only, so it reads the service selection of the first render (empty) | links (1, 10, 100) and (2, 20, 200); service 10 and provider 1 selected; deselect provider 1 | with a service selected, only providers linked to a selected service become available | not executed | Availability.StaleProviderReset | Availability.ClearProvidersKeepsServiceScope |
| frontend/src/features/plantilla/components/ServicioBlock.tsx:239-246 | new rows are keyed by specialty id and written into a map of the visible rows keyed by row id | visible row id 5 of service 1; new row id 9 of service 2 with specialty 5 | new rows merged by row id, keeping every visible row no new row replaces | not executed | PairCache.SpecialtyKeyDropsRow | PairCache.RowIdMergeKeepsOthers |
| backend/src/tasks.py:625 | the reminder's arguments are converted with `str`, so a missing phone part reaches the send task as the text "None" | no area code, number "4123456" | a reminder without an area code records a missing phone | not executed | Notify.ReminderSendsToNone | Notify.ReminderSend |
| frontend/src/pages/TurnoPage.tsx:135-141 | `loadPage` passes the offset, providers, services and dates to `getTurnosMergedLimit`, which takes only the amount and sends `cantidad`; it then reads `response` and `count` from an answer that is a plain list | any provider selected, page 2 | page p asks for the 25 rows from `(p - 1) * 25` and shows them with the server's count | not executed | TurnoTable.LaterPagesRepeatFirst | TurnoTable.LoadPageCoversRow |

=== FILE: assoc.dfy ===
/** The provider–service–specialty association rows (`EfeSerEspPlantilla`)
    with their four message flags and paired templates, and the two-level
    cache the template screens keep of them
    (`Record<efectorId, Record<servicioId, rows[]>>`). */
module Assoc {
  import opened Wrappers
  import Text

  /** The four message kinds a row can switch on or off. */
  datatype Field = Confirmacion | Reprogramacion | Cancelacion | Recordatorio

  /** The flag's attribute name, as the frontend and the REST payloads spell it. */
  function FieldName(f: Field): string {
    match f
    case Confirmacion => "confirmacion"
    case Reprogramacion => "reprogramacion"
    case Cancelacion => "cancelacion"
    case Recordatorio => "recordatorio"
  }

  /** The attribute holding the template paired with the flag. */
  function TemplateName(f: Field): string {
    match f
    case Confirmacion => "plantilla_conf"
    case Reprogramacion => "plantilla_repr"
    case Cancelacion => "plantilla_canc"
    case Recordatorio => "plantilla_reco"
  }

  /** The field a name denotes, if any. */
  function FieldOfName(s: string): (r: Option<Field>)
    ensures r.Some? ==> FieldName(r.value) == s
    ensures r.None? ==> forall f :: FieldName(f) != s
  {
    if s == "confirmacion" then Some(Confirmacion)
    else if s == "reprogramacion" then Some(Reprogramacion)
    else if s == "cancelacion" then Some(Cancelacion)
    else if s == "recordatorio" then Some(Recordatorio)
    else None
  }

  /** The message-type id of a field: the `id_tipo` of templates and the `bandera_id` of audit records. */
  function TypeId(f: Field): int {
    match f
    case Confirmacion => 1
    case Cancelacion => 2
    case Reprogramacion => 3
    case Recordatorio => 4
  }

  function FieldOfTypeId(n: int): (r: Option<Field>)
    ensures r.Some? ==> TypeId(r.value) == n
    ensures r.None? ==> forall f :: TypeId(f) != n
  {
    if n == 1 then Some(Confirmacion)
    else if n == 2 then Some(Cancelacion)
    else if n == 3 then Some(Reprogramacion)
    else if n == 4 then Some(Recordatorio)
    else None
  }

  /** One association row. Flags are 0 or 1 in practice; templates are template ids. */
  datatype Row = Row(
    id: int, efector: int, servicio: int, especialidad: int,
    confirmacion: int, reprogramacion: int, cancelacion: int, recordatorio: int,
    plantillaConf: Option<int>, plantillaRepr: Option<int>, plantillaCanc: Option<int>, plantillaReco: Option<int>,
    diasAntes: Option<int>)
  {
    function Flag(f: Field): int {
      match f
      case Confirmacion => confirmacion
      case Reprogramacion => reprogramacion
      case Cancelacion => cancelacion
      case Recordatorio => recordatorio
    }

    function Template(f: Field): Option<int> {
      match f
      case Confirmacion => plantillaConf
      case Reprogramacion => plantillaRepr
      case Cancelacion => plantillaCanc
      case Recordatorio => plantillaReco
    }

    /** `{ ...row, [field]: v }`. */
    function WithFlag(f: Field, v: int): (r: Row)
      ensures r.Flag(f) == v
      ensures forall g :: g != f ==> r.Flag(g) == Flag(g)
      ensures forall g :: r.Template(g) == Template(g)
      ensures r.id == id && r.efector == efector && r.servicio == servicio
              && r.especialidad == especialidad && r.diasAntes == diasAntes
    {
      match f
      case Confirmacion => this.(confirmacion := v)
      case Reprogramacion => this.(reprogramacion := v)
      case Cancelacion => this.(cancelacion := v)
      case Recordatorio => this.(recordatorio := v)
    }

    function WithTemplate(f: Field, t: Option<int>): (r: Row)
      ensures r.Template(f) == t
      ensures forall g :: g != f ==> r.Template(g) == Template(g)
      ensures forall g :: r.Flag(g) == Flag(g)
      ensures r.id == id && r.efector == efector && r.servicio == servicio
              && r.especialidad == especialidad && r.diasAntes == diasAntes
    {
      match f
      case Confirmacion => this.(plantillaConf := t)
      case Reprogramacion => this.(plantillaRepr := t)
      case Cancelacion => this.(plantillaCanc := t)
      case Recordatorio => this.(plantillaReco := t)
    }
  }

  function RowId(r: Row): int { r.id }

  /** `b` differs from `a` at most in flag `f`. */
  predicate SameButFlag(a: Row, b: Row, f: Field) {
    b == a.WithFlag(f, b.Flag(f))
  }

  /** A JSON value of a PATCH body: `null` or a number. */
  datatype Value = Null | Number(n: Text.Decimal)

  function IntValue(i: int): Value { Number(Text.Decimal(i, 0)) }

  /** A PATCH body for one row: attribute names with their values. */
  datatype Payload = Payload(entries: seq<(string, Value)>)

  /** The rows each (provider, service) pair has loaded. */
  type Cache = map<int, map<int, seq<Row>>>

  /** `cache?.[ef]?.[serv]`. */
  function Entry(c: Cache, ef: int, serv: int): Option<seq<Row>> {
    if ef in c && serv in c[ef] then Some(c[ef][serv]) else None
  }

  /** `{ ...c, [ef]: { ...(c[ef] || {}), [serv]: rows } }`. */
  function Store(c: Cache, ef: int, serv: int, rows: seq<Row>): (r: Cache)
    ensures Entry(r, ef, serv) == Some(rows)
    ensures forall e, s :: (e, s) != (ef, serv) ==> Entry(r, e, s) == Entry(c, e, s)
    ensures r.Keys == c.Keys + {ef}
  {
    c[ef := (if ef in c then c[ef] else map[])[serv := rows]]
  }

  // ---------------------------------------------------------------- lemmas

  /** Field names and field values are in one-to-one correspondence. */
  lemma FieldNameRoundTrip(f: Field)
    ensures FieldOfName(FieldName(f)) == Some(f)
  {
  }

  /** The type ids 1..4 and the fields are in one-to-one correspondence. */
  lemma TypeIdRoundTrip(f: Field, n: int)
    ensures FieldOfTypeId(TypeId(f)) == Some(f)
    ensures 1 <= n <= 4 <==> FieldOfTypeId(n).Some?
  {
  }
}

=== FILE: audit.dfy ===
/** The audit trail of flag changes (`backend/src/signals.py`): before an
    association row is saved, its stored version is compared with the new one
    and one `RegistroBanderas` record is written per message flag whose value
    changed. */
module Audit {
  import opened Wrappers
  import opened Seqs
  import opened Assoc

  /** One `RegistroBanderas` row. `bandera` is the flag's type id. */
  datatype Record = Record(
    usuario: Option<int>, row: int, bandera: int, valorSet: int, plantilla: Option<int>, diasAntes: Option<int>)

  /** The type ids of `fs` strictly ascend. */
  predicate AscendingIds(fs: seq<Field>) {
    Increasing(fs, TypeId)
  }

  /** The order in which the flags are compared. */
  const Order: seq<Field> := [Confirmacion, Cancelacion, Reprogramacion, Recordatorio]

  /** The record for a changed flag: the new value and the new paired template; the days
      before only for the reminder flag. */
  function RecordOf(usuario: Option<int>, pk: int, instance: Row, f: Field): Record {
    Record(usuario, pk, TypeId(f), instance.Flag(f), instance.Template(f),
           if f == Recordatorio then instance.diasAntes else None)
  }

  /** The flags whose value differs between the stored row and the instance, in comparison order. */
  function ChangedFlags(prior: Row, instance: Row): (r: seq<Field>)
    ensures forall f :: f in r <==> prior.Flag(f) != instance.Flag(f)
    ensures AscendingIds(r)
  {
    var p := (f: Field) => prior.Flag(f) != instance.Flag(f);
    OrderCoversAscending();
    FilterIncreasing(Order, TypeId, p);
    Filter(Order, p)
  }

  /** One record per flag, in order. */
  function Records(usuario: Option<int>, pk: int, instance: Row, fs: seq<Field>): (r: seq<Record>)
    ensures |r| == |fs|
    ensures forall i :: 0 <= i < |fs| ==> r[i] == RecordOf(usuario, pk, instance, fs[i])
  {
    if |fs| == 0 then [] else [RecordOf(usuario, pk, instance, fs[0])] + Records(usuario, pk, instance, fs[1..])
  }

  /** `auditar_cambios`. `pk` is the instance's primary key (`None` for a new row), `stored`
      the row the database holds under a key, and `usuario` the `_usuario` set on the instance. */
  function Changes(pk: Option<int>, instance: Row, stored: int -> Option<Row>, usuario: Option<int>): (r: seq<Record>)
    ensures pk.None? || pk == Some(0) || stored(pk.value).None? ==> r == []
    ensures |r| <= 4
    ensures forall f: Field :: (exists i :: 0 <= i < |r| && r[i].bandera == TypeId(f)) <==>
              pk.Some? && pk != Some(0) && stored(pk.value).Some? && stored(pk.value).value.Flag(f) != instance.Flag(f)
    ensures forall i :: 0 <= i < |r| ==> exists f: Field :: r[i] == RecordOf(usuario, pk.value, instance, f)
    ensures forall i, j :: 0 <= i < j < |r| ==> r[i].bandera < r[j].bandera
  {
    if pk.None? || pk == Some(0) then []
    else
      match stored(pk.value)
      case None => []
      case Some(prior) =>
        var changed := ChangedFlags(prior, instance);
        RecordsOfChanged(usuario, pk.value, prior, instance);
        Records(usuario, pk.value, instance, changed)
  }

  lemma RecordsOfChanged(usuario: Option<int>, pk: int, prior: Row, instance: Row)
    ensures var changed := ChangedFlags(prior, instance);
            var r := Records(usuario, pk, instance, changed);
            |r| <= 4
            && (forall f: Field :: (exists i :: 0 <= i < |r| && r[i].bandera == TypeId(f)) <==> prior.Flag(f) != instance.Flag(f))
            && (forall i :: 0 <= i < |r| ==> exists f: Field :: r[i] == RecordOf(usuario, pk, instance, f))
  {
    var changed := ChangedFlags(prior, instance);
    var r := Records(usuario, pk, instance, changed);
    forall f: Field
      ensures (exists i :: 0 <= i < |r| && r[i].bandera == TypeId(f)) <==> prior.Flag(f) != instance.Flag(f)
    {
      if prior.Flag(f) != instance.Flag(f) {
        var i :| 0 <= i < |changed| && changed[i] == f;
        assert r[i].bandera == TypeId(f);
      }
      if exists i :: 0 <= i < |r| && r[i].bandera == TypeId(f) {
        var i :| 0 <= i < |r| && r[i].bandera == TypeId(f);
        assert changed[i] in changed;
        TypeIdInjective(changed[i], f);
      }
    }
    forall i | 0 <= i < |r|
      ensures exists f: Field :: r[i] == RecordOf(usuario, pk, instance, f)
    {
      assert r[i] == RecordOf(usuario, pk, instance, changed[i]);
    }
  }

  lemma TypeIdInjective(f: Field, g: Field)
    requires TypeId(f) == TypeId(g)
    ensures f == g
  {
  }

  /** Every flag is compared, in ascending type-id order. */
  lemma OrderCoversAscending()
    ensures forall f: Field :: f in Order
    ensures AscendingIds(Order)
  {
    forall f: Field
      ensures f in Order
    {
      match f
      case Confirmacion => assert Order[0] == f;
      case Cancelacion => assert Order[1] == f;
      case Reprogramacion => assert Order[2] == f;
      case Recordatorio => assert Order[3] == f;
    }
  }

  // ---------------------------------------------------------------- lemmas

  /** Saving a row unchanged writes no record. */
  lemma UnchangedWritesNothing(pk: Option<int>, instance: Row, stored: int -> Option<Row>, usuario: Option<int>)
    requires pk.Some? && stored(pk.value) == Some(instance)
    ensures Changes(pk, instance, stored, usuario) == []
  {
    assert ChangedFlags(instance, instance) == [];
  }

  /** Switching one flag writes exactly one record, for that flag. */
  lemma OneFlagOneRecord(pk: int, prior: Row, f: Field, v: int, stored: int -> Option<Row>, usuario: Option<int>)
    requires pk != 0 && stored(pk) == Some(prior) && prior.Flag(f) != v
    ensures var r := Changes(Some(pk), prior.WithFlag(f, v), stored, usuario);
            |r| == 1 && r[0].bandera == TypeId(f) && r[0].valorSet == v
  {
    var inst := prior.WithFlag(f, v);
    OnlyChange(prior, inst, f);
    assert Records(usuario, pk, inst, [f]) == [RecordOf(usuario, pk, inst, f)];
  }

  /** When exactly one flag differs, it is the only one compared as changed. */
  lemma OnlyChange(prior: Row, inst: Row, f: Field)
    requires forall g :: prior.Flag(g) != inst.Flag(g) <==> g == f
    ensures ChangedFlags(prior, inst) == [f]
  {
    var c := ChangedFlags(prior, inst);
    assert f in c;
    forall i | 0 <= i < |c|
      ensures c[i] == f
    {
      assert c[i] in c;
    }
    assert |c| == 1;
  }
}

=== FILE: availability.dfy ===
/** The start page's faceted filter (`frontend/src/pages/IncioPage.tsx`):
    providers (efectores), services (servicios) and specialties
    (especialidades) are linked by the configuration rows
    (`EfectorPlantilla`). Each dimension has a selection and a list of
    available ids; changing a selection narrows or resets the available lists
    of the other dimensions and asks the server for a new count.

    The three filter callbacks are memoised on the master data only, so the
    selections they read are the ones of the render in which they were
    created, not the current ones. `Wiring` makes that explicit: `AsWritten`
    hands the filters the selections captured after loading (all empty),
    `Live` hands them the selections of the render that runs them. */
module Availability {
  import opened Wrappers
  import opened Seqs
  import opened Text
  import Url
  import CountQuery

  /** The three dimensions of the filter. */
  datatype Dim = Efector | Servicio | Especialidad

  /** One `EfectorPlantilla` row: a provider offers a specialty of a service. */
  datatype Link = Link(efector: int, servicio: int, especialidad: int)

  /** A row's id in dimension `d`. */
  function IdOf(l: Link, d: Dim): int {
    match d
    case Efector => l.efector
    case Servicio => l.servicio
    case Especialidad => l.especialidad
  }

  /** The master lists loaded by `init` (their ids) and the configuration rows. */
  datatype Master = Master(efectores: seq<int>, servicios: seq<int>, especialidades: seq<int>, links: seq<Link>)

  /** One id list per dimension: used for the available ids and for the selections. */
  datatype Facets = Facets(efectores: seq<int>, servicios: seq<int>, especialidades: seq<int>)

  datatype Page = Page(avail: Facets, sel: Facets)

  datatype Wiring = AsWritten | Live

  /** The user's actions: `handleToggleEfector`, `handleToggleServicio`, `handleToggleEspecialidad`. */
  datatype Event = ToggleEfector(id: int) | ToggleServicio(id: int) | ToggleEspecialidad(id: int)

  const NoSelection := Facets([], [], [])

  /** Every master id available and nothing selected. */
  function Init(m: Master): (r: Facets)
    ensures r.efectores == m.efectores && r.servicios == m.servicios && r.especialidades == m.especialidades
  {
    Facets(m.efectores, m.servicios, m.especialidades)
  }

  /** The selections a filter callback reads. */
  function Seen(w: Wiring, sel: Facets): Facets {
    if w == AsWritten then NoSelection else sel
  }

  // ------------------------------------------------------------ reachability

  /** Some configuration row has its `d` id in `ids` and its `t` id equal to `x`. */
  ghost predicate Linked(m: Master, d: Dim, ids: seq<int>, t: Dim, x: int) {
    exists l :: l in m.links && IdOf(l, d) in ids && IdOf(l, t) == x
  }

  /** `efectorPlantillas.filter(p => ids.includes(p.<d>))`. */
  function Matching(links: seq<Link>, d: Dim, ids: seq<int>): (r: seq<Link>)
    ensures forall l :: l in r <==> l in links && IdOf(l, d) in ids
  {
    Filter(links, (l: Link) => IdOf(l, d) in ids)
  }

  /** `ls.map(p => p.<t>)`. */
  function Project(ls: seq<Link>, t: Dim): (r: seq<int>)
    ensures |r| == |ls|
    ensures forall x :: x in r <==> exists l :: l in ls && IdOf(l, t) == x
  {
    var r := Map(ls, (l: Link) => IdOf(l, t));
    assert forall l :: l in ls ==> IdOf(l, t) in r by {
      forall l | l in ls
        ensures IdOf(l, t) in r
      {
        var i :| 0 <= i < |ls| && ls[i] == l;
        assert r[i] == IdOf(l, t);
      }
    }
    r
  }

  /** The `t` ids reachable from the `d` ids in `ids`. */
  function Reach(m: Master, d: Dim, ids: seq<int>, t: Dim): (r: seq<int>)
    ensures forall x :: x in r <==> Linked(m, d, ids, t, x)
  {
    Project(Matching(m.links, d, ids), t)
  }

  /** `prev.filter(id => [...new Set(reach)].includes(id))`. */
  function Narrow(prev: seq<int>, reach: seq<int>): (r: seq<int>)
    ensures |r| <= |prev|
    ensures forall x :: x in r <==> x in prev && x in reach
  {
    Keep(prev, Dedup(reach))
  }

  // ------------------------------------------------------------ the three filters

  /** `filterByEfec(efs)`, reading the selections `seen`. */
  function FilterByEfec(m: Master, seen: Facets, p: Page, efs: seq<int>): (r: Page)
    ensures r.sel == p.sel
    ensures |efs| == 0 && |seen.servicios| == 0 ==> r.avail == Init(m)
    ensures |efs| == 0 && |seen.servicios| > 0 ==>
              r.avail.servicios == m.servicios
              && (forall x :: x in r.avail.efectores <==> Linked(m, Servicio, seen.servicios, Efector, x))
              && (forall x :: x in r.avail.especialidades <==> Linked(m, Servicio, seen.servicios, Especialidad, x))
    ensures |efs| > 0 ==>
              r.avail.efectores == p.avail.efectores
              && (forall x :: x in r.avail.servicios <==>
                    x in p.avail.servicios && Linked(m, Efector, efs, Servicio, x))
              && (forall x :: x in r.avail.especialidades <==>
                    x in p.avail.especialidades && Linked(m, Efector, efs, Especialidad, x))
  {
    if |efs| == 0 then
      if |seen.servicios| == 0 then p.(avail := Init(m))
      else
        p.(avail := Facets(Reach(m, Servicio, seen.servicios, Efector), m.servicios,
                           Reach(m, Servicio, seen.servicios, Especialidad)))
    else
      p.(avail := p.avail.(servicios := Narrow(p.avail.servicios, Reach(m, Efector, efs, Servicio)),
                           especialidades := Narrow(p.avail.especialidades, Reach(m, Efector, efs, Especialidad))))
  }

  /** `filterByServ(servs)`, reading the selections `seen`; an empty `servs` also clears the selected specialties. */
  function FilterByServ(m: Master, seen: Facets, p: Page, servs: seq<int>): (r: Page)
    ensures r.sel == if |servs| == 0 then p.sel.(especialidades := []) else p.sel
    ensures |servs| == 0 ==> r.avail.efectores == m.efectores
    ensures |servs| == 0 && |seen.efectores| == 0 ==> r.avail == Init(m)
    ensures |servs| == 0 && |seen.efectores| > 0 ==>
              (forall x :: x in r.avail.servicios <==> Linked(m, Efector, seen.efectores, Servicio, x))
              && (forall x :: x in r.avail.especialidades <==> Linked(m, Efector, seen.efectores, Especialidad, x))
    ensures |servs| > 0 ==>
              r.avail.servicios == p.avail.servicios
              && (forall x :: x in r.avail.efectores <==>
                    x in p.avail.efectores && Linked(m, Servicio, servs, Efector, x))
              && (forall x :: x in r.avail.especialidades <==>
                    x in p.avail.especialidades && Linked(m, Servicio, servs, Especialidad, x))
  {
    if |servs| == 0 then
      var sel := p.sel.(especialidades := []);
      if |seen.efectores| == 0 then Page(Init(m), sel)
      else
        Page(Facets(m.efectores, Reach(m, Efector, seen.efectores, Servicio),
                    Reach(m, Efector, seen.efectores, Especialidad)), sel)
    else
      p.(avail := p.avail.(efectores := Narrow(p.avail.efectores, Reach(m, Servicio, servs, Efector)),
                           especialidades := Narrow(p.avail.especialidades, Reach(m, Servicio, servs, Especialidad))))
  }

  /** The rows of a selected service that are also offered by a selected provider. */
  function ServiceAndProvider(m: Master, seen: Facets): (r: seq<Link>)
    ensures forall l :: l in r <==> l in m.links && l.servicio in seen.servicios && l.efector in seen.efectores
  {
    Filter(m.links, (l: Link) => l.servicio in seen.servicios && l.efector in seen.efectores)
  }

  /** `filterByEsp(esps)`, reading the selections `seen`. */
  function FilterByEsp(m: Master, seen: Facets, p: Page, esps: seq<int>): (r: Page)
    ensures r.sel == p.sel
    ensures |esps| > 0 ==>
              r.avail.servicios == p.avail.servicios
              && r.avail.especialidades == p.avail.especialidades
              && (forall x :: x in r.avail.efectores <==>
                    x in p.avail.efectores && Linked(m, Especialidad, esps, Efector, x))
    ensures |esps| == 0 && |seen.especialidades| == 0 ==> r == p
  {
    if |esps| == 0 then
      if |seen.efectores| == 0 && |seen.especialidades| != 0 then
        p.(avail := p.avail.(efectores := Reach(m, Servicio, seen.servicios, Efector)))
      else if |seen.efectores| != 0 && |seen.especialidades| != 0 then
        p.(avail := p.avail.(especialidades := Project(ServiceAndProvider(m, seen), Especialidad)))
      else p
    else
      p.(avail := p.avail.(efectores := Narrow(p.avail.efectores, Reach(m, Especialidad, esps, Efector))))
  }

  // ------------------------------------------------------------ selections

  /** `prev.includes(id) ? prev.filter(x => x !== id) : [...prev, id]`. */
  function Toggle(s: seq<int>, id: int): (r: seq<int>)
    ensures id in r <==> id !in s
    ensures forall x :: x != id ==> (x in r <==> x in s)
  {
    if id in s then Remove(s, id) else s + [id]
  }

  /** Toggling never introduces a repeated id. */
  lemma ToggleKeepsNoDup(s: seq<int>, id: int)
    requires NoDup(s)
    ensures NoDup(Toggle(s, id))
  {
    if id in s {
      RemoveKeepsNoDup(s, id);
    } else {
      AppendKeepsNoDup(s, id);
    }
  }

  /** One user toggle followed by the effects it triggers: the filter of the toggled
      dimension and, when the services become empty, the specialty filter that the
      cleared specialty selection re-runs. */
  function Step(m: Master, w: Wiring, p: Page, ev: Event): (r: Page)
    ensures ev.ToggleEfector? ==> r.sel == p.sel.(efectores := Toggle(p.sel.efectores, ev.id))
    ensures ev.ToggleServicio? ==>
              var servs := Toggle(p.sel.servicios, ev.id);
              r.sel == p.sel.(servicios := servs, especialidades := if |servs| == 0 then [] else p.sel.especialidades)
    ensures ev.ToggleEspecialidad? ==> r.sel == p.sel.(especialidades := Toggle(p.sel.especialidades, ev.id))
  {
    match ev
    case ToggleEfector(id) =>
      var q := p.(sel := p.sel.(efectores := Toggle(p.sel.efectores, id)));
      FilterByEfec(m, Seen(w, q.sel), q, q.sel.efectores)
    case ToggleServicio(id) =>
      var q := p.(sel := p.sel.(servicios := Toggle(p.sel.servicios, id)));
      var r := FilterByServ(m, Seen(w, q.sel), q, q.sel.servicios);
      if |q.sel.servicios| == 0 then FilterByEsp(m, Seen(w, r.sel), r, r.sel.especialidades) else r
    case ToggleEspecialidad(id) =>
      var q := p.(sel := p.sel.(especialidades := Toggle(p.sel.especialidades, id)));
      FilterByEsp(m, Seen(w, q.sel), q, q.sel.especialidades)
  }

  // ------------------------------------------------------------ the count

  /** `xs.length ? xs : undefined`. */
  function Selected(xs: seq<int>): (r: Option<seq<int>>)
    ensures r.None? <==> |xs| == 0
    ensures r.Some? ==> r.value == xs
  {
    if |xs| == 0 then None else Some(xs)
  }

  function AsIds(xs: seq<int>): Option<CountQuery.Ids> {
    if |xs| == 0 then None else Some(CountQuery.Many(xs))
  }

  /** The URL of `getCount`: an empty selection is left out and the state is fixed to 0. */
  function CountRequest(sel: Facets): (r: string)
    ensures CountQuery.FiltersOf(Url.ParseQuery(Url.QueryPart(r))) ==
            CountQuery.Filters(Selected(sel.servicios), Selected(sel.especialidades), Selected(sel.efectores), Some(0))
  {
    var r := CountQuery.CountUrl(AsIds(sel.servicios), AsIds(sel.especialidades), AsIds(sel.efectores), Some(0));
    CountMatchesSelection(sel, r);
    r
  }

  /** The three counters the page shows. */
  datatype Counters = Counters(turnos: int, recordatorio: int, confirmacion: int)

  /** What `getCount` stores: the response's counts, or zeros when the request fails. */
  function OnCount(response: Result<Option<CountQuery.CountsBody>, string>): (r: Counters)
    ensures response.Err? ==> r == Counters(0, 0, 0)
    ensures response.Ok? ==>
              var counts := CountQuery.ReadCounts(response.value);
              r == Counters(counts.count, counts.recordatorio, counts.confirmacion)
  {
    match response
    case Err(_) => Counters(0, 0, 0)
    case Ok(body) =>
      var res := CountQuery.ReadCounts(body);
      Counters(res.count, res.recordatorio, res.confirmacion)
  }

  // ---------------------------------------------------------------- lemmas

  /** Clearing the providers while no service is selected puts every master id back. */
  lemma ClearProvidersResets(m: Master, seen: Facets, p: Page)
    requires |seen.servicios| == 0
    ensures FilterByEfec(m, seen, p, []).avail == Facets(m.efectores, m.servicios, m.especialidades)
  {
  }

  /** Narrowing by the same providers again changes nothing. */
  lemma ProviderFilterIsStable(m: Master, seen: Facets, p: Page, efs: seq<int>)
    ensures FilterByEfec(m, seen, FilterByEfec(m, seen, p, efs), efs) == FilterByEfec(m, seen, p, efs)
  {
    if |efs| > 0 {
      var ss := Dedup(Reach(m, Efector, efs, Servicio));
      var es := Dedup(Reach(m, Efector, efs, Especialidad));
      FilterIdempotent(p.avail.servicios, y => y in ss);
      FilterIdempotent(p.avail.especialidades, y => y in es);
    }
  }

  /** Narrowing by the same services again changes nothing. */
  lemma ServiceFilterIsStable(m: Master, seen: Facets, p: Page, servs: seq<int>)
    ensures FilterByServ(m, seen, FilterByServ(m, seen, p, servs), servs) == FilterByServ(m, seen, p, servs)
  {
    if |servs| > 0 {
      var fs := Dedup(Reach(m, Servicio, servs, Efector));
      var es := Dedup(Reach(m, Servicio, servs, Especialidad));
      FilterIdempotent(p.avail.efectores, y => y in fs);
      FilterIdempotent(p.avail.especialidades, y => y in es);
    }
  }

  /** A specialty filter called with an empty selection never changes the page, whatever
      the wiring: the branches that read a non-empty specialty selection cannot be reached. */
  lemma EmptySpecialtyFilterIsInert(m: Master, w: Wiring, p: Page)
    requires |p.sel.especialidades| == 0
    ensures FilterByEsp(m, Seen(w, p.sel), p, p.sel.especialidades) == p
  {
  }

  /** Toggling an absent id twice restores the selection exactly. */
  lemma ToggleTwiceAbsent(s: seq<int>, id: int)
    requires id !in s
    ensures Toggle(Toggle(s, id), id) == s
  {
    RemoveAppended(s, id);
  }

  /** Toggling a selected id twice keeps the same ids (the id moves to the end). */
  lemma ToggleTwicePresent(s: seq<int>, id: int)
    requires NoDup(s) && id in s
    ensures multiset(Toggle(Toggle(s, id), id)) == multiset(s)
  {
    var i :| 0 <= i < |s| && s[i] == id;
    assert multiset(s)[id] == 1 by {
      MultisetOfNoDup(s, i);
    }
    RemoveThenAppend(s, id);
  }

  lemma {:induction false} MultisetOfNoDup(s: seq<int>, i: int)
    requires NoDup(s) && 0 <= i < |s|
    ensures multiset(s)[s[i]] == 1
    decreases |s|
  {
    assert s == [s[0]] + s[1..];
    if i == 0 {
      assert s[0] !in s[1..] by {
        forall k | 0 <= k < |s[1..]|
          ensures s[1..][k] != s[0]
        {
          assert s[1..][k] == s[k + 1];
        }
      }
    } else {
      assert NoDup(s[1..]) by {
        forall a, b | 0 <= a < b < |s[1..]|
          ensures s[1..][a] != s[1..][b]
        {
          assert s[1..][a] == s[a + 1] && s[1..][b] == s[b + 1];
        }
      }
      MultisetOfNoDup(s[1..], i - 1);
      assert s[1..][i - 1] == s[i];
      assert s[0] != s[i];
    }
  }

  /** The server counts exactly the turns in state 0 that match every non-empty selection. */
  lemma CountMatchesSelection(sel: Facets, url: string)
    requires url == CountQuery.CountUrl(AsIds(sel.servicios), AsIds(sel.especialidades), AsIds(sel.efectores), Some(0))
    ensures CountQuery.FiltersOf(Url.ParseQuery(Url.QueryPart(url))) ==
            CountQuery.Filters(Selected(sel.servicios), Selected(sel.especialidades), Selected(sel.efectores), Some(0))
  {
    var s, e, f := AsIds(sel.servicios), AsIds(sel.especialidades), AsIds(sel.efectores);
    var q := Url.ParseQuery(Url.QueryPart(url));
    CountQuery.CountParamsRoundTrip(s, e, f, Some(0));
    assert q == CountQuery.CountParams(s, e, f, Some(0));
    CountQuery.CountParamsGet(s, e, f, Some(0));
    SelectedOfCsv(sel.servicios);
    SelectedOfCsv(sel.especialidades);
    SelectedOfCsv(sel.efectores);
    StateZero();
  }

  lemma SelectedOfCsv(xs: seq<int>)
    ensures CountQuery.ParseCsvParam(CountQuery.ToCsv(AsIds(xs))) == Selected(xs)
  {
    if |xs| > 0 {
      CountQuery.ParseCsvOfCsv(xs);
    }
  }

  lemma StateZero()
    ensures CountQuery.EstadoFilter(Some(IntToString(0))) == Some(0)
  {
    ParseIntOfIntToString(0);
    assert IntToString(0) != "";
  }

  // ------------------------------------------------------------ the stale selections

  /** As written: with service 10 and provider 1 selected, deselecting provider 1 makes
      provider 2 available although it offers no selected service. */
  lemma StaleProviderReset()
    ensures var m := Master([1, 2], [10, 20], [100, 200], [Link(1, 10, 100), Link(2, 20, 200)]);
            var p := Page(Facets([1], [10], [100]), Facets([1], [10], []));
            var r := Step(m, AsWritten, p, ToggleEfector(1));
            r.avail.efectores == [1, 2] && !Linked(m, Servicio, r.sel.servicios, Efector, 2)
  {
    var m := Master([1, 2], [10, 20], [100, 200], [Link(1, 10, 100), Link(2, 20, 200)]);
    assert forall l :: l in m.links ==> l == Link(1, 10, 100) || l == Link(2, 20, 200);
  }

  /** With the current selections, deselecting the last provider while services are selected
      leaves available exactly the providers that offer a selected service. */
  lemma ClearProvidersKeepsServiceScope(m: Master, p: Page, id: int)
    requires p.sel.efectores == [id] && |p.sel.servicios| > 0
    ensures var r := Step(m, Live, p, ToggleEfector(id));
            |r.sel.efectores| == 0
            && forall x :: x in r.avail.efectores <==> Linked(m, Servicio, r.sel.servicios, Efector, x)
  {
    assert Remove([id], id) == [];
  }
}

=== FILE: bulktoggle.dfy ===
/** Switching a message flag on or off for many association rows at once
    (`SendAll.tsx`), for one row (`EspecialidadBlock.tsx`), and the
    confirmation dialog both open (`Confirmacion.tsx`). Switching off PATCHes
    each row, clearing the paired template in the same body; switching on
    hands the ids to the template screen. The PATCH outcomes are settled all
    together and each success is applied to the local copies. */
module BulkToggle {
  import opened Wrappers
  import opened Seqs
  import opened Text
  import opened Assoc
  import opened Ui

  // ------------------------------------------------------------ the confirmation dialog

  /** What the dialog is about to do: the flag, the requested value and the target rows. */
  datatype Dialog = Dialog(field: Field, value: int, targets: seq<Row>, open: bool)

  /** `fieldLabel`. */
  function Label(f: Field): string {
    match f
    case Confirmacion => "Confirmaciones"
    case Reprogramacion => "Reprogramaciones"
    case Cancelacion => "Cancelaciones"
    case Recordatorio => "Recordatorios"
  }

  /** `handleClose`: the dialog stays open while requests are in flight. */
  function Close(busy: bool, open: bool): (r: bool)
    ensures busy ==> r == open
    ensures !busy ==> !r
  {
    if busy then open else false
  }

  /** The body that switches `f` off: the flag to 0 and its template to null. */
  function OffPayload(f: Field): Payload {
    Payload([(FieldName(f), IntValue(0)), (TemplateName(f), Null)])
  }

  /** The settled outcome of the PATCHes, in target order: the rows whose PATCH was fulfilled
      (each handed to `onSuccess`) and the ids whose PATCH was rejected. */
  function Settle(targets: seq<Row>, ok: int -> bool): (r: (seq<Row>, seq<int>))
    ensures |r.0| + |r.1| == |targets|
    ensures forall x :: x in r.0 <==> x in targets && ok(x.id)
    ensures forall id :: id in r.1 <==> exists i :: 0 <= i < |targets| && targets[i].id == id && !ok(id)
    ensures r.0 == Filter(targets, (x: Row) => ok(x.id))
  {
    if |targets| == 0 then ([], [])
    else
      var x := targets[|targets| - 1];
      var init := targets[..|targets| - 1];
      assert targets == init + [x];
      var (done, failed) := Settle(init, ok);
      FailedStep(init, x, ok, failed);
      FilterAppend(init, x, (x: Row) => ok(x.id));
      if ok(x.id) then (done + [x], failed) else (done, failed + [x.id])
  }

  /** Settling one more target adds its id to the failed ones exactly when its PATCH was
      rejected. */
  lemma FailedStep(init: seq<Row>, x: Row, ok: int -> bool, failed: seq<int>)
    requires forall id :: id in failed <==> exists i :: 0 <= i < |init| && init[i].id == id && !ok(id)
    ensures var t := init + [x];
            var f := if ok(x.id) then failed else failed + [x.id];
            forall id :: id in f <==> exists i :: 0 <= i < |t| && t[i].id == id && !ok(id)
  {
    var t := init + [x];
    forall id | exists i :: 0 <= i < |init| && init[i].id == id && !ok(id)
      ensures exists i :: 0 <= i < |t| && t[i].id == id && !ok(id)
    {
      var i :| 0 <= i < |init| && init[i].id == id && !ok(id);
      assert t[i] == init[i];
    }
    assert t[|init|] == x;
  }

  /** What confirming did: the PATCHes sent, the rows reported back as updated, the ids that
      failed, the alert, the navigation, and whether the dialog closed. */
  datatype Confirmed = Confirmed(
    patches: seq<(int, Payload)>, succeeded: seq<Row>, failedIds: seq<int>,
    alert: Option<Alert>, navigation: Option<Navigation>, closed: bool)

  function SuccessMsg(f: Field, updated: nat): string {
    Label(f) + " actualizadas correctamente (" + IntToString(updated) + ")."
  }

  function WarningMsg(updated: nat, attempted: nat, failedIds: seq<int>): string {
    "Se actualizaron " + IntToString(updated) + "/" + IntToString(attempted) + ". Fallaron ids: "
      + Join(Map(failedIds, IntToString), ", ") + "."
  }

  /** `handleConfirmToggle`. `ok(id)` says whether the PATCH of row `id` is fulfilled. */
  function Confirm(targets: seq<Row>, f: Field, value: int, ok: int -> bool): (r: Confirmed)
    requires value == 0 || value == 1
    ensures r.closed
    ensures |targets| == 0 ==>
              r.patches == [] && r.navigation.None? && r.alert == Some(Alert(Info, "No hay especialidades seleccionadas."))
    ensures |targets| > 0 && value == 1 ==>
              r.patches == [] && r.alert.None?
              && r.navigation == Some(Navigation("/plantillas/" + FieldName(f), Map(targets, RowId)))
    ensures |targets| > 0 && value == 0 ==>
              |r.patches| == |targets| && (forall i :: 0 <= i < |targets| ==> r.patches[i] == (targets[i].id, OffPayload(f)))
              && (forall x :: x in r.succeeded <==> x in targets && ok(x.id))
              && r.navigation.None? && r.alert.Some?
    ensures |r.succeeded| + |r.failedIds| == |r.patches|
    ensures |targets| > 0 && value == 0 ==>
              r.succeeded == Filter(targets, (x: Row) => ok(x.id))
              && (forall id :: id in r.failedIds <==> exists i :: 0 <= i < |targets| && targets[i].id == id && !ok(id))
              && (|r.failedIds| == 0 ==> r.alert == Some(Alert(Success, SuccessMsg(f, |targets|))))
              && (|r.failedIds| > 0 ==> r.alert == Some(Alert(Warning, WarningMsg(|r.succeeded|, |targets|, r.failedIds))))
    ensures r.alert.Some? && r.alert.value.severity == Warning <==> |r.failedIds| > 0
    ensures r.alert.Some? && r.alert.value.severity == Success <==> |r.patches| > 0 && |r.failedIds| == 0
  {
    if |targets| == 0 then
      Confirmed([], [], [], Some(Alert(Info, "No hay especialidades seleccionadas.")), None, true)
    else if value == 1 then
      Confirmed([], [], [], None, Some(Navigation("/plantillas/" + FieldName(f), Map(targets, RowId))), true)
    else
      var patches := Map(targets, (x: Row) => (x.id, OffPayload(f)));
      var (done, failed) := Settle(targets, ok);
      var alert :=
        if |failed| == 0 then Alert(Success, SuccessMsg(f, |done|))
        else Alert(Warning, WarningMsg(|done|, |targets|, failed));
      Confirmed(patches, done, failed, Some(alert), None, true)
  }

  // ------------------------------------------------------------ applying one success

  /** `after` is `before` with the flag `f` of the rows with id `id` set to `v`, and nothing else changed. */
  predicate FlagSet(before: seq<Row>, after: seq<Row>, id: int, f: Field, v: int) {
    |after| == |before|
    && forall i :: 0 <= i < |before| ==>
         SameButFlag(before[i], after[i], f) && after[i].Flag(f) == (if before[i].id == id then v else before[i].Flag(f))
  }

  /** `prev.map(e => e.id === id ? { ...e, [field]: value } : e)`. */
  function SetFlagWhere(list: seq<Row>, id: int, f: Field, v: int): (r: seq<Row>)
    ensures FlagSet(list, r, id, f, v)
  {
    Map(list, (e: Row) => if e.id == id then e.WithFlag(f, v) else e)
  }

  /** The local copies a success is applied to: the pair cache, the visible rows and the
      dialog's pending targets. */
  datatype Screen = Screen(cache: Cache, visible: seq<Row>, pending: seq<Row>)

  /** `SendAll`'s `updateCache`: in the entry of the row's pair (created empty when absent),
      the row with the same id is replaced by the given row with the flag set. */
  function BulkUpdateCache(c: Cache, esp: Row, f: Field, v: int): (r: Cache)
    ensures var before := Entry(c, esp.efector, esp.servicio).GetOr([]);
            Entry(r, esp.efector, esp.servicio).Some?
            && var after := Entry(r, esp.efector, esp.servicio).value;
            |after| == |before|
            && forall i :: 0 <= i < |before| ==> after[i] == if before[i].id == esp.id then esp.WithFlag(f, v) else before[i]
    ensures forall e, s :: (e, s) != (esp.efector, esp.servicio) ==> Entry(r, e, s) == Entry(c, e, s)
  {
    var current := Entry(c, esp.efector, esp.servicio).GetOr([]);
    Store(c, esp.efector, esp.servicio, Map(current, (e: Row) => if e.id == esp.id then esp.WithFlag(f, v) else e))
  }

  /** `SendAll`'s `handleOnSuccess`. */
  function BulkOnSuccess(s: Screen, esp: Row, f: Field, v: int): (r: Screen)
    ensures FlagSet(s.visible, r.visible, esp.id, f, v) && FlagSet(s.pending, r.pending, esp.id, f, v)
    ensures Entry(r.cache, esp.efector, esp.servicio).Some?
    ensures forall e, p :: (e, p) != (esp.efector, esp.servicio) ==> Entry(r.cache, e, p) == Entry(s.cache, e, p)
  {
    Screen(BulkUpdateCache(s.cache, esp, f, v), SetFlagWhere(s.visible, esp.id, f, v), SetFlagWhere(s.pending, esp.id, f, v))
  }

  /** Every fulfilled row handed to `onSuccess` in turn. */
  function ApplyAll(s: Screen, rows: seq<Row>, f: Field, v: int): (r: Screen)
    ensures |r.visible| == |s.visible| && |r.pending| == |s.pending|
    ensures forall x :: x in rows ==> Entry(r.cache, x.efector, x.servicio).Some?
    ensures forall e, p :: (forall x :: x in rows ==> (x.efector, x.servicio) != (e, p)) ==>
              Entry(r.cache, e, p) == Entry(s.cache, e, p)
    decreases |rows|
  {
    if |rows| == 0 then s
    else ApplyAll(BulkOnSuccess(s, rows[0], f, v), rows[1..], f, v)
  }

  // ------------------------------------------------------------ the bulk toggle

  /** `SendAll`'s state: the field being prepared, the dialog and the last alert. */
  datatype Bulk = Bulk(loading: Option<Field>, dialog: Dialog, alert: Option<Alert>)

  /** A row whose flag `f` is not yet `value`. */
  function Differs(f: Field, value: int): Row -> bool {
    (x: Row) => x.Flag(f) != value
  }

  /** `handleFieldToggleAll`. `prepared` is what `preFunction` yields, or the error it throws. */
  function ToggleAll(b: Bulk, f: Field, value: int, prepared: Result<seq<Row>, string>): (r: Bulk)
    ensures b.loading.Some? ==> r == b
    ensures b.loading.None? ==> r.loading.None?
    ensures b.loading.None? && prepared.Err? ==>
              r.dialog == b.dialog && r.alert == Some(Alert(Error, "Ocurrió un error preparando los cambios."))
    ensures b.loading.None? && prepared.Ok? ==>
              ((exists x :: x in prepared.value && x.Flag(f) != value) ==>
                    r.dialog == Dialog(f, value, r.dialog.targets, true)
                    && r.dialog.targets == Filter(prepared.value, Differs(f, value))
                    && forall x :: x in r.dialog.targets <==> x in prepared.value && x.Flag(f) != value)
              && ((forall x :: x in prepared.value ==> x.Flag(f) == value) ==>
                    r.dialog == b.dialog.(targets := prepared.value)
                    && r.alert == Some(Alert(Info, "No hay especialidades que necesiten cambiar.")))
  {
    if b.loading.Some? then b
    else
      match prepared
      case Err(_) => Bulk(None, b.dialog, Some(Alert(Error, "Ocurrió un error preparando los cambios.")))
      case Ok(data) =>
        var toChange := Filter(data, Differs(f, value));
        if |toChange| == 0 then
          assert forall x :: x in data ==> x.Flag(f) == value;
          Bulk(None, b.dialog.(targets := data), Some(Alert(Info, "No hay especialidades que necesiten cambiar.")))
        else
          assert toChange[0] in data && toChange[0].Flag(f) != value;
          Bulk(None, Dialog(f, value, toChange, true), b.alert)
  }

  // ------------------------------------------------------------ the single-row block

  /** `EspecialidadBlock`'s `handleSectionClick`: ask for the opposite of the row's flag, for that row alone. */
  function SectionClick(d: Dialog, esp: Row, f: Field): (r: Dialog)
    ensures r.open && r.field == f && r.targets == [esp]
    ensures r.value == 0 <==> esp.Flag(f) == 1
    ensures r.value == 0 || r.value == 1
  {
    Dialog(f, if esp.Flag(f) == 1 then 0 else 1, [esp], true)
  }

  /** `handleConfirmClosed`. */
  function ConfirmClosed(d: Dialog): (r: Dialog)
    ensures !r.open && r.targets == [] && r.field == d.field && r.value == d.value
  {
    d.(targets := [], open := false)
  }

  /** `EspecialidadBlock`'s `updateCache`: nothing happens when the row's provider or service id is
      0 (falsy); a missing entry is seeded from the visible rows of the pair; the stored row
      with the same id gets the flag. */
  function RowUpdateCache(c: Cache, visible: seq<Row>, esp: Row, f: Field, v: int): (r: Cache)
    ensures esp.efector == 0 || esp.servicio == 0 ==> r == c
    ensures esp.efector != 0 && esp.servicio != 0 ==>
              var before :=
                if Entry(c, esp.efector, esp.servicio).Some? then Entry(c, esp.efector, esp.servicio).value
                else Filter(visible, (x: Row) => x.efector == esp.efector && x.servicio == esp.servicio);
              Entry(r, esp.efector, esp.servicio) == Some(SetFlagWhere(before, esp.id, f, v))
              && forall e, s :: (e, s) != (esp.efector, esp.servicio) ==> Entry(r, e, s) == Entry(c, e, s)
  {
    if esp.efector == 0 || esp.servicio == 0 then c
    else
      var before :=
        if Entry(c, esp.efector, esp.servicio).Some? then Entry(c, esp.efector, esp.servicio).value
        else Filter(visible, (x: Row) => x.efector == esp.efector && x.servicio == esp.servicio);
      Store(c, esp.efector, esp.servicio, SetFlagWhere(before, esp.id, f, v))
  }

  /** `EspecialidadBlock`'s `handleOnSuccess`: the pending targets are not touched. */
  function RowOnSuccess(s: Screen, esp: Row, f: Field, v: int): (r: Screen)
    ensures r.pending == s.pending
    ensures FlagSet(s.visible, r.visible, esp.id, f, v)
    ensures esp.efector == 0 || esp.servicio == 0 ==> r.cache == s.cache
    ensures esp.efector != 0 && esp.servicio != 0 ==> Entry(r.cache, esp.efector, esp.servicio).Some?
    ensures forall e, p :: (e, p) != (esp.efector, esp.servicio) ==> Entry(r.cache, e, p) == Entry(s.cache, e, p)
  {
    s.(cache := RowUpdateCache(s.cache, s.visible, esp, f, v), visible := SetFlagWhere(s.visible, esp.id, f, v))
  }

  // ---------------------------------------------------------------- lemmas

  lemma SameButFlagTrans(a: Row, b: Row, c: Row, f: Field)
    requires SameButFlag(a, b, f) && SameButFlag(b, c, f)
    ensures SameButFlag(a, c, f)
  {
  }

  /** After the successes are applied, a visible row has the flag set exactly when one of the
      succeeded rows has its id, and nothing else about any visible row changes. */
  lemma {:induction false} ApplyAllVisible(s: Screen, rows: seq<Row>, f: Field, v: int)
    ensures var r := ApplyAll(s, rows, f, v);
            |r.visible| == |s.visible|
            && forall i :: 0 <= i < |s.visible| ==>
                 SameButFlag(s.visible[i], r.visible[i], f)
                 && r.visible[i].Flag(f) == if s.visible[i].id in Map(rows, RowId) then v else s.visible[i].Flag(f)
    decreases |rows|
  {
    if |rows| > 0 {
      var s' := BulkOnSuccess(s, rows[0], f, v);
      ApplyAllVisible(s', rows[1..], f, v);
      var r := ApplyAll(s, rows, f, v);
      assert Map(rows, RowId) == [rows[0].id] + Map(rows[1..], RowId);
      forall i | 0 <= i < |s.visible|
        ensures SameButFlag(s.visible[i], r.visible[i], f)
      {
        SameButFlagTrans(s.visible[i], s'.visible[i], r.visible[i], f);
      }
    }
  }

  /** Switching a flag off in bulk: afterwards every visible row whose PATCH was fulfilled
      shows the flag at 0, rows whose PATCH failed or that were not targets keep their value,
      and nothing else about the visible rows changes. */
  lemma BulkOffClearsVisible(s: Screen, targets: seq<Row>, f: Field, ok: int -> bool)
    requires |targets| > 0
    ensures var r := ApplyAll(s, Confirm(targets, f, 0, ok).succeeded, f, 0);
            |r.visible| == |s.visible|
            && forall i :: 0 <= i < |s.visible| ==>
                 SameButFlag(s.visible[i], r.visible[i], f)
                 && ((exists x :: x in targets && ok(x.id) && x.id == s.visible[i].id) ==> r.visible[i].Flag(f) == 0)
                 && ((forall x :: x in targets && ok(x.id) ==> x.id != s.visible[i].id) ==>
                       r.visible[i] == s.visible[i])
  {
    AppliedSuccesses(s, Confirm(targets, f, 0, ok).succeeded, targets, f, ok);
  }

  lemma AppliedSuccesses(s: Screen, done: seq<Row>, targets: seq<Row>, f: Field, ok: int -> bool)
    requires forall x :: x in done <==> x in targets && ok(x.id)
    ensures var r := ApplyAll(s, done, f, 0);
            |r.visible| == |s.visible|
            && forall i :: 0 <= i < |s.visible| ==>
                 SameButFlag(s.visible[i], r.visible[i], f)
                 && ((exists x :: x in targets && ok(x.id) && x.id == s.visible[i].id) ==> r.visible[i].Flag(f) == 0)
                 && ((forall x :: x in targets && ok(x.id) ==> x.id != s.visible[i].id) ==>
                       r.visible[i] == s.visible[i])
  {
    ApplyAllVisible(s, done, f, 0);
    var r := ApplyAll(s, done, f, 0);
    var ids := Map(done, RowId);
    IdsOfSucceeded(done, targets, ok);
    forall i | 0 <= i < |s.visible| && s.visible[i].id !in ids
      ensures r.visible[i] == s.visible[i]
    {
      assert SameButFlag(s.visible[i], r.visible[i], f);
    }
  }

  /** The ids of the rows whose request succeeded are those of the targets that succeeded. */
  lemma IdsOfSucceeded(done: seq<Row>, targets: seq<Row>, ok: int -> bool)
    requires forall x :: x in done <==> x in targets && ok(x.id)
    ensures forall id :: id in Map(done, RowId) <==> exists x :: x in targets && ok(x.id) && x.id == id
  {
    var ids := Map(done, RowId);
    forall id | id in ids
      ensures exists x :: x in targets && ok(x.id) && x.id == id
    {
      var j :| 0 <= j < |ids| && ids[j] == id;
      assert done[j] in done;
    }
    forall id | exists x :: x in targets && ok(x.id) && x.id == id
      ensures id in ids
    {
      var x :| x in targets && ok(x.id) && x.id == id;
      var j :| 0 <= j < |done| && done[j] == x;
      assert ids[j] == x.id;
    }
  }

  /** Clicking a row twice asks for one value and then the other. */
  lemma SectionClickAlternates(d: Dialog, esp: Row, f: Field)
    ensures var v := SectionClick(d, esp, f).value;
            SectionClick(d, esp.WithFlag(f, v), f).value == 1 - v
  {
  }
}

=== FILE: countquery.dfy ===
/** The turn-count and turn-listing requests the frontend builds
    (`frontend/src/features/turno/api.ts`) and the Django views that answer
    them (`TurnoViewSet` and `TurnosMergedAllAPIView` in `backend/src/views.py`).
    Database rows are an input sequence; a turn id is text, as in the model. */
module CountQuery {
  import opened Wrappers
  import opened Text
  import opened Seqs
  import opened Url
  import Keyed
  import Sorting

  // ------------------------------------------------------------ shared data

  /** A `turno` row with the columns the views read. `fecha`/`hora` are day and second numbers. */
  datatype TurnoRow = TurnoRow(
    id: string, estado: int, fecha: int, hora: int,
    servicio: int, especialidad: int, efector: int,
    confirmado: int, reprogramado: int, cancelado: int, recordatorio: int)

  /** The key `new Map(all.map(t => [t.id, t]))` and `local_map` use. */
  function RowId(t: TurnoRow): string { t.id }

  /** The four message flags the `count` action sums. */
  function Recordatorio(t: TurnoRow): int { t.recordatorio }
  function Confirmado(t: TurnoRow): int { t.confirmado }
  function Cancelado(t: TurnoRow): int { t.cancelado }
  function Reprogramado(t: TurnoRow): int { t.reprogramado }

  /** The five integers of the `count` action. */
  datatype Counts = Counts(count: int, recordatorio: int, confirmacion: int, cancelacion: int, reprogramacion: int)

  // ------------------------------------------------------------ client side

  /** What `toCsv` accepts: one number or an array of numbers. */
  datatype Ids = One(n: int) | Many(ns: seq<int>)

  /** `ns.join(",")` of numbers. */
  function Csv(ns: seq<int>): string {
    Join(Map(ns, IntToString), ",")
  }

  function ToCsv(v: Option<Ids>): (r: Option<string>)
    ensures r.None? <==> v.None?
  {
    match v
    case None => None
    case Some(One(n)) => Some(IntToString(n))
    case Some(Many(ns)) => Some(Csv(ns))
  }

  /** `[key=value]` when the value is defined, nothing otherwise. */
  function Opt(key: string, v: Option<string>): (ps: seq<Param>)
    ensures |ps| <= 1
    ensures v.Some? ==> ps == [Param(key, v.value)]
    ensures v.None? <==> ps == []
  {
    if v.Some? then [Param(key, v.value)] else []
  }

  /** The parameters of `getTurnosCount`, in the order the code pushes them. */
  function CountParams(servicio: Option<Ids>, especialidad: Option<Ids>, efectores: Option<Ids>, estado: Option<int>): seq<Param> {
    Opt("id_servicio", ToCsv(servicio))
    + Opt("id_especialidad", ToCsv(especialidad))
    + Opt("id_estado", if estado.Some? then Some(IntToString(estado.value)) else None)
    + Opt("efectores", ToCsv(efectores))
  }

  /** The URL `getTurnosCount` requests. */
  function CountUrl(servicio: Option<Ids>, especialidad: Option<Ids>, efectores: Option<Ids>, estado: Option<int>): (url: string)
    ensures (servicio.None? && especialidad.None? && efectores.None? && estado.None?) <==> url == "turnos/count/"
    ensures '?' in url <==> (servicio.Some? || especialidad.Some? || efectores.Some? || estado.Some?)
  {
    CountParamsEmpty(servicio, especialidad, efectores, estado);
    assert '?' !in "turnos/count/";
    WithQuery("turnos/count/", CountParams(servicio, especialidad, efectores, estado))
  }

  lemma CountParamsEmpty(servicio: Option<Ids>, especialidad: Option<Ids>, efectores: Option<Ids>, estado: Option<int>)
    ensures |CountParams(servicio, especialidad, efectores, estado)| == 0 <==>
            servicio.None? && especialidad.None? && efectores.None? && estado.None?
  {
  }

  /** The JSON body of a count response; a field may be missing. */
  datatype CountsBody = CountsBody(
    count: Option<int>, recordatorio: Option<int>, confirmacion: Option<int>,
    cancelacion: Option<int>, reprogramacion: Option<int>)

  /** `Number(d.x ?? 0)` for each field of `res.data ?? {}`. */
  function ReadCounts(body: Option<CountsBody>): (c: Counts)
    ensures body.None? ==> c == Counts(0, 0, 0, 0, 0)
    ensures body.Some? ==>
              c.count == body.value.count.GetOr(0)
              && c.recordatorio == body.value.recordatorio.GetOr(0)
              && c.confirmacion == body.value.confirmacion.GetOr(0)
              && c.cancelacion == body.value.cancelacion.GetOr(0)
              && c.reprogramacion == body.value.reprogramacion.GetOr(0)
  {
    var d := body.GetOr(CountsBody(None, None, None, None, None));
    Counts(d.count.GetOr(0), d.recordatorio.GetOr(0), d.confirmacion.GetOr(0),
           d.cancelacion.GetOr(0), d.reprogramacion.GetOr(0))
  }

  /** The JSON the `count` action sends: every field present. */
  function CountsJson(c: Counts): CountsBody {
    CountsBody(Some(c.count), Some(c.recordatorio), Some(c.confirmacion), Some(c.cancelacion), Some(c.reprogramacion))
  }

  /** One `getTurnosAll(id_servicio, id_especialidad, id_estado)` request of the fallback. */
  datatype Combination = Combination(servicio: Option<int>, especialidad: Option<int>)

  /** `xs && xs.length ? xs : [undefined]`. */
  function OrUndefined(xs: Option<seq<int>>): (r: seq<Option<int>>)
    ensures |r| >= 1
    ensures xs.Some? && |xs.value| > 0 ==> |r| == |xs.value| && forall i :: 0 <= i < |r| ==> r[i] == Some(xs.value[i])
    ensures !(xs.Some? && |xs.value| > 0) ==> r == [None]
  {
    if xs.Some? && |xs.value| > 0 then Map(xs.value, (n: int) => Some(n)) else [None]
  }

  /** Every service paired with every specialty, services in the outer loop. */
  function Product(servs: seq<Option<int>>, esps: seq<Option<int>>): (r: seq<Combination>)
    ensures |r| == |servs| * |esps|
    ensures forall c :: c in r <==> c.servicio in servs && c.especialidad in esps
  {
    if |servs| == 0 then []
    else
      var head := Map(esps, (e: Option<int>) => Combination(servs[0], e));
      var rest := Product(servs[1..], esps);
      assert |servs| * |esps| == |esps| + (|servs| - 1) * |esps|;
      assert forall c :: c in head <==> c.servicio == servs[0] && c.especialidad in esps by {
        forall c: Combination | c.servicio == servs[0] && c.especialidad in esps
          ensures c in head
        {
          var j :| 0 <= j < |esps| && esps[j] == c.especialidad;
          assert head[j] == c;
        }
      }
      assert servs == [servs[0]] + servs[1..];
      head + rest
  }

  /** The requests `getTurnosByCombinations` issues. */
  function Combinations(servicios: Option<seq<int>>, especialidades: Option<seq<int>>): seq<Combination> {
    Product(OrUndefined(servicios), OrUndefined(especialidades))
  }

  function TurnosAllUrl(c: Combination, estado: Option<int>): string {
    WithQuery("turnos/",
      Opt("id_servicio", if c.servicio.Some? then Some(IntToString(c.servicio.value)) else None)
      + Opt("id_especialidad", if c.especialidad.Some? then Some(IntToString(c.especialidad.value)) else None)
      + Opt("id_estado", if estado.Some? then Some(IntToString(estado.value)) else None))
  }

  /** `Promise.all` of the per-combination responses, flattened and deduplicated by id;
      one failed request rejects the whole call. */
  function CombineResponses(responses: seq<Result<seq<TurnoRow>, string>>): (r: Result<seq<TurnoRow>, string>)
    ensures r.Err? <==> exists i :: 0 <= i < |responses| && responses[i].Err?
    ensures r.Ok? ==> Keyed.UniqueKeys(r.value, RowId)
    ensures r.Ok? ==> forall t :: t in r.value ==> exists i :: 0 <= i < |responses| && t in responses[i].value
    ensures r.Ok? ==> AllOk(responses).Ok? && Merges(r.value, Flatten(AllOk(responses).value))
  {
    var all := AllOk(responses);
    if all.Err? then Err(all.error)
    else
      var rows := Flatten(all.value);
      var unique := Keyed.ById(rows, RowId);
      assert forall t :: t in unique ==> t in rows by {
        forall t | t in unique
          ensures t in rows
        {
          var k :| 0 <= k < |unique| && unique[k] == t;
          Keyed.LookupOfMember(unique, k, RowId);
        }
      }
      Ok(unique)
  }

  /** `unique` is `rows` keyed by id: each id once, where it first appears, holding the last
      row with that id. */
  ghost predicate Merges(unique: seq<TurnoRow>, rows: seq<TurnoRow>) {
    Keyed.Keys(unique, RowId) == Dedup(Keyed.Keys(rows, RowId))
    && forall k {:trigger Keyed.Lookup(unique, k, RowId)} ::
         Keyed.Lookup(unique, k, RowId) == Keyed.LastWith(rows, k, RowId)
  }

  function AllOk<T>(responses: seq<Result<T, string>>): (r: Result<seq<T>, string>)
    ensures r.Err? <==> exists i :: 0 <= i < |responses| && responses[i].Err?
    ensures r.Ok? ==> |r.value| == |responses| && forall i :: 0 <= i < |responses| ==> responses[i] == Ok(r.value[i])
  {
    if |responses| == 0 then Ok([])
    else
      var rest := AllOk(responses[1..]);
      if responses[0].Err? then Err(responses[0].error)
      else if rest.Err? then Err(rest.error)
      else Ok([responses[0].value] + rest.value)
  }

  /** A request `getTurnosMergedLimit` / `getTurnosMergedAll` may issue. */
  datatype Request = NoRequest | Fetch(params: seq<Param>)

  function MergedLimitRequest(cantidad: int): (r: Request)
    ensures cantidad <= 0 <==> r == NoRequest
    ensures cantidad > 0 ==> r == Fetch([Param("cantidad", IntToString(cantidad))])
  {
    if cantidad <= 0 then NoRequest else Fetch([Param("cantidad", IntToString(cantidad))])
  }

  /** `getTurnosMergedAll(ids)`: `ids.map(String).map(encodeURIComponent).join(',')`. */
  function MergedAllRequest(ids: Option<seq<string>>): (r: Request)
    ensures ids == Some([]) <==> r == NoRequest
    ensures ids.None? <==> r == Fetch([])
  {
    if ids.Some? && |ids.value| == 0 then NoRequest
    else if ids.None? then Fetch([])
    else Fetch([Param("ids", Join(Map(ids.value, Encode), ","))])
  }

  // ------------------------------------------------------------ server side

  /** `_parse_csv_param`: the integers among the comma-separated pieces, or None. */
  function ParseCsvParam(v: Option<string>): (r: Option<seq<int>>)
    ensures v.None? || v == Some("") ==> r.None?
    ensures v.Some? ==> (r.Some? <==> exists p :: p in Split(v.value, ',') && Parses(p))
    ensures r.Some? ==> r.value == Map(Filter(Split(v.value, ','), Parses), ParsedValue)
    ensures r.Some? ==> |r.value| > 0
    ensures r.Some? ==> forall n :: n in r.value ==>
              exists p :: p in Split(v.value, ',') && ParseInt(p) == Some(n)
  {
    if v.None? || v.value == "" then None
    else
      var nums := ParseInts(Split(v.value, ','));
      assert |nums| == 0 <==> !exists p :: p in Split(v.value, ',') && Parses(p) by {
        var good := Filter(Split(v.value, ','), Parses);
        if |good| > 0 {
          assert good[0] in good;
        }
      }
      if |nums| == 0 then None else Some(nums)
  }

  /** `int(p.strip())` of every piece that is non-blank, skipping the ones that raise. */
  function ParseInts(pieces: seq<string>): (nums: seq<int>)
    ensures forall n :: n in nums ==> exists p :: p in pieces && ParseInt(p) == Some(n)
    ensures nums == Map(Filter(pieces, Parses), ParsedValue)
  {
    if |pieces| == 0 then []
    else
      var head := ParsePiece(pieces[0]);
      var tail := ParseInts(pieces[1..]);
      ParsedFromPieces(pieces, head, tail);
      MapFilterCons(pieces, Parses, ParsedValue);
      head + tail
  }

  /** `int(p)` succeeds on the piece. */
  predicate Parses(p: string) { ParseInt(p).Some? }

  /** What `int(p)` gives for a piece that parses. */
  function ParsedValue(p: string): int { ParseInt(p).GetOr(0) }

  /** `int(p.strip())` of one piece: nothing when it is blank or does not parse. */
  function ParsePiece(x: string): (r: seq<int>)
    ensures |r| <= 1
    ensures forall n :: n in r ==> ParseInt(x) == Some(n)
    ensures PyStrip(x) != "" && ParseInt(x).Some? ==> r == [ParseInt(x).value]
    ensures r == [] <==> ParseInt(x).None?
  {
    if PyStrip(x) == "" then [] else if ParseInt(x).Some? then [ParseInt(x).value] else []
  }

  lemma ParsedFromPieces(pieces: seq<string>, head: seq<int>, tail: seq<int>)
    requires |pieces| > 0
    requires forall n :: n in head ==> ParseInt(pieces[0]) == Some(n)
    requires forall n :: n in tail ==> exists p :: p in pieces[1..] && ParseInt(p) == Some(n)
    ensures forall n :: n in head + tail ==> exists p :: p in pieces && ParseInt(p) == Some(n)
  {
    forall n | n in head + tail
      ensures exists p :: p in pieces && ParseInt(p) == Some(n)
    {
      if n in head {
        assert pieces[0] in pieces;
      } else {
        var p :| p in pieces[1..] && ParseInt(p) == Some(n);
        assert p in pieces;
      }
    }
  }

  /** The filters `get_queryset` derives from the query parameters. */
  datatype Filters = Filters(
    servicios: Option<seq<int>>, especialidades: Option<seq<int>>,
    efectores: Option<seq<int>>, estado: Option<int>)

  /** `id_estado` is applied only when present, non-empty and an integer. */
  function EstadoFilter(v: Option<string>): (r: Option<int>)
    ensures r.Some? <==> v.Some? && v.value != "" && ParseInt(v.value).Some?
    ensures r.Some? ==> r == ParseInt(v.value)
  {
    if v.None? || v.value == "" then None else ParseInt(v.value)
  }

  function FiltersOf(ps: seq<Param>): Filters {
    var efs := ParseCsvParam(Get(ps, "efectores"));
    Filters(
      ParseCsvParam(Get(ps, "id_servicio")),
      ParseCsvParam(Get(ps, "id_especialidad")),
      if efs.Some? then efs else ParseCsvParam(Get(ps, "id_efector")),
      EstadoFilter(Get(ps, "id_estado")))
  }

  predicate Admits(f: Filters, t: TurnoRow) {
    (f.estado.None? || t.estado == f.estado.value)
    && (f.servicios.None? || t.servicio in f.servicios.value)
    && (f.especialidades.None? || t.especialidad in f.especialidades.value)
    && (f.efectores.None? || t.efector in f.efectores.value)
  }

  /** `get_queryset`. */
  function Queryset(rows: seq<TurnoRow>, f: Filters): (r: seq<TurnoRow>)
    ensures forall t :: t in r <==> t in rows && Admits(f, t)
  {
    Filter(rows, (t: TurnoRow) => Admits(f, t))
  }

  /** `Sum(field)` over the rows; 0 for none. */
  function SumOf(rows: seq<TurnoRow>, field: TurnoRow -> int): int {
    if |rows| == 0 then 0 else field(rows[0]) + SumOf(rows[1..], field)
  }

  /** The `count` action over the filtered rows; `Coalesce(Sum(..), 0)` makes an empty sum 0. */
  function CountAction(rows: seq<TurnoRow>, ps: seq<Param>): (c: Counts)
    ensures c.count == |Queryset(rows, FiltersOf(ps))|
    ensures c.count == 0 ==> c == Counts(0, 0, 0, 0, 0)
    ensures var qs := Queryset(rows, FiltersOf(ps));
            c.recordatorio == SumOf(qs, Recordatorio) && c.confirmacion == SumOf(qs, Confirmado)
            && c.cancelacion == SumOf(qs, Cancelado) && c.reprogramacion == SumOf(qs, Reprogramado)
  {
    CountsOf(Queryset(rows, FiltersOf(ps)))
  }

  /** The row count and the four flag totals of rows already filtered. */
  function CountsOf(qs: seq<TurnoRow>): Counts {
    Counts(|qs|, SumOf(qs, Recordatorio), SumOf(qs, Confirmado), SumOf(qs, Cancelado), SumOf(qs, Reprogramado))
  }

  /** Field-by-field sum of two counts. */
  function AddCounts(a: Counts, b: Counts): Counts {
    Counts(a.count + b.count, a.recordatorio + b.recordatorio, a.confirmacion + b.confirmacion,
           a.cancelacion + b.cancelacion, a.reprogramacion + b.reprogramacion)
  }

  /** Outcome of `TurnosMergedAllAPIView.get` up to the local rows (the external merge is not modelled). */
  datatype Merged = BadRequest(detail: string) | Found(rows: seq<TurnoRow>)

  /** Python's truthiness of an optional query value. */
  predicate Truthy(v: Option<string>) { v.Some? && v.value != "" }

  /** `cantidad`: absent or blank means no limit; otherwise a positive integer or an error. */
  function ParseCantidad(v: Option<string>): (r: Result<Option<nat>, string>)
    ensures !Truthy(v) ==> r == Ok(None)
    ensures Truthy(v) ==> (r.Ok? <==> ParseInt(v.value).Some? && ParseInt(v.value).value > 0)
    ensures r.Ok? && r.value.Some? ==> r.value.value > 0 && ParseInt(v.value) == Some(r.value.value as int)
  {
    if !Truthy(v) then Ok(None)
    else
      match ParseInt(v.value)
      case None => Err("cantidad")
      case Some(n) => if n <= 0 then Err("cantidad") else Ok(Some(n))
  }

  /** A piece `int()` rejects even after stripping. */
  predicate BadPiece(p: string) {
    PyStrip(p) != "" && ParseInt(p).None?
  }

  /** `[str(int(x.strip())) for x in ids.split(',') if x.strip() != '']`; one bad piece fails all. */
  function NormalizeIds(pieces: seq<string>): (r: Option<seq<string>>)
    ensures r.None? <==> exists p :: p in pieces && BadPiece(p)
    ensures r.Some? ==> r.value == Map(Filter(pieces, Parses), Rendered)
  {
    if |pieces| == 0 then Some([])
    else
      var rest := NormalizeIds(pieces[1..]);
      var here := NormalizePiece(pieces[0]);
      BadInCons(pieces);
      if here.None? || rest.None? then None
      else
        MapFilterCons(pieces, Parses, Rendered);
        Some(here.value + rest.value)
  }

  /** `str(int(x.strip()))` of a piece that parses. */
  function Rendered(p: string): string { IntToString(ParsedValue(p)) }

  /** One piece of `NormalizeIds`: nothing for a blank piece, its integer rendered again, or
      a failure. */
  function NormalizePiece(p: string): (r: Option<seq<string>>)
    ensures r.None? <==> BadPiece(p)
    ensures r.Some? ==> r.value == if Parses(p) then [IntToString(ParseInt(p).value)] else []
  {
    if PyStrip(p) == "" then Some([])
    else if ParseInt(p).Some? then Some([IntToString(ParseInt(p).value)])
    else None
  }

  lemma BadInCons(pieces: seq<string>)
    requires |pieces| > 0
    ensures (exists p :: p in pieces && BadPiece(p)) <==>
            BadPiece(pieces[0]) || exists p :: p in pieces[1..] && BadPiece(p)
  {
    assert pieces == [pieces[0]] + pieces[1..];
  }

  /** `s[:n]` for a non-negative `n`. */
  function Take<T>(s: seq<T>, n: Option<nat>): (r: seq<T>)
    ensures n.None? ==> r == s
    ensures n.Some? ==> |r| == if n.value < |s| then n.value else |s|
    ensures r <= s
  {
    if n.None? || n.value >= |s| then s else s[..n.value]
  }

  function FindRow(db: seq<TurnoRow>, id: string): (r: Option<TurnoRow>)
    ensures r.Some? ==> r.value in db && r.value.id == id
    ensures r.None? <==> forall t :: t in db ==> t.id != id
  {
    if |db| == 0 then None
    else if db[0].id == id then Some(db[0])
    else FindRow(db[1..], id)
  }

  /** `[local_map[i] for i in ids_order if i in local_map]`. */
  function InRequestedOrder(db: seq<TurnoRow>, order: seq<string>): (r: seq<TurnoRow>)
    ensures |r| <= |order|
    ensures forall t :: t in r ==> t in db && t.id in order
  {
    if |order| == 0 then []
    else
      var found := FindRow(db, order[0]);
      (if found.Some? then [found.value] else []) + InRequestedOrder(db, order[1..])
  }

  /** `order_by('-fecha', '-hora')`: newest first. */
  function NewestFirst(): (TurnoRow, TurnoRow) -> bool {
    (a: TurnoRow, b: TurnoRow) => a.fecha > b.fecha || (a.fecha == b.fecha && a.hora >= b.hora)
  }

  /** `i in local_map`: some stored row has id `i`. */
  function Stored(db: seq<TurnoRow>): string -> bool {
    (i: string) => FindRow(db, i).Some?
  }

  function MergedLocal(idsParam: Option<string>, cantidadParam: Option<string>, db: seq<TurnoRow>): (r: Merged)
    ensures ParseCantidad(cantidadParam).Err? ==> r.BadRequest?
    ensures r.Found? && ParseCantidad(cantidadParam).Ok? && ParseCantidad(cantidadParam).value.Some? ==>
              |r.rows| <= ParseCantidad(cantidadParam).value.value
    ensures r.Found? ==> forall t :: t in r.rows ==> t in db
    ensures ParseCantidad(cantidadParam).Ok? && Truthy(idsParam) ==>
              (r.BadRequest? <==> NormalizeIds(Split(idsParam.value, ',')).None?)
              && (r.BadRequest? ==> r.detail == "ids")
    ensures ParseCantidad(cantidadParam).Ok? && Truthy(idsParam) && r.Found? ==>
              var order := NormalizeIds(Split(idsParam.value, ','));
              order.Some? &&
              Map(r.rows, RowId) == Filter(Take(order.value, ParseCantidad(cantidadParam).value), Stored(db))
    ensures ParseCantidad(cantidadParam).Ok? && !Truthy(idsParam) ==>
              r.Found? && Sorting.SortedBy(r.rows, NewestFirst())
              && multiset(r.rows) <= multiset(db)
              && |r.rows| == |Take(db, ParseCantidad(cantidadParam).value)|
              && forall t, u :: t in multiset(db) - multiset(r.rows) && u in r.rows ==> NewestFirst()(u, t)
  {
    match ParseCantidad(cantidadParam)
    case Err(e) => BadRequest(e)
    case Ok(cantidad) =>
      if Truthy(idsParam) then
        match NormalizeIds(Split(idsParam.value, ','))
        case None => BadRequest("ids")
        case Some(order) =>
          RequestedOrderIds(db, Take(order, cantidad));
          Found(InRequestedOrder(db, Take(order, cantidad)))
      else
        NewestPrefix(db, cantidad);
        Found(Take(Sorting.SortBy(db, NewestFirst()), cantidad))
  }

  // ---------------------------------------------------------------- lemmas

  /** The server reads back exactly the parameters `getTurnosCount` put in its URL. */
  lemma CountParamsRoundTrip(servicio: Option<Ids>, especialidad: Option<Ids>, efectores: Option<Ids>, estado: Option<int>)
    ensures var ps := CountParams(servicio, especialidad, efectores, estado);
            ParseQuery(QueryPart(CountUrl(servicio, especialidad, efectores, estado))) == ps
  {
    CountParamsAscii(servicio, especialidad, efectores, estado);
    assert '?' !in "turnos/count/";
    ParseQueryOfUrl("turnos/count/", CountParams(servicio, especialidad, efectores, estado));
  }

  lemma CountParamsAscii(servicio: Option<Ids>, especialidad: Option<Ids>, efectores: Option<Ids>, estado: Option<int>)
    ensures AsciiParams(CountParams(servicio, especialidad, efectores, estado))
  {
    var est := if estado.Some? then Some(IntToString(estado.value)) else None;
    var a := Opt("id_servicio", ToCsv(servicio));
    var b := Opt("id_especialidad", ToCsv(especialidad));
    var c := Opt("id_estado", est);
    var d := Opt("efectores", ToCsv(efectores));
    ToCsvAscii(servicio);
    ToCsvAscii(especialidad);
    ToCsvAscii(efectores);
    if estado.Some? {
      IntToStringAscii(estado.value);
    }
    CountKeysAscii();
    OptAscii("id_servicio", ToCsv(servicio));
    OptAscii("id_especialidad", ToCsv(especialidad));
    OptAscii("id_estado", est);
    OptAscii("efectores", ToCsv(efectores));
    AsciiParamsAppend(a, b);
    AsciiParamsAppend(a + b, c);
    AsciiParamsAppend(a + b + c, d);
  }

  lemma CountParamsLookup(servicio: Option<Ids>, especialidad: Option<Ids>, efectores: Option<Ids>, estado: Option<int>, name: string)
    ensures var est := if estado.Some? then Some(IntToString(estado.value)) else None;
            Get(CountParams(servicio, especialidad, efectores, estado), name) ==
              if name == "efectores" && ToCsv(efectores).Some? then ToCsv(efectores)
              else if name == "id_estado" && est.Some? then est
              else if name == "id_especialidad" && ToCsv(especialidad).Some? then ToCsv(especialidad)
              else if name == "id_servicio" then ToCsv(servicio)
              else None
  {
    var a := Opt("id_servicio", ToCsv(servicio));
    var b := Opt("id_especialidad", ToCsv(especialidad));
    var c := Opt("id_estado", if estado.Some? then Some(IntToString(estado.value)) else None);
    var d := Opt("efectores", ToCsv(efectores));
    GetAppend(a + b + c, d, name);
    GetAppend(a + b, c, name);
    GetAppend(a, b, name);
  }

  lemma CountKeysAscii()
    ensures IsAscii("id_servicio") && IsAscii("id_especialidad") && IsAscii("id_estado") && IsAscii("efectores")
  {
  }

  lemma OptAscii(key: string, v: Option<string>)
    requires IsAscii(key)
    requires v.Some? ==> IsAscii(v.value)
    ensures AsciiParams(Opt(key, v))
  {
  }

  lemma ToCsvAscii(v: Option<Ids>)
    ensures ToCsv(v).Some? ==> IsAscii(ToCsv(v).value)
  {
    match v
    case None =>
    case Some(One(n)) => IntToStringAscii(n);
    case Some(Many(ns)) => CsvAscii(ns);
  }

  /** Each parameter of the count URL is read under its own name, and `id_efector` is never sent. */
  lemma CountParamsGet(servicio: Option<Ids>, especialidad: Option<Ids>, efectores: Option<Ids>, estado: Option<int>)
    ensures var ps := CountParams(servicio, especialidad, efectores, estado);
            Get(ps, "id_servicio") == ToCsv(servicio)
            && Get(ps, "id_especialidad") == ToCsv(especialidad)
            && Get(ps, "id_estado") == (if estado.Some? then Some(IntToString(estado.value)) else None)
            && Get(ps, "efectores") == ToCsv(efectores)
            && Get(ps, "id_efector") == None
  {
    CountParamsLookup(servicio, especialidad, efectores, estado, "id_servicio");
    CountParamsLookup(servicio, especialidad, efectores, estado, "id_especialidad");
    CountParamsLookup(servicio, especialidad, efectores, estado, "id_estado");
    CountParamsLookup(servicio, especialidad, efectores, estado, "efectores");
    CountParamsLookup(servicio, especialidad, efectores, estado, "id_efector");
  }

  lemma IntToStringAscii(n: int)
    ensures IsAscii(IntToString(n)) && ',' !in IntToString(n) && '&' !in IntToString(n)
    ensures forall k :: 0 <= k < |IntToString(n)| ==> !PyIsSpace(IntToString(n)[k])
  {
    IntToStringNoSpace(n);
    var s := IntToString(n);
    var d := NatToDigits(if n < 0 then -n else n);
    assert n < 0 ==> s == "-" + d;
    assert n >= 0 ==> s == d;
    forall k | 0 <= k < |s|
      ensures s[k] < 128 as char && s[k] != ','
    {
      if n < 0 && k > 0 {
        assert s[k] == d[k - 1] && IsDigit(d[k - 1]);
      } else if n >= 0 {
        assert IsDigit(d[k]);
      }
    }
  }

  lemma CsvAscii(ns: seq<int>)
    ensures IsAscii(Csv(ns))
  {
    var parts := Map(ns, IntToString);
    forall i | 0 <= i < |parts|
      ensures IsAscii(parts[i])
    {
      IntToStringAscii(ns[i]);
    }
    JoinAscii(parts, ",");
  }

  lemma {:induction false} JoinAscii(parts: seq<string>, sep: string)
    requires IsAscii(sep)
    requires forall i :: 0 <= i < |parts| ==> IsAscii(parts[i])
    ensures IsAscii(Join(parts, sep))
    decreases |parts|
  {
    if |parts| > 1 {
      JoinAscii(parts[1..], sep);
    }
  }

  /** The server's `_parse_csv_param` reads back exactly the ids the frontend joined. */
  lemma {:induction false} ParseCsvOfCsv(ns: seq<int>)
    ensures ParseCsvParam(Some(Csv(ns))) == if |ns| == 0 then None else Some(ns)
  {
    if |ns| > 0 {
      var parts := Map(ns, IntToString);
      forall i | 0 <= i < |parts|
        ensures ',' !in parts[i]
      {
        IntToStringAscii(ns[i]);
      }
      SplitJoin(parts, ',');
      assert Csv(ns) != "" by {
        assert |parts[0]| >= 1;
        JoinStartsWith(parts, ",");
      }
      ParseIntsOfRendered(ns);
    }
  }

  lemma JoinStartsWith(parts: seq<string>, sep: string)
    requires |parts| > 0
    ensures parts[0] <= Join(parts, sep)
  {
  }

  lemma ParseIntsOfRendered(ns: seq<int>)
    ensures ParseInts(Map(ns, IntToString)) == ns
  {
    var pieces := Map(ns, IntToString);
    forall i | 0 <= i < |pieces|
      ensures PyStrip(pieces[i]) != "" && ParseInt(pieces[i]) == Some(ns[i])
    {
      RenderedPiece(ns[i]);
    }
    ParseIntsOfParsable(pieces, ns);
  }

  /** Pieces that are each non-blank and parse parse to the list of their numbers. */
  lemma {:induction false} ParseIntsOfParsable(pieces: seq<string>, ns: seq<int>)
    requires |pieces| == |ns|
    requires forall i :: 0 <= i < |pieces| ==> PyStrip(pieces[i]) != "" && ParseInt(pieces[i]) == Some(ns[i])
    ensures ParseInts(pieces) == ns
    decreases |pieces|
  {
    if |pieces| > 0 {
      ParseIntsOfParsable(pieces[1..], ns[1..]);
      ParseIntsCons(pieces, ns[0]);
      assert [ns[0]] + ns[1..] == ns;
    }
  }

  lemma ParseIntsCons(pieces: seq<string>, n: int)
    requires |pieces| > 0 && PyStrip(pieces[0]) != "" && ParseInt(pieces[0]) == Some(n)
    ensures ParseInts(pieces) == [n] + ParseInts(pieces[1..])
  {
  }

  /** A rendered integer is a non-blank piece that parses back to itself. */
  lemma RenderedPiece(i: int)
    ensures PyStrip(IntToString(i)) != "" && ParseInt(IntToString(i)) == Some(i)
  {
    var t := IntToString(i);
    IntToStringNoSpace(i);
    PyStripNoSpace(t);
    ParseIntOfIntToString(i);
    assert PyStrip(t) == t && |t| > 0;
  }

  /** A count the server computes reaches the page unchanged. */
  lemma ReadCountsOfJson(c: Counts)
    ensures ReadCounts(Some(CountsJson(c))) == c
  {
  }

  /** `getTurnosByCombinations` issues max(1,|S|) * max(1,|E|) requests. */
  lemma CombinationCount(servicios: Option<seq<int>>, especialidades: Option<seq<int>>)
    ensures |Combinations(servicios, especialidades)| ==
      (if servicios.Some? && |servicios.value| > 0 then |servicios.value| else 1) *
      (if especialidades.Some? && |especialidades.value| > 0 then |especialidades.value| else 1)
  {
  }

  /** Ids the frontend sends to the merged listing come back in the same order, as rendered numbers. */
  lemma {:induction false} MergedIdsRoundTrip(ids: seq<int>)
    requires |ids| > 0
    ensures var req := MergedAllRequest(Some(Map(ids, IntToString)));
            req.Fetch? && |req.params| == 1 &&
            NormalizeIds(Split(req.params[0].value, ',')) == Some(Map(ids, IntToString))
  {
    var strs := Map(ids, IntToString);
    EncodeRendered(ids);
    assert Map(strs, Encode) == strs;
    forall i | 0 <= i < |strs|
      ensures ',' !in strs[i]
    {
      IntToStringAscii(ids[i]);
    }
    SplitJoin(strs, ',');
    NormalizeRendered(ids);
  }

  lemma EncodeRendered(ids: seq<int>)
    ensures Map(Map(ids, IntToString), Encode) == Map(ids, IntToString)
  {
    var strs := Map(ids, IntToString);
    forall i | 0 <= i < |strs|
      ensures Encode(strs[i]) == strs[i]
    {
      RenderedUnreserved(ids[i]);
    }
  }

  lemma RenderedUnreserved(n: int)
    ensures Encode(IntToString(n)) == IntToString(n)
  {
    var s := IntToString(n);
    var d := NatToDigits(if n < 0 then -n else n);
    assert n < 0 ==> s == "-" + d;
    forall k | 0 <= k < |s|
      ensures Unreserved(s[k])
    {
      if n < 0 && k > 0 {
        assert s[k] == d[k - 1] && IsDigit(d[k - 1]);
      } else if n >= 0 {
        assert IsDigit(d[k]);
      }
    }
    EncodeUnreserved(s);
  }

  lemma {:induction false} EncodeUnreserved(s: string)
    requires forall k :: 0 <= k < |s| ==> Unreserved(s[k])
    ensures Encode(s) == s
    decreases |s|
  {
    if |s| > 0 {
      EncodeUnreserved(s[1..]);
      assert s == [s[0]] + s[1..];
    }
  }

  lemma {:induction false} NormalizeRendered(ids: seq<int>)
    ensures NormalizeIds(Map(ids, IntToString)) == Some(Map(ids, IntToString))
    decreases |ids|
  {
    if |ids| > 0 {
      var s := IntToString(ids[0]);
      IntToStringAscii(ids[0]);
      PyStripNoSpace(s);
      ParseIntOfIntToString(ids[0]);
      assert Map(ids, IntToString)[1..] == Map(ids[1..], IntToString);
      NormalizeRendered(ids[1..]);
    }
  }

  /** With ids, the rows follow the requested order: exactly the requested ids that exist. */
  lemma {:induction false} RequestedOrderIds(db: seq<TurnoRow>, order: seq<string>)
    ensures Map(InRequestedOrder(db, order), RowId) == Filter(order, Stored(db))
    decreases |order|
  {
    if |order| > 0 {
      RequestedOrderIds(db, order[1..]);
      var found := FindRow(db, order[0]);
      var rest := InRequestedOrder(db, order[1..]);
      if found.Some? {
        assert Map([found.value] + rest, RowId) == [order[0]] + Map(rest, RowId);
      } else {
        assert InRequestedOrder(db, order) == rest;
      }
    }
  }

  /** The first `cantidad` rows, newest first. */
  lemma NewestPrefix(db: seq<TurnoRow>, cantidad: Option<nat>)
    ensures var r := Take(Sorting.SortBy(db, NewestFirst()), cantidad);
            Sorting.SortedBy(r, NewestFirst()) && multiset(r) <= multiset(db)
            && |r| == |Take(db, cantidad)| && forall t :: t in r ==> t in db
    ensures var r := Take(Sorting.SortBy(db, NewestFirst()), cantidad);
            forall t, u :: t in multiset(db) - multiset(r) && u in r ==> NewestFirst()(u, t)
  {
    var sorted := Sorting.SortBy(db, NewestFirst());
    Sorting.SortByMembers(db, NewestFirst());
    NewestFirstIsPreorder();
    Sorting.SortBySorted(db, NewestFirst());
    var r := Take(sorted, cantidad);
    assert sorted == r + sorted[|r|..];
    NewestPrefixBeatsRest(db, cantidad);
  }

  /** Every row the prefix leaves out is no newer than every row it keeps. */
  lemma NewestPrefixBeatsRest(db: seq<TurnoRow>, cantidad: Option<nat>)
    ensures var r := Take(Sorting.SortBy(db, NewestFirst()), cantidad);
            forall t, u :: t in multiset(db) - multiset(r) && u in r ==> NewestFirst()(u, t)
  {
    var sorted := Sorting.SortBy(db, NewestFirst());
    NewestFirstIsPreorder();
    Sorting.SortBySorted(db, NewestFirst());
    TakeIsPrefix(sorted, cantidad);
    Sorting.PrefixPrecedesRest(sorted, |Take(sorted, cantidad)|, NewestFirst());
  }

  /** `Take` keeps a prefix. */
  lemma TakeIsPrefix<T>(s: seq<T>, n: Option<nat>)
    ensures Take(s, n) == s[..|Take(s, n)|]
  {
  }

  lemma NewestFirstIsPreorder()
    ensures Sorting.TotalPreorder(NewestFirst())
  {
  }

  /** When no id repeats across the responses, the merge keeps every row, in response order. */
  lemma CombineOfDistinct(responses: seq<seq<TurnoRow>>)
    requires Keyed.UniqueKeys(Flatten(responses), RowId)
    ensures CombineResponses(Map(responses, (rows: seq<TurnoRow>) => Ok(rows))) == Ok(Flatten(responses))
  {
    var rs := Map(responses, (rows: seq<TurnoRow>) => Ok(rows));
    var all := AllOk(rs);
    assert forall i :: 0 <= i < |rs| ==> rs[i].Ok?;
    assert all.value == responses;
    Keyed.ByIdOfUnique(Flatten(responses), RowId);
  }

  /** The row a later response gives for an id replaces an earlier one. */
  lemma CombineLastWins(first: seq<TurnoRow>, second: seq<TurnoRow>, id: string)
    requires id in Keyed.Keys(second, RowId)
    ensures var r := CombineResponses([Ok(first), Ok(second)]);
            r.Ok? && Keyed.Lookup(r.value, id, RowId) == Keyed.LastWith(second, id, RowId)
  {
    var rs: seq<Result<seq<TurnoRow>, string>> := [Ok(first), Ok(second)];
    assert AllOk(rs).value == [first, second];
    assert Flatten([first, second]) == first + second by {
      assert Flatten([first, second][1..]) == second + Flatten([]);
    }
    Keyed.LastWithAppend(first, second, id, RowId);
  }

  /** `Sum` and `Count` over two tables together are the sums over each. */
  lemma {:induction false} SumOfAppend(a: seq<TurnoRow>, b: seq<TurnoRow>, field: TurnoRow -> int)
    ensures SumOf(a + b, field) == SumOf(a, field) + SumOf(b, field)
    decreases |a|
  {
    if |a| == 0 {
      assert a + b == b;
    } else {
      assert (a + b)[0] == a[0] && (a + b)[1..] == a[1..] + b;
      SumOfAppend(a[1..], b, field);
    }
  }

  /** Counting two sets of rows together gives the field-by-field sum of counting each. */
  lemma CountActionAppend(a: seq<TurnoRow>, b: seq<TurnoRow>, ps: seq<Param>)
    ensures CountAction(a + b, ps) == AddCounts(CountAction(a, ps), CountAction(b, ps))
  {
    var f := FiltersOf(ps);
    QuerysetAppend(a, b, f);
    CountsOfAppend(Queryset(a, f), Queryset(b, f));
  }

  /** The totals of two lists of filtered rows together are the sums of their totals. */
  lemma CountsOfAppend(qa: seq<TurnoRow>, qb: seq<TurnoRow>)
    ensures CountsOf(qa + qb) == AddCounts(CountsOf(qa), CountsOf(qb))
  {
    SumsAppend(qa, qb);
    AddFields(CountsOf(qa + qb), CountsOf(qa), CountsOf(qb));
  }

  /** The rows kept from two lists are the rows kept from each, in order. */
  lemma QuerysetAppend(a: seq<TurnoRow>, b: seq<TurnoRow>, f: Filters)
    ensures Queryset(a + b, f) == Queryset(a, f) + Queryset(b, f)
  {
    FilterConcat(a, b, (t: TurnoRow) => Admits(f, t));
  }

  /** Counts that add up counter by counter are the field-by-field sum. */
  lemma AddFields(c: Counts, x: Counts, y: Counts)
    requires c.count == x.count + y.count && c.recordatorio == x.recordatorio + y.recordatorio
    requires c.confirmacion == x.confirmacion + y.confirmacion && c.cancelacion == x.cancelacion + y.cancelacion
    requires c.reprogramacion == x.reprogramacion + y.reprogramacion
    ensures c == AddCounts(x, y)
  {
  }

  /** Each flag's sum over two lists is the sum of its sums over each. */
  lemma SumsAppend(qa: seq<TurnoRow>, qb: seq<TurnoRow>)
    ensures SumOf(qa + qb, Recordatorio) == SumOf(qa, Recordatorio) + SumOf(qb, Recordatorio)
    ensures SumOf(qa + qb, Confirmado) == SumOf(qa, Confirmado) + SumOf(qb, Confirmado)
    ensures SumOf(qa + qb, Cancelado) == SumOf(qa, Cancelado) + SumOf(qb, Cancelado)
    ensures SumOf(qa + qb, Reprogramado) == SumOf(qa, Reprogramado) + SumOf(qb, Reprogramado)
  {
    SumOfAppend(qa, qb, Recordatorio);
    SumOfAppend(qa, qb, Confirmado);
    SumOfAppend(qa, qb, Cancelado);
    SumOfAppend(qa, qb, Reprogramado);
  }

  /** A message flag is 0 or 1. */
  predicate IsFlag(n: int) { n == 0 || n == 1 }

  /** With 0/1 flags, a flag's sum is the number of counted rows with the flag set. */
  lemma {:induction false} SumOfFlags(rows: seq<TurnoRow>, field: TurnoRow -> int)
    requires forall i :: 0 <= i < |rows| ==> IsFlag(field(rows[i]))
    ensures SumOf(rows, field) == |Filter(rows, (t: TurnoRow) => field(t) == 1)|
    ensures 0 <= SumOf(rows, field) <= |rows|
    decreases |rows|
  {
    if |rows| > 0 {
      assert forall i :: 0 <= i < |rows[1..]| ==> rows[1..][i] == rows[i + 1];
      SumOfFlags(rows[1..], field);
    }
  }

  /** With 0/1 flags in every row, each flag total lies between 0 and the row count. */
  lemma CountActionBounds(rows: seq<TurnoRow>, ps: seq<Param>)
    requires forall t :: t in rows ==>
               IsFlag(t.recordatorio) && IsFlag(t.confirmado) && IsFlag(t.cancelado) && IsFlag(t.reprogramado)
    ensures var c := CountAction(rows, ps);
            0 <= c.recordatorio <= c.count && 0 <= c.confirmacion <= c.count
            && 0 <= c.cancelacion <= c.count && 0 <= c.reprogramacion <= c.count
  {
    var qs := Queryset(rows, FiltersOf(ps));
    assert forall i :: 0 <= i < |qs| ==> qs[i] in rows by {
      forall i | 0 <= i < |qs|
        ensures qs[i] in rows
      {
        assert qs[i] in qs;
      }
    }
    SumOfFlags(qs, Recordatorio);
    SumOfFlags(qs, Confirmado);
    SumOfFlags(qs, Cancelado);
    SumOfFlags(qs, Reprogramado);
  }

  /** `cantidad=1_000` asks for as many rows as `cantidad=1000`: `int()` reads past an
      underscore between digits. */
  lemma CantidadWithUnderscore(a: string, b: string)
    requires |a| > 0 && AllDigits(a) && |b| > 0 && AllDigits(b)
    ensures ParseCantidad(Some(a + "_" + b)) == ParseCantidad(Some(a + b))
  {
    ParseIntSkipsUnderscore(a, b);
  }


}

=== FILE: csv.dfy ===
/** The CSV export shared by the table screens (`TurnoPage.tsx`,
    `HistoricoPage.tsx`, `EsperaHistoricoPage.tsx`): every cell is wrapped in
    double quotes with inner quotes doubled, cells are joined by `,` and rows
    by a line feed. A reader for that format is defined alongside, so that the
    export can be shown to lose nothing. */
module Csv {
  import opened Wrappers

  /** `String(cell).replace(/"/g, '""')`. */
  function Escape(s: string): (r: string)
    ensures |r| >= |s|
  {
    if |s| == 0 then ""
    else (if s[0] == '"' then "\"\"" else [s[0]]) + Escape(s[1..])
  }

  /** `` `"${...}"` ``: the quoted cell. */
  function Quote(s: string): (r: string)
    ensures |r| >= 2 && r[0] == '"' && r[|r| - 1] == '"'
  {
    "\"" + Escape(s) + "\""
  }

  /** `cells.join(',')` over the quoted cells. */
  function Line(cells: seq<string>): string {
    if |cells| == 0 then ""
    else if |cells| == 1 then Quote(cells[0])
    else Quote(cells[0]) + "," + Line(cells[1..])
  }

  /** `lines.join('\n')`. */
  function Document(rows: seq<seq<string>>): string {
    if |rows| == 0 then ""
    else if |rows| == 1 then Line(rows[0])
    else Line(rows[0]) + "\n" + Document(rows[1..])
  }

  // ---------------------------------------------------------------- reader

  /** Reads the body of a quoted cell up to its closing quote, turning `""` back into `"`;
      returns the cell and the text after the closing quote. */
  function ScanQuoted(s: string, acc: string): (r: Option<(string, string)>)
    ensures r.Some? ==> |r.value.1| < |s|
    decreases |s|
  {
    if |s| == 0 then None
    else if s[0] == '"' then
      if |s| >= 2 && s[1] == '"' then ScanQuoted(s[2..], acc + "\"")
      else Some((acc, s[1..]))
    else ScanQuoted(s[1..], acc + [s[0]])
  }

  /** Reads one quoted cell at the front of `s`. */
  function ReadCell(s: string): (r: Option<(string, string)>)
    ensures r.Some? ==> |r.value.1| < |s|
  {
    if |s| > 0 && s[0] == '"' then ScanQuoted(s[1..], "") else None
  }

  /** Reads a line of cells separated by `,`; returns the cells and the text after them. */
  function ReadLine(s: string): (r: Option<(seq<string>, string)>)
    ensures r.Some? ==> |r.value.0| >= 1 && |r.value.1| < |s|
    decreases |s|
  {
    match ReadCell(s)
    case None => None
    case Some((cell, rest)) =>
      if |rest| > 0 && rest[0] == ',' then
        match ReadLine(rest[1..])
        case None => None
        case Some((cells, tail)) => Some(([cell] + cells, tail))
      else Some(([cell], rest))
  }

  /** Reads a whole document: lines separated by line feeds, nothing left over. */
  function ReadDocument(s: string): (r: Option<seq<seq<string>>>)
    ensures r.Some? ==> |r.value| >= 1
    decreases |s|
  {
    match ReadLine(s)
    case None => None
    case Some((cells, rest)) =>
      if |rest| == 0 then Some([cells])
      else if rest[0] == '\n' then
        match ReadDocument(rest[1..])
        case None => None
        case Some(rows) => Some([cells] + rows)
      else None
  }

  // ---------------------------------------------------------------- lemmas

  /** The escaped text of a cell is read back up to the closing quote, whatever follows. */
  lemma {:induction false} ScanEscaped(v: string, acc: string, rest: string)
    requires |rest| == 0 || rest[0] != '"'
    ensures ScanQuoted(Escape(v) + "\"" + rest, acc) == Some((acc + v, rest))
    decreases |v|
  {
    if |v| == 0 {
      ScanClosing(acc, rest);
      assert Escape(v) + "\"" + rest == "\"" + rest;
      assert acc + v == acc;
    } else if v[0] == '"' {
      ScanStep(v, acc, rest);
      ScanEscaped(v[1..], acc + "\"", rest);
      assert acc + "\"" + v[1..] == acc + v;
    } else {
      ScanStep(v, acc, rest);
      ScanEscaped(v[1..], acc + [v[0]], rest);
      assert acc + [v[0]] + v[1..] == acc + v;
    }
  }

  /** The closing quote ends the cell when no second quote follows it. */
  lemma ScanClosing(acc: string, rest: string)
    requires |rest| == 0 || rest[0] != '"'
    ensures ScanQuoted("\"" + rest, acc) == Some((acc, rest))
  {
    var s := "\"" + rest;
    assert s[1..] == rest;
    assert !(|s| >= 2 && s[1] == '"');
  }

  /** Scanning the escape of `v` consumes its first character, a doubled quote for a quote. */
  lemma ScanStep(v: string, acc: string, rest: string)
    requires |v| > 0
    ensures var next := if v[0] == '"' then acc + "\"" else acc + [v[0]];
            ScanQuoted(Escape(v) + "\"" + rest, acc) == ScanQuoted(Escape(v[1..]) + "\"" + rest, next)
  {
    var s := Escape(v) + "\"" + rest;
    if v[0] == '"' {
      assert s == "\"\"" + (Escape(v[1..]) + "\"" + rest);
      assert s[2..] == Escape(v[1..]) + "\"" + rest;
    } else {
      assert s == [v[0]] + (Escape(v[1..]) + "\"" + rest);
      assert s[1..] == Escape(v[1..]) + "\"" + rest;
    }
  }

  /** A quoted cell is read back as the original text, when what follows it is not a quote. */
  lemma ReadQuoted(v: string, rest: string)
    requires |rest| == 0 || rest[0] != '"'
    ensures ReadCell(Quote(v) + rest) == Some((v, rest))
  {
    var s := Quote(v) + rest;
    assert s[1..] == Escape(v) + "\"" + rest;
    ScanEscaped(v, "", rest);
    assert "" + v == v;
  }

  /** A line of one or more cells, followed by anything that starts with neither `,` nor a
      quote, is read back as the same cells. */
  lemma {:induction false} ReadLineOfLine(cells: seq<string>, rest: string)
    requires |cells| >= 1
    requires |rest| == 0 || (rest[0] != ',' && rest[0] != '"')
    ensures ReadLine(Line(cells) + rest) == Some((cells, rest))
    decreases |cells|
  {
    if |cells| == 1 {
      ReadQuoted(cells[0], rest);
      assert Line(cells) + rest == Quote(cells[0]) + rest;
      assert cells == [cells[0]];
    } else {
      var tail := Line(cells[1..]) + rest;
      assert Line(cells) + rest == Quote(cells[0]) + ("," + tail);
      ReadQuoted(cells[0], "," + tail);
      ReadLineOfLine(cells[1..], rest);
      ReadLineCons(Quote(cells[0]) + ("," + tail), cells[0], tail, cells[1..], rest);
      assert [cells[0]] + cells[1..] == cells;
    }
  }

  /** A cell followed by a comma and a line reads as that cell in front of the line's cells. */
  lemma ReadLineCons(s: string, cell: string, tail: string, cells: seq<string>, rest: string)
    requires ReadCell(s) == Some((cell, "," + tail))
    requires ReadLine(tail) == Some((cells, rest))
    ensures ReadLine(s) == Some(([cell] + cells, rest))
  {
    assert ("," + tail)[1..] == tail;
  }

  /** The export loses nothing: reading a document back gives the rows it was written from,
      provided no row is empty (an empty row writes an empty line, which has no cell to read). */
  lemma {:induction false} ReadDocumentOfDocument(rows: seq<seq<string>>)
    requires |rows| >= 1
    requires forall i :: 0 <= i < |rows| ==> |rows[i]| >= 1
    ensures ReadDocument(Document(rows)) == Some(rows)
    decreases |rows|
  {
    if |rows| == 1 {
      ReadLineOfLine(rows[0], "");
      assert Document(rows) == Line(rows[0]) + "" == Line(rows[0]);
      assert rows == [rows[0]];
    } else {
      var tail := Document(rows[1..]);
      ReadLineOfLine(rows[0], "\n" + tail);
      assert Document(rows) == Line(rows[0]) + ("\n" + tail);
      assert ("\n" + tail)[1..] == tail;
      ReadDocumentOfDocument(rows[1..]);
      assert [rows[0]] + rows[1..] == rows;
    }
  }

  /** Escaping doubles exactly the quotes: a cell without quotes is written as is. */
  lemma {:induction false} EscapeWithoutQuotes(s: string)
    requires '"' !in s
    ensures Escape(s) == s
    decreases |s|
  {
    if |s| > 0 {
      assert '"' !in s[1..] by {
        forall i | 0 <= i < |s[1..]|
          ensures s[1..][i] != '"'
        {
          assert s[1..][i] == s[i + 1];
        }
      }
      EscapeWithoutQuotes(s[1..]);
    }
  }
}

=== FILE: history.dfy ===
/** The appointment history of one patient (`frontend/src/pages/HistoricoPage.tsx`):
    the DNI input and its validation, the search, the client-side order by
    modification time, the CSV export and the colour of a state chip. */
module History {
  import opened Wrappers
  import opened Seqs
  import opened Text
  import opened Sorting
  import Csv

  const Required := "El DNI es requerido"
  const Malformed := "DNI inválido (sólo dígitos, 3-15 caracteres)"

  /** `/^\d{3,15}$/`. */
  predicate DniShape(t: string) {
    3 <= |t| <= 15 && AllDigits(t)
  }

  /** `validateDni`: the error shown under the input, or none. */
  function ValidateDni(val: string): (r: Option<string>)
    ensures r.None? <==> DniShape(Strip(val))
    ensures r == Some(Required) <==> AllSpace(val)
  {
    StripBlank(val);
    var t := Strip(val);
    if t == "" then Some(Required)
    else if !DniShape(t) then Some(Malformed)
    else None
  }

  /** The input's `onChange`: `value.replace(/\s+/g, '')`. */
  function DniInput(typed: string): (r: string)
    ensures forall i :: 0 <= i < |r| ==> !IsSpace(r[i])
    ensures forall c :: !IsSpace(c) ==> (c in r <==> c in typed)
    ensures |r| <= |typed|
  {
    if |typed| == 0 then ""
    else if IsSpace(typed[0]) then DniInput(typed[1..])
    else [typed[0]] + DniInput(typed[1..])
  }

  /** A row of the history. `mdf` is the modification time in milliseconds (`getTime()` of the
      parsed `fecha_hora_mdf`), absent when the field is missing or empty. */
  datatype Item = Item(mdf: Option<int>, estado: Option<string>, cells: map<Column, string>)

  /** What the server answered: a list of rows, or something that is not a list. */
  datatype Answer = Rows(items: seq<Item>) | NotAList

  datatype Screen = Screen(dniInput: string, dniError: Option<string>, rows: seq<Item>, error: Option<string>)

  const Unexpected := "Respuesta inesperada del servidor"
  const QueryFailed := "Error al consultar el histórico"

  /** `handleSearch`. `answer` is the reply to the request, or the error's message (which may be
      absent). Returns the DNI number requested, if any. */
  function Search(s: Screen, answer: Result<Answer, Option<string>>): (r: (Option<int>, Screen))
    ensures r.1.dniError == ValidateDni(s.dniInput)
    ensures r.0.Some? <==> ValidateDni(s.dniInput).None?
    ensures r.0.None? ==> r.1 == s.(dniError := ValidateDni(s.dniInput), error := None)
    ensures r.0.Some? ==> JsNumber(s.dniInput) == Some(Decimal(r.0.value, 0))
    ensures r.0.Some? && answer.Ok? && answer.value.Rows? ==> r.1.rows == answer.value.items && r.1.error.None?
    ensures r.0.Some? && answer.Ok? && answer.value.NotAList? ==> r.1.rows == [] && r.1.error == Some(Unexpected)
    ensures r.0.Some? && answer.Err? ==> r.1.rows == [] && r.1.error == Some(answer.error.GetOr(QueryFailed))
  {
    var err := ValidateDni(s.dniInput);
    var s := s.(dniError := err, error := None);
    if err.Some? then (None, s)
    else
      var t := Strip(s.dniInput);
      JsNumberOfDni(s.dniInput);
      var dni := DigitsValue(t);
      match answer
      case Ok(Rows(items)) => (Some(dni), s.(rows := items))
      case Ok(NotAList) => (Some(dni), s.(rows := [], error := Some(Unexpected)))
      case Err(msg) => (Some(dni), s.(rows := [], error := Some(msg.GetOr(QueryFailed))))
  }

  /** `handleClear`. */
  function Clear(s: Screen): (r: Screen)
    ensures r == Screen("", None, [], None)
  {
    Screen("", None, [], None)
  }

  /** The sort key: the modification time, 0 when absent. */
  function MdfKey(it: Item): int { it.mdf.GetOr(0) }

  /** `displayedRows`: newest first when `sortDesc`, oldest first otherwise. */
  function Displayed(rows: seq<Item>, sortDesc: bool): (r: seq<Item>)
    ensures multiset(r) == multiset(rows)
    ensures sortDesc ==> SortedBy(r, Descending(MdfKey))
    ensures !sortDesc ==> SortedBy(r, Ascending(MdfKey))
  {
    DescendingIsPreorder(MdfKey);
    AscendingIsPreorder(MdfKey);
    SortBySorted(rows, Descending(MdfKey));
    SortBySorted(rows, Ascending(MdfKey));
    if sortDesc then SortBy(rows, Descending(MdfKey)) else SortBy(rows, Ascending(MdfKey))
  }

  // ---------------------------------------------------------------- CSV export

  datatype Column = IdTurno | FechaHoraMdf | Estado | NroDoc | PacienteNombre | PacienteApellido
                  | Efector | Servicio | Especialidad | NombreProfesional | ApellidoProfesional
                  | Fecha | Hora

  const AllColumns: seq<Column> := [IdTurno, FechaHoraMdf, Estado, NroDoc, PacienteNombre,
                                    PacienteApellido, Efector, Servicio, Especialidad,
                                    NombreProfesional, ApellidoProfesional, Fecha, Hora]

  function Label(c: Column): string {
    match c
    case IdTurno => "ID Turno"
    case FechaHoraMdf => "Última modificación"
    case Estado => "Estado"
    case NroDoc => "DNI"
    case PacienteNombre => "Nombre"
    case PacienteApellido => "Apellido"
    case Efector => "Efector"
    case Servicio => "Servicio"
    case Especialidad => "Especialidad"
    case NombreProfesional => "Nombre profesional"
    case ApellidoProfesional => "Apellido profesional"
    case Fecha => "Fecha"
    case Hora => "Hora"
  }

  predicate IsDateColumn(c: Column) { c == FechaHoraMdf || c == Fecha || c == Hora }

  /** `safeFormat`: a dash for a missing or empty value, otherwise the value as `format` (the
      locale rendering of a date, not modelled) shows it. */
  function SafeFormat(v: Option<string>, format: string -> string): string {
    if v.None? || v.value == "" then "—" else format(v.value)
  }

  /** The text of a cell before quoting: date columns go through `safeFormat`, a missing value
      is empty. `cells` holds each present field as `String(value)` renders it. */
  function CellText(it: Item, c: Column, format: string -> string): string {
    var v := if c in it.cells then Some(it.cells[c]) else None;
    if IsDateColumn(c) then SafeFormat(v, format) else v.GetOr("")
  }

  /** The visible columns in display order. */
  function Shown(visible: set<Column>): (r: seq<Column>)
    ensures forall c :: c in r <==> c in visible
  {
    forall c: Column
      ensures c in AllColumns
    {
      EveryColumnListed(c);
    }
    Select(AllColumns, visible)
  }

  /** The cells of one row under the given columns. */
  function CsvRow(cols: seq<Column>, it: Item, format: string -> string): (r: seq<string>)
    ensures |r| == |cols|
    ensures forall j :: 0 <= j < |cols| ==> r[j] == CellText(it, cols[j], format)
  {
    Map(cols, (c: Column) => CellText(it, c, format))
  }

  /** `downloadCSV`: the header of the visible labels, then one line per displayed row. */
  function CsvRows(rows: seq<Item>, visible: set<Column>, format: string -> string): (r: seq<seq<string>>)
    ensures |r| == |rows| + 1 && r[0] == Map(Shown(visible), Label)
    ensures forall i :: 0 <= i < |rows| ==> r[i + 1] == CsvRow(Shown(visible), rows[i], format)
  {
    var cols := Shown(visible);
    var body := Map(rows, (it: Item) => CsvRow(cols, it, format));
    var r := [Map(cols, Label)] + body;
    assert forall i :: 0 <= i < |rows| ==> r[i + 1] == body[i];
    r
  }

  function CsvText(rows: seq<Item>, visible: set<Column>, format: string -> string): string {
    Csv.Document(CsvRows(rows, visible, format))
  }

  // ---------------------------------------------------------------- state chip

  datatype Color = Default | ErrorColor | SuccessColor | WarningColor

  /** `estadoColor`: by substring of the lower-cased state, cancellation first. */
  function EstadoColor(estado: Option<string>): (r: Color)
    ensures estado.None? || estado.value == "" ==> r == Default
    ensures estado.Some? && estado.value != "" ==>
              var e := Lower(estado.value);
              (r == ErrorColor <==> Contains(e, "cancel"))
              && (r == SuccessColor <==> !Contains(e, "cancel") && Contains(e, "conf"))
              && (r == WarningColor <==> !Contains(e, "cancel") && !Contains(e, "conf")
                                         && (Contains(e, "pend") || Contains(e, "espera")))
  {
    if estado.None? || estado.value == "" then Default
    else
      var e := Lower(estado.value);
      ContainsPrefix(e, "conf", "confirm");
      ContainsPrefix(e, "pend", "pending");
      if Contains(e, "cancel") then ErrorColor
      else if Contains(e, "conf") || Contains(e, "confirm") then SuccessColor
      else if Contains(e, "pend") || Contains(e, "espera") || Contains(e, "pending") then WarningColor
      else Default
  }

  /** Text holding a word also holds every prefix of it. */
  lemma ContainsPrefix(s: string, p: string, q: string)
    requires p <= q
    ensures Contains(s, q) ==> Contains(s, p)
  {
    if Contains(s, q) {
      var i :| 0 <= i <= |s| - |q| && q <= s[i..];
      assert p <= s[i..];
    }
  }

  // ---------------------------------------------------------------- lemmas

  /** `Number(text)` on text whose trimmed form passed the DNI check is the number its
      digits spell. */
  lemma JsNumberOfDni(v: string)
    requires DniShape(Strip(v))
    ensures JsNumber(v) == Some(Decimal(DigitsValue(Strip(v)), 0))
  {
    var t := Strip(v);
    assert IsDigit(t[0]);
    JsNumberUnsigned(v);
    forall k | 0 <= k < |t|
      ensures t[k] != '.'
    {
      assert IsDigit(t[k]);
    }
    assert Split(t, '.') == [t] by {
      SplitJoin([t], '.');
      assert Join([t], ".") == t;
    }
  }

  /** What the input lets through needs no trimming: the validation sees exactly what was
      typed, minus its whitespace. */
  lemma InputNeedsNoTrim(typed: string)
    ensures Strip(DniInput(typed)) == DniInput(typed)
  {
    StripNoSpace(DniInput(typed));
  }

  /** The DNI checks accept digit strings of 3 to 15 digits, surrounded by any whitespace, and
      nothing else. */
  lemma ValidDniPadded(pre: string, d: string, post: string)
    requires AllSpace(pre) && AllSpace(post)
    ensures ValidateDni(pre + d + post).None? <==> DniShape(Strip(d))
  {
    StripPadding(pre, d, post);
  }

  /** The search sends the number the digits spell, whatever whitespace surrounds them. */
  lemma SearchSendsDigits(pre: string, d: string, post: string, s: Screen, answer: Result<Answer, Option<string>>)
    requires AllSpace(pre) && AllSpace(post) && DniShape(d)
    requires s.dniInput == pre + d + post
    ensures Search(s, answer).0 == Some(DigitsValue(d))
  {
    assert Strip(s.dniInput) == d by {
      StripPadding(pre, d, post);
      forall k | 0 <= k < |d|
        ensures !IsSpace(d[k])
      {
        assert IsDigit(d[k]);
      }
      StripNoSpace(d);
    }
    SearchSendsTrimmed(s, answer);
  }

  /** A search that passes validation sends the number the trimmed input spells. */
  lemma SearchSendsTrimmed(s: Screen, answer: Result<Answer, Option<string>>)
    requires DniShape(Strip(s.dniInput))
    ensures Search(s, answer).0 == Some(DigitsValue(Strip(s.dniInput)))
  {
    var r := Search(s, answer);
    assert r.0.Some?;
    JsNumberOfDni(s.dniInput);
  }

  /** Newest first: in descending order, a row without a modification time comes after every
      row modified after the epoch. */
  lemma UndatedLastWhenNewestFirst(rows: seq<Item>, i: int, j: int)
    requires var r := Displayed(rows, true);
             0 <= i < |r| && 0 <= j < |r| && r[i].mdf.None? && r[j].mdf.Some? && r[j].mdf.value > 0
    ensures j < i
  {
    var r := Displayed(rows, true);
    assert MdfKey(r[i]) == 0 && MdfKey(r[j]) > 0;
  }

  /** The export loses nothing: with one visible column or more, reading the CSV back gives the
      labels and the cell texts. */
  lemma CsvReadsBack(rows: seq<Item>, visible: set<Column>, format: string -> string)
    requires visible != {}
    ensures Csv.ReadDocument(CsvText(rows, visible, format)) == Some(CsvRows(rows, visible, format))
  {
    RowsNotEmpty(rows, visible, format);
    Csv.ReadDocumentOfDocument(CsvRows(rows, visible, format));
  }

  lemma ShownNotEmpty(visible: set<Column>)
    requires visible != {}
    ensures |Shown(visible)| >= 1
  {
    var c :| c in visible;
    assert c in Shown(visible);
  }

  /** With a visible column, every line of the export, the header included, has a cell. */
  lemma RowsNotEmpty(rows: seq<Item>, visible: set<Column>, format: string -> string)
    requires visible != {}
    ensures forall i :: 0 <= i < |CsvRows(rows, visible, format)| ==> |CsvRows(rows, visible, format)[i]| >= 1
  {
    var r := CsvRows(rows, visible, format);
    var cols := Shown(visible);
    ShownNotEmpty(visible);
    forall i | 0 <= i < |r|
      ensures |r[i]| >= 1
    {
      if i > 0 {
        assert r[i] == CsvRow(cols, rows[i - 1], format);
      }
    }
  }

  /** The header cells are written without escaping; no label contains a quote, so they read as
      quoted cells all the same. */
  lemma HeaderNeedsNoEscape(c: Column)
    ensures Csv.Quote(Label(c)) == "\"" + Label(c) + "\""
  {
    Csv.EscapeWithoutQuotes(Label(c));
  }

  lemma EveryColumnListed(c: Column)
    ensures c in AllColumns
  {
    match c
    case IdTurno => assert AllColumns[0] == c;
    case FechaHoraMdf => assert AllColumns[1] == c;
    case Estado => assert AllColumns[2] == c;
    case NroDoc => assert AllColumns[3] == c;
    case PacienteNombre => assert AllColumns[4] == c;
    case PacienteApellido => assert AllColumns[5] == c;
    case Efector => assert AllColumns[6] == c;
    case Servicio => assert AllColumns[7] == c;
    case Especialidad => assert AllColumns[8] == c;
    case NombreProfesional => assert AllColumns[9] == c;
    case ApellidoProfesional => assert AllColumns[10] == c;
    case Fecha => assert AllColumns[11] == c;
    case Hora => assert AllColumns[12] == c;
  }

  /** A missing or empty date shows a dash, whatever the formatter does. */
  lemma MissingDateIsDash(it: Item, c: Column, format: string -> string)
    requires IsDateColumn(c) && (c !in it.cells || it.cells[c] == "")
    ensures CellText(it, c, format) == "—"
  {
  }

  lemma LowerUpper(s: string)
    ensures Lower(Upper(s)) == Lower(s)
  {
    var a := Lower(Upper(s));
    assert |a| == |Lower(s)|;
    forall i | 0 <= i < |s|
      ensures a[i] == Lower(s)[i]
    {
    }
  }

  /** The chip colour does not depend on letter case. */
  lemma ColorIgnoresCase(s: string)
    ensures EstadoColor(Some(Upper(s))) == EstadoColor(Some(s))
  {
    LowerUpper(s);
  }

  /** A cancellation wins over a confirmation mentioned in the same state. */
  lemma CancelWins(s: string)
    requires Contains(Lower(s), "cancel")
    ensures EstadoColor(Some(s)) == ErrorColor
  {
  }
}

=== FILE: keyed.dfy ===
/** A JavaScript `Map` keyed by an id, as the frontend uses it to
    deduplicate rows: `new Map(rows.map(r => [r.id, r]))`, `map.set(id, row)`
    and `Array.from(map.values())`. The map is the sequence of its values in
    insertion order; `key` extracts the id. Setting an existing key replaces
    the value but keeps the key's original position. */
module Keyed {
  import opened Wrappers
  import opened Seqs

  /** The ids of `s`, in order. */
  function Keys<T, K(==,!new)>(s: seq<T>, key: T -> K): (ks: seq<K>)
    ensures |ks| == |s|
    ensures forall i :: 0 <= i < |s| ==> ks[i] == key(s[i])
  {
    Map(s, key)
  }

  predicate UniqueKeys<T, K(==,!new)>(s: seq<T>, key: T -> K) {
    NoDup(Keys(s, key))
  }

  /** `map.get(k)`: the first value stored under `k`. */
  function Lookup<T, K(==,!new)>(s: seq<T>, k: K, key: T -> K): (r: Option<T>)
    ensures r.None? <==> k !in Keys(s, key)
    ensures r.Some? ==> r.value in s && key(r.value) == k
  {
    if |s| == 0 then None
    else if key(s[0]) == k then Some(s[0])
    else
      assert Keys(s, key) == [key(s[0])] + Keys(s[1..], key);
      Lookup(s[1..], k, key)
  }

  /** The last element of `xs` carrying key `k`: the one a run of `set` calls leaves behind. */
  function LastWith<T, K(==,!new)>(xs: seq<T>, k: K, key: T -> K): (r: Option<T>)
    ensures r.None? <==> k !in Keys(xs, key)
    ensures r.Some? ==> r.value in xs && key(r.value) == k
  {
    if |xs| == 0 then None
    else
      assert Keys(xs, key) == [key(xs[0])] + Keys(xs[1..], key);
      var later := LastWith(xs[1..], k, key);
      if later.Some? then later
      else if key(xs[0]) == k then Some(xs[0])
      else None
  }

  /** `map.set(key(x), x)`. */
  function Set<T, K(==,!new)>(s: seq<T>, x: T, key: T -> K): (r: seq<T>)
    ensures Keys(r, key) == if key(x) in Keys(s, key) then Keys(s, key) else Keys(s, key) + [key(x)]
    ensures forall k: K {:trigger Lookup(r, k, key)} :: Lookup(r, k, key) == if k == key(x) then Some(x) else Lookup(s, k, key)
  {
    if |s| == 0 then [x]
    else if key(s[0]) == key(x) then
      assert Keys([x] + s[1..], key) == [key(x)] + Keys(s[1..], key);
      [x] + s[1..]
    else
      var rest := Set(s[1..], x, key);
      assert Keys([s[0]] + rest, key) == [key(s[0])] + Keys(rest, key);
      assert Keys(s, key) == [key(s[0])] + Keys(s[1..], key);
      [s[0]] + rest
  }

  /** `xs.forEach(x => map.set(key(x), x))`, starting from the map `s`. */
  function SetAll<T, K(==,!new)>(s: seq<T>, xs: seq<T>, key: T -> K): (r: seq<T>)
    ensures forall k: K {:trigger Lookup(r, k, key)} :: Lookup(r, k, key) ==
              (if LastWith(xs, k, key).Some? then LastWith(xs, k, key) else Lookup(s, k, key))
    ensures UniqueKeys(s, key) ==> UniqueKeys(r, key)
    ensures |s| <= |r| && Keys(r, key)[..|s|] == Keys(s, key)
    decreases |xs|
  {
    if |xs| == 0 then s
    else
      var s' := Set(s, xs[0], key);
      SetKeepsUnique(s, xs[0], key);
      assert Keys(s', key)[..|s|] == Keys(s, key);
      SetAll(s', xs[1..], key)
  }

  /** `Array.from(new Map(xs.map(x => [key(x), x])).values())`. */
  function ById<T, K(==,!new)>(xs: seq<T>, key: T -> K): (r: seq<T>)
    ensures UniqueKeys(r, key)
    ensures Keys(r, key) == Dedup(Keys(xs, key))
    ensures forall k: K {:trigger Lookup(r, k, key)} :: Lookup(r, k, key) == LastWith(xs, k, key)
  {
    KeysSetAll([], xs, key);
    assert Keys([], key) + DedupAfter([], Keys(xs, key)) == Dedup(Keys(xs, key));
    SetAll([], xs, key)
  }

  /** Upserting keeps the keys already there and adds each new key of `xs` once, where it
      first appears. */
  lemma {:induction false} KeysSetAll<T, K(!new)>(s: seq<T>, xs: seq<T>, key: T -> K)
    requires UniqueKeys(s, key)
    ensures Keys(SetAll(s, xs, key), key) == Keys(s, key) + DedupAfter(Keys(s, key), Keys(xs, key))
    decreases |xs|
  {
    if |xs| == 0 {
      assert Keys(xs, key) == [];
    } else {
      var s' := Set(s, xs[0], key);
      SetKeepsUnique(s, xs[0], key);
      KeysSetAll(s', xs[1..], key);
      assert Keys(xs, key) == [key(xs[0])] + Keys(xs[1..], key);
      DedupAfterCons(Keys(s, key), key(xs[0]), Keys(xs[1..], key));
    }
  }

  lemma DedupAfterCons<K(!new)>(seen: seq<K>, k: K, tail: seq<K>)
    requires NoDup(seen)
    ensures var seen' := if k in seen then seen else seen + [k];
            NoDup(seen') && seen + DedupAfter(seen, [k] + tail) == seen' + DedupAfter(seen', tail)
  {
    assert ([k] + tail)[1..] == tail;
    if k !in seen {
      assert seen + [k] + DedupAfter(seen + [k], tail) == seen + ([k] + DedupAfter(seen + [k], tail));
    }
  }

  /** Keying a list whose keys are already distinct changes nothing. */
  lemma ByIdOfUnique<T, K(!new)>(xs: seq<T>, key: T -> K)
    requires UniqueKeys(xs, key)
    ensures ById(xs, key) == xs
  {
    var r := ById(xs, key);
    DedupOfNoDup(Keys(xs, key));
    assert |r| == |xs|;
    forall i | 0 <= i < |xs|
      ensures r[i] == xs[i]
    {
      LookupOfMember(r, i, key);
      LookupOfMember(xs, i, key);
      LastWithOfUnique(xs, key(xs[i]), key);
      assert Keys(r, key)[i] == Keys(xs, key)[i];
    }
  }

  /** `if (!map.has(key(x))) map.set(key(x), x)`: the first value for a key wins. */
  function SetIfAbsent<T, K(==,!new)>(s: seq<T>, x: T, key: T -> K): (r: seq<T>)
    ensures forall k: K {:trigger Lookup(r, k, key)} :: Lookup(r, k, key) ==
              (if Lookup(s, k, key).None? && k == key(x) then Some(x) else Lookup(s, k, key))
    ensures UniqueKeys(s, key) ==> UniqueKeys(r, key)
  {
    if key(x) in Keys(s, key) then s
    else
      SetKeepsUnique(s, x, key);
      Set(s, x, key)
  }

  /** `SetIfAbsent` for every element of `xs` in turn. */
  function SetAllIfAbsent<T, K(==,!new)>(s: seq<T>, xs: seq<T>, key: T -> K): (r: seq<T>)
    ensures forall k: K {:trigger Lookup(r, k, key)} :: Lookup(r, k, key) ==
              (if Lookup(s, k, key).None? then Lookup(xs, k, key) else Lookup(s, k, key))
    ensures UniqueKeys(s, key) ==> UniqueKeys(r, key)
    decreases |xs|
  {
    if |xs| == 0 then s
    else
      assert Keys(xs, key) == [key(xs[0])] + Keys(xs[1..], key);
      SetAllIfAbsent(SetIfAbsent(s, xs[0], key), xs[1..], key)
  }

  lemma SetKeepsUnique<T, K(!new)>(s: seq<T>, x: T, key: T -> K)
    ensures UniqueKeys(s, key) ==> UniqueKeys(Set(s, x, key), key)
  {
    var ks := Keys(s, key);
    if key(x) !in ks && UniqueKeys(s, key) {
      var ks' := ks + [key(x)];
      forall i, j | 0 <= i < j < |ks'|
        ensures ks'[i] != ks'[j]
      {
        if j == |ks| {
          assert ks'[i] == ks[i];
        }
      }
    }
  }

  /** Setting a single value is one `set`. */
  lemma SetAllSingle<T, K(!new)>(s: seq<T>, x: T, key: T -> K)
    ensures SetAll(s, [x], key) == Set(s, x, key)
  {
    assert [x][1..] == [];
  }

  /** Every value of a keyed map is the value its key looks up. */
  lemma LookupOfMember<T, K(!new)>(s: seq<T>, i: int, key: T -> K)
    requires UniqueKeys(s, key)
    requires 0 <= i < |s|
    ensures Lookup(s, key(s[i]), key) == Some(s[i])
  {
    if i > 0 {
      assert Keys(s, key) == [key(s[0])] + Keys(s[1..], key);
      assert Keys(s, key)[0] != Keys(s, key)[i];
      LookupOfMember(s[1..], i - 1, key);
    }
  }

  /** The last element with a key in `a + b` comes from `b` when `b` has one. */
  lemma {:induction false} LastWithAppend<T, K(!new)>(a: seq<T>, b: seq<T>, k: K, key: T -> K)
    ensures LastWith(a + b, k, key) == if LastWith(b, k, key).Some? then LastWith(b, k, key) else LastWith(a, k, key)
    decreases |a|
  {
    if |a| == 0 {
      assert a + b == b;
    } else {
      assert (a + b)[1..] == a[1..] + b;
      LastWithAppend(a[1..], b, k, key);
    }
  }

  /** In a list with unique keys the first and the last element with a key are the same. */
  /** Distinct elements drawn from a list with unique keys have unique keys. */
  lemma UniqueOfDistinctMembers<T, K(!new)>(ys: seq<T>, r: seq<T>, key: T -> K)
    requires UniqueKeys(ys, key) && NoDup(r)
    requires forall x :: x in r ==> x in ys
    ensures UniqueKeys(r, key)
  {
    forall i, j | 0 <= i < j < |r|
      ensures Keys(r, key)[i] != Keys(r, key)[j]
    {
      assert r[i] in r && r[j] in r;
      var p :| 0 <= p < |ys| && ys[p] == r[i];
      var q :| 0 <= q < |ys| && ys[q] == r[j];
      assert Keys(ys, key)[p] == key(r[i]) && Keys(ys, key)[q] == key(r[j]);
    }
  }

  /** Relabelling the elements without changing their keys relabels the last one under each key. */
  lemma {:induction false} LastWithMap<T, U, K(!new)>(xs: seq<T>, f: T -> U, keyT: T -> K, keyU: U -> K, k: K)
    requires forall x :: keyU(f(x)) == keyT(x)
    ensures LastWith(Map(xs, f), k, keyU).Some? <==> LastWith(xs, k, keyT).Some?
    ensures LastWith(xs, k, keyT).Some? ==> LastWith(Map(xs, f), k, keyU).value == f(LastWith(xs, k, keyT).value)
    decreases |xs|
  {
    if |xs| > 0 {
      assert Map(xs, f)[1..] == Map(xs[1..], f);
      LastWithMap(xs[1..], f, keyT, keyU, k);
    }
  }

  lemma {:induction false} LastWithOfUnique<T, K(!new)>(s: seq<T>, k: K, key: T -> K)
    requires UniqueKeys(s, key)
    ensures LastWith(s, k, key) == Lookup(s, k, key)
    decreases |s|
  {
    if |s| > 0 {
      var ks := Keys(s, key);
      assert Keys(s[1..], key) == ks[1..];
      assert UniqueKeys(s[1..], key) by {
        forall i, j | 0 <= i < j < |ks[1..]|
          ensures ks[1..][i] != ks[1..][j]
        {
          assert ks[1..][i] == ks[i + 1] && ks[1..][j] == ks[j + 1];
        }
      }
      LastWithOfUnique(s[1..], k, key);
      if key(s[0]) == k {
        assert k !in Keys(s[1..], key) by {
          forall i | 0 <= i < |ks[1..]|
            ensures ks[1..][i] != k
          {
            assert ks[1..][i] == ks[i + 1] && ks[0] == k;
          }
        }
      }
    }
  }

  /** Upserting the deduplicated `xs` into `s` finds, for every key, the last match in `s + xs`. */
  lemma SetAllById<T, K(!new)>(s: seq<T>, xs: seq<T>, k: K, key: T -> K)
    ensures Lookup(SetAll(ById(s, key), ById(xs, key), key), k, key) == LastWith(s + xs, k, key)
  {
    LastWithOfUnique(ById(xs, key), k, key);
    LastWithAppend(s, xs, k, key);
  }

  /** Upserting `xs` into the deduplicated `s` finds, for every key, the last match in `s + xs`. */
  lemma SetAllAfterById<T, K(!new)>(s: seq<T>, xs: seq<T>, k: K, key: T -> K)
    ensures Lookup(SetAll(ById(s, key), xs, key), k, key) == LastWith(s + xs, k, key)
  {
    LastWithAppend(s, xs, k, key);
  }
}

=== FILE: notify.dfy ===
/** The backend's notification rules (`backend/src/tasks.py`, with the helpers
    of `backend/src/utils/utils.py` and its older copy `backend/src/utils.py`):
    how the hospital system's turn states are mapped, which configured
    template a state selects, how a template's `{placeholder}`s are filled,
    how the messaging API's answer becomes a message state, how the phone
    number is assembled, which turns get a reminder today and when it is sent.
    Database rows and API answers are inputs; times are whole seconds. */
module Notify {
  import opened Wrappers
  import opened Seqs
  import opened Text
  import opened Assoc

  // ---------------------------------------------------------------- states

  /** `map_estdo`: the hospital system's turn state to the local one; `None` where the source
      fails (it reads an unassigned variable). */
  function MapEstado(est: int): (r: Option<int>)
    ensures r.Some? <==> 1 <= est <= 8
    ensures r.Some? ==> 1 <= r.value <= 4
  {
    if est == 3 then Some(1)
    else if est == 4 || est == 5 || est == 6 then Some(4)
    else if est == 1 || est == 2 || est == 7 then Some(2)
    else if est == 8 then Some(3)
    else None
  }

  /** The same mapping as the polling task writes it inline; `None` rows are skipped. */
  const SourceStates: map<int, int> := map[3 := 1, 4 := 4, 5 := 4, 6 := 4, 1 := 2, 2 := 2, 7 := 2, 8 := 3]

  function SourceState(idestadoturno: int): Option<int> {
    if idestadoturno in SourceStates then Some(SourceStates[idestadoturno]) else None
  }

  /** The message type a local state selects: 1 confirmation, 2 cancellation, 3 rescheduling,
      anything else the reminder. */
  function StateField(estado: int): (f: Field)
    ensures 1 <= estado <= 3 ==> TypeId(f) == estado
    ensures !(1 <= estado <= 3) ==> f == Recordatorio
  {
    if estado == 1 then Confirmacion
    else if estado == 2 then Cancelacion
    else if estado == 3 then Reprogramacion
    else Recordatorio
  }

  /** What `check_turno` answers: whether to send, and the template to send. */
  datatype Check = Check(send: bool, plantilla: Option<int>)

  /** `check_turno`. `cfg` is the configuration row of the turn's provider, service and specialty,
      `None` when there is none. */
  function CheckTurno(cfg: Option<Row>, estado: int): (r: Check)
    ensures r.send <==> cfg.Some? && cfg.value.Flag(StateField(estado)) == 1
    ensures r.send ==> r.plantilla == cfg.value.Template(StateField(estado))
    ensures !r.send ==> r.plantilla.None?
  {
    match cfg
    case None => Check(false, None)
    case Some(row) =>
      var f := StateField(estado);
      if row.Flag(f) == 1 then Check(true, row.Template(f)) else Check(false, None)
  }

  // ---------------------------------------------------------------- templates

  predicate AllWord(s: string) { forall i :: 0 <= i < |s| ==> IsWordChar(s[i]) }

  /** The key length `k` when `s` starts with a match of `{(\w+)}`, i.e. `s[..k + 2]` is `{key}`. */
  function PlaceholderAt(s: string): (r: Option<nat>)
    ensures r.Some? ==> 0 < r.value && r.value + 2 <= |s| && s[0] == '{' && s[r.value + 1] == '}'
                        && AllWord(s[1..r.value + 1])
  {
    if |s| == 0 || s[0] != '{' then None
    else
      var k := Run(s[1..], IsWordChar);
      assert s[1..][..k] == s[1..k + 1];
      if k > 0 && k + 1 < |s| && s[k + 1] == '}' then Some(k) else None
  }

  /** `format_plantilla`: one left-to-right pass replacing each `{key}` with its value, leaving
      keys without a value verbatim. Values are the text `str` gives them. */
  function Format(s: string, vals: map<string, string>): (r: string)
    ensures '}' !in s ==> r == s
    decreases |s|
  {
    if |s| == 0 then ""
    else
      match PlaceholderAt(s)
      case Some(k) =>
        var key := s[1..k + 1];
        (if key in vals then vals[key] else s[..k + 2]) + Format(s[k + 2..], vals)
      case None =>
        assert s == [s[0]] + s[1..];
        [s[0]] + Format(s[1..], vals)
  }

  // ---------------------------------------------------------------- answers

  /** `decode_res`: the HTTP status of the messaging API to a message state; `ack` is the
      answer's `ack` field. */
  function DecodeRes(status: int, ack: Option<int>): (r: int)
    ensures status in {503, 400, 404, 422, 500} ==> -5 <= r <= -1
    ensures status == 503 ==> r == -5
    ensures status == 400 ==> r == -4
    ensures status == 404 ==> r == -3
    ensures status == 422 ==> r == -2
    ensures status == 500 ==> r == -1
    ensures status !in {503, 400, 404, 422, 500} ==> r == ack.GetOr(-5)
  {
    if status == 503 then -5
    else if status == 400 then -4
    else if status == 404 then -3
    else if status == 422 then -2
    else if status == 500 then -1
    else ack.GetOr(-5)
  }

  /** The table the polling and reminder tasks use instead. */
  function TaskAck(status: int, ack: Option<int>): (r: Option<int>)
    ensures status in {503, 400, 404, 500} ==> r.Some? && -4 <= r.value <= -1
    ensures status == 503 ==> r.Some? && r.value == -4
    ensures status == 400 ==> r.Some? && r.value == -3
    ensures status == 404 ==> r.Some? && r.value == -2
    ensures status == 500 ==> r.Some? && r.value == -1
    ensures status !in {503, 400, 404, 500} ==> r == ack
  {
    if status == 503 then Some(-4)
    else if status == 400 then Some(-3)
    else if status == 404 then Some(-2)
    else if status == 500 then Some(-1)
    else ack
  }

  /** The turn's `msj_*` flag set after a message is stored: only for a non-negative state, and
      only for the states that have one. A missing state cannot be stored, so nothing is set. */
  function FlagAfterSend(estado: int, ack: Option<int>): (r: Option<string>)
    ensures r.Some? <==> ack.Some? && ack.value >= 0 && 1 <= estado <= 3
  {
    if ack.None? || ack.value < 0 then None
    else if estado == 1 then Some("msj_confirmado")
    else if estado == 2 then Some("msj_cancelado")
    else if estado == 3 then Some("msj_reprogramado")
    else None
  }

  // ---------------------------------------------------------------- phone

  /** A Python value that is truthy: present and non-empty. */
  predicate Truthy(v: Option<string>) { v.Some? && v.value != "" }

  /** The WhatsApp number: `"549"`, the area code and the number, spaces removed; only when
      both parts are present. */
  function Phone(carac: Option<string>, tel: Option<string>): (r: Option<string>)
    ensures r.Some? <==> Truthy(carac) && Truthy(tel)
    ensures r.Some? ==> ' ' !in r.value
    ensures r.Some? ==> r.value == "549" + Without(carac.value, ' ') + Without(tel.value, ' ')
  {
    if Truthy(carac) && Truthy(tel) then
      WithoutAppend("549" + carac.value, tel.value, ' ');
      WithoutAppend("549", carac.value, ' ');
      assert Without("549", ' ') == "549";
      Some(Without("549" + carac.value + tel.value, ' '))
    else None
  }

  // ---------------------------------------------------------------- polling

  /** What the polling task learns about one changed turn: its state in the hospital system,
      whether its details were found, whether the local turn was created (new turns) or exists
      (others), its configuration row, the patient's phone parts and the template values. */
  datatype Turn = Turn(
    idestado: int, detailsFound: bool, created: bool, localExists: bool,
    cfg: Option<Row>, carac: Option<string>, tel: Option<string>, values: map<string, string>)

  /** What happens to one changed turn. `Quiet` updates the local state without a message;
      `NoPhone` records a message in state -3. */
  datatype Action = Skip | Quiet(estado: int) | NoPhone(estado: int, plantilla: int)
                  | Send(estado: int, phone: string, plantilla: int, text: string)

  /** One iteration of the polling loop. `content(p)` is the text of template `p`. */
  function Handle(t: Turn, content: int -> string): (r: Action)
    ensures SourceState(t.idestado).None? ==> r == Skip
    ensures !r.Skip? ==> SourceState(t.idestado) == Some(r.estado)
    ensures r.NoPhone? || r.Send? ==>
              r.estado != 4 && CheckTurno(t.cfg, r.estado) == Check(true, Some(r.plantilla))
    ensures r.NoPhone? ==> Phone(t.carac, t.tel).None?
    ensures r.Send? ==> Phone(t.carac, t.tel) == Some(r.phone) && r.text == Format(content(r.plantilla), t.values)
    ensures r.Quiet? && r.estado != 4 ==> !CheckTurno(t.cfg, r.estado).send || CheckTurno(t.cfg, r.estado).plantilla.None?
    ensures var s := SourceState(t.idestado);
            r.Skip? <==> s.None? || ((s.value == 1 || s.value == 3) && !t.detailsFound)
                         || (s.value == 1 && !t.created) || (s.value != 1 && !t.localExists)
    ensures !r.Skip? && r.estado != 4 && CheckTurno(t.cfg, r.estado).send && CheckTurno(t.cfg, r.estado).plantilla.Some? ==>
              (r.Send? || r.NoPhone?) && (Phone(t.carac, t.tel).None? <==> r.NoPhone?)
  {
    match SourceState(t.idestado)
    case None => Skip
    case Some(e) =>
      if (e == 1 || e == 3) && !t.detailsFound then Skip
      else if e == 1 && !t.created then Skip
      else if e != 1 && !t.localExists then Skip
      else if e == 4 then Quiet(4)
      else
        var c := CheckTurno(t.cfg, e);
        if c.send && c.plantilla.Some? then
          match Phone(t.carac, t.tel)
          case Some(phone) => Send(e, phone, c.plantilla.value, Format(content(c.plantilla.value), t.values))
          case None => NoPhone(e, c.plantilla.value)
        else Quiet(e)
  }

  /** Python's `<` on strings: lexicographic by code point, a proper prefix first. */
  predicate StrLess(a: string, b: string)
    decreases |a|
  {
    if |a| == 0 then |b| > 0
    else if |b| == 0 then false
    else if a[0] != b[0] then a[0] < b[0]
    else StrLess(a[1..], b[1..])
  }

  /** `str(v).split(".")[0]`: a timestamp without its fraction of a second. */
  function WholeSeconds(stamp: string): string {
    Split(stamp, '.')[0]
  }

  /** `mejor_raw`: the greatest fraction-stripped modification stamp seen; `None` (and no
      update of the last-seen mark) when the poll returned nothing. */
  function BestRaw(stamps: seq<string>): (r: Option<string>)
    ensures r.None? <==> |stamps| == 0
    ensures r.Some? ==> exists i :: 0 <= i < |stamps| && r.value == WholeSeconds(stamps[i])
    ensures r.Some? ==> forall i :: 0 <= i < |stamps| ==> !StrLess(r.value, WholeSeconds(stamps[i]))
  {
    if |stamps| == 0 then None
    else
      var init := stamps[..|stamps| - 1];
      var este := WholeSeconds(stamps[|stamps| - 1]);
      var prev := BestRaw(init);
      StrLessIrreflexive(este);
      if prev.None? || StrLess(prev.value, este) then
        forall i | 0 <= i < |init|
          ensures !StrLess(este, WholeSeconds(stamps[i]))
        {
          assert stamps[i] == init[i];
          if StrLess(este, WholeSeconds(stamps[i])) {
            StrLessTransitive(prev.value, este, WholeSeconds(stamps[i]));
          }
        }
        Some(este)
      else
        assert forall i :: 0 <= i < |init| ==> stamps[i] == init[i];
        prev
  }

  // ---------------------------------------------------------------- reminders

  const Hour := 3600
  const Day := 86400

  /** The reminder configuration of a turn's provider, service and specialty (a row whose reminder
      flag is 1). */
  datatype ReminderCfg = ReminderCfg(diasAntes: Option<int>, plantilla: Option<int>)

  /** A local turn as the reminder query reads it. `fecha` is a day number, `hora` seconds since
      midnight. */
  datatype Local = Local(id: int, estado: int, msjRecordatorio: int, fecha: int, hora: int, cfg: Option<ReminderCfg>)

  predicate IsCandidate(hoy: int, t: Local) {
    t.estado == 1 && t.msjRecordatorio == 0 && hoy <= t.fecha <= hoy + 5 && t.cfg.Some?
    && t.fecha - t.cfg.value.diasAntes.GetOr(0) == hoy
  }

  /** The turns that get a reminder today: confirmed, not yet reminded, within the next five days,
      with a reminder configuration, and due exactly `dias_antes` days before (none means 0). */
  function Candidates(turnos: seq<Local>, hoy: int): (r: seq<Local>)
    ensures forall t :: t in r <==>
              t in turnos && t.estado == 1 && t.msjRecordatorio == 0 && t.cfg.Some?
              && hoy <= t.fecha <= hoy + 5 && t.fecha - t.cfg.value.diasAntes.GetOr(0) == hoy
  {
    Filter(turnos, (t: Local) => IsCandidate(hoy, t))
  }

  /** The send time before the eta clamp: on the day itself 2, 3 or 4 hours before the
      appointment (by 10:30, by 13:00, later); on a later day 10:00 plus two minutes per reminder
      already placed on that day. */
  function SendAt(hoy: int, fecha: int, hora: int, idx: nat): (r: int)
    ensures fecha == hoy ==> 2 * Hour <= fecha * Day + hora - r <= 4 * Hour
    ensures fecha == hoy && hora <= 10 * Hour + 30 * 60 ==> r == fecha * Day + hora - 2 * Hour
    ensures fecha == hoy && 10 * Hour + 30 * 60 < hora <= 13 * Hour ==> r == fecha * Day + hora - 3 * Hour
    ensures fecha == hoy && hora > 13 * Hour ==> r == fecha * Day + hora - 4 * Hour
    ensures fecha != hoy ==> r - (fecha * Day + 10 * Hour) == 120 * idx
  {
    var at := fecha * Day + hora;
    if fecha == hoy then
      if hora <= 10 * Hour + 30 * 60 then at - 2 * Hour
      else if hora <= 13 * Hour then at - 3 * Hour
      else at - 4 * Hour
    else fecha * Day + 10 * Hour + 120 * idx
  }

  /** A send time already past is replaced by five seconds from now. */
  function Eta(send: int, now: int): (r: int)
    ensures r > now
    ensures r == send || r == now + 5
    ensures send > now ==> r == send
    ensures send <= now ==> r == now + 5
  {
    if send <= now then now + 5 else send
  }

  /** How many of `rows` fall on day `d`. */
  function OnDay(rows: seq<(int, int)>, d: int): nat {
    if |rows| == 0 then 0
    else OnDay(rows[..|rows| - 1], d) + (if rows[|rows| - 1].0 == d then 1 else 0)
  }

  /** `per_day_counter[d]`, a `defaultdict(int)`. */
  function Count(counter: map<int, nat>, d: int): nat {
    if d in counter then counter[d] else 0
  }

  /** The time the `k`-th reminder is due, given the ones before it. */
  function Planned(rows: seq<(int, int)>, k: int, hoy: int, now: int): int
    requires 0 <= k < |rows|
  {
    Eta(SendAt(hoy, rows[k].0, rows[k].1, OnDay(rows[..k], rows[k].0)), now)
  }

  /** The scheduling loop over the fetched reminders (`(fecha, hora)` each), with its per-day
      counter. */
  method Schedule(rows: seq<(int, int)>, hoy: int, now: int) returns (etas: seq<int>)
    ensures |etas| == |rows|
    ensures forall i :: 0 <= i < |rows| ==>
              etas[i] == Eta(SendAt(hoy, rows[i].0, rows[i].1, OnDay(rows[..i], rows[i].0)), now)
  {
    var counter: map<int, nat> := map[];
    etas := [];
    var i := 0;
    while i < |rows|
      invariant 0 <= i <= |rows|
      invariant |etas| == i
      invariant forall d :: d != hoy ==> Count(counter, d) == OnDay(rows[..i], d)
      invariant forall k :: 0 <= k < i ==> etas[k] == Planned(rows, k, hoy, now)
    {
      var (fecha, hora) := rows[i];
      var idx := Count(counter, fecha);
      var eta := Eta(SendAt(hoy, fecha, hora, idx), now);
      assert eta == Planned(rows, i, hoy, now);
      var before := counter;
      if fecha != hoy {
        counter := counter[fecha := idx + 1];
      }
      CounterStep(rows, i, hoy, before, counter);
      etas := etas + [eta];
      i := i + 1;
    }
  }

  /** One turn of the loop keeps the counter equal to the reminders already seen per day. */
  lemma CounterStep(rows: seq<(int, int)>, i: int, hoy: int, before: map<int, nat>, after: map<int, nat>)
    requires 0 <= i < |rows|
    requires forall d :: d != hoy ==> Count(before, d) == OnDay(rows[..i], d)
    requires after == if rows[i].0 != hoy then before[rows[i].0 := Count(before, rows[i].0) + 1] else before
    ensures forall d :: d != hoy ==> Count(after, d) == OnDay(rows[..i + 1], d)
  {
    OnDayStep(rows, i);
    forall d | d != hoy
      ensures Count(after, d) == OnDay(rows[..i + 1], d)
    {
      assert Count(before, d) == OnDay(rows[..i], d);
    }
  }

  lemma OnDayStep(rows: seq<(int, int)>, i: int)
    requires 0 <= i < |rows|
    ensures forall d :: OnDay(rows[..i + 1], d) == OnDay(rows[..i], d) + (if rows[i].0 == d then 1 else 0)
  {
    assert rows[..i + 1][..i] == rows[..i];
  }

  /** What `send_reminder_task` does with one scheduled reminder. */
  datatype Reminder = Abort | NoPhoneReminder(plantilla: int) | SendReminder(phone: string, plantilla: int)

  /** Python's `str` of a possibly missing text. */
  function PyStr(v: Option<string>): string {
    match v
    case None => "None"
    case Some(s) => s
  }

  /** `send_reminder_task` as written: the scheduled arguments are `list(map(str, row))`, so a
      missing phone part arrives as the text `"None"`. `local` is the local turn at send time and
      `check` the answer of `check_turno` for the reminder. */
  function ReminderAsWritten(local: Option<Local>, check: Check, carac: Option<string>, tel: Option<string>): (r: Reminder)
    ensures r.SendReminder? ==> Phone(Some(PyStr(carac)), Some(PyStr(tel))) == Some(r.phone)
  {
    if local.None? || local.value.estado != 1 || local.value.msjRecordatorio == 1 then Abort
    else if !check.send || check.plantilla.None? then Abort
    else
      match Phone(Some(PyStr(carac)), Some(PyStr(tel)))
      case None => NoPhoneReminder(check.plantilla.value)
      case Some(phone) => SendReminder(phone, check.plantilla.value)
  }

  /** The reminder as intended: the phone parts keep their absence. */
  function ReminderSend(local: Option<Local>, check: Check, carac: Option<string>, tel: Option<string>): (r: Reminder)
    ensures r.SendReminder? <==> local.Some? && local.value.estado == 1 && local.value.msjRecordatorio != 1
                                 && check.send && check.plantilla.Some? && Truthy(carac) && Truthy(tel)
    ensures r.SendReminder? ==> Phone(carac, tel) == Some(r.phone)
    ensures r.NoPhoneReminder? ==> !Truthy(carac) || !Truthy(tel)
    ensures r.NoPhoneReminder? <==> (local.Some? && local.value.estado == 1 && local.value.msjRecordatorio != 1
                                     && check.send && check.plantilla.Some? && !(Truthy(carac) && Truthy(tel)))
    ensures !r.Abort? ==> check.plantilla.Some? && r.plantilla == check.plantilla.value
  {
    if local.None? || local.value.estado != 1 || local.value.msjRecordatorio == 1 then Abort
    else if !check.send || check.plantilla.None? then Abort
    else
      match Phone(carac, tel)
      case None => NoPhoneReminder(check.plantilla.value)
      case Some(phone) => SendReminder(phone, check.plantilla.value)
  }

  // ---------------------------------------------------------------- lemmas

  /** The helper's and the polling task's state tables agree. */
  lemma StateTablesAgree(est: int)
    ensures MapEstado(est) == SourceState(est)
  {
  }

  /** The message type of each type id is the one `check_turno` selects for that state. */
  lemma StateFieldOfTypeId(f: Field)
    ensures StateField(TypeId(f)) == f
  {
  }

  /** A template assigned with its flag on is the one sent for that state. */
  lemma AssignedTemplateIsSent(row: Row, f: Field, p: int)
    ensures CheckTurno(Some(row.WithFlag(f, 1).WithTemplate(f, Some(p))), TypeId(f)) == Check(true, Some(p))
  {
    StateFieldOfTypeId(f);
  }

  /** A turn that passes the polling task's checks, whose state selects a message type whose
      template was assigned with its flag on, records that template: unsent without a phone,
      and sent, filled with the turn's values, with one. */
  lemma HandleSendsAssignedTemplate(t: Turn, content: int -> string, row: Row, f: Field, p: int)
    requires 1 <= TypeId(f) <= 3 && SourceState(t.idestado) == Some(TypeId(f))
    requires t.cfg == Some(row.WithFlag(f, 1).WithTemplate(f, Some(p)))
    requires t.detailsFound && (TypeId(f) == 1 ==> t.created) && (TypeId(f) != 1 ==> t.localExists)
    ensures Phone(t.carac, t.tel).None? ==> Handle(t, content) == NoPhone(TypeId(f), p)
    ensures Phone(t.carac, t.tel).Some? ==>
              Handle(t, content) == Send(TypeId(f), Phone(t.carac, t.tel).value, p, Format(content(p), t.values))
  {
    AssignedTemplateIsSent(row, f, p);
  }

  /** With a non-negative `ack` in the answer, a message state is negative exactly when the
      status is one of the helper's five error statuses, and different error statuses give
      different states. */
  lemma DecodeResSignalsErrors(status: int, other: int, ack: Option<int>)
    requires ack.Some? && ack.value >= 0
    ensures DecodeRes(status, ack) < 0 <==> status in {503, 400, 404, 422, 500}
    ensures status in {503, 400, 404, 422, 500} && other in {503, 400, 404, 422, 500} && status != other ==>
              DecodeRes(status, ack) != DecodeRes(other, ack)
  {
  }

  /** The same for the tasks' table and its four error statuses. */
  lemma TaskAckSignalsErrors(status: int, other: int, ack: Option<int>)
    requires ack.Some? && ack.value >= 0
    ensures TaskAck(status, ack).Some? && (TaskAck(status, ack).value < 0 <==> status in {503, 400, 404, 500})
    ensures status in {503, 400, 404, 500} && other in {503, 400, 404, 500} && status != other ==>
              TaskAck(status, ack) != TaskAck(other, ack)
  {
  }

  /** A flag switched off with its template cleared sends nothing. */
  lemma ClearedFlagIsSilent(row: Row, f: Field)
    ensures CheckTurno(Some(row.WithFlag(f, 0).WithTemplate(f, None)), TypeId(f)) == Check(false, None)
  {
    StateFieldOfTypeId(f);
  }

  /** Mapped state 4 (states 4, 5 and 6) never sends or records a message. */
  lemma CancelledStatesNeverMessage(t: Turn, content: int -> string)
    requires 4 <= t.idestado <= 6
    ensures Handle(t, content).Skip? || Handle(t, content) == Quiet(4)
  {
  }

  /** Text without `{` is left unchanged. */
  lemma {:induction false} FormatWithoutBraces(s: string, vals: map<string, string>)
    requires '{' !in s
    ensures Format(s, vals) == s
  {
    if |s| > 0 {
      assert s[0] != '{';
      assert '{' !in s[1..] by {
        forall i | 0 <= i < |s[1..]|
          ensures s[1..][i] != '{'
        {
          assert s[1..][i] == s[i + 1];
        }
      }
      FormatWithoutBraces(s[1..], vals);
      assert s == [s[0]] + s[1..];
    }
  }

  /** With no values every placeholder is left verbatim. */
  lemma {:induction false} FormatWithoutValues(s: string)
    ensures Format(s, map[]) == s
  {
    if |s| > 0 {
      match PlaceholderAt(s)
      case Some(k) =>
        FormatWithoutValues(s[k + 2..]);
        assert s == s[..k + 2] + s[k + 2..];
      case None =>
        FormatWithoutValues(s[1..]);
        assert s == [s[0]] + s[1..];
    }
  }

  /** A placeholder is replaced by its value and scanning resumes after it: the value itself is
      never scanned for placeholders. */
  lemma FormatPlaceholder(key: string, rest: string, vals: map<string, string>)
    requires |key| > 0 && AllWord(key)
    ensures Format("{" + key + "}" + rest, vals)
            == (if key in vals then vals[key] else "{" + key + "}") + Format(rest, vals)
  {
    var s := "{" + key + "}" + rest;
    assert s[1..] == key + "}" + rest;
    WordRunOfKey(key, "}" + rest);
    assert s[1..][|key|] == '}';
    assert PlaceholderAt(s) == Some(|key|);
    assert s[1..|key| + 1] == key;
    assert s[..|key| + 2] == "{" + key + "}";
    assert s[|key| + 2..] == rest;
  }

  lemma {:induction false} WordRunOfKey(key: string, rest: string)
    requires AllWord(key)
    requires |rest| > 0 && !IsWordChar(rest[0])
    ensures Run(key + rest, IsWordChar) == |key|
  {
    if |key| > 0 {
      assert (key + rest)[1..] == key[1..] + rest;
      WordRunOfKey(key[1..], rest);
    } else {
      assert key + rest == rest;
    }
  }

  /** Values are inserted as they are, even when they look like placeholders themselves. */
  lemma SinglePass()
    ensures Format("{nompac}", map["nompac" := "{fecha}", "fecha" := "hoy"]) == "{fecha}"
  {
    var vals := map["nompac" := "{fecha}", "fecha" := "hoy"];
    assert vals["nompac"] == "{fecha}";
    FormatPlaceholder("nompac", "", vals);
    assert "{" + "nompac" + "}" + "" == "{nompac}";
    assert Format("", vals) == "";
  }

  /** The two answer tables disagree by one on 503, 400 and 404, and only the helper maps 422. */
  lemma AckTablesDiffer(status: int, ack: Option<int>)
    ensures status == 503 || status == 400 || status == 404 ==> TaskAck(status, ack) == Some(DecodeRes(status, ack) + 1)
    ensures status == 500 ==> TaskAck(status, ack) == Some(DecodeRes(status, ack))
    ensures status == 422 ==> DecodeRes(status, ack) == -2 && TaskAck(status, ack) == ack
    ensures status !in {503, 400, 404, 422, 500} && ack.Some? ==> TaskAck(status, ack) == Some(DecodeRes(status, ack))
  {
  }

  /** An error status never sets a message flag. */
  lemma ErrorStatusSetsNoFlag(estado: int, status: int, ack: Option<int>)
    requires status in {503, 400, 404, 500}
    ensures FlagAfterSend(estado, TaskAck(status, ack)).None?
  {
  }

  /** Removing spaces again changes nothing. */
  lemma PhoneHasNoSpaces(carac: string, tel: string)
    requires carac != "" && tel != ""
    ensures Phone(Some(carac), Some(tel)).Some?
    ensures Without(Phone(Some(carac), Some(tel)).value, ' ') == Phone(Some(carac), Some(tel)).value
  {
    var p := Phone(Some(carac), Some(tel)).value;
    WithoutAbsent(p, ' ');
  }

  lemma {:induction false} StrLessIrreflexive(a: string)
    ensures !StrLess(a, a)
  {
    if |a| > 0 {
      StrLessIrreflexive(a[1..]);
    }
  }

  lemma {:induction false} StrLessTransitive(a: string, b: string, c: string)
    requires StrLess(a, b) && StrLess(b, c)
    ensures StrLess(a, c)
    decreases |a|
  {
    if |a| > 0 && |b| > 0 && |c| > 0 && a[0] == b[0] && b[0] == c[0] {
      StrLessTransitive(a[1..], b[1..], c[1..]);
    }
  }

  /** A turn due `d` days from today, with `d` days configured, is a reminder candidate today
      exactly when `d` is within the five-day window. */
  lemma CandidateDaysBefore(t: Local, hoy: int)
    requires t.estado == 1 && t.msjRecordatorio == 0 && t.cfg.Some? && t.cfg.value.diasAntes.Some?
    requires t.fecha == hoy + t.cfg.value.diasAntes.value
    ensures t in Candidates([t], hoy) <==> 0 <= t.cfg.value.diasAntes.value <= 5
  {
  }

  /** A configuration without days before reminds on the day of the appointment only. */
  lemma NoDaysMeansSameDay(t: Local, hoy: int)
    requires t.cfg.Some? && t.cfg.value.diasAntes.None?
    ensures t in Candidates([t], hoy) ==> t.fecha == hoy
  {
  }

  lemma {:induction false} OnDayGrows(rows: seq<(int, int)>, i: int, j: int)
    requires 0 <= i < j <= |rows|
    ensures OnDay(rows[..j], rows[i].0) >= OnDay(rows[..i], rows[i].0) + 1
    decreases j
  {
    var d := rows[i].0;
    assert rows[..j][..j - 1] == rows[..j - 1];
    if j - 1 == i {
      assert rows[..j][j - 1] == rows[i];
    } else {
      OnDayGrows(rows, i, j - 1);
    }
  }

  /** Two reminders for the same later day are sent at least two minutes apart, in order, when
      the schedule runs before that day. */
  lemma FutureRemindersSpaced(rows: seq<(int, int)>, hoy: int, now: int, etas: seq<int>, i: int, j: int)
    requires |etas| == |rows|
    requires forall k :: 0 <= k < |rows| ==>
               etas[k] == Eta(SendAt(hoy, rows[k].0, rows[k].1, OnDay(rows[..k], rows[k].0)), now)
    requires 0 <= i < j < |rows| && rows[i].0 == rows[j].0 && rows[i].0 > hoy
    requires now < (hoy + 1) * Day
    ensures etas[j] >= etas[i] + 120
  {
    OnDayGrows(rows, i, j);
    var d := rows[i].0;
    assert d * Day >= (hoy + 1) * Day;
  }

  /** On the day itself a reminder goes out at least two hours ahead, unless that moment has
      already passed. */
  lemma SameDayLeadTime(hoy: int, hora: int, idx: nat, now: int)
    ensures var eta := Eta(SendAt(hoy, hoy, hora, idx), now);
            eta == now + 5 || hoy * Day + hora - eta >= 2 * Hour
  {
  }

  /** As written, a missing area code still yields a send, to a number containing "None". */
  lemma ReminderSendsToNone()
    ensures ReminderAsWritten(Some(Local(1, 1, 0, 0, 0, None)), Check(true, Some(3)), None, Some("4123456"))
            == SendReminder("549None4123456", 3)
    ensures ReminderSend(Some(Local(1, 1, 0, 0, 0, None)), Check(true, Some(3)), None, Some("4123456"))
            == NoPhoneReminder(3)
  {
    assert PyStr(None) == "None";
    PhoneOfNone();
  }

  lemma PhoneOfNone()
    ensures Phone(Some("None"), Some("4123456")) == Some("549None4123456")
  {
    var r := Phone(Some("None"), Some("4123456"));
    assert r.Some?;
    WithoutAbsent("None", ' ');
    WithoutAbsent("4123456", ' ');
    ConcatLiteral();
  }

  lemma ConcatLiteral()
    ensures "549" + "None" + "4123456" == "549None4123456"
  {
  }
}

=== FILE: paircache.dfy ===
/** The service block of the two template screens
    (`frontend/src/features/plantilla/components/ServicioBlock.tsx` and
    `frontend/src/features/turno/components/ServicioBlock.tsx`): association
    rows are loaded per (provider, service) pair, kept in a two-level cache,
    and shown as a list deduplicated by row id.

    A fetch is an oracle: for each pair it either yields rows or fails. The
    requests of one action are awaited together (`Promise.all` over requests
    that catch their own errors), so the model folds over them in order. */
module PairCache {
  import opened Wrappers
  import opened Seqs
  import opened Assoc
  import Keyed

  /** A (provider, service) pair. */
  datatype Pair = Pair(efector: int, servicio: int)

  /** What `getPlantillaByEfectorServicio` gives for a pair. */
  datatype Outcome = Fetched(rows: seq<Row>) | Failed

  type Oracle = Pair -> Outcome

  /** `servicioEfectorActual`: the providers known to offer each service. */
  type Mapping = map<int, seq<int>>

  /** The two copies of the block differ in how a service without a mapping entry is treated. */
  datatype Variant = PlantillaBlock | TurnoBlock

  function SpecialtyId(r: Row): int { r.especialidad }

  /** An entry of a JavaScript `Map` whose key is stored beside the row. */
  function EntryKey(e: (int, Row)): int { e.0 }

  function RowsOr(o: Outcome): seq<Row> {
    if o.Fetched? then o.rows else []
  }

  /** A pair is served from the cache only when its entry holds at least one row. */
  predicate Cached(c: Cache, p: Pair) {
    var e := Entry(c, p.efector, p.servicio);
    e.Some? && |e.value| > 0
  }

  /** `servicioEfectorActual[serv] ?? []`. */
  function MappedOr(mapping: Mapping, serv: int): seq<int> {
    if serv in mapping then mapping[serv] else []
  }

  /** The mapped providers of `serv` that are selected, as pairs. */
  function PairsFor(mapping: Mapping, selected: seq<int>, serv: int): (r: seq<Pair>)
    ensures forall p :: p in r <==> p.servicio == serv && p.efector in MappedOr(mapping, serv) && p.efector in selected
  {
    var efs := Filter(MappedOr(mapping, serv), (id: int) => id in selected);
    var r := Map(efs, (ef: int) => Pair(ef, serv));
    assert forall p :: p in r ==> p.efector in efs by {
      forall p | p in r
        ensures p.efector in efs
      {
        var i :| 0 <= i < |r| && r[i] == p;
      }
    }
    assert forall ef :: ef in efs ==> Pair(ef, serv) in r by {
      forall ef | ef in efs
        ensures Pair(ef, serv) in r
      {
        var i :| 0 <= i < |efs| && efs[i] == ef;
        assert r[i] == Pair(ef, serv);
      }
    }
    r
  }

  /** The pairs `allEspecialidadesToChange` looks at, services in order. The turn copy reads
      `servicioEfectorActual[servId].filter(..)` with no default, so a service without an entry
      makes the whole call fail. */
  function Considered(v: Variant, mapping: Mapping, selected: seq<int>, servicios: seq<int>): (r: Result<seq<Pair>, string>)
    ensures r.Err? <==> v == TurnoBlock && exists i :: 0 <= i < |servicios| && servicios[i] !in mapping
    ensures r.Ok? ==> forall p :: p in r.value <==>
              p.servicio in servicios && p.efector in MappedOr(mapping, p.servicio) && p.efector in selected
  {
    if |servicios| == 0 then Ok([])
    else if v == TurnoBlock && servicios[0] !in mapping then
      Err("no mapping for service")
    else
      var rest := Considered(v, mapping, selected, servicios[1..]);
      assert servicios == [servicios[0]] + servicios[1..];
      if rest.Err? then
        assert exists i :: 0 <= i < |servicios[1..]| && servicios[1..][i] !in mapping;
        rest
      else Ok(PairsFor(mapping, selected, servicios[0]) + rest.value)
  }

  /** The cached rows of the pairs served from the cache, in pair order. */
  function CachedRows(c: Cache, pairs: seq<Pair>): (r: seq<Row>)
    ensures forall x :: x in r <==> exists p :: p in pairs && Cached(c, p) && x in Entry(c, p.efector, p.servicio).value
  {
    if |pairs| == 0 then []
    else
      var p := pairs[0];
      var rest := CachedRows(c, pairs[1..]);
      assert pairs == [p] + pairs[1..];
      (if Cached(c, p) then Entry(c, p.efector, p.servicio).value else []) + rest
  }

  /** The pairs that must be fetched: those not served from the cache. */
  function Missing(c: Cache, pairs: seq<Pair>): (r: seq<Pair>)
    ensures forall p :: p in r <==> p in pairs && !Cached(c, p)
  {
    Filter(pairs, (p: Pair) => !Cached(c, p))
  }

  /** The rows of the successful fetches, in request order. */
  function FetchedRows(requests: seq<Pair>, oracle: Oracle): (r: seq<Row>)
    ensures forall x :: x in r <==> exists p :: p in requests && oracle(p).Fetched? && x in oracle(p).rows
  {
    if |requests| == 0 then []
    else
      assert requests == [requests[0]] + requests[1..];
      RowsOr(oracle(requests[0])) + FetchedRows(requests[1..], oracle)
  }

  /** `updatesByEf`: the rows of each successful request, per provider and service. */
  function Updates(requests: seq<Pair>, oracle: Oracle): (u: Cache)
    ensures forall e, s :: Entry(u, e, s) ==
              if Pair(e, s) in requests && oracle(Pair(e, s)).Fetched? then Some(oracle(Pair(e, s)).rows) else None
    ensures |u| == 0 <==> forall p :: p in requests ==> oracle(p).Failed?
  {
    if |requests| == 0 then map[]
    else
      var last := requests[|requests| - 1];
      var init := requests[..|requests| - 1];
      assert requests == init + [last];
      var u := Updates(init, oracle);
      if oracle(last).Fetched? then Store(u, last.efector, last.servicio, oracle(last).rows) else u
  }

  /** `next[ef] = { ...(next[ef] || {}), ...updates[ef] }` for every provider updated; the
      setter is not called when there is no update. */
  function Merge(c: Cache, u: Cache): (r: Cache)
    ensures forall e, s :: Entry(r, e, s) == if Entry(u, e, s).Some? then Entry(u, e, s) else Entry(c, e, s)
    ensures |u| == 0 ==> r == c
  {
    if |u| == 0 then c
    else
      forall e, s
        ensures Entry(Overlay(c, u), e, s) == if Entry(u, e, s).Some? then Entry(u, e, s) else Entry(c, e, s)
      {
        OverlayEntry(c, u, e, s);
      }
      Overlay(c, u)
  }

  /** Every provider of `c` and `u`, with the inner maps of `u` written over those of `c`. */
  function Overlay(c: Cache, u: Cache): Cache {
    map ef | ef in c.Keys + u.Keys :: if ef in u then (if ef in c then c[ef] else map[]) + u[ef] else c[ef]
  }

  lemma OverlayEntry(c: Cache, u: Cache, e: int, s: int)
    ensures Entry(Overlay(c, u), e, s) == if Entry(u, e, s).Some? then Entry(u, e, s) else Entry(c, e, s)
  {
  }

  /** The result of `allEspecialidadesToChange`: the rows, the cache afterwards, the requests
      issued and the number of failed requests (a warning reports it when it is not 0). */
  datatype Collected = Collected(rows: seq<Row>, cache: Cache, requests: seq<Pair>, failed: nat)

  function Collect(v: Variant, selected: seq<int>, servicios: seq<int>, mapping: Mapping, c: Cache, oracle: Oracle): (r: Result<Collected, string>)
    ensures |selected| == 0 || |servicios| == 0 ==> r == Ok(Collected([], c, [], 0))
    ensures r.Err? <==> |selected| > 0 && |servicios| > 0 && Considered(v, mapping, selected, servicios).Err?
    ensures r.Ok? ==> Keyed.UniqueKeys(r.value.rows, RowId)
    ensures r.Ok? && |selected| > 0 && |servicios| > 0 ==>
              var pairs := Considered(v, mapping, selected, servicios).value;
              (forall p :: p in r.value.requests <==> p in pairs && !Cached(c, p))
              && r.value.failed == |Filter(r.value.requests, (p: Pair) => oracle(p).Failed?)|
              && (forall k :: Keyed.Lookup(r.value.rows, k, RowId) ==
                    Keyed.LastWith(CachedRows(c, pairs) + FetchedRows(r.value.requests, oracle), k, RowId))
              && (forall e, s :: Entry(r.value.cache, e, s) ==
                    if Pair(e, s) in r.value.requests && oracle(Pair(e, s)).Fetched? then Some(oracle(Pair(e, s)).rows)
                    else Entry(c, e, s))
  {
    if |selected| == 0 || |servicios| == 0 then Ok(Collected([], c, [], 0))
    else
      match Considered(v, mapping, selected, servicios)
      case Err(e) => Err(e)
      case Ok(pairs) =>
        var cached := CachedRows(c, pairs);
        var lista := Keyed.ById(cached, RowId);
        var missing := Missing(c, pairs);
        if |missing| == 0 then
          assert FetchedRows(missing, oracle) == [];
          assert cached + [] == cached;
          Ok(Collected(lista, c, [], 0))
        else
          var fetched := FetchedRows(missing, oracle);
          var rows := Keyed.SetAll(lista, fetched, RowId);
          forall k
            ensures Keyed.Lookup(rows, k, RowId) == Keyed.LastWith(cached + fetched, k, RowId)
          {
            Keyed.SetAllAfterById(cached, fetched, k, RowId);
          }
          Ok(Collected(rows, Merge(c, Updates(missing, oracle)), missing,
                       |Filter(missing, (p: Pair) => oracle(p).Failed?)|))
  }

  // ------------------------------------------------------------ clicking a service

  /** The state a click reads and writes: visible rows, selected service ids, the cache and the mapping.
      `emptyNotice` is the info alert shown when the list ends up empty. */
  datatype View = View(visible: seq<Row>, selectedServ: seq<int>, cache: Cache, mapping: Mapping, emptyNotice: bool)

  /** Clicking an already selected service hides it and every visible row of it. */
  function Deselect(w: View, serv: int): (r: View)
    ensures serv !in r.selectedServ
    ensures forall s :: s != serv ==> (s in r.selectedServ <==> s in w.selectedServ)
    ensures forall x :: x in r.visible <==> x in w.visible && x.servicio != serv
    ensures r.cache == w.cache && r.mapping == w.mapping
  {
    w.(visible := Filter(w.visible, (x: Row) => x.servicio != serv),
       selectedServ := Remove(w.selectedServ, serv))
  }

  /** The providers among `efs` whose entry for `serv` is served from the cache, and the others. */
  function CachedFor(c: Cache, serv: int, efs: seq<int>): (r: seq<Row>)
    ensures r == CachedRows(c, Map(efs, (ef: int) => Pair(ef, serv)))
  {
    if |efs| == 0 then []
    else
      assert Map(efs, (ef: int) => Pair(ef, serv))[1..] == Map(efs[1..], (ef: int) => Pair(ef, serv));
      var rest := CachedFor(c, serv, efs[1..]);
      (if Cached(c, Pair(efs[0], serv)) then Entry(c, efs[0], serv).value else []) + rest
  }

  function MissingFor(c: Cache, serv: int, efs: seq<int>): (r: seq<int>)
    ensures forall ef :: ef in r <==> ef in efs && !Cached(c, Pair(ef, serv))
  {
    Filter(efs, (ef: int) => !Cached(c, Pair(ef, serv)))
  }

  /** The click path's cache write: every requested provider is stored, a failure as `[]`. */
  function StoreResults(c: Cache, serv: int, efs: seq<int>, oracle: Oracle): (r: Cache)
    ensures forall e, s :: Entry(r, e, s) ==
              if s == serv && e in efs then Some(RowsOr(oracle(Pair(e, serv)))) else Entry(c, e, s)
  {
    if |efs| == 0 then c
    else
      var last := efs[|efs| - 1];
      assert efs == efs[..|efs| - 1] + [last];
      Store(StoreResults(c, serv, efs[..|efs| - 1], oracle), last, serv, RowsOr(oracle(Pair(last, serv))))
  }

  function FetchedFor(serv: int, efs: seq<int>, oracle: Oracle): seq<Row> {
    Flatten(Map(efs, (ef: int) => RowsOr(oracle(Pair(ef, serv)))))
  }

  /** The rows a click of the template copy adds: the gathered rows deduplicated by row id
      (the last wins), then by specialty id (the last wins). */
  function NewRows(rows: seq<Row>): (r: seq<Row>)
    ensures Keyed.UniqueKeys(r, SpecialtyId) && Keyed.UniqueKeys(r, RowId)
    ensures forall x :: x in r ==> x in rows
    ensures forall k {:trigger Keyed.Lookup(r, k, SpecialtyId)} ::
              Keyed.Lookup(r, k, SpecialtyId) == Keyed.LastWith(Keyed.ById(rows, RowId), k, SpecialtyId)
  {
    var byId := Keyed.ById(rows, RowId);
    var r := Keyed.ById(byId, SpecialtyId);
    forall x | x in r
      ensures x in rows
    {
      ByIdMember(byId, SpecialtyId, x);
      ByIdMember(rows, RowId, x);
    }
    forall x | x in r
      ensures x in byId
    {
      ByIdMember(byId, SpecialtyId, x);
    }
    DistinctKeysUnique(r, SpecialtyId);
    Keyed.UniqueOfDistinctMembers(byId, r, RowId);
    r
  }

  /** Elements with distinct keys are distinct. */
  lemma DistinctKeysUnique<T, K(!new)>(r: seq<T>, key: T -> K)
    requires Keyed.UniqueKeys(r, key)
    ensures NoDup(r)
  {
    forall i, j | 0 <= i < j < |r|
      ensures r[i] != r[j]
    {
      assert Keyed.Keys(r, key)[i] != Keyed.Keys(r, key)[j];
    }
  }

  function IdEntry(x: Row): (int, Row) { (x.id, x) }
  function SpecialtyEntry(x: Row): (int, Row) { (x.especialidad, x) }
  function EntryRow(e: (int, Row)): Row { e.1 }

  /** The entries of the template copy's map after its merge as written: the visible rows
      entered under their ROW id, then each new row set under its SPECIALTY id. A specialty id
      reads as the new row of that specialty; any other key keeps the last visible row with
      that row id. */
  function SpecialtyKeyEntries(prev: seq<Row>, rows: seq<Row>): (m: seq<(int, Row)>)
    ensures Keyed.UniqueKeys(m, EntryKey)
    ensures forall x :: x in NewRows(rows) ==>
              Keyed.Lookup(m, x.especialidad, EntryKey).Some? && Keyed.Lookup(m, x.especialidad, EntryKey).value == SpecialtyEntry(x)
    ensures forall k {:trigger Keyed.Lookup(m, k, EntryKey)} :: k !in Keyed.Keys(NewRows(rows), SpecialtyId) ==>
              (Keyed.Lookup(m, k, EntryKey).Some? <==> Keyed.LastWith(prev, k, RowId).Some?)
              && (Keyed.LastWith(prev, k, RowId).Some? ==>
                    Keyed.Lookup(m, k, EntryKey).value == IdEntry(Keyed.LastWith(prev, k, RowId).value))
  {
    var added := NewRows(rows);
    var m := Keyed.SetAll(Keyed.ById(Map(prev, IdEntry), EntryKey), Map(added, SpecialtyEntry), EntryKey);
    forall k
      ensures k !in Keyed.Keys(added, SpecialtyId) ==>
              (Keyed.Lookup(m, k, EntryKey).Some? <==> Keyed.LastWith(prev, k, RowId).Some?)
              && (Keyed.LastWith(prev, k, RowId).Some? ==>
                    Keyed.Lookup(m, k, EntryKey).value == IdEntry(Keyed.LastWith(prev, k, RowId).value))
    {
      Keyed.LastWithMap(added, SpecialtyEntry, SpecialtyId, EntryKey, k);
      Keyed.LastWithMap(prev, IdEntry, RowId, EntryKey, k);
    }
    forall x | x in added
      ensures Keyed.Lookup(m, x.especialidad, EntryKey).Some? && Keyed.Lookup(m, x.especialidad, EntryKey).value == SpecialtyEntry(x)
    {
      NewRowLast(added, x, SpecialtyId);
      Keyed.LastWithMap(added, SpecialtyEntry, SpecialtyId, EntryKey, x.especialidad);
    }
    m
  }

  /** In a list with unique keys, an element is the last one under its key. */
  lemma NewRowLast<T, K(!new)>(s: seq<T>, x: T, key: T -> K)
    requires Keyed.UniqueKeys(s, key) && x in s
    ensures Keyed.LastWith(s, key(x), key).Some? && Keyed.LastWith(s, key(x), key).value == x
  {
    var i :| 0 <= i < |s| && s[i] == x;
    Keyed.LookupOfMember(s, i, key);
    Keyed.LastWithOfUnique(s, key(x), key);
  }

  /** The merge the template copy performs: the new rows are deduplicated by row id, then by
      specialty id, and written into a map of the visible rows keyed by ROW id under their
      SPECIALTY id. Every new row shows; a visible row stays unless its row id is the specialty
      id of a new row. */
  function MergeBySpecialtyKey(prev: seq<Row>, rows: seq<Row>): (r: seq<Row>)
    ensures forall x :: x in NewRows(rows) ==> x in r
    ensures forall k :: k !in Keyed.Keys(NewRows(rows), SpecialtyId) && Keyed.LastWith(prev, k, RowId).Some? ==>
              Keyed.LastWith(prev, k, RowId).value in r
  {
    var m := SpecialtyKeyEntries(prev, rows);
    var r := Map(m, EntryRow);
    forall x | x in NewRows(rows)
      ensures x in r
    {
      EntryShown(m, x.especialidad);
    }
    forall k | k !in Keyed.Keys(NewRows(rows), SpecialtyId) && Keyed.LastWith(prev, k, RowId).Some?
      ensures Keyed.LastWith(prev, k, RowId).value in r
    {
      EntryShown(m, k);
    }
    r
  }

  /** The row stored under a key of the map is among its values. */
  lemma EntryShown(m: seq<(int, Row)>, k: int)
    ensures Keyed.Lookup(m, k, EntryKey).Some? ==> Keyed.Lookup(m, k, EntryKey).value.1 in Map(m, EntryRow)
  {
    if Keyed.Lookup(m, k, EntryKey).Some? {
      var i :| 0 <= i < |m| && m[i] == Keyed.Lookup(m, k, EntryKey).value;
      assert Map(m, EntryRow)[i] == EntryRow(m[i]);
    }
  }

  /** The same merge keyed by row id on both sides, as the surrounding code intends: each new
      row replaces the visible row with its id, and every other visible row id keeps its row. */
  function MergeByRowId(prev: seq<Row>, rows: seq<Row>): (r: seq<Row>)
    ensures Keyed.UniqueKeys(r, RowId)
    ensures forall x :: x in r ==> x in prev || x in rows
    ensures forall x :: x in NewRows(rows) ==> x in r
    ensures forall k {:trigger Keyed.Lookup(r, k, RowId)} :: Keyed.Lookup(r, k, RowId) ==
              if Keyed.LastWith(NewRows(rows), k, RowId).Some? then Keyed.LastWith(NewRows(rows), k, RowId)
              else Keyed.LastWith(prev, k, RowId)
  {
    var r := Keyed.SetAll(Keyed.ById(prev, RowId), NewRows(rows), RowId);
    SetAllMembers(prev, NewRows(rows), rows);
    NewRowsShown(prev, rows);
    r
  }

  lemma NewRowsShown(prev: seq<Row>, rows: seq<Row>)
    ensures forall x :: x in NewRows(rows) ==> x in Keyed.SetAll(Keyed.ById(prev, RowId), NewRows(rows), RowId)
  {
    var espRows := NewRows(rows);
    var r := Keyed.SetAll(Keyed.ById(prev, RowId), espRows, RowId);
    forall x | x in espRows
      ensures x in r
    {
      NewRowLast(espRows, x, RowId);
      assert Keyed.Lookup(r, x.id, RowId).value == x;
    }
  }

  lemma SetAllMembers(prev: seq<Row>, espRows: seq<Row>, rows: seq<Row>)
    requires espRows == NewRows(rows)
    ensures forall x :: x in Keyed.SetAll(Keyed.ById(prev, RowId), espRows, RowId) ==> x in prev || x in rows
  {
    var r := Keyed.SetAll(Keyed.ById(prev, RowId), espRows, RowId);
    forall x | x in r
      ensures x in prev || x in rows
    {
      var i :| 0 <= i < |r| && r[i] == x;
      Keyed.LookupOfMember(r, i, RowId);
      var k := x.id;
      var byId := Keyed.ById(rows, RowId);
            var first := Keyed.ById(prev, RowId);
      if Keyed.LastWith(espRows, k, RowId).Some? {
        var y := Keyed.LastWith(espRows, k, RowId).value;
        assert y in espRows;
        ByIdMember(byId, SpecialtyId, y);
        ByIdMember(rows, RowId, y);
      } else {
        var y := Keyed.Lookup(first, k, RowId).value;
        ByIdMember(prev, RowId, y);
      }
    }
  }

  lemma ByIdMember<T, K(!new)>(xs: seq<T>, key: T -> K, y: T)
    requires y in Keyed.ById(xs, key)
    ensures y in xs
  {
    var r := Keyed.ById(xs, key);
    var i :| 0 <= i < |r| && r[i] == y;
    Keyed.LookupOfMember(r, i, key);
  }

  /** The providers a click on `serv` looks at. The turn copy falls back to every selected
      provider when the service has no mapping entry; the template copy to none. */
  function Targets(v: Variant, mapping: Mapping, serv: int, selectedEfs: seq<int>): (r: seq<int>)
    ensures forall ef :: ef in r ==> ef in selectedEfs
    ensures serv in mapping ==> forall ef :: ef in r <==> ef in mapping[serv] && ef in selectedEfs
    ensures serv !in mapping && v == PlantillaBlock ==> r == []
    ensures serv !in mapping && v == TurnoBlock ==> forall ef :: ef in r <==> ef in selectedEfs
  {
    if v == TurnoBlock && serv !in mapping then Dedup(selectedEfs)
    else Filter(MappedOr(mapping, serv), (id: int) => id in selectedEfs)
  }

  /** How the visible list takes in the rows of a clicked service. The turn copy upserts them by
      row id (deduplicated first when they were fetched); the template copy goes through
      `MergeBySpecialtyKey` as written, or `MergeByRowId` as intended. */
  function MergeVisible(v: Variant, bySpecialtyKey: bool, prev: seq<Row>, rows: seq<Row>, cacheOnly: bool): seq<Row> {
    if v == TurnoBlock then
      if cacheOnly then Keyed.SetAll(Keyed.ById(prev, RowId), rows, RowId)
      else Keyed.SetAll(Keyed.ById(prev, RowId), Keyed.ById(rows, RowId), RowId)
    else if bySpecialtyKey then MergeBySpecialtyKey(prev, rows)
    else MergeByRowId(prev, rows)
  }

  /** The rows a click on `serv` gathers: the cached rows of the providers it looks at, then
      the rows fetched for the uncached ones. */
  function Gathered(v: Variant, selectedEfs: seq<int>, serv: int, w: View, oracle: Oracle): seq<Row> {
    var efs := Targets(v, w.mapping, serv, selectedEfs);
    CachedFor(w.cache, serv, efs) + FetchedFor(serv, MissingFor(w.cache, serv, efs), oracle)
  }

  /** Whether a click goes to the server: some provider it looks at is uncached, or, in the turn
      copy, the cache holds no rows for the service. */
  predicate Fetches(v: Variant, selectedEfs: seq<int>, serv: int, w: View) {
    var efs := Targets(v, w.mapping, serv, selectedEfs);
    !(|MissingFor(w.cache, serv, efs)| == 0 && (v == PlantillaBlock || |CachedFor(w.cache, serv, efs)| > 0))
  }

  /** `handleServicioClick` of one copy. `selectedEfs` are the selected providers. */
  function Click(v: Variant, bySpecialtyKey: bool, selectedEfs: seq<int>, serv: int, w: View, oracle: Oracle): (r: View)
    ensures |selectedEfs| == 0 ==> r == w
    ensures |selectedEfs| > 0 && serv in w.selectedServ ==>
              serv !in r.selectedServ && r.cache == w.cache && r.mapping == w.mapping
              && forall x :: x in r.visible <==> x in w.visible && x.servicio != serv
    ensures |selectedEfs| > 0 && serv !in w.selectedServ ==>
              r.selectedServ == w.selectedServ + [serv]
              && (forall e, s :: s != serv ==> Entry(r.cache, e, s) == Entry(w.cache, e, s))
              && (forall s :: s != serv ==> (s in r.mapping <==> s in w.mapping))
              && (r.emptyNotice <==> Fetches(v, selectedEfs, serv, w) && |r.visible| == 0)
    ensures |selectedEfs| > 0 && serv !in w.selectedServ && v == PlantillaBlock ==>
              var added := NewRows(Gathered(v, selectedEfs, serv, w, oracle));
              (forall x :: x in added ==> x in r.visible)
              && (bySpecialtyKey ==>
                    forall k :: k !in Keyed.Keys(added, SpecialtyId) && Keyed.LastWith(w.visible, k, RowId).Some? ==>
                      Keyed.LastWith(w.visible, k, RowId).value in r.visible)
              && (!bySpecialtyKey ==>
                    forall k {:trigger Keyed.Lookup(r.visible, k, RowId)} :: Keyed.Lookup(r.visible, k, RowId) ==
                      if Keyed.LastWith(added, k, RowId).Some? then Keyed.LastWith(added, k, RowId)
                      else Keyed.LastWith(w.visible, k, RowId))
  {
    if |selectedEfs| == 0 then w
    else if serv in w.selectedServ then Deselect(w, serv)
    else
      var efs := Targets(v, w.mapping, serv, selectedEfs);
      var mapping := if v == TurnoBlock && serv !in w.mapping then w.mapping[serv := efs] else w.mapping;
      var missing := MissingFor(w.cache, serv, efs);
      var cacheOnly := !Fetches(v, selectedEfs, serv, w);
      var cache := if cacheOnly then w.cache else StoreResults(w.cache, serv, missing, oracle);
      var visible := MergeVisible(v, bySpecialtyKey, w.visible, Gathered(v, selectedEfs, serv, w, oracle), cacheOnly);
      View(visible, w.selectedServ + [serv], cache, mapping, !cacheOnly && |visible| == 0)
  }

  // ---------------------------------------------------------------- lemmas

  /** Without a selected provider a click changes nothing. */
  lemma ClickWithoutProviders(v: Variant, bySpecialtyKey: bool, serv: int, w: View, oracle: Oracle)
    ensures Click(v, bySpecialtyKey, [], serv, w, oracle) == w
  {
  }

  /** Clicking a selected service removes it and exactly its visible rows. */
  lemma ClickSelectedDeselects(v: Variant, bySpecialtyKey: bool, selectedEfs: seq<int>, serv: int, w: View, oracle: Oracle)
    requires |selectedEfs| > 0 && serv in w.selectedServ
    ensures var r := Click(v, bySpecialtyKey, selectedEfs, serv, w, oracle);
            serv !in r.selectedServ && r.cache == w.cache
            && forall x :: x in r.visible <==> x in w.visible && x.servicio != serv
  {
  }

  /** The turn copy's merge: the previous rows and the new ones keyed by id, a new row
      winning over an old one with the same id. */
  lemma TurnMergeUnion(prev: seq<Row>, rows: seq<Row>, cacheOnly: bool, k: int)
    ensures var r := MergeVisible(TurnoBlock, false, prev, rows, cacheOnly);
            Keyed.UniqueKeys(r, RowId) && Keyed.Lookup(r, k, RowId) == Keyed.LastWith(prev + rows, k, RowId)
  {
    if cacheOnly {
      Keyed.SetAllAfterById(prev, rows, k, RowId);
    } else {
      Keyed.SetAllById(prev, rows, k, RowId);
    }
  }

  /** The turn copy: after adding a service, the visible list holds the previous rows and the
      service's rows (cached first, then fetched), keyed by id. */
  lemma TurnClickUnion(selectedEfs: seq<int>, serv: int, w: View, oracle: Oracle, k: int)
    requires |selectedEfs| > 0 && serv !in w.selectedServ
    ensures var r := Click(TurnoBlock, false, selectedEfs, serv, w, oracle);
            var efs := Targets(TurnoBlock, w.mapping, serv, selectedEfs);
            var rows := CachedFor(w.cache, serv, efs) + FetchedFor(serv, MissingFor(w.cache, serv, efs), oracle);
            Keyed.UniqueKeys(r.visible, RowId)
            && Keyed.Lookup(r.visible, k, RowId) == Keyed.LastWith(w.visible + rows, k, RowId)
            && r.selectedServ == w.selectedServ + [serv]
  {
    var efs := Targets(TurnoBlock, w.mapping, serv, selectedEfs);
    var cached := CachedFor(w.cache, serv, efs);
    var missing := MissingFor(w.cache, serv, efs);
    TurnMergeUnion(w.visible, cached + FetchedFor(serv, missing, oracle), |missing| == 0 && |cached| > 0, k);
  }

  /** The turn copy: a service without a mapping entry falls back to every selected provider
      and records that list as its mapping. */
  lemma TurnClickRecordsMapping(selectedEfs: seq<int>, serv: int, w: View, oracle: Oracle)
    requires |selectedEfs| > 0 && serv !in w.selectedServ && serv !in w.mapping
    ensures var r := Click(TurnoBlock, false, selectedEfs, serv, w, oracle);
            serv in r.mapping && NoDup(r.mapping[serv])
            && (forall ef :: ef in r.mapping[serv] <==> ef in selectedEfs)
            && (forall s :: s != serv ==> (s in r.mapping <==> s in w.mapping))
  {
  }

  /** The click fetch path stores every requested provider's rows, a failed request as `[]`,
      and leaves every other cache entry alone. */
  lemma ClickFetchStoresAll(v: Variant, bySpecialtyKey: bool, selectedEfs: seq<int>, serv: int, w: View, oracle: Oracle)
    requires |selectedEfs| > 0 && serv !in w.selectedServ && serv in w.mapping
    ensures var r := Click(v, bySpecialtyKey, selectedEfs, serv, w, oracle);
            var efs := Targets(v, w.mapping, serv, selectedEfs);
            forall e, s :: Entry(r.cache, e, s) ==
              if s == serv && e in efs && !Cached(w.cache, Pair(e, serv)) then Some(RowsOr(oracle(Pair(e, serv))))
              else Entry(w.cache, e, s)
  {
  }

  /** The template copy goes to the server exactly when a provider it looks at has no cached
      rows for the service. */
  lemma TemplateFetchesWhenUncached(selectedEfs: seq<int>, serv: int, w: View)
    ensures Fetches(PlantillaBlock, selectedEfs, serv, w) <==>
              exists ef :: ef in Targets(PlantillaBlock, w.mapping, serv, selectedEfs) && !Cached(w.cache, Pair(ef, serv))
  {
    var efs := Targets(PlantillaBlock, w.mapping, serv, selectedEfs);
    var missing := MissingFor(w.cache, serv, efs);
    if |missing| > 0 {
      assert missing[0] in missing;
    }
  }

  /** As written: a visible row of another service vanishes when its row id equals the
      specialty id of a row being added. */
  lemma SpecialtyKeyDropsRow()
    ensures var a := Row(5, 1, 1, 7, 0, 0, 0, 0, None, None, None, None, None);
            var b := Row(9, 1, 2, 5, 0, 0, 0, 0, None, None, None, None, None);
            MergeBySpecialtyKey([a], [b]) == [b] && a !in MergeBySpecialtyKey([a], [b])
  {
    var a := Row(5, 1, 1, 7, 0, 0, 0, 0, None, None, None, None, None);
    var b := Row(9, 1, 2, 5, 0, 0, 0, 0, None, None, None, None, None);
    Keyed.SetAllSingle([], b, RowId);
    Keyed.SetAllSingle([], b, SpecialtyId);
    Keyed.SetAllSingle([], (5, a), EntryKey);
    Keyed.SetAllSingle([(5, a)], (5, b), EntryKey);
  }

  /** Keyed by row id, the merge keeps every visible row no new row replaces. */
  lemma RowIdMergeKeepsOthers(prev: seq<Row>, rows: seq<Row>, x: Row)
    requires Keyed.UniqueKeys(prev, RowId) && x in prev
    requires forall y :: y in rows ==> y.id != x.id
    ensures x in MergeByRowId(prev, rows)
  {
    var espRows := Keyed.ById(Keyed.ById(rows, RowId), SpecialtyId);
    var first := Keyed.ById(prev, RowId);
    var r := Keyed.SetAll(first, espRows, RowId);
    var i :| 0 <= i < |prev| && prev[i] == x;
    Keyed.LookupOfMember(prev, i, RowId);
    NoNewRowWithId(rows, x.id);
    Keyed.LastWithOfUnique(prev, x.id, RowId);
    assert Keyed.Lookup(r, x.id, RowId) == Some(x);
  }

  lemma NoNewRowWithId(rows: seq<Row>, id: int)
    requires forall y :: y in rows ==> y.id != id
    ensures id !in Keyed.Keys(Keyed.ById(Keyed.ById(rows, RowId), SpecialtyId), RowId)
  {
    var espRows := Keyed.ById(Keyed.ById(rows, RowId), SpecialtyId);
    forall j | 0 <= j < |espRows|
      ensures espRows[j].id != id
    {
      ByIdMember(Keyed.ById(rows, RowId), SpecialtyId, espRows[j]);
      ByIdMember(rows, RowId, espRows[j]);
    }
  }
}

=== FILE: patientlookup.dfy ===
/** The patient picker of the appointment form
    (`frontend/src/features/turno/components/LookPaciente.tsx`): a DNI search, the choice of
    one patient among the matches, and the alert about the chosen patient's phone. */
module PatientLookup {
  import opened Wrappers
  import opened Seqs
  import opened Text
  import opened Ui
  import WaitList

  /** A patient as the picker sees it. `key` is `String(id)`, the form ids are compared in. */
  datatype Patient = Patient(key: string, carac: Option<string>, nro: Option<string>)

  /** What the search answered: a list, a single patient, or nothing (a falsy value). */
  datatype Answer = List(patients: seq<Patient>) | One(patient: Patient) | Nothing

  /** Why the search failed: the server's `detail`, the response body and the error's message,
      each possibly absent. */
  datatype Failure = Failure(detail: Option<string>, data: Option<string>, message: Option<string>)

  /** The picker. `paciente` is the patient held by the parent form. */
  datatype Picker = Picker(dni: string, error: Option<string>, pacientes: seq<Patient>,
                           selected: Option<string>, paciente: Option<Patient>)

  const BlankDni := "Ingresá un DNI válido."
  const NotFound := "No se encontraron pacientes para ese DNI."
  const QueryFailed := "Error al consultar pacientes."

  /** `detail ?? data ?? message ?? "Error al consultar pacientes."`: the first PRESENT text,
      even when it is empty. */
  function FailureText(e: Failure): (r: string)
    ensures e.detail.Some? ==> r == e.detail.value
    ensures e.detail.None? && e.data.Some? ==> r == e.data.value
    ensures e.detail.None? && e.data.None? ==> r == e.message.GetOr(QueryFailed)
  {
    e.detail.GetOr(e.data.GetOr(e.message.GetOr(QueryFailed)))
  }

  /** `Array.isArray(data) ? data : data ? [data] : []`. */
  function Listed(a: Answer): (r: seq<Patient>)
    ensures a.List? ==> r == a.patients
    ensures a.One? ==> r == [a.patient]
    ensures a.Nothing? ==> r == []
  {
    match a
    case List(ps) => ps
    case One(p) => [p]
    case Nothing => []
  }

  /** `handleBuscar`. `answer` is the reply to the request. Returns the document searched for,
      if a request was made. */
  function Buscar(s: Picker, answer: Result<Answer, Failure>): (r: (Option<string>, Picker))
    ensures r.0.None? <==> AllSpace(s.dni)
    ensures r.0.Some? ==> r.0.value == Strip(s.dni)
    ensures r.1.dni == s.dni && r.1.paciente == s.paciente && r.1.selected.None?
    ensures r.0.None? ==> r.1.pacientes == [] && r.1.error == Some(BlankDni)
    ensures r.0.Some? && answer.Ok? ==>
              r.1.pacientes == Listed(answer.value)
              && (r.1.error.Some? <==> Listed(answer.value) == [])
              && (r.1.error.Some? ==> r.1.error.value == NotFound)
    ensures r.0.Some? && answer.Err? ==> r.1.pacientes == [] && r.1.error == Some(FailureText(answer.error))
  {
    StripBlank(s.dni);
    var cleared := s.(error := None, pacientes := [], selected := None);
    var doc := Strip(s.dni);
    if doc == "" then (None, cleared.(error := Some(BlankDni)))
    else
      match answer
      case Ok(a) =>
        var list := Listed(a);
        (Some(doc), cleared.(pacientes := list, error := if list == [] then Some(NotFound) else None))
      case Err(e) => (Some(doc), cleared.(error := Some(FailureText(e))))
  }

  /** `pacientes.find(x => String(x.id) === String(id))`. */
  function Lookup(pacientes: seq<Patient>, key: Option<string>): (r: Option<Patient>)
    ensures r.Some? ==> r.value in pacientes && key == Some(r.value.key)
    ensures r.None? <==> key.None? || forall i :: 0 <= i < |pacientes| ==> pacientes[i].key != key.value
  {
    if key.None? then None else Find(pacientes, (p: Patient) => p.key == key.value)
  }

  /** `handleSelectPaciente`: the radio choice, handed to the parent as well (`null` when no
      listed patient has that id). */
  function Select(s: Picker, key: string): (r: Picker)
    ensures r.selected == Some(key) && r.pacientes == s.pacientes
    ensures r.paciente.Some? ==> r.paciente.value in s.pacientes && r.paciente.value.key == key
    ensures r.paciente.None? <==> forall i :: 0 <= i < |s.pacientes| ==> s.pacientes[i].key != key
  {
    s.(selected := Some(key), paciente := Lookup(s.pacientes, Some(key)))
  }

  /** The effect on the parent's patient: a patient handed down is selected. */
  function Sync(s: Picker): (r: Picker)
    ensures s.paciente.Some? ==> r.selected == Some(s.paciente.value.key)
    ensures s.paciente.None? ==> r == s
    ensures r == s.(selected := r.selected)
  {
    if s.paciente.Some? then s.(selected := Some(s.paciente.value.key)) else s
  }

  /** `pacienteSeleccionado`: the listed patient under the selection, else the parent's. */
  function Seleccionado(s: Picker): (r: Option<Patient>)
    ensures Lookup(s.pacientes, s.selected).Some? ==> r == Lookup(s.pacientes, s.selected)
    ensures Lookup(s.pacientes, s.selected).None? ==> r == s.paciente
  {
    match Lookup(s.pacientes, s.selected)
    case Some(p) => Some(p)
    case None => s.paciente
  }

  /** `x === undefined || x === null || x === ""`. */
  predicate Blank(x: Option<string>) { x.None? || x.value == "" }

  /** `x?.length === n`: false for an absent part. */
  predicate HasLength(x: Option<string>, n: nat) { x.Some? && |x.value| == n }

  const NoPhone := "El paciente no tiene teléfono registrado."
  const BadCarac := "Característica inválida"
  const BadNro := "Número inválido"

  /** The problems `getPhoneAlert` lists, in order. */
  function PhoneProblems(p: Patient): (r: seq<string>)
    ensures BadCarac in r <==> !HasLength(p.carac, 3)
    ensures BadNro in r <==> !HasLength(p.nro, 7)
    ensures |r| <= 2 && (|r| == 2 ==> r == [BadCarac, BadNro])
  {
    (if HasLength(p.carac, 3) then [] else [BadCarac]) + (if HasLength(p.nro, 7) then [] else [BadNro])
  }

  /** `getPhoneAlert`: nothing without a patient; information when both parts are blank;
      success for a 3-character area code and a 7-character number; otherwise a warning that
      names each part in the wrong shape. */
  function PhoneAlert(p: Option<Patient>): (r: Option<Alert>)
    ensures r.None? <==> p.None?
    ensures r.Some? && r.value.severity == Info <==> p.Some? && Blank(p.value.carac) && Blank(p.value.nro)
    ensures r.Some? && r.value.severity == Success <==> p.Some? && HasLength(p.value.carac, 3) && HasLength(p.value.nro, 7)
    ensures r.Some? && r.value.severity == Success ==>
              r.value.msg == "Teléfono válido: " + p.value.carac.value + " - " + p.value.nro.value
    ensures r.Some? && r.value.severity == Warning ==>
              PhoneProblems(p.value) != [] && r.value.msg == Join(PhoneProblems(p.value), ". ")
    ensures r.Some? ==> r.value.severity != Error
  {
    match p
    case None => None
    case Some(q) =>
      if Blank(q.carac) && Blank(q.nro) then Some(Alert(Info, NoPhone))
      else if HasLength(q.carac, 3) && HasLength(q.nro, 7) then
        Some(Alert(Success, "Teléfono válido: " + q.carac.value + " - " + q.nro.value))
      else Some(Alert(Warning, Join(PhoneProblems(q), ". ")))
  }

  // ---------------------------------------------------------------- lemmas

  /** Choosing a listed patient shows that patient, here and in the parent. */
  lemma SelectShowsChoice(s: Picker, i: int)
    requires 0 <= i < |s.pacientes|
    requires forall j :: 0 <= j < |s.pacientes| ==> (s.pacientes[j].key == s.pacientes[i].key ==> j == i)
    ensures var r := Select(s, s.pacientes[i].key);
            Seleccionado(r) == Some(s.pacientes[i]) && r.paciente == Some(s.pacientes[i])
  {
    var key := s.pacientes[i].key;
    var q := Lookup(s.pacientes, Some(key));
    assert q.Some?;
    var k :| 0 <= k < |s.pacientes| && s.pacientes[k] == q.value;
    assert k == i;
  }

  /** A new search clears the selection, so until the user picks again the picker shows the
      parent's patient. */
  lemma SearchShowsParentPatient(s: Picker, answer: Result<Answer, Failure>)
    ensures Seleccionado(Buscar(s, answer).1) == s.paciente
  {
  }

  /** The warning joins the two messages with a period when both parts are wrong. */
  lemma BothPartsWrong(p: Patient)
    requires !Blank(p.carac) && !HasLength(p.carac, 3) && !HasLength(p.nro, 7)
    ensures PhoneAlert(Some(p)) == Some(Alert(Warning, BadCarac + ". " + BadNro))
  {
    assert PhoneProblems(p) == [BadCarac, BadNro];
    assert Join([BadCarac, BadNro], ". ") == BadCarac + ". " + Join([BadNro], ". ");
    assert Join([BadNro], ". ") == BadNro;
  }

  /** The picker and the waiting list agree on which phones are valid. */
  lemma AgreesWithWaitListOnValid(p: Patient)
    ensures PhoneAlert(Some(p)).value.severity == Success <==> WaitList.TelefonoEstado(p.carac, p.nro) == WaitList.Valid
  {
  }

  /** They disagree on the rest: two empty parts are "no phone" here and an invalid phone in
      the waiting list, and a missing area code beside a well-formed number is a warning here
      and a missing phone there. */
  lemma DisagreesWithWaitListOnBlank()
    ensures PhoneAlert(Some(Patient("1", Some(""), Some("")))).value.severity == Info
    ensures WaitList.TelefonoEstado(Some(""), Some("")) == WaitList.Invalid
    ensures PhoneAlert(Some(Patient("1", None, Some("4567890")))) == Some(Alert(Warning, BadCarac))
    ensures WaitList.TelefonoEstado(None, Some("4567890")) == WaitList.Missing
  {
    var p := Patient("1", None, Some("4567890"));
    assert PhoneProblems(p) == [BadCarac];
  }
}

=== FILE: routepicker.dfy ===
/** The service / specialty / provider picker of the waiting-list form
    (`frontend/src/features/turno/components/LookEfeSerEsp.tsx`): the services
    the requesting provider offers itself or refers elsewhere, the specialties
    and providers a chosen service leads to, the quota decision of an exact
    referral, and the confirm and clear buttons. The order of the lists (a
    locale-aware sort by name) is not modelled. */
module RoutePicker {
  import opened Wrappers
  import opened Seqs
  import Keyed

  datatype Provider = Provider(id: int, nombre: string)
  datatype Service = Service(id: int, nombre: string)
  datatype Specialty = Specialty(id: int, nombre: string)

  /** A specialty the provider offers under one of its own services. */
  datatype OwnSpecialty = OwnSpecialty(idEsp: int, espNombre: string)

  /** One of the provider's own services (`SerEsp`); `especialidades` may be missing. */
  datatype OwnService = OwnService(idSer: int, serNombre: string, especialidades: Option<seq<OwnSpecialty>>)

  /** A referral rule (`Deriva`): patients of `servicioDeriva` / `especialidadDeriva` are sent
      to `efectorDeriva`; `cupo == 1` marks a referral with a reserved quota. */
  datatype Referral = Referral(cupo: int, efectorDeriva: Provider, servicioDeriva: Service,
                               especialidadDeriva: Option<Specialty>)

  function ProviderId(p: Provider): int { p.id }
  function ServiceId(s: Service): int { s.id }
  function SpecialtyId(s: Specialty): int { s.id }
  function OwnServiceId(s: OwnService): int { s.idSer }

  /** `mapSerEspServiceToServicio`. */
  function AsService(s: OwnService): Service { Service(s.idSer, s.serNombre) }

  /** `mapSerEspEspecialidadToEspecialidad`. */
  function AsSpecialty(e: OwnSpecialty): Specialty { Specialty(e.idEsp, e.espNombre) }

  function ReferredService(d: Referral): Service { d.servicioDeriva }

  /** The services on offer: the own services by id (a later one replacing an earlier one),
      then every referral service whose id is not there yet. */
  function Offered(own: seq<OwnService>, refs: seq<Referral>): (r: seq<Service>)
    ensures Keyed.UniqueKeys(r, ServiceId)
    ensures forall k :: Keyed.Lookup(r, k, ServiceId) ==
              var mine := Keyed.LastWith(Map(own, AsService), k, ServiceId);
              if mine.Some? then mine else Keyed.Lookup(Map(refs, ReferredService), k, ServiceId)
  {
    var base := Keyed.ById(Map(own, AsService), ServiceId);
    Keyed.SetAllIfAbsent(base, Map(refs, ReferredService), ServiceId)
  }

  /** The values present in a list of optional values (`.filter(Boolean)`). */
  function Present<T(!new)>(xs: seq<Option<T>>): (r: seq<T>)
    ensures forall y :: y in r <==> Some(y) in xs
  {
    if |xs| == 0 then []
    else
      var rest := Present(xs[1..]);
      assert forall y :: Some(y) in xs <==> Some(y) == xs[0] || Some(y) in xs[1..];
      if xs[0].Some? then [xs[0].value] + rest else rest
  }

  /** What the picker shows below the service: the specialties, the chosen specialty, the
      providers, the chosen provider and the quota flag handed to the form. */
  datatype Choice = Choice(especialidades: seq<Specialty>, especialidad: Option<Specialty>,
                           efectores: seq<Provider>, efector: Option<Provider>, cupo: bool)

  const Cleared := Choice([], None, [], None, false)

  predicate RefersService(id: int, d: Referral) { d.servicioDeriva.id == id }

  function SpecialtyOfReferral(d: Referral): Option<Specialty> { d.especialidadDeriva }

  /** The effect that runs when the chosen service changes; `home` is the requesting provider. */
  function ServiceChosen(own: seq<OwnService>, refs: seq<Referral>, home: Provider, srv: Option<Service>): (r: Choice)
    ensures srv.None? ==> r == Cleared
    ensures r.especialidad.None? && !r.cupo && Keyed.UniqueKeys(r.especialidades, SpecialtyId)
    ensures srv.Some? && Keyed.Lookup(own, srv.value.id, OwnServiceId).Some? ==>
              r.efectores == [home] && r.efector == Some(home)
              && forall k :: k in Keyed.Keys(r.especialidades, SpecialtyId) <==>
                   k in Keyed.Keys(Map(Keyed.Lookup(own, srv.value.id, OwnServiceId).value.especialidades.GetOr([]), AsSpecialty), SpecialtyId)
    ensures srv.Some? && Keyed.Lookup(own, srv.value.id, OwnServiceId).None? ==>
              (forall e :: e in r.especialidades ==> exists d :: d in refs && RefersService(srv.value.id, d) && d.especialidadDeriva == Some(e))
              && (forall d :: d in refs && RefersService(srv.value.id, d) && d.especialidadDeriva.Some? ==>
                    d.especialidadDeriva.value.id in Keyed.Keys(r.especialidades, SpecialtyId))
              && r.efector == Find(Map(Filter(refs, (d: Referral) => RefersService(srv.value.id, d)), (d: Referral) => d.efectorDeriva), (p: Provider) => true)
              && r.efectores == (if r.efector.Some? then [r.efector.value] else [])
  {
    match srv
    case None => Cleared
    case Some(s) =>
      match Keyed.Lookup(own, s.id, OwnServiceId)
      case Some(entry) =>
        var eps := Keyed.ById(Map(entry.especialidades.GetOr([]), AsSpecialty), SpecialtyId);
        forall k
          ensures k in Keyed.Keys(eps, SpecialtyId) <==> k in Keyed.Keys(Map(entry.especialidades.GetOr([]), AsSpecialty), SpecialtyId)
        {
          assert Keyed.Lookup(eps, k, SpecialtyId) == Keyed.LastWith(Map(entry.especialidades.GetOr([]), AsSpecialty), k, SpecialtyId);
        }
        Choice(eps, None, [home], Some(home), false)
      case None =>
        var derivs := Filter(refs, (d: Referral) => RefersService(s.id, d));
        var found := Present(Map(derivs, SpecialtyOfReferral));
        var eps := Keyed.ById(found, SpecialtyId);
        ReferralSpecialties(refs, s.id, derivs, found, eps);
        var first := Find(Map(derivs, (d: Referral) => d.efectorDeriva), (p: Provider) => true);
        if |derivs| > 0 then
          assert first == Some(derivs[0].efectorDeriva);
          Choice(eps, None, [derivs[0].efectorDeriva], Some(derivs[0].efectorDeriva), false)
        else
          Choice(eps, None, [], None, false)
  }

  /** The referral of exactly service `srv` and specialty `esp`. */
  predicate Exact(srv: Service, esp: Specialty, d: Referral) {
    d.servicioDeriva.id == srv.id && d.especialidadDeriva.Some? && d.especialidadDeriva.value.id == esp.id
  }

  /** Choosing a specialty, followed by the effect that looks for the exact referral. */
  function SpecialtyChosen(refs: seq<Referral>, srv: Option<Service>, esp: Option<Specialty>, c: Choice): (r: Choice)
    ensures r.especialidad == esp && r.especialidades == c.especialidades
    ensures srv.None? || esp.None? ==> r == c.(especialidad := esp)
    ensures srv.Some? && esp.Some? ==>
              var m := Find(refs, (d: Referral) => Exact(srv.value, esp.value, d));
              (m.None? ==> r == c.(especialidad := esp, cupo := false))
              && (m.Some? ==> r.efector == Some(m.value.efectorDeriva) && r.cupo == (m.value.cupo == 1)
                              && m.value.efectorDeriva.id in Keyed.Keys(r.efectores, ProviderId)
                              && (forall p :: p in c.efectores ==> p in r.efectores)
                              && (forall p :: p in r.efectores ==> p in c.efectores || p == m.value.efectorDeriva))
  {
    var c := c.(especialidad := esp);
    if srv.None? || esp.None? then c
    else
      match Find(refs, (d: Referral) => Exact(srv.value, esp.value, d))
      case None => c.(cupo := false)
      case Some(m) =>
        var dest := m.efectorDeriva;
        var efectores := if dest.id in Keyed.Keys(c.efectores, ProviderId) then c.efectores else c.efectores + [dest];
        assert dest.id in Keyed.Keys(efectores, ProviderId) by {
          if dest.id !in Keyed.Keys(c.efectores, ProviderId) {
            assert Keyed.Keys(efectores, ProviderId)[|c.efectores|] == dest.id;
          }
        }
        c.(efectores := efectores, efector := Some(dest), cupo := m.cupo == 1)
  }

  /** The whole picker. */
  datatype Picker = Picker(servicio: Option<Service>, choice: Choice, error: Option<string>,
                           selected: Option<int>, finish: bool)

  /** `handleClear`, followed by the service effect it triggers. */
  function Clear(p: Picker): (r: Picker)
    ensures r.servicio.None? && r.choice == Cleared && r.error.None? && r.selected.None? && !r.finish
  {
    Picker(None, Cleared, None, None, false)
  }

  const Missing := "Faltan seleccionar efector/servicio/especialidad."

  /** The ids `handleConfirm` asks the server about: provider, service, specialty. */
  datatype Lookup = Lookup(efector: int, servicio: int, especialidad: int)

  /** `handleConfirm`. `answer` is the server's reply to the lookup: the id of the
      provider-service-specialty row, or the error text. Returns the lookup sent, if any. */
  function Confirm(p: Picker, answer: Result<int, string>): (r: (Option<Lookup>, Picker))
    ensures r.0.None? <==> p.choice.efector.None? || p.servicio.None? || p.choice.especialidad.None?
    ensures r.0.None? ==> r.1 == p.(error := Some(Missing))
    ensures r.0.Some? ==> r.0.value == Lookup(p.choice.efector.value.id, p.servicio.value.id, p.choice.especialidad.value.id)
    ensures r.0.Some? && answer.Ok? ==> r.1 == p.(error := None, selected := Some(answer.value), finish := true)
    ensures r.0.Some? && answer.Err? ==> r.1 == p.(error := Some(answer.error))
  {
    if p.choice.efector.None? || p.servicio.None? || p.choice.especialidad.None? then
      (None, p.(error := Some(Missing)))
    else
      var lookup := Lookup(p.choice.efector.value.id, p.servicio.value.id, p.choice.especialidad.value.id);
      match answer
      case Ok(id) => (Some(lookup), p.(error := None, selected := Some(id), finish := true))
      case Err(e) => (Some(lookup), p.(error := Some(e)))
  }

  // ---------------------------------------------------------------- lemmas

  lemma ReferralSpecialties(refs: seq<Referral>, id: int, derivs: seq<Referral>, found: seq<Specialty>, eps: seq<Specialty>)
    requires derivs == Filter(refs, (d: Referral) => RefersService(id, d))
    requires found == Present(Map(derivs, SpecialtyOfReferral))
    requires eps == Keyed.ById(found, SpecialtyId)
    ensures forall e :: e in eps ==> exists d :: d in refs && RefersService(id, d) && d.especialidadDeriva == Some(e)
    ensures forall d :: d in refs && RefersService(id, d) && d.especialidadDeriva.Some? ==>
              d.especialidadDeriva.value.id in Keyed.Keys(eps, SpecialtyId)
  {
    forall e | e in eps
      ensures exists d :: d in refs && RefersService(id, d) && d.especialidadDeriva == Some(e)
    {
      var i :| 0 <= i < |eps| && eps[i] == e;
      Keyed.LookupOfMember(eps, i, SpecialtyId);
      assert Keyed.LastWith(found, e.id, SpecialtyId) == Some(e);
      assert Some(e) in Map(derivs, SpecialtyOfReferral);
      var j :| 0 <= j < |derivs| && Map(derivs, SpecialtyOfReferral)[j] == Some(e);
      assert derivs[j] in refs;
    }
    forall d | d in refs && RefersService(id, d) && d.especialidadDeriva.Some?
      ensures d.especialidadDeriva.value.id in Keyed.Keys(eps, SpecialtyId)
    {
      var e := d.especialidadDeriva.value;
      assert d in derivs;
      var j :| 0 <= j < |derivs| && derivs[j] == d;
      assert Map(derivs, SpecialtyOfReferral)[j] == Some(e);
      assert e in found;
      var i :| 0 <= i < |found| && found[i] == e;
      assert Keyed.Keys(found, SpecialtyId)[i] == e.id;
      assert Keyed.Lookup(eps, e.id, SpecialtyId) == Keyed.LastWith(found, e.id, SpecialtyId);
    }
  }

  /** An own service is offered under its own name even when a referral names the same id. */
  lemma OwnServiceWins(own: seq<OwnService>, refs: seq<Referral>, i: int)
    requires 0 <= i < |own|
    requires forall j :: i < j < |own| ==> own[j].idSer != own[i].idSer
    ensures Keyed.Lookup(Offered(own, refs), own[i].idSer, ServiceId) == Some(AsService(own[i]))
  {
    var xs := Map(own, AsService);
    LastIsLast(xs, i);
  }

  lemma {:induction false} LastIsLast(xs: seq<Service>, i: int)
    requires 0 <= i < |xs|
    requires forall j :: i < j < |xs| ==> xs[j].id != xs[i].id
    ensures Keyed.LastWith(xs, xs[i].id, ServiceId) == Some(xs[i])
    decreases |xs|
  {
    assert Keyed.Keys(xs, ServiceId) == [xs[0].id] + Keyed.Keys(xs[1..], ServiceId);
    if i == 0 {
      assert xs[0].id !in Keyed.Keys(xs[1..], ServiceId) by {
        forall j | 0 <= j < |xs[1..]|
          ensures Keyed.Keys(xs[1..], ServiceId)[j] != xs[0].id
        {
          assert xs[1..][j] == xs[j + 1];
        }
      }
    } else {
      forall j | i - 1 < j < |xs[1..]|
        ensures xs[1..][j].id != xs[1..][i - 1].id
      {
        assert xs[1..][j] == xs[j + 1];
      }
      LastIsLast(xs[1..], i - 1);
    }
  }

  /** A service only referrals name is offered as the first referral names it. */
  lemma ReferralOnlyService(own: seq<OwnService>, refs: seq<Referral>, k: int)
    requires forall s :: s in own ==> s.idSer != k
    ensures Keyed.Lookup(Offered(own, refs), k, ServiceId) == Keyed.Lookup(Map(refs, ReferredService), k, ServiceId)
  {
    var xs := Map(own, AsService);
    assert k !in Keyed.Keys(xs, ServiceId) by {
      forall j | 0 <= j < |xs|
        ensures Keyed.Keys(xs, ServiceId)[j] != k
      {
        assert xs[j] == AsService(own[j]) && own[j] in own;
      }
    }
  }

  /** The chosen provider's id is always one of the ids listed (the provider dropdown selects
      by id): the service effect and the specialty effect both keep it so. */
  predicate ProviderListed(c: Choice) {
    c.efector.Some? ==> c.efector.value.id in Keyed.Keys(c.efectores, ProviderId)
  }

  lemma ServiceChosenListsProvider(own: seq<OwnService>, refs: seq<Referral>, home: Provider, srv: Option<Service>)
    ensures ProviderListed(ServiceChosen(own, refs, home, srv))
  {
  }

  lemma SpecialtyChosenKeepsListed(refs: seq<Referral>, srv: Option<Service>, esp: Option<Specialty>, c: Choice)
    requires ProviderListed(c)
    ensures ProviderListed(SpecialtyChosen(refs, srv, esp, c))
  {
    var r := SpecialtyChosen(refs, srv, esp, c);
    if srv.Some? && esp.Some? {
      var m := Find(refs, (d: Referral) => Exact(srv.value, esp.value, d));
      if m.Some? {
        var dest := m.value.efectorDeriva;
        assert r.efector == Some(dest);
      }
    }
  }

  /** An own service without an exact referral keeps the requesting provider and no quota:
      choosing any of its specialties confirms against the requesting provider. */
  lemma OwnServiceStaysHome(own: seq<OwnService>, refs: seq<Referral>, home: Provider, srv: Service, esp: Specialty)
    requires Keyed.Lookup(own, srv.id, OwnServiceId).Some?
    requires forall d :: d in refs ==> !Exact(srv, esp, d)
    ensures var c := SpecialtyChosen(refs, Some(srv), Some(esp), ServiceChosen(own, refs, home, Some(srv)));
            c.efector == Some(home) && !c.cupo && c.especialidad == Some(esp)
  {
    var m := Find(refs, (d: Referral) => Exact(srv, esp, d));
    assert m.None?;
  }

  /** The quota flag is set exactly when the first exact referral has quota 1. */
  lemma QuotaOnlyFromExactReferral(refs: seq<Referral>, srv: Service, esp: Specialty, c: Choice)
    ensures SpecialtyChosen(refs, Some(srv), Some(esp), c).cupo <==>
              exists i :: 0 <= i < |refs| && Exact(srv, esp, refs[i]) && refs[i].cupo == 1
                          && forall j :: 0 <= j < i ==> !Exact(srv, esp, refs[j])
  {
    var m := Find(refs, (d: Referral) => Exact(srv, esp, d));
    if m.Some? {
      var i :| 0 <= i < |refs| && refs[i] == m.value && Exact(srv, esp, m.value)
               && forall j :: 0 <= j < i ==> !Exact(srv, esp, refs[j]);
      forall i' | 0 <= i' < |refs| && Exact(srv, esp, refs[i']) && forall j :: 0 <= j < i' ==> !Exact(srv, esp, refs[j])
        ensures i' == i
      {
      }
    }
  }

  /** Confirming twice without a complete choice changes nothing more than the first time. */
  lemma ConfirmGuard(p: Picker, a: Result<int, string>, b: Result<int, string>)
    requires p.choice.efector.None? || p.servicio.None? || p.choice.especialidad.None?
    ensures Confirm(p, a) == Confirm(Confirm(p, b).1, a)
  {
  }
}

=== FILE: seqs.dfy ===
/** Array operations the frontend leans on: `filter`, `map`, `includes`-based
    intersection and `Array.from(new Set(xs))` (first occurrence kept, in order). */
module Seqs {
  import opened Wrappers

  predicate NoDup<T(==)>(s: seq<T>) {
    forall i, j :: 0 <= i < j < |s| ==> s[i] != s[j]
  }

  /** `s.filter(p)`. */
  function Filter<T(!new)>(s: seq<T>, p: T -> bool): (r: seq<T>)
    ensures |r| <= |s|
    ensures forall y :: y in r <==> y in s && p(y)
    ensures forall i :: 0 <= i < |r| ==> p(r[i])
  {
    if |s| == 0 then []
    else if p(s[0]) then [s[0]] + Filter(s[1..], p)
    else Filter(s[1..], p)
  }

  /** The members of `all` that lie in `chosen`, kept in the order of `all`: the shape of every
      page's list of visible columns. */
  function Select<T(!new)>(all: seq<T>, chosen: set<T>): (r: seq<T>)
    ensures |r| <= |all|
    ensures forall y :: y in r <==> y in all && y in chosen
  {
    Filter(all, (y: T) => y in chosen)
  }

  /** Filtering a list with one more element at the end. */
  lemma FilterAppend<T(!new)>(s: seq<T>, x: T, p: T -> bool)
    ensures Filter(s + [x], p) == Filter(s, p) + (if p(x) then [x] else [])
  {
    if |s| == 0 {
      assert [x][1..] == [];
    } else {
      assert (s + [x])[1..] == s[1..] + [x];
      FilterAppend(s[1..], x, p);
    }
  }

  /** Filtering a concatenation filters each part. */
  lemma {:induction false} FilterConcat<T(!new)>(a: seq<T>, b: seq<T>, p: T -> bool)
    ensures Filter(a + b, p) == Filter(a, p) + Filter(b, p)
    decreases |a|
  {
    if |a| == 0 {
      assert a + b == b;
    } else {
      assert (a + b)[0] == a[0] && (a + b)[1..] == a[1..] + b;
      FilterConcat(a[1..], b, p);
    }
  }

  /** `s.map(f)`. */
  function Map<T, U>(s: seq<T>, f: T -> U): (r: seq<U>)
    ensures |r| == |s|
    ensures forall i :: 0 <= i < |s| ==> r[i] == f(s[i])
  {
    if |s| == 0 then [] else [f(s[0])] + Map(s[1..], f)
  }

  /** Mapping a rearranged list gives a rearrangement of the mapped list. */
  lemma {:induction false} MapPermutation<T, U>(a: seq<T>, b: seq<T>, f: T -> U)
    requires multiset(a) == multiset(b)
    ensures multiset(Map(a, f)) == multiset(Map(b, f))
    decreases |a|
  {
    if |a| == 0 {
      assert |b| == |multiset(b)| == 0;
    } else {
      var x := a[0];
      assert x in multiset(b);
      var k :| 0 <= k < |b| && b[k] == x;
      CutOne(a, 0);
      CutOne(b, k);
      assert a[..0] + a[1..] == a[1..];
      assert multiset(a[1..]) == multiset(a) - multiset{x};
      assert multiset(b[..k] + b[k + 1..]) == multiset(b) - multiset{x};
      MapPermutation(a[1..], b[..k] + b[k + 1..], f);
      MapSplice(a, 0, f);
      MapSplice(b, k, f);
    }
  }

  /** Mapping a list with its `k`-th element cut out. */
  lemma MapSplice<T, U>(b: seq<T>, k: nat, f: T -> U)
    requires k < |b|
    ensures multiset(Map(b, f)) == multiset(Map(b[..k] + b[k + 1..], f)) + multiset{f(b[k])}
  {
    var front, back := b[..k], b[k + 1..];
    assert b == front + ([b[k]] + back);
    MapConcat(front, [b[k]] + back, f);
    MapConcat([b[k]], back, f);
    MapConcat(front, back, f);
    assert Map([b[k]], f) == [f(b[k])];
  }

  lemma CutOne<V>(s: seq<V>, k: nat)
    requires k < |s|
    ensures multiset(s) == multiset(s[..k] + s[k + 1..]) + multiset{s[k]}
  {
    assert s == s[..k] + [s[k]] + s[k + 1..];
  }

  /** Mapping distributes over concatenation. */
  lemma {:induction false} MapConcat<T, U>(a: seq<T>, b: seq<T>, f: T -> U)
    ensures Map(a + b, f) == Map(a, f) + Map(b, f)
    decreases |a|
  {
    if |a| == 0 {
      assert a + b == b;
    } else {
      assert (a + b)[1..] == a[1..] + b;
      MapConcat(a[1..], b, f);
    }
  }

  /** Mapping the kept elements of a non-empty list: the head's image, if kept, then the tail's. */
  lemma MapFilterCons<T(!new), U>(s: seq<T>, p: T -> bool, f: T -> U)
    requires |s| > 0
    ensures Map(Filter(s, p), f) == (if p(s[0]) then [f(s[0])] else []) + Map(Filter(s[1..], p), f)
  {
    if p(s[0]) {
      assert ([s[0]] + Filter(s[1..], p))[1..] == Filter(s[1..], p);
    }
  }

  /** `xss.flat()`. */
  function Flatten<T(!new)>(xss: seq<seq<T>>): (r: seq<T>)
    ensures forall x :: x in r <==> exists i :: 0 <= i < |xss| && x in xss[i]
  {
    if |xss| == 0 then [] else xss[0] + Flatten(xss[1..])
  }

  /** `s.filter(x => keep.includes(x))`: the elements of `s` that also occur in `keep`, in `s`'s order. */
  function Keep<T(==,!new)>(s: seq<T>, keep: seq<T>): (r: seq<T>)
    ensures |r| <= |s|
    ensures forall y :: y in r <==> y in s && y in keep
  {
    Filter(s, y => y in keep)
  }

  /** `s.filter(x => x !== v)`. */
  function Remove<T(==,!new)>(s: seq<T>, v: T): (r: seq<T>)
    ensures v !in r
    ensures forall y :: y != v ==> (y in r <==> y in s)
    ensures v !in s ==> r == s
  {
    if |s| == 0 then []
    else if s[0] == v then Remove(s[1..], v)
    else [s[0]] + Remove(s[1..], v)
  }

  /** `Array.from(new Set(s))`: each value once, at the position of its first occurrence. */
  function Dedup<T(==,!new)>(s: seq<T>): (r: seq<T>)
    ensures NoDup(r)
    ensures forall y :: y in r <==> y in s
  {
    var r := DedupAfter([], s);
    assert [] + r == r;
    r
  }

  /** Values of `s` not already in `seen`, first occurrences only. */
  function DedupAfter<T(==,!new)>(seen: seq<T>, s: seq<T>): (r: seq<T>)
    requires NoDup(seen)
    ensures NoDup(seen + r)
    ensures forall y :: y in r <==> y in s && y !in seen
    decreases |s|
  {
    if |s| == 0 then []
    else if s[0] in seen then DedupAfter(seen, s[1..])
    else
      var seen' := seen + [s[0]];
      var rest := DedupAfter(seen', s[1..]);
      assert seen' + rest == seen + ([s[0]] + rest);
      [s[0]] + rest
  }

  /** `s.find(p)`: the first element satisfying `p`, if any. */
  function Find<T>(s: seq<T>, p: T -> bool): (r: Option<T>)
    ensures r.None? <==> forall i :: 0 <= i < |s| ==> !p(s[i])
    ensures r.Some? ==> exists i :: 0 <= i < |s| && s[i] == r.value && p(r.value)
                                    && forall j :: 0 <= j < i ==> !p(s[j])
  {
    if |s| == 0 then None
    else if p(s[0]) then Some(s[0])
    else
      var r := Find(s[1..], p);
      FindSkip(s, p, r);
      r
  }

  /** An element failing `p` in front does not change the first match. */
  lemma FindSkip<T>(s: seq<T>, p: T -> bool, r: Option<T>)
    requires |s| > 0 && !p(s[0])
    requires r.None? <==> forall i :: 0 <= i < |s[1..]| ==> !p(s[1..][i])
    requires r.Some? ==> exists i :: 0 <= i < |s[1..]| && s[1..][i] == r.value && p(r.value)
                                     && forall j :: 0 <= j < i ==> !p(s[1..][j])
    ensures r.None? <==> forall i :: 0 <= i < |s| ==> !p(s[i])
    ensures r.Some? ==> exists i :: 0 <= i < |s| && s[i] == r.value && p(r.value)
                                    && forall j :: 0 <= j < i ==> !p(s[j])
  {
    if r.Some? {
      var i :| 0 <= i < |s[1..]| && s[1..][i] == r.value && p(r.value)
               && forall j :: 0 <= j < i ==> !p(s[1..][j]);
      assert s[i + 1] == r.value;
      forall j | 0 <= j < i + 1
        ensures !p(s[j])
      {
        if j > 0 { assert s[j] == s[1..][j - 1]; }
      }
    } else {
      forall i | 0 <= i < |s|
        ensures !p(s[i])
      {
        if i > 0 { assert s[i] == s[1..][i - 1]; }
      }
    }
  }

  /** A list without repeated values is left as it is. */
  lemma DedupOfNoDup<T(!new)>(s: seq<T>)
    requires NoDup(s)
    ensures Dedup(s) == s
  {
    assert [] + s == s;
    DedupAfterOfNoDup([], s);
  }

  lemma {:induction false} DedupAfterOfNoDup<T(!new)>(seen: seq<T>, s: seq<T>)
    requires NoDup(seen) && NoDup(seen + s)
    ensures DedupAfter(seen, s) == s
    decreases |s|
  {
    if |s| > 0 {
      forall k | 0 <= k < |seen|
        ensures seen[k] != s[0]
      {
        assert (seen + s)[k] == seen[k] && (seen + s)[|seen|] == s[0];
      }
      assert seen + s == (seen + [s[0]]) + s[1..];
      DedupAfterOfNoDup(seen + [s[0]], s[1..]);
    }
  }

  /** Appending a value that is absent and then removing it restores the list. */
  lemma RemoveAppended<T(!new)>(s: seq<T>, v: T)
    requires v !in s
    ensures Remove(s + [v], v) == s
  {
    if |s| == 0 {
      assert [v][1..] == [];
    } else {
      assert (s + [v])[1..] == s[1..] + [v];
      RemoveAppended(s[1..], v);
    }
  }

  /** Removing a value that occurs once and re-appending it keeps the same multiset. */
  lemma {:induction false} RemoveThenAppend<T(!new)>(s: seq<T>, v: T)
    requires multiset(s)[v] == 1
    ensures multiset(Remove(s, v) + [v]) == multiset(s)
    decreases |s|
  {
    assert s == [s[0]] + s[1..];
    if s[0] == v {
      assert multiset(s[1..])[v] == 0;
      assert v !in s[1..];
      assert Remove(s[1..], v) == s[1..];
    } else {
      assert multiset(s[1..])[v] == 1;
      RemoveThenAppend(s[1..], v);
    }
  }

  /** Filtering twice by the same predicate is filtering once. */
  lemma {:induction false} FilterIdempotent<T(!new)>(s: seq<T>, p: T -> bool)
    ensures Filter(Filter(s, p), p) == Filter(s, p)
    decreases |s|
  {
    if |s| > 0 {
      FilterIdempotent(s[1..], p);
      if p(s[0]) {
        assert ([s[0]] + Filter(s[1..], p))[1..] == Filter(s[1..], p);
      }
    }
  }

  /** Removing a value from a list without repeats leaves a list without repeats. */
  lemma {:induction false} RemoveKeepsNoDup<T(!new)>(s: seq<T>, v: T)
    requires NoDup(s)
    ensures NoDup(Remove(s, v))
    decreases |s|
  {
    if |s| > 0 {
      assert NoDup(s[1..]) by {
        forall i, j | 0 <= i < j < |s[1..]|
          ensures s[1..][i] != s[1..][j]
        {
          assert s[1..][i] == s[i + 1] && s[1..][j] == s[j + 1];
        }
      }
      RemoveKeepsNoDup(s[1..], v);
      if s[0] != v {
        var rest := Remove(s[1..], v);
        assert s[0] !in s[1..] by {
          forall k | 0 <= k < |s[1..]|
            ensures s[1..][k] != s[0]
          {
            assert s[1..][k] == s[k + 1];
          }
        }
        assert s[0] !in rest;
        var r := [s[0]] + rest;
        forall i, j | 0 <= i < j < |r|
          ensures r[i] != r[j]
        {
          if i == 0 {
            assert r[j] == rest[j - 1];
          } else {
            assert r[i] == rest[i - 1] && r[j] == rest[j - 1];
          }
        }
      }
    }
  }

  /** Appending an absent value to a list without repeats keeps it without repeats. */
  lemma AppendKeepsNoDup<T>(s: seq<T>, v: T)
    requires NoDup(s) && v !in s
    ensures NoDup(s + [v])
  {
    var r := s + [v];
    forall i, j | 0 <= i < j < |r|
      ensures r[i] != r[j]
    {
      if j == |s| {
        assert r[i] == s[i];
      } else {
        assert r[i] == s[i] && r[j] == s[j];
      }
    }
  }

  /** The values of `key` strictly ascend along `s`. */
  predicate Increasing<T>(s: seq<T>, key: T -> int) {
    forall i, j :: 0 <= i < j < |s| ==> key(s[i]) < key(s[j])
  }

  /** A strictly ascending list stays so without its head. */
  lemma IncreasingTail<T>(s: seq<T>, key: T -> int)
    requires |s| > 0 && Increasing(s, key)
    ensures Increasing(s[1..], key)
  {
    forall i, j | 0 <= i < j < |s[1..]|
      ensures key(s[1..][i]) < key(s[1..][j])
    {
      assert s[1..][i] == s[i + 1] && s[1..][j] == s[j + 1];
    }
  }

  /** A value below every element of a strictly ascending list ascends in front of it. */
  lemma IncreasingCons<T>(x: T, rest: seq<T>, key: T -> int)
    requires Increasing(rest, key)
    requires forall y :: y in rest ==> key(x) < key(y)
    ensures Increasing([x] + rest, key)
  {
    var r := [x] + rest;
    forall i, j | 0 <= i < j < |r|
      ensures key(r[i]) < key(r[j])
    {
      assert r[j] == rest[j - 1] && rest[j - 1] in rest;
      if i > 0 {
        assert r[i] == rest[i - 1];
      }
    }
  }

  /** The head of a strictly ascending list is below everything after it. */
  lemma HeadLeast<T>(s: seq<T>, key: T -> int)
    requires |s| > 0 && Increasing(s, key)
    ensures forall y :: y in s[1..] ==> key(s[0]) < key(y)
  {
    forall y | y in s[1..]
      ensures key(s[0]) < key(y)
    {
      var k :| 0 <= k < |s[1..]| && s[1..][k] == y;
      assert s[1..][k] == s[k + 1];
    }
  }

  /** Filtering keeps a strictly ascending key ascending. */
  lemma {:induction false} FilterIncreasing<T(!new)>(s: seq<T>, key: T -> int, p: T -> bool)
    requires Increasing(s, key)
    ensures Increasing(Filter(s, p), key)
    decreases |s|
  {
    if |s| > 0 {
      IncreasingTail(s, key);
      FilterIncreasing(s[1..], key, p);
      if p(s[0]) {
        HeadLeast(s, key);
        IncreasingCons(s[0], Filter(s[1..], p), key);
      }
    }
  }
}

=== FILE: serializers.dfy ===
/** The rules of the REST serializers (`backend/src/serializers.py`): phone
    normalisation of patient data, creation and closing of waiting-list
    entries, the per-message view with its state refresh, and the date shown
    for the patient's answer to an appointment. Database tables are given as
    plain values; the rows a call writes are part of its result. */
module Serializers {
  import opened Wrappers
  import opened Seqs
  import opened Text
  import opened Sorting

  // ---------------------------------------------------------------- patients

  /** A patient as `PacienteSerializer` renders it: the name and the two phone parts. */
  datatype Patient = Patient(nombre: Option<string>, caracTelef: Option<string>, nroTelef: Option<string>)

  /** A phone part after `to_representation`: a truthy value loses its spaces; `None` and the
      empty text are kept. */
  function PhonePart(v: Option<string>): (r: Option<string>)
    ensures r.Some? <==> v.Some?
    ensures v.Some? ==> ' ' !in r.value
    ensures v.Some? ==> forall c :: c != ' ' ==> (c in r.value <==> c in v.value)
  {
    if v.Some? && v.value != "" then Some(Without(v.value, ' ')) else v
  }

  /** `PacienteSerializer.to_representation`: both phone parts normalised, the rest as stored. */
  function Representation(p: Patient): (r: Patient)
    ensures r.nombre == p.nombre
    ensures (r.caracTelef.Some? <==> p.caracTelef.Some?) && (r.nroTelef.Some? <==> p.nroTelef.Some?)
    ensures r.caracTelef.Some? ==> ' ' !in r.caracTelef.value
    ensures r.nroTelef.Some? ==> ' ' !in r.nroTelef.value
  {
    p.(caracTelef := PhonePart(p.caracTelef), nroTelef := PhonePart(p.nroTelef))
  }

  // ---------------------------------------------------------------- waiting-list entries

  /** A waiting-list entry with the fields the serializers write. */
  datatype Espera = Espera(
    prioridad: Option<int>, usuarioCreacion: Option<int>, fechaCreacion: int, estado: Option<int>,
    usuarioCierre: Option<int>, fechaCierre: Option<int>)

  /** A requested study: a bare id, or the study row itself (what the related field yields). */
  datatype Study = ById(pk: int) | Given(pk: int)

  /** The validated data of a creation request. */
  datatype Request = Request(
    prioridad: Option<int>, usuarioCreacion: Option<int>, fechaCreacion: Option<int>, estado: Option<int>,
    studies: seq<Study>)

  /** What `create` leaves behind: the stored entry, its set of studies, and the ids reported
      missing when it raised a validation error. */
  datatype Created = Created(entry: Espera, studies: set<int>, missing: Option<seq<int>>)

  /** The least value of a non-empty list. */
  function Least(s: seq<int>): (m: int)
    requires |s| > 0
    ensures m in s && forall x :: x in s ==> m <= x
  {
    if |s| == 1 then s[0]
    else
      var r := Least(s[1..]);
      assert s == [s[0]] + s[1..];
      if s[0] <= r then s[0] else r
  }

  /** The default state: the state with key 0 when it exists, else the first state in key
      order, else none. `estados` are the keys of the state table. */
  function DefaultEstado(estados: seq<int>): (r: Option<int>)
    ensures r.None? <==> |estados| == 0
    ensures r.Some? ==> r.value in estados
    ensures 0 in estados ==> r == Some(0)
    ensures 0 !in estados && r.Some? ==> forall x :: x in estados ==> r.value <= x
  {
    if 0 in estados then Some(0) else if |estados| == 0 then None else Some(Least(estados))
  }

  predicate IsById(s: Study) { s.ById? }

  function StudyPk(s: Study): int { s.pk }

  /** Python's `sorted(set(ids))` for integers: each value once, ascending. */
  function SortedSet(ids: seq<int>): (r: seq<int>)
    ensures forall x :: x in r <==> x in ids
    ensures forall i, j :: 0 <= i < j < |r| ==> r[i] < r[j]
  {
    var d := Dedup(ids);
    var le := Ascending((x: int) => x);
    var r := SortBy(d, le);
    SortByMembers(d, le);
    AscendingIsPreorder((x: int) => x);
    SortBySorted(d, le);
    SameElementsNoDup(d, r);
    r
  }

  /** `Estudios no encontrados: [3, 5]`: the text the validation error carries. */
  function MissingMessage(ids: seq<int>): string {
    "Estudios no encontrados: [" + Join(Map(ids, IntToString), ", ") + "]"
  }

  /** The studies check of `create`: when every study is given by id, the ids without a row,
      each once and ascending, if there are any. */
  function MissingStudies(studies: seq<Study>, table: set<int>): (r: Option<seq<int>>)
    ensures r.Some? ==>
              |r.value| > 0
              && (forall i :: 0 <= i < |studies| ==> studies[i].ById?)
              && (forall x :: x in r.value <==> x !in table && exists i :: 0 <= i < |studies| && studies[i].pk == x)
              && (forall i, j :: 0 <= i < j < |r.value| ==> r.value[i] < r.value[j])
    ensures r.None? && (forall i :: 0 <= i < |studies| ==> studies[i].ById?) ==>
              forall i :: 0 <= i < |studies| ==> studies[i].pk in table
  {
    if forall i :: 0 <= i < |studies| ==> studies[i].ById? then
      var pks := Map(studies, StudyPk);
      var unknown := (x: int) => x !in table;
      var missing := SortedSet(Filter(pks, unknown));
      PksListed(studies);
      if |missing| > 0 then Some(missing)
      else
        NoneMissing(studies, table, unknown);
        None
    else None
  }

  lemma NoneMissing(studies: seq<Study>, table: set<int>, unknown: int -> bool)
    requires forall x :: unknown(x) == (x !in table)
    requires |SortedSet(Filter(Map(studies, StudyPk), unknown))| == 0
    ensures forall i :: 0 <= i < |studies| ==> studies[i].pk in table
  {
    var pks := Map(studies, StudyPk);
    var missing := SortedSet(Filter(pks, unknown));
    forall i | 0 <= i < |studies|
      ensures studies[i].pk in table
    {
      var x := pks[i];
      assert x == studies[i].pk && x in pks;
      assert unknown(x) ==> x in missing;
    }
  }

  lemma PksListed(studies: seq<Study>)
    ensures forall x :: x in Map(studies, StudyPk) <==> exists i :: 0 <= i < |studies| && studies[i].pk == x
  {
    var pks := Map(studies, StudyPk);
    forall x | x in pks
      ensures exists i :: 0 <= i < |studies| && studies[i].pk == x
    {
      var k :| 0 <= k < |pks| && pks[k] == x;
      assert studies[k].pk == x;
    }
    forall x | exists i :: 0 <= i < |studies| && studies[i].pk == x
      ensures x in pks
    {
      var k :| 0 <= k < |studies| && studies[k].pk == x;
      assert pks[k] == x;
    }
  }

  /** `TurnoEsperaCreateSerializer.create`. `user` is the request's user, `now` the clock,
      `estados` the keys of the state table and `table` the keys of the study table. The entry is
      stored before the studies are checked, so a validation error leaves it stored without
      studies. */
  function Create(req: Request, user: Option<int>, now: int, estados: seq<int>, table: set<int>): (r: Created)
    ensures r.entry.prioridad == req.prioridad
    ensures r.entry.usuarioCreacion == if req.usuarioCreacion.Some? then req.usuarioCreacion else user
    ensures r.entry.fechaCreacion == req.fechaCreacion.GetOr(now)
    ensures req.estado.Some? ==> r.entry.estado == req.estado
    ensures req.estado.None? ==> r.entry.estado == DefaultEstado(estados)
    ensures r.entry.usuarioCierre.None? && r.entry.fechaCierre.None?
    ensures |req.studies| == 0 ==> r.studies == {} && r.missing.None?
    ensures r.missing.Some? ==> r.studies == {} && r.missing == MissingStudies(req.studies, table)
    ensures r.missing.None? ==> r.studies == set i | 0 <= i < |req.studies| :: req.studies[i].pk
    ensures |req.studies| > 0 ==> r.missing == MissingStudies(req.studies, table)
  {
    var entry := Espera(
      req.prioridad, if req.usuarioCreacion.Some? then req.usuarioCreacion else user,
      req.fechaCreacion.GetOr(now), if req.estado.Some? then req.estado else DefaultEstado(estados),
      None, None);
    if |req.studies| == 0 then Created(entry, {}, None)
    else
      match MissingStudies(req.studies, table)
      case Some(missing) => Created(entry, {}, Some(missing))
      case None => Created(entry, set i | 0 <= i < |req.studies| :: req.studies[i].pk, None)
  }

  /** `TurnoEsperaCloseSerializer.update`: the closed state (key 1), the closing time and the
      closing user, the only three fields the save writes; it fails when the state table has no
      key 1. */
  function Close(e: Espera, user: Option<int>, now: int, estados: seq<int>): (r: Result<Espera, string>)
    ensures r.Ok? <==> 1 in estados
    ensures r.Ok? ==> r.value.estado == Some(1) && r.value.fechaCierre == Some(now) && r.value.usuarioCierre == user
    ensures r.Ok? ==> r.value.(estado := e.estado, fechaCierre := e.fechaCierre, usuarioCierre := e.usuarioCierre) == e
  {
    if 1 in estados then Ok(e.(estado := Some(1), fechaCierre := Some(now), usuarioCierre := user))
    else Err("EstadoTurnoEspera matching query does not exist.")
  }

  // ---------------------------------------------------------------- messages

  /** A sent message (`Mensaje`): its key, the provider's id, the number, the send time, the last
      acknowledgement time and the state key. */
  datatype Message = Message(id: int, idMensaje: Option<string>, numero: string, fechaEnvio: int, lastAck: Option<int>, estado: int)

  /** What asking the provider for the message's state yields: nothing usable, or an answer at
      time `at` that may carry an `ack`. */
  datatype Refresh = NoAnswer | Answered(at: int, ack: Option<int>)

  /** `update_msg_state`: an answer stamps the acknowledgement time and, when it has an `ack`,
      replaces the state; the object is changed even when saving it fails. */
  function ApplyRefresh(m: Message, a: Refresh): (r: Message)
    ensures a.NoAnswer? ==> r == m
    ensures a.Answered? ==> r.lastAck == Some(a.at) && r.estado == a.ack.GetOr(m.estado)
    ensures r.(lastAck := m.lastAck, estado := m.estado) == m
  {
    match a
    case NoAnswer => m
    case Answered(at, ack) => m.(lastAck := Some(at), estado := ack.GetOr(m.estado))
  }

  /** The message as the turn's detail lists it. */
  datatype MessageView = MessageView(id: int, idMensaje: Option<string>, numero: Option<string>, fechaEnvio: int, estado: int, lastAck: Option<int>)

  /** A message is refreshed only while it is in one of the first three states. */
  predicate Pending(m: Message)
    ensures Pending(m) <==> m.estado in {0, 1, 2}
  {
    0 <= m.estado < 3
  }

  /** `procesar_mensaje`; `ask(m)` is the provider's answer about `m`. */
  function ProcesarMensaje(m: Message, ask: Message -> Refresh): (v: MessageView)
    ensures v.id == m.id && v.idMensaje == m.idMensaje && v.fechaEnvio == m.fechaEnvio
    ensures v.numero.None? <==> m.numero == ""
    ensures v.numero.Some? ==> v.numero.value == m.numero
    ensures !Pending(m) ==> v.estado == m.estado && v.lastAck == m.lastAck
    ensures Pending(m) && ask(m).Answered? ==> v.lastAck == Some(ask(m).at)
  {
    var cur := if Pending(m) then ApplyRefresh(m, ask(m)) else m;
    MessageView(cur.id, cur.idMensaje, if cur.numero != "" then Some(cur.numero) else None,
                cur.fechaEnvio, cur.estado, cur.lastAck)
  }

  function SendTime(m: Message): int { m.fechaEnvio }

  /** `v` is how some message of `msgs` is shown. */
  ghost predicate ViewOf(msgs: seq<Message>, v: MessageView, ask: Message -> Refresh) {
    exists m :: m in msgs && v == ProcesarMensaje(m, ask)
  }

  /** The view of one message, with the refresh answers `ask` gives. */
  function Shown(ask: Message -> Refresh): Message -> MessageView {
    (m: Message) => ProcesarMensaje(m, ask)
  }

  /** `get_mensaje_asociado`: the turn's messages, newest first, each processed. */
  function MensajesAsociados(msgs: seq<Message>, ask: Message -> Refresh): (r: seq<MessageView>)
    ensures |r| == |msgs|
    ensures multiset(r) == multiset(Map(msgs, Shown(ask)))
    ensures forall i, j :: 0 <= i < j < |r| ==> r[i].fechaEnvio >= r[j].fechaEnvio
    ensures forall i :: 0 <= i < |r| ==> ViewOf(msgs, r[i], ask)
  {
    var le := Descending(SendTime);
    var sorted := SortBy(msgs, le);
    DescendingIsPreorder(SendTime);
    SortBySorted(msgs, le);
    SortByMembers(msgs, le);
    var r := Map(sorted, Shown(ask));
    ViewsInOrder(msgs, sorted, r, ask);
    MapPermutation(sorted, msgs, Shown(ask));
    r
  }

  lemma ViewsInOrder(msgs: seq<Message>, sorted: seq<Message>, r: seq<MessageView>, ask: Message -> Refresh)
    requires SortedBy(sorted, Descending(SendTime))
    requires forall m :: m in sorted ==> m in msgs
    requires |r| == |sorted| && forall i :: 0 <= i < |r| ==> r[i] == ProcesarMensaje(sorted[i], ask)
    ensures forall i, j :: 0 <= i < j < |r| ==> r[i].fechaEnvio >= r[j].fechaEnvio
    ensures forall i :: 0 <= i < |r| ==> ViewOf(msgs, r[i], ask)
  {
    forall i, j | 0 <= i < j < |r|
      ensures r[i].fechaEnvio >= r[j].fechaEnvio
    {
      assert Descending(SendTime)(sorted[i], sorted[j]);
      assert SendTime(sorted[j]) <= SendTime(sorted[i]);
      assert r[i].fechaEnvio == sorted[i].fechaEnvio && r[j].fechaEnvio == sorted[j].fechaEnvio;
    }
    forall i | 0 <= i < |r|
      ensures ViewOf(msgs, r[i], ask)
    {
      assert sorted[i] in sorted;
      assert sorted[i] in msgs && r[i] == ProcesarMensaje(sorted[i], ask);
    }
  }

  // ---------------------------------------------------------------- patient answer date

  /** A flow run linked to a turn: its flow template and its start and closing times. */
  datatype Flow = Flow(plantillaFlow: int, inicio: Option<int>, cierre: Option<int>)

  /** The key of the first row of `ORDER BY key` in MySQL, where a null key sorts first. */
  function FirstKey(keys: seq<Option<int>>): (r: Option<int>)
    requires |keys| > 0
    ensures r.None? <==> None in keys
    ensures r.Some? ==> r in keys && forall k :: k in keys ==> k.Some? && r.value <= k.value
  {
    if |keys| == 1 then keys[0]
    else
      var rest := FirstKey(keys[1..]);
      assert keys == [keys[0]] + keys[1..];
      if keys[0].None? || rest.None? then None
      else if keys[0].value <= rest.value then keys[0] else rest
  }

  predicate AnswerFlow(f: Flow) { f.plantillaFlow == 1 }

  /** Whether the turn's state is one of the two answered states. */
  predicate AnsweredState(estado: Option<int>) { estado == Some(1) || estado == Some(2) }

  /** The time the date is read from: closing for an answered turn, start otherwise. */
  function KeyOf(estado: Option<int>, f: Flow): Option<int> {
    if AnsweredState(estado) then f.cierre else f.inicio
  }

  /** The first of `answers` ordered by their key: the key, or `None` for no flow. */
  function Earliest(estado: Option<int>, answers: seq<Flow>): (r: Option<int>)
    ensures r.Some? ==> exists f :: f in answers && KeyOf(estado, f) == r
    ensures r.Some? ==> forall f :: f in answers ==> KeyOf(estado, f).Some? && r.value <= KeyOf(estado, f).value
    ensures r.None? <==> |answers| == 0 || exists f :: f in answers && KeyOf(estado, f).None?
  {
    if |answers| == 0 then None
    else
      var keys := Map(answers, (f: Flow) => KeyOf(estado, f));
      KeysOfAnswers(estado, answers, keys);
      FirstKey(keys)
  }

  lemma KeysOfAnswers(estado: Option<int>, answers: seq<Flow>, keys: seq<Option<int>>)
    requires |keys| == |answers| && forall i :: 0 <= i < |answers| ==> keys[i] == KeyOf(estado, answers[i])
    ensures forall f :: f in answers ==> KeyOf(estado, f) in keys
    ensures forall k :: k in keys ==> exists f :: f in answers && KeyOf(estado, f) == k
  {
    forall f | f in answers
      ensures KeyOf(estado, f) in keys
    {
      var i :| 0 <= i < |answers| && answers[i] == f;
      assert keys[i] == KeyOf(estado, f);
    }
    forall k | k in keys
      ensures exists f :: f in answers && KeyOf(estado, f) == k
    {
      var i :| 0 <= i < |keys| && keys[i] == k;
      assert answers[i] in answers;
    }
  }

  /** `get_fecha_estado_paciente`: over the turn's flows of template 1, the earliest closing time
      for an answered turn, the earliest start time otherwise. */
  function FechaEstadoPaciente(estado: Option<int>, flows: seq<Flow>): (r: Option<int>)
    ensures r.Some? ==> exists f :: f in flows && AnswerFlow(f) && KeyOf(estado, f) == r
    ensures r.Some? ==> forall f :: f in flows && AnswerFlow(f) ==> KeyOf(estado, f).Some? && r.value <= KeyOf(estado, f).value
    ensures r.None? <==> (forall f :: f in flows ==> !AnswerFlow(f))
                         || exists f :: f in flows && AnswerFlow(f) && KeyOf(estado, f).None?
  {
    var answers := Filter(flows, AnswerFlow);
    if |answers| == 0 then None
    else
      assert answers[0] in answers;
      Earliest(estado, answers)
  }

  // ---------------------------------------------------------------- lemmas

  /** Distinct values stay distinct under any rearrangement. */
  lemma SameElementsNoDup(d: seq<int>, r: seq<int>)
    requires NoDup(d) && multiset(r) == multiset(d)
    ensures NoDup(r)
  {
    forall i, j | 0 <= i < j < |r|
      ensures r[i] != r[j]
    {
      if r[i] == r[j] {
        assert multiset(r[..j]) + multiset(r[j..]) == multiset(r) by {
          assert r == r[..j] + r[j..];
        }
        assert r[i] in multiset(r[..j]);
        assert r[j] in multiset(r[j..]);
        assert multiset(r)[r[i]] >= 2;
        NoDupCount(d, r[i]);
      }
    }
  }

  lemma {:induction false} NoDupCount(d: seq<int>, x: int)
    requires NoDup(d)
    ensures multiset(d)[x] <= 1
    decreases |d|
  {
    if |d| > 0 {
      assert d == [d[0]] + d[1..];
      assert NoDup(d[1..]) by {
        forall i, j | 0 <= i < j < |d[1..]|
          ensures d[1..][i] != d[1..][j]
        {
          assert d[1..][i] == d[i + 1] && d[1..][j] == d[j + 1];
        }
      }
      NoDupCount(d[1..], x);
      if x == d[0] {
        assert x !in d[1..];
      }
    }
  }

  /** Normalising a phone part twice is normalising it once. */
  lemma PhonePartIdempotent(v: Option<string>)
    ensures PhonePart(PhonePart(v)) == PhonePart(v)
  {
    if v.Some? && v.value != "" {
      WithoutAbsent(Without(v.value, ' '), ' ');
    }
  }

  /** A phone part without spaces is rendered as stored. */
  lemma PhonePartKeepsClean(v: Option<string>)
    requires v.Some? ==> ' ' !in v.value
    ensures PhonePart(v) == v
  {
    if v.Some? && v.value != "" {
      WithoutAbsent(v.value, ' ');
    }
  }

  /** Rendering a rendered patient changes nothing. */
  lemma RepresentationIdempotent(p: Patient)
    ensures Representation(Representation(p)) == Representation(p)
  {
    PhonePartIdempotent(p.caracTelef);
    PhonePartIdempotent(p.nroTelef);
  }

  /** A request listing only studies that exist links exactly those studies. */
  lemma KnownStudiesLinked(req: Request, user: Option<int>, now: int, estados: seq<int>, table: set<int>)
    requires forall i :: 0 <= i < |req.studies| ==> req.studies[i].pk in table
    ensures Create(req, user, now, estados, table).missing.None?
    ensures Create(req, user, now, estados, table).studies == set i | 0 <= i < |req.studies| :: req.studies[i].pk
  {
  }

  /** An unknown study id yields the validation error, and the entry is stored anyway, without
      studies. */
  lemma UnknownStudyStillStored(req: Request, user: Option<int>, now: int, estados: seq<int>, table: set<int>, i: int)
    requires 0 <= i < |req.studies| && req.studies[i].pk !in table
    requires forall k :: 0 <= k < |req.studies| ==> req.studies[k].ById?
    ensures var r := Create(req, user, now, estados, table);
            r.missing.Some? && req.studies[i].pk in r.missing.value && r.studies == {}
            && r.entry.fechaCreacion == req.fechaCreacion.GetOr(now)
  {
  }

  /** Closing an entry again moves only its closing time and user. */
  lemma CloseTwice(e: Espera, u1: Option<int>, t1: int, u2: Option<int>, t2: int, estados: seq<int>)
    requires 1 in estados
    ensures Close(Close(e, u1, t1, estados).value, u2, t2, estados) == Close(e, u2, t2, estados)
  {
  }

  /** A message past the first three states is shown as stored, whatever the provider says. */
  lemma SettledMessageIgnoresProvider(m: Message, ask1: Message -> Refresh, ask2: Message -> Refresh)
    requires !Pending(m)
    ensures ProcesarMensaje(m, ask1) == ProcesarMensaje(m, ask2)
  {
  }

  /** A pending message whose state the provider reports is shown in that state. */
  lemma PendingMessageTakesAck(m: Message, ask: Message -> Refresh, at: int, ack: int)
    requires Pending(m) && ask(m) == Answered(at, Some(ack))
    ensures ProcesarMensaje(m, ask).estado == ack && ProcesarMensaje(m, ask).lastAck == Some(at)
  {
  }

  /** Flows of other templates do not move the date. */
  lemma OtherFlowsIgnored(estado: Option<int>, flows: seq<Flow>, g: Flow)
    requires !AnswerFlow(g)
    ensures FechaEstadoPaciente(estado, flows + [g]) == FechaEstadoPaciente(estado, flows)
  {
    FilterAppend(flows, g, AnswerFlow);
    assert Filter(flows + [g], AnswerFlow) == Filter(flows, AnswerFlow);
  }

  /** One answer flow gives its closing time for an answered turn and its start time otherwise. */
  lemma SingleFlowDate(estado: Option<int>, f: Flow)
    requires AnswerFlow(f)
    ensures FechaEstadoPaciente(estado, [f]) == if AnsweredState(estado) then f.cierre else f.inicio
  {
    assert Filter([f], AnswerFlow) == [f];
  }

  /** A flow whose time is still empty hides every other time, because nulls sort first. */
  lemma OpenFlowHidesDate(estado: Option<int>, flows: seq<Flow>, f: Flow)
    requires f in flows && AnswerFlow(f) && KeyOf(estado, f).None?
    ensures FechaEstadoPaciente(estado, flows).None?
  {
  }
}

=== FILE: serviceindex.dfy ===
/** The provider screen of the template editor (`frontend/src/pages/EfectoresPage.tsx`):
    clicking a provider loads its services, and the page keeps
    `servicioEfectorActual`, the index from each service to the selected
    providers that offer it, which the service block reads. */
module ServiceIndex {
  import opened Wrappers
  import opened Seqs
  import opened Assoc
  import Keyed

  /** A service as the provider endpoint returns it. */
  datatype Service = Service(id: int, nombre: string)

  function ServiceId(s: Service): int { s.id }

  /** `Record<servicioId, efectorId[]>`. */
  type Index = map<int, seq<int>>

  /** Every entry of the index lists at least one provider. */
  predicate NonEmptyEntries(m: Index) {
    forall k :: k in m ==> |m[k]| > 0
  }

  /** `mergeServiciosUnique(a, b)`: one service per id of `a` or `b`, `b`'s winning, in first-seen order. */
  function MergeUnique(a: seq<Service>, b: seq<Service>): (r: seq<Service>)
    ensures Keyed.UniqueKeys(r, ServiceId)
    ensures forall k :: Keyed.Lookup(r, k, ServiceId) ==
              if Keyed.LastWith(b, k, ServiceId).Some? then Keyed.LastWith(b, k, ServiceId) else Keyed.LastWith(a, k, ServiceId)
    ensures forall k :: k in Keyed.Keys(r, ServiceId) <==> k in Keyed.Keys(a, ServiceId) || k in Keyed.Keys(b, ServiceId)
  {
    var r := Keyed.SetAll(Keyed.ById(a, ServiceId), b, ServiceId);
    assert forall k :: k in Keyed.Keys(r, ServiceId) <==> Keyed.Lookup(r, k, ServiceId).Some?;
    r
  }

  /** `ensureServicioEfectorAdd`: the provider is appended to the service's entry, which becomes
      duplicate-free (`Array.from(new Set([...entry, efectorId]))`). */
  function Add(m: Index, serv: int, ef: int): (r: Index)
    ensures serv in r && ef in r[serv] && NoDup(r[serv])
    ensures forall x :: x in r[serv] <==> x == ef || (serv in m && x in m[serv])
    ensures forall k :: k != serv ==> (k in r <==> k in m) && (k in m ==> r[k] == m[k])
  {
    m[serv := Dedup((if serv in m then m[serv] else []) + [ef])]
  }

  /** `ensureServicioEfectorRemove`: the provider leaves the service's entry, and an entry left
      empty is deleted; an absent entry leaves the index as it is. */
  function Del(m: Index, serv: int, ef: int): (r: Index)
    ensures serv !in m ==> r == m
    ensures serv in r ==> serv in m && r[serv] == Remove(m[serv], ef) && |r[serv]| > 0
    ensures serv in m && |Remove(m[serv], ef)| > 0 ==> serv in r
    ensures forall k :: k != serv ==> (k in r <==> k in m) && (k in m ==> r[k] == m[k])
  {
    if serv !in m then m
    else
      var rest := Remove(m[serv], ef);
      if |rest| == 0 then m - {serv} else m[serv := rest]
  }

  /** `r` is `m` with `ef` added, without repeats, to the entries of `ids`. */
  ghost predicate AddedTo(m: Index, r: Index, ids: seq<int>, ef: int) {
    (forall k :: k in ids ==> k in r && NoDup(r[k]) && forall x :: x in r[k] <==> x == ef || (k in m && x in m[k]))
    && (forall k :: k !in ids ==> (k in r <==> k in m) && (k in m ==> r[k] == m[k]))
  }

  /** `Add` for every service of a provider, in order. */
  function AddAll(m: Index, svcs: seq<Service>, ef: int): (r: Index)
    ensures AddedTo(m, r, Keyed.Keys(svcs, ServiceId), ef)
  {
    if |svcs| == 0 then m
    else
      var last := svcs[|svcs| - 1];
      var init := svcs[..|svcs| - 1];
      assert Keyed.Keys(svcs, ServiceId) == Keyed.Keys(init, ServiceId) + [last.id];
      var prev := AddAll(m, init, ef);
      AddStep(m, prev, Keyed.Keys(init, ServiceId), last.id, ef);
      Add(prev, last.id, ef)
  }

  lemma AddStep(m: Index, prev: Index, ids: seq<int>, x: int, ef: int)
    requires AddedTo(m, prev, ids, ef)
    ensures AddedTo(m, Add(prev, x, ef), ids + [x], ef)
  {
    var r := Add(prev, x, ef);
    forall k | k in ids + [x]
      ensures k in r && NoDup(r[k]) && forall y :: y in r[k] <==> y == ef || (k in m && y in m[k])
    {
      if k != x {
        assert k in ids;
      }
    }
  }

  /** `r` is `m` with `ef` removed from the entries of `ids`, entries left empty deleted. */
  ghost predicate RemovedFrom(m: Index, r: Index, ids: seq<int>, ef: int) {
    (forall k :: k in ids && k in r ==> k in m && r[k] == Remove(m[k], ef) && |r[k]| > 0)
    && (forall k :: k in ids && k in m && |Remove(m[k], ef)| > 0 ==> k in r)
    && (forall k :: k !in ids ==> (k in r <==> k in m) && (k in m ==> r[k] == m[k]))
  }

  /** `Del` for every service of a provider, in order. */
  function DelAll(m: Index, svcs: seq<Service>, ef: int): (r: Index)
    ensures RemovedFrom(m, r, Keyed.Keys(svcs, ServiceId), ef)
  {
    if |svcs| == 0 then m
    else
      var last := svcs[|svcs| - 1];
      var init := svcs[..|svcs| - 1];
      assert Keyed.Keys(svcs, ServiceId) == Keyed.Keys(init, ServiceId) + [last.id];
      var prev := DelAll(m, init, ef);
      DelStep(m, prev, Keyed.Keys(init, ServiceId), last.id, ef);
      Del(prev, last.id, ef)
  }

  lemma DelStep(m: Index, prev: Index, ids: seq<int>, x: int, ef: int)
    requires RemovedFrom(m, prev, ids, ef)
    ensures RemovedFrom(m, Del(prev, x, ef), ids + [x], ef)
  {
    var r := Del(prev, x, ef);
    if x in ids && x in prev {
      assert Remove(prev[x], ef) == prev[x];
    }
  }

  /** The page state a provider click reads and writes. `services` is
      `efectorServicios`, the per-provider service cache; `error` is the alert raised when
      loading fails. */
  datatype Page = Page(
    selected: seq<int>, servicios: seq<Service>, selectedServ: seq<Service>, rows: seq<Row>,
    index: Index, services: map<int, seq<Service>>, error: bool)

  /** A click and whether it issued a request. */
  datatype Clicked = Clicked(page: Page, fetched: bool)

  /** The services cached for a provider (`efectorServicios[id] || []`). */
  function ServicesOf(p: Page, ef: int): seq<Service> {
    if ef in p.services then p.services[ef] else []
  }

  /** Deselecting a provider: it leaves every index entry of its cached services, services
      without an entry are dropped from the list and the selection, and its rows are hidden. */
  function Deselect(p: Page, ef: int): (r: Page)
    ensures ef !in r.selected && forall x :: x != ef ==> (x in r.selected <==> x in p.selected)
    ensures r.index == DelAll(p.index, ServicesOf(p, ef), ef)
    ensures forall s :: s in r.servicios <==> s in p.servicios && s.id in r.index
    ensures forall s :: s in r.selectedServ <==> s in p.selectedServ && s.id in r.index
    ensures forall x :: x in r.rows <==> x in p.rows && x.efector != ef
    ensures r.services == p.services && r.error == p.error
  {
    var next := DelAll(p.index, ServicesOf(p, ef), ef);
    p.(selected := Remove(p.selected, ef),
       index := next,
       servicios := Filter(p.servicios, (s: Service) => s.id in next),
       selectedServ := Filter(p.selectedServ, (s: Service) => s.id in next),
       rows := Filter(p.rows, (x: Row) => x.efector != ef))
  }

  /** Selecting a provider with a list of its services: they join the service list and the index. */
  function Join(p: Page, ef: int, svcs: seq<Service>): Page {
    p.(servicios := MergeUnique(p.servicios, svcs), index := AddAll(p.index, svcs, ef))
  }

  /** `handleEfectorClick`. `load` is `getServicioByEfector`: the provider's services, or `None` when the request fails. */
  function ProviderClick(p: Page, ef: int, load: int -> Option<seq<Service>>): (r: Clicked)
    ensures ef in p.selected ==> r == Clicked(Deselect(p, ef), false)
    ensures ef !in p.selected ==> r.page.selected == p.selected + [ef]
    ensures ef !in p.selected && |ServicesOf(p, ef)| > 0 ==> !r.fetched && r.page.services == p.services
    ensures r.fetched <==> ef !in p.selected && |ServicesOf(p, ef)| == 0
    ensures r.fetched && load(ef).None? ==>
              r.page == p.(selected := p.selected + [ef], error := true)
    ensures r.fetched && load(ef).Some? ==> r.page.services == p.services[ef := load(ef).value]
  {
    if ef in p.selected then Clicked(Deselect(p, ef), false)
    else
      var q := p.(selected := p.selected + [ef]);
      var cached := ServicesOf(p, ef);
      if |cached| > 0 then Clicked(Join(q, ef, cached), false)
      else
        match load(ef)
        case None => Clicked(q.(error := true), true)
        case Some(data) => Clicked(Join(q.(services := q.services[ef := data]), ef, data), true)
  }

  // ---------------------------------------------------------------- lemmas

  /** `Add` and `Del` never leave an empty entry behind. */
  lemma AddDelKeepNonEmpty(m: Index, serv: int, ef: int)
    requires NonEmptyEntries(m)
    ensures NonEmptyEntries(Add(m, serv, ef)) && NonEmptyEntries(Del(m, serv, ef))
  {
  }

  /** Adding the same provider twice is adding it once. */
  lemma AddIdempotent(m: Index, serv: int, ef: int)
    ensures Add(Add(m, serv, ef), serv, ef) == Add(m, serv, ef)
  {
    var y := Add(m, serv, ef)[serv];
    assert [] + (y + [ef]) == y + [ef];
    DedupAfterAppendSeen([], y, ef);
    DedupOfNoDup(y);
  }

  /** Appending a value already seen does not change the deduplication. */
  lemma {:induction false} DedupAfterAppendSeen<T(!new)>(seen: seq<T>, s: seq<T>, v: T)
    requires NoDup(seen) && v in seen + s
    ensures DedupAfter(seen, s + [v]) == DedupAfter(seen, s)
    decreases |s|
  {
    if |s| == 0 {
      assert seen + s == seen;
      assert ([v])[1..] == [];
    } else {
      assert (s + [v])[0] == s[0] && (s + [v])[1..] == s[1..] + [v];
      if s[0] in seen {
        assert v in seen + s[1..];
        DedupAfterAppendSeen(seen, s[1..], v);
      } else {
        assert v in (seen + [s[0]]) + s[1..];
        DedupAfterAppendSeen(seen + [s[0]], s[1..], v);
      }
    }
  }

  /** Adding a provider and removing it again restores the index, when the entry was absent or
      was a non-empty list without repeats that lacked the provider. */
  lemma AddThenDel(m: Index, serv: int, ef: int)
    requires serv in m ==> NoDup(m[serv]) && ef !in m[serv] && |m[serv]| > 0
    ensures Del(Add(m, serv, ef), serv, ef) == m
  {
    var x := if serv in m then m[serv] else [];
    AppendKeepsNoDup(x, ef);
    DedupOfNoDup(x + [ef]);
    RemoveAppended(x, ef);
    if serv in m {
      assert m[serv := x] == m;
    } else {
      assert m[serv := [ef]] - {serv} == m;
    }
  }

  /** An empty entry is the one case where the round trip does not restore the index: the
      entry is deleted. Entries are never empty on this page (`AddDelKeepNonEmpty`). */
  lemma AddThenDelOfEmptyEntry()
    ensures var m: Index := map[7 := []];
            Del(Add(m, 7, 1), 7, 1) == map[]
  {
    var m: Index := map[7 := []];
    assert [] + [1] == [1];
    DedupOfNoDup([1]);
    assert Remove([1], 1) == [];
  }

  /** Deselecting a provider takes it out of every index entry of its services. */
  lemma DeselectDropsProvider(p: Page, ef: int)
    requires ef in p.selected
    ensures var r := ProviderClick(p, ef, _ => None).page;
            forall k :: k in Keyed.Keys(ServicesOf(p, ef), ServiceId) && k in r.index ==> ef !in r.index[k]
  {
  }

  /** Selecting a provider whose services load (from the cache or the request) puts it in the
      index entry of each of them and their ids in the service list. */
  lemma SelectIndexesServices(p: Page, ef: int, load: int -> Option<seq<Service>>)
    requires ef !in p.selected
    requires |ServicesOf(p, ef)| > 0 || load(ef).Some?
    ensures var r := ProviderClick(p, ef, load).page;
            var svcs := if |ServicesOf(p, ef)| > 0 then ServicesOf(p, ef) else load(ef).value;
            (forall k :: k in Keyed.Keys(svcs, ServiceId) ==> k in r.index && ef in r.index[k])
            && (forall k :: k in Keyed.Keys(r.servicios, ServiceId) <==>
                  k in Keyed.Keys(p.servicios, ServiceId) || k in Keyed.Keys(svcs, ServiceId))
  {
  }
}

=== FILE: sorting.dfy ===
/** Stable sorting by a comparator, the behaviour of `Array.prototype.sort`
    (and of a database `ORDER BY` whose keys decide every pair). `le(a, b)`
    holds when `a` may be placed before `b`, i.e. when the source comparator
    returns a value `<= 0`. */
module Sorting {
  import opened Seqs

  /** Total and transitive: what a well-behaved comparator provides. */
  ghost predicate TotalPreorder<T(!new)>(le: (T, T) -> bool) {
    (forall a, b :: le(a, b) || le(b, a)) &&
    (forall a, b, c :: le(a, b) && le(b, c) ==> le(a, c))
  }

  predicate SortedBy<T>(s: seq<T>, le: (T, T) -> bool) {
    forall i, j :: 0 <= i < j < |s| ==> le(s[i], s[j])
  }

  /** Insert `x` after every leading element that may precede it. */
  function Insert<T>(x: T, s: seq<T>, le: (T, T) -> bool): (r: seq<T>)
    ensures multiset(r) == multiset(s) + multiset{x}
    ensures |r| == |s| + 1
  {
    if |s| == 0 then [x]
    else if le(s[0], x) then
      assert s == [s[0]] + s[1..];
      [s[0]] + Insert(x, s[1..], le)
    else
      assert s == [s[0]] + s[1..];
      [x] + s
  }

  lemma {:induction false} InsertSorted<T(!new)>(x: T, s: seq<T>, le: (T, T) -> bool)
    requires TotalPreorder(le)
    requires SortedBy(s, le)
    ensures SortedBy(Insert(x, s, le), le)
    decreases |s|
  {
    if |s| == 0 {
    } else if le(s[0], x) {
      var rest := Insert(x, s[1..], le);
      SortedTail(s, le);
      InsertSorted(x, s[1..], le);
      HeadBelowInsert(x, s, le);
      SortedCons(s[0], rest, le);
    } else {
      assert le(x, s[0]);
      forall j | 0 <= j < |s|
        ensures le(x, s[j])
      {
        if j > 0 {
          TransitiveStep(le, x, s[0], s[j]);
        }
      }
      SortedCons(x, s, le);
    }
  }

  lemma SortedTail<T>(s: seq<T>, le: (T, T) -> bool)
    requires |s| > 0 && SortedBy(s, le)
    ensures SortedBy(s[1..], le)
  {
    forall i, j | 0 <= i < j < |s[1..]|
      ensures le(s[1..][i], s[1..][j])
    {
      assert s[1..][i] == s[i + 1] && s[1..][j] == s[j + 1];
    }
  }

  /** The head of a sorted list that may precede `x` may precede everything `x` is inserted
      into after it. */
  lemma HeadBelowInsert<T>(x: T, s: seq<T>, le: (T, T) -> bool)
    requires |s| > 0 && SortedBy(s, le) && le(s[0], x)
    ensures forall j :: 0 <= j < |Insert(x, s[1..], le)| ==> le(s[0], Insert(x, s[1..], le)[j])
  {
    var rest := Insert(x, s[1..], le);
    forall j | 0 <= j < |rest|
      ensures le(s[0], rest[j])
    {
      assert rest[j] in multiset(rest);
      if rest[j] != x {
        assert rest[j] in multiset(s[1..]);
        var k :| 0 <= k < |s[1..]| && s[1..][k] == rest[j];
        assert le(s[0], s[k + 1]);
      }
    }
  }

  /** A value that may precede every element of a sorted list goes in front of it. */
  lemma SortedCons<T>(a: T, rest: seq<T>, le: (T, T) -> bool)
    requires SortedBy(rest, le)
    requires forall j :: 0 <= j < |rest| ==> le(a, rest[j])
    ensures SortedBy([a] + rest, le)
  {
    var r := [a] + rest;
    forall i, j | 0 <= i < j < |r|
      ensures le(r[i], r[j])
    {
      assert r[j] == rest[j - 1];
      if i > 0 {
        assert r[i] == rest[i - 1];
      }
    }
  }

  lemma TransitiveStep<T(!new)>(le: (T, T) -> bool, a: T, b: T, c: T)
    requires TotalPreorder(le)
    requires le(a, b) && le(b, c)
    ensures le(a, c)
  {
  }

  /** The stable sort of `s`: elements are inserted in their original order. */
  function SortBy<T>(s: seq<T>, le: (T, T) -> bool): (r: seq<T>)
    ensures multiset(r) == multiset(s)
    ensures |r| == |s|
  {
    if |s| == 0 then []
    else
      assert s == s[..|s| - 1] + [s[|s| - 1]];
      Insert(s[|s| - 1], SortBy(s[..|s| - 1], le), le)
  }

  /** Sorting keeps exactly the elements it was given. */
  lemma SortByMembers<T>(s: seq<T>, le: (T, T) -> bool)
    ensures forall x :: x in SortBy(s, le) <==> x in s
  {
    var r := SortBy(s, le);
    forall x
      ensures x in r <==> x in s
    {
      assert x in r <==> x in multiset(r);
      assert x in s <==> x in multiset(s);
    }
  }

  /** In a sorted list, every element of a prefix may precede every element left after it. */
  lemma PrefixPrecedesRest<T>(s: seq<T>, k: nat, le: (T, T) -> bool)
    requires SortedBy(s, le) && k <= |s|
    ensures multiset(s) - multiset(s[..k]) == multiset(s[k..])
    ensures forall t, u :: t in multiset(s[k..]) && u in s[..k] ==> le(u, t)
  {
    assert s == s[..k] + s[k..];
    forall t, u | t in multiset(s[k..]) && u in s[..k]
      ensures le(u, t)
    {
      var j :| k <= j < |s| && s[j] == t;
      var i :| 0 <= i < k && s[i] == u;
    }
  }

  /** Sorting by a well-behaved comparator yields a sorted permutation. */
  lemma {:induction false} SortBySorted<T(!new)>(s: seq<T>, le: (T, T) -> bool)
    requires TotalPreorder(le)
    ensures SortedBy(SortBy(s, le), le)
    decreases |s|
  {
    if |s| > 0 {
      SortBySorted(s[..|s| - 1], le);
      InsertSorted(s[|s| - 1], SortBy(s[..|s| - 1], le), le);
    }
  }

  /** Ordering by an integer key, ascending: `(a, b) => key(a) - key(b)`. */
  function Ascending<T>(key: T -> int): (le: (T, T) -> bool)
  {
    (a: T, b: T) => key(a) <= key(b)
  }

  /** Ordering by an integer key, descending: `(a, b) => key(b) - key(a)`. */
  function Descending<T>(key: T -> int): (le: (T, T) -> bool)
  {
    (a: T, b: T) => key(b) <= key(a)
  }

  lemma AscendingIsPreorder<T(!new)>(key: T -> int)
    ensures TotalPreorder(Ascending(key))
  {
  }

  lemma DescendingIsPreorder<T(!new)>(key: T -> int)
    ensures TotalPreorder(Descending(key))
  {
  }

  /** Sorting twice changes nothing: a sorted list is its own stable sort. */
  lemma {:induction false} SortSorted<T(!new)>(s: seq<T>, le: (T, T) -> bool)
    requires TotalPreorder(le)
    requires SortedBy(s, le)
    ensures SortBy(s, le) == s
    decreases |s|
  {
    if |s| > 0 {
      var p := s[..|s| - 1];
      assert SortedBy(p, le);
      SortSorted(p, le);
      InsertAtEnd(s[|s| - 1], p, le);
      assert p + [s[|s| - 1]] == s;
    }
  }

  lemma {:induction false} InsertAtEnd<T(!new)>(x: T, s: seq<T>, le: (T, T) -> bool)
    requires TotalPreorder(le)
    requires SortedBy(s, le)
    requires forall i :: 0 <= i < |s| ==> le(s[i], x)
    ensures Insert(x, s, le) == s + [x]
    decreases |s|
  {
    if |s| > 0 {
      assert SortedBy(s[1..], le);
      InsertAtEnd(x, s[1..], le);
      assert s == [s[0]] + s[1..];
    }
  }

  /** The elements `le` cannot tell apart from `z`. */
  function Tied<T>(le: (T, T) -> bool, z: T): T -> bool {
    (y: T) => le(y, z) && le(z, y)
  }

  /** Stability: the sort keeps elements that compare equal in the order they came in. */
  lemma {:induction false} SortByStable<T(!new)>(s: seq<T>, le: (T, T) -> bool, z: T)
    requires TotalPreorder(le)
    ensures Filter(SortBy(s, le), Tied(le, z)) == Filter(s, Tied(le, z))
    decreases |s|
  {
    if |s| > 0 {
      var init := s[..|s| - 1];
      var x := s[|s| - 1];
      var t := Tied(le, z);
      var sorted := SortBy(init, le);
      assert SortBy(s, le) == Insert(x, sorted, le);
      SortByStable(init, le, z);
      SortBySorted(init, le);
      InsertTied(x, sorted, le, z);
      assert init + [x] == s;
      FilterAppend(init, x, t);
    }
  }

  /** Inserting `x` adds it behind the elements tied with it. */
  lemma {:induction false} InsertTied<T(!new)>(x: T, r: seq<T>, le: (T, T) -> bool, z: T)
    requires TotalPreorder(le) && SortedBy(r, le)
    ensures Filter(Insert(x, r, le), Tied(le, z)) == Filter(r, Tied(le, z)) + (if Tied(le, z)(x) then [x] else [])
    decreases |r|
  {
    var t := Tied(le, z);
    if |r| == 0 {
      assert [x][1..] == [];
    } else if le(r[0], x) {
      SortedTail(r, le);
      InsertTied(x, r[1..], le, z);
      assert ([r[0]] + Insert(x, r[1..], le))[1..] == Insert(x, r[1..], le);
    } else {
      assert ([x] + r)[1..] == r;
      if t(x) {
        NoneTied(r, le, z, x);
      }
    }
  }

  /** Behind an element that may not precede `x`, nothing is tied with `x`. */
  lemma {:induction false} NoneTied<T(!new)>(r: seq<T>, le: (T, T) -> bool, z: T, x: T)
    requires TotalPreorder(le) && SortedBy(r, le) && |r| > 0 && !le(r[0], x) && Tied(le, z)(x)
    ensures Filter(r, Tied(le, z)) == []
  {
    forall j | 0 <= j < |r|
      ensures !Tied(le, z)(r[j])
    {
      if j > 0 {
        assert le(r[0], r[j]);
      }
    }
    FilterNone(r, Tied(le, z));
  }

  lemma {:induction false} FilterNone<T(!new)>(r: seq<T>, p: T -> bool)
    requires forall j :: 0 <= j < |r| ==> !p(r[j])
    ensures Filter(r, p) == []
    decreases |r|
  {
    if |r| > 0 {
      FilterNone(r[1..], p);
    }
  }
}

=== FILE: sqlrewrite.dfy ===
/** The SQL text the Informix backend sends: the cursor wrapper's rewriting of
    Django-generated statements (`backend/core/informix_jdbc_backend/base.py`),
    identifier quoting (`operations.py` next to it), and the `WHERE` clauses of
    the query builders (`backend/src/utils/querys_informix.py`,
    `make_query` in `backend/src/tasks.py`). Pattern classes and case-insensitive
    matching are the ASCII parts of Python's: `\s` is Python's whitespace, the four
    separator controls included; `\d` and `\w` are the ASCII digits and word characters. */
module SqlRewrite {
  import opened Wrappers
  import opened Text

  // ---------------------------------------------------------------- matching

  /** `s` starts with the lower-case word `w`, in any letter case. */
  predicate CiPrefix(s: string, w: string) {
    |s| >= |w| && forall i :: 0 <= i < |w| ==> LowerChar(s[i]) == w[i]
  }

  /** A match of `LIMIT\s+(\d+)\b` at the start of `s`: the bounds of the digits. */
  function LimitMatch(s: string): (r: Option<(nat, nat)>)
    ensures r.Some? ==> 5 < r.value.0 < r.value.1 <= |s| && CiPrefix(s, "limit")
                        && PyAllSpace(s[5..r.value.0])
                        && AllDigits(s[r.value.0..r.value.1])
                        && (r.value.1 == |s| || !IsWordChar(s[r.value.1]))
  {
    if !CiPrefix(s, "limit") then None
    else
      var a := Run(s[5..], PyIsSpace);
      if a == 0 then None
      else
        var d := Run(s[5 + a..], IsDigit);
        if d == 0 then None
        else
          var e := 5 + a + d;
          assert s[5 + a..][..d] == s[5 + a..e];
          assert s[5..][..a] == s[5..5 + a];
          if e < |s| && IsWordChar(s[e]) then None else Some((5 + a, e))
  }

  /** `\b` before position `i`, given that `s[i]` is a word character. */
  predicate WordStart(s: string, i: int)
    requires 0 <= i <= |s|
  {
    i == 0 || !IsWordChar(s[i - 1])
  }

  /** The search pattern matches at position `i`. */
  predicate MatchesAt(s: string, i: int)
    requires 0 <= i <= |s|
  {
    WordStart(s, i) && LimitMatch(s[i..]).Some?
  }

  /** The leftmost position from `i` to `n` where `p` holds. */
  function FirstFrom(i: nat, n: nat, p: nat -> bool): (r: Option<nat>)
    requires i <= n
    decreases n - i
    ensures r.None? <==> forall j :: i <= j <= n ==> !p(j)
    ensures r.Some? ==> i <= r.value <= n && p(r.value) && forall k :: i <= k < r.value ==> !p(k)
  {
    if p(i) then Some(i)
    else if i == n then None
    else FirstFrom(i + 1, n, p)
  }

  /** Where `re.search(r"\bLIMIT\s+(\d+)\b", s, re.IGNORECASE)` finds its match, looking
      from position `i` on: the leftmost position where the pattern matches. */
  function FirstMatch(s: string, i: nat): (r: Option<nat>)
    requires i <= |s|
    ensures r.None? <==> forall j :: i <= j <= |s| ==> !MatchesAt(s, j)
    ensures r.Some? ==> i <= r.value <= |s| && MatchesAt(s, r.value)
                        && forall k :: i <= k < r.value ==> !MatchesAt(s, k)
  {
    var p := (j: nat) => j <= |s| && MatchesAt(s, j);
    assert forall j: nat :: i <= j <= |s| ==> (p(j) <==> MatchesAt(s, j));
    FirstFrom(i, |s|, p)
  }

  /** Group 1 of the match at `j`: the digits after `LIMIT` and the spaces. */
  function Group(s: string, j: nat): (r: string)
    requires j <= |s| && MatchesAt(s, j)
    ensures |r| > 0 && AllDigits(r)
  {
    var m := LimitMatch(s[j..]).value;
    s[j..][m.0..m.1]
  }

  /** The search's group 1: the digits of the leftmost match. */
  function SearchLimit(s: string, i: nat): (r: Option<string>)
    requires i <= |s|
    ensures r.None? <==> forall j :: i <= j <= |s| ==> !MatchesAt(s, j)
    ensures r.Some? ==> |r.value| > 0 && AllDigits(r.value)
    ensures forall j :: i <= j <= |s| && MatchesAt(s, j) && (forall k :: i <= k < j ==> !MatchesAt(s, k)) ==>
              r == Some(Group(s, j))
  {
    match FirstMatch(s, i)
    case None => None
    case Some(j) => Some(Group(s, j))
  }

  /** The length of a match of `\s+LIMIT\s+\d+\b` at the start of `s`. */
  function RemovableAt(s: string): (r: Option<nat>)
    ensures r.Some? ==> 0 < r.value <= |s|
  {
    var a := Run(s, PyIsSpace);
    if a == 0 || LimitMatch(s[a..]).None? then None
    else Some(a + LimitMatch(s[a..]).value.1)
  }

  /** `re.sub(r"\s+LIMIT\s+\d+\b", "", s, flags=re.IGNORECASE)`: every match, left to right,
      removed. */
  function StripLimits(s: string): (r: string)
    ensures |r| <= |s|
    decreases |s|
  {
    if |s| == 0 then ""
    else
      match RemovableAt(s)
      case Some(n) => StripLimits(s[n..])
      case None => [s[0]] + StripLimits(s[1..])
  }

  /** The removal brings in no character of its own. */
  lemma {:induction false} StripLimitsChars(s: string)
    ensures forall c :: c in StripLimits(s) ==> c in s
    decreases |s|
  {
    if |s| > 0 {
      match RemovableAt(s)
      case Some(n) =>
        StripLimitsChars(s[n..]);
      case None =>
        StripLimitsChars(s[1..]);
    }
  }

  /** `s` starts with `\s+DISTINCT`, in any letter case. */
  predicate DistinctNext(s: string) {
    var b := Run(s, PyIsSpace);
    b > 0 && CiPrefix(s[b..], "distinct")
  }

  /** The length of a match of `^\s*SELECT\s+DISTINCT`. */
  function SelectDistinctLen(s: string): (r: Option<nat>)
    ensures r.Some? ==> r.value <= |s|
  {
    var a := Run(s, PyIsSpace);
    if !CiPrefix(s[a..], "select") || !DistinctNext(s[a + 6..]) then None
    else Some(a + 6 + Run(s[a + 6..], PyIsSpace) + 8)
  }

  /** The length of a match of `^\s*SELECT`. */
  function SelectLen(s: string): (r: Option<nat>)
    ensures r.Some? ==> r.value <= |s|
  {
    var a := Run(s, PyIsSpace);
    if CiPrefix(s[a..], "select") then Some(a + 6) else None
  }

  /** Putting `FIRST n` after the leading `SELECT` or `SELECT DISTINCT`. */
  function InsertFirst(s: string, n: string): (r: string)
    ensures forall c :: c in r ==> c in s || c in n || c in "SELECT DISTINCT FIRST "
    ensures SelectLen(s).None? ==> r == s
  {
    match SelectDistinctLen(s)
    case Some(k) => "SELECT DISTINCT FIRST " + n + s[k..]
    case None =>
      match SelectLen(s)
      case Some(k) => "SELECT FIRST " + n + s[k..]
      case None => s
  }

  /** `re.sub(r"%s", "?", s)`. */
  function ReplacePlaceholders(s: string): (r: string)
    ensures forall c :: c in r ==> c in s || c == '?'
    ensures '%' !in s ==> r == s
    ensures |r| <= |s| && (|s| > 0 ==> |r| > 0)
    decreases |s|
  {
    if |s| == 0 then ""
    else if |s| >= 2 && s[..2] == "%s" then
      assert s[..2][0] == s[0];
      "?" + ReplacePlaceholders(s[2..])
    else
      var rest := ReplacePlaceholders(s[1..]);
      assert forall c :: c in rest ==> c in s[1..] || c == '?';
      assert '%' !in s ==> '%' !in s[1..];
      assert '%' !in s ==> s == [s[0]] + s[1..];
      [s[0]] + rest
  }

  /** `CursorWrapper._normalize_sql`: backticks dropped; `LIMIT n` turned into Informix's
      `FIRST n`, with `n` taken from the first `LIMIT`; `%s` placeholders turned into `?` when
      there are parameters. */
  function Normalize(operation: string, params: bool): (r: string)
    ensures '`' !in r
  {
    var noTicks := Without(operation, '`');
    var limited :=
      match SearchLimit(noTicks, 0)
      case Some(n) =>
        var stripped := StripLimits(noTicks);
        assert forall c :: (c in n ==> c in noTicks) && (c in stripped ==> c in noTicks) by {
          SearchLimitDigits(noTicks, 0);
          StripLimitsChars(noTicks);
        }
        InsertFirst(stripped, n)
      case None => noTicks;
    assert '`' !in "SELECT DISTINCT FIRST ";
    if params then ReplacePlaceholders(limited) else limited
  }

  lemma SearchLimitDigits(s: string, i: nat)
    requires i <= |s|
    ensures SearchLimit(s, i).Some? ==> forall c :: c in SearchLimit(s, i).value ==> c in s
  {
    if FirstMatch(s, i).Some? {
      var j := FirstMatch(s, i).value;
      var m := LimitMatch(s[j..]).value;
      assert forall c :: c in s[j..][m.0..m.1] ==> c in s[j..];
    }
  }

  // ---------------------------------------------------------------- cursor

  /** What Django hands the cursor: SQL text or something else. */
  datatype Operation = Sql(text: string) | NotText(v: int)

  /** A call of the driver's cursor: `params` is `None` for a call without parameters. */
  datatype Call = Call(operation: Operation, params: Option<seq<string>>)

  function Normalized(op: Operation, rewrite: bool): Operation {
    match op
    case Sql(t) => Sql(Normalize(t, rewrite))
    case NotText(_) => op
  }

  /** `CursorWrapper.execute`: text is normalised, rewriting placeholders only for non-empty
      parameters; the driver is called without parameters exactly when none were given. */
  function Execute(op: Operation, params: Option<seq<string>>): (c: Call)
    ensures c.params == params
    ensures op.NotText? ==> c.operation == op
    ensures op.Sql? && (params.None? || params.value == []) ==> c.operation == Sql(Normalize(op.text, false))
    ensures op.Sql? && params.Some? && params.value != [] ==> c.operation == Sql(Normalize(op.text, true))
  {
    Call(Normalized(op, params.Some? && params.value != []), params)
  }

  /** `CursorWrapper.executemany`: placeholders are rewritten iff the parameter list is non-empty. */
  function ExecuteMany(op: Operation, seqOfParams: seq<seq<string>>): (r: (Operation, seq<seq<string>>))
    ensures r.1 == seqOfParams
    ensures op.NotText? ==> r.0 == op
    ensures op.Sql? ==> r.0 == Sql(Normalize(op.text, |seqOfParams| > 0))
  {
    (Normalized(op, |seqOfParams| > 0), seqOfParams)
  }

  // ---------------------------------------------------------------- quoting

  /** A name handed to `quote_name`: text or another value. */
  datatype Name = Text(s: string) | Other(v: int)

  predicate Quoted(s: string) {
    |s| > 0 && s[0] == '"' && s[|s| - 1] == '"'
  }

  /** `DatabaseOperations.quote_name`. */
  function QuoteName(n: Name): (r: Name)
    ensures n.Other? ==> r == n
    ensures n.Text? ==> r.Text? && Quoted(r.s)
    ensures n.Text? && Quoted(n.s) ==> r == n
    ensures n.Text? && !Quoted(n.s) ==> |r.s| == |n.s| + 2 && r.s[1..|r.s| - 1] == n.s
  {
    match n
    case Other(_) => n
    case Text(s) =>
      if Quoted(s) then n
      else
        var q := "\"" + s + "\"";
        assert q[1..|q| - 1] == s;
        Text(q)
  }

  // ---------------------------------------------------------------- builders

  /** `size` copies of `x`: Python's `[x] * size`. */
  function Repeat(x: string, size: int): (r: seq<string>)
    ensures |r| == if size < 0 then 0 else size
    ensures forall i :: 0 <= i < |r| ==> r[i] == x
    decreases size
  {
    if size <= 0 then [] else [x] + Repeat(x, size - 1)
  }

  /** How many times `c` occurs in `s`. */
  function Occurrences(s: string, c: char): nat {
    if |s| == 0 then 0 else (if s[0] == c then 1 else 0) + Occurrences(s[1..], c)
  }

  /** The `WHERE` clause of `query_detalles_turno` and `make_query`: `= ?` for one id, otherwise
      `IN (?,…,?)` with one `?` per id. */
  function WhereIds(column: string, size: int): (r: string)
    requires '?' !in column
    ensures size == 1 ==> r == "WHERE " + column + " = ?"
    ensures size != 1 ==> r == "WHERE " + column + " IN (" + Join(Repeat("?", size), ",") + ")"
    ensures Occurrences(r, '?') == if size < 0 then 0 else size
  {
    assert '?' !in "WHERE " && '?' !in " = " && '?' !in " IN (";
    assert "?"[1..] == "";
    assert "WHERE " + column + " = ?" == ("WHERE " + column + " = ") + "?";
    OccurrencesNone("WHERE " + column + " = ", '?');
    OccurrencesNone("WHERE " + column + " IN (", '?');
    OccurrencesNone(")", '?');
    OccurrencesAppend("WHERE " + column + " = ", "?", '?');
    OccurrencesAppend("WHERE " + column + " IN (", Join(Repeat("?", size), ","), '?');
    OccurrencesAppend("WHERE " + column + " IN (" + Join(Repeat("?", size), ","), ")", '?');
    OccurrencesOfMarks(size);
    if size == 1 then "WHERE " + column + " = ?"
    else "WHERE " + column + " IN (" + Join(Repeat("?", size), ",") + ")"
  }

  /** The id column the turn-details queries filter on. */
  const TurnoColumn := "tur.idturno"

  /** A `WHERE` clause comparing one column with one parameter. */
  function ParamWhere(column: string, op: string): (r: string)
    ensures Occurrences(r, '?') == Occurrences(column, '?') + Occurrences(op, '?') + 1
    ensures |r| > 0 && r[|r| - 1] == '?'
  {
    var w, sp, q := "WHERE ", " ", " ?";
    OccurrencesNone(w, '?');
    OccurrencesNone(sp, '?');
    OneMark();
    OccurrencesAppend(w, column, '?');
    OccurrencesAppend(w + column, sp, '?');
    OccurrencesAppend(w + column + sp, op, '?');
    OccurrencesAppend(w + column + sp + op, q, '?');
    w + column + sp + op + q
  }

  lemma OneMark()
    ensures Occurrences(" ?", '?') == 1
  {
    assert " ?"[1..] == "?" && "?"[1..] == "";
  }

  /** The `WHERE` clauses of the fixed queries: a person, a provider, and the turn history since
      the last mark. */
  const PersonaWhere := ParamWhere("per.id_persona", "=")
  const EfectorWhere := ParamWhere("efe.idefector", "=")
  const HistoricoWhere := ParamWhere("fecha_hora_mdf", ">")

  // ---------------------------------------------------------------- lemmas

  lemma {:induction false} OccurrencesAppend(a: string, b: string, c: char)
    ensures Occurrences(a + b, c) == Occurrences(a, c) + Occurrences(b, c)
  {
    if |a| > 0 {
      assert (a + b)[1..] == a[1..] + b;
      OccurrencesAppend(a[1..], b, c);
    } else {
      assert a + b == b;
    }
  }

  lemma {:induction false} OccurrencesNone(s: string, c: char)
    requires c !in s
    ensures Occurrences(s, c) == 0
  {
    if |s| > 0 {
      assert c !in s[1..] by {
        forall i | 0 <= i < |s[1..]|
          ensures s[1..][i] != c
        {
          assert s[1..][i] == s[i + 1];
        }
      }
      OccurrencesNone(s[1..], c);
    }
  }

  /** `",".join(["?"] * size)` holds `size` marks. */
  lemma {:induction false} OccurrencesOfMarks(size: int)
    ensures Occurrences(Join(Repeat("?", size), ","), '?') == if size < 0 then 0 else size
    decreases size
  {
    if size > 1 {
      var rest := Repeat("?", size - 1);
      assert Repeat("?", size) == ["?"] + rest;
      assert Join(Repeat("?", size), ",") == "?" + "," + Join(rest, ",");
      OccurrencesOfMarks(size - 1);
      OccurrencesAppend("?" + ",", Join(rest, ","), '?');
      OccurrencesAppend("?", ",", '?');
    } else if size == 1 {
      assert Repeat("?", 1) == ["?"];
    }
  }

  /** The ids clause has exactly one `?` per id, whatever the column. */
  lemma TurnoWherePlaceholders(size: nat)
    ensures Occurrences(WhereIds(TurnoColumn, size), '?') == size
  {
  }

  /** A clause built from parameter-free text has exactly one parameter. */
  lemma ParamWhereOnePlaceholder(column: string, op: string)
    requires '?' !in column && '?' !in op
    ensures Occurrences(ParamWhere(column, op), '?') == 1
  {
    OccurrencesNone(column, '?');
    OccurrencesNone(op, '?');
  }

  /** The patient query filters on exactly one parameter. */
  lemma PersonaWhereOnePlaceholder()
    ensures Occurrences(PersonaWhere, '?') == 1
  {
    ParamWhereOnePlaceholder("per.id_persona", "=");
  }

  /** The provider query filters on exactly one parameter. */
  lemma EfectorWhereOnePlaceholder()
    ensures Occurrences(EfectorWhere, '?') == 1
  {
    ParamWhereOnePlaceholder("efe.idefector", "=");
  }

  /** The history query filters on exactly one parameter. */
  lemma HistoricoWhereOnePlaceholder()
    ensures Occurrences(HistoricoWhere, '?') == 1
  {
    ParamWhereOnePlaceholder("fecha_hora_mdf", ">");
  }

  /** Quoting a quoted name changes nothing. */
  lemma QuoteNameIdempotent(n: Name)
    ensures QuoteName(QuoteName(n)) == QuoteName(n)
  {
  }

  /** A statement without a `LIMIT` clause changes only by losing its backticks and, with
      parameters, by the placeholder rewriting. */
  lemma WithoutLimitOnlyTicksAndMarks(operation: string, params: bool)
    requires SearchLimit(Without(operation, '`'), 0).None?
    ensures !params ==> Normalize(operation, params) == Without(operation, '`')
    ensures params ==> Normalize(operation, params) == ReplacePlaceholders(Without(operation, '`'))
  {
  }

  /** Without backticks, `%` or `LIMIT`, a statement is passed on verbatim. */
  lemma PlainStatementUnchanged(operation: string, params: bool)
    requires '`' !in operation && '%' !in operation
    requires SearchLimit(operation, 0).None?
    ensures Normalize(operation, params) == operation
  {
    WithoutAbsent(operation, '`');
  }

  /** No `%s` is left after the placeholder rewriting. */
  lemma {:induction false} NoPercentSLeft(s: string)
    ensures forall i :: 0 <= i < |ReplacePlaceholders(s)| - 1 ==>
              !(ReplacePlaceholders(s)[i] == '%' && ReplacePlaceholders(s)[i + 1] == 's')
    decreases |s|
  {
    if |s| == 0 {
    } else if |s| >= 2 && s[..2] == "%s" {
      NoPercentSLeft(s[2..]);
      var r := ReplacePlaceholders(s);
      assert r == "?" + ReplacePlaceholders(s[2..]);
      forall i | 0 <= i < |r| - 1
        ensures !(r[i] == '%' && r[i + 1] == 's')
      {
        if i > 0 {
          assert r[i] == ReplacePlaceholders(s[2..])[i - 1];
          assert r[i + 1] == ReplacePlaceholders(s[2..])[i];
        }
      }
    } else {
      NoPercentSLeft(s[1..]);
      var rest := ReplacePlaceholders(s[1..]);
      var r := ReplacePlaceholders(s);
      assert r == [s[0]] + rest;
      assert |s| >= 2 ==> s[..2] == [s[0], s[1]];
      forall i | 0 <= i < |r| - 1
        ensures !(r[i] == '%' && r[i + 1] == 's')
      {
        if i == 0 {
          ReplacedStart(s[1..]);
        } else {
          assert r[i] == rest[i - 1];
          assert r[i + 1] == rest[i];
        }
      }
    }
  }

  /** The rewritten text starts with a mark or with the text's own first character. */
  lemma ReplacedStart(s: string)
    requires |s| > 0
    ensures ReplacePlaceholders(s)[0] == '?' || ReplacePlaceholders(s)[0] == s[0]
  {
  }

  /** The removal need not take every `LIMIT n` away: a `LIMIT` word without a number hides the
      clause after it from the match that would have started at its own space, so
      `" LIMIT LIMIT 3 5"` comes out as `" LIMIT 5"`. */
  lemma LimitCanSurvive(c: char, d: string, e: string)
    requires PyIsSpace(c) && |d| > 0 && AllDigits(d) && |e| > 0 && AllDigits(e)
    ensures StripLimits([c] + "LIMIT" + [c] + "LIMIT" + [c] + d + [c] + e) == [c] + "LIMIT" + [c] + e
  {
    var u := "LIMIT" + [c] + d + [c] + e;
    SurvivingShape(c, d, e, u);
    FirstWordStays(c, u);
    ClauseGoes(c, d, e);
  }

  lemma SurvivingShape(c: char, d: string, e: string, u: string)
    requires u == "LIMIT" + [c] + d + [c] + e
    ensures [c] + "LIMIT" + [c] + "LIMIT" + [c] + d + [c] + e == [c] + ("LIMIT" + [c] + u)
    ensures [c] + ("LIMIT" + ([c] + e)) == [c] + "LIMIT" + [c] + e
    ensures [c] + u == [c] + ("LIMIT" + [c] + d + [c] + e)
  {
  }

  lemma FirstWordStays(c: char, u: string)
    requires PyIsSpace(c) && |u| > 0 && u[0] == 'L'
    ensures StripLimits([c] + ("LIMIT" + [c] + u)) == [c] + ("LIMIT" + StripLimits([c] + u))
  {
    WordNotRemovable([c], [c], u);
    KeptWord(c, u, [c] + ("LIMIT" + [c] + u), [c] + u);
  }

  lemma KeptWord(c: char, u: string, s: string, v: string)
    requires s == [c] + ("LIMIT" + [c] + u) && v == [c] + u
    requires RemovableAt(s).None?
    ensures StripLimits(s) == [c] + ("LIMIT" + StripLimits(v))
  {
    assert s[1..] == "LIMIT" + v;
    StripKeeps(s);
    assert StripLimits("LIMIT" + v) == "LIMIT" + StripLimits(v) by {
      LimitHasNoSpace();
      StripLimitsWord("LIMIT", v);
    }
  }

  lemma LimitHasNoSpace()
    ensures forall i :: 0 <= i < |"LIMIT"| ==> !PyIsSpace("LIMIT"[i])
  {
    var w := "LIMIT";
    assert w[0] == 'L' && w[1] == 'I' && w[2] == 'M' && w[3] == 'I' && w[4] == 'T';
  }

  lemma ClauseGoes(c: char, d: string, e: string)
    requires PyIsSpace(c) && |d| > 0 && AllDigits(d) && |e| > 0 && AllDigits(e)
    ensures StripLimits([c] + ("LIMIT" + [c] + d + [c] + e)) == [c] + e
  {
    assert "LIMIT" + [c] + d + [c] + e == "LIMIT" + [c] + d + ([c] + e);
    ClauseRemovable([c], [c], d, [c] + e);
    DigitsStay(c, e);
    ClauseTail(c, d, e, [c] + ("LIMIT" + [c] + d + [c] + e));
  }

  lemma ClauseTail(c: char, d: string, e: string, t: string)
    requires t == [c] + ("LIMIT" + [c] + d + [c] + e)
    ensures t[7 + |d|..] == [c] + e
  {
  }

  /** A space and a number stay as they are. */
  lemma DigitsStay(c: char, e: string)
    requires PyIsSpace(c) && |e| > 0 && AllDigits(e)
    ensures StripLimits([c] + e) == [c] + e
  {
    RunAppend([c], e, PyIsSpace);
    assert ([c] + e)[1..] == e;
    assert !CiPrefix(e, "limit") by {
      assert IsDigit(e[0]) && "limit"[0] == 'l';
    }
    StripKeeps([c] + e);
    StripLimitsWord(e, "");
    assert e + "" == e;
  }

  lemma StripKeeps(s: string)
    requires |s| > 0 && RemovableAt(s).None?
    ensures StripLimits(s) == [s[0]] + StripLimits(s[1..])
  {
  }

  /** Spaces, `LIMIT`, spaces, a number and a non-word character (or the end) are removable. */
  lemma ClauseRemovable(sp1: string, sp2: string, d: string, rest: string)
    requires |sp1| > 0 && PyAllSpace(sp1) && |sp2| > 0 && PyAllSpace(sp2) && |d| > 0 && AllDigits(d)
    requires |rest| == 0 || !IsWordChar(rest[0])
    ensures var r := RemovableAt(sp1 + ("LIMIT" + sp2 + d + rest));
            r.Some? && r.value == |sp1| + 5 + |sp2| + |d|
  {
    var t := "LIMIT" + sp2 + d + rest;
    RunAppend(sp1, t, PyIsSpace);
    LimitMatchOfClause(sp2, d, rest);
    assert (sp1 + t)[|sp1|..] == t;
  }

  /** The pieces of a `LIMIT` clause, by position. */
  lemma ClauseShape(sp: string, d: string, rest: string, s: string)
    requires s == "LIMIT" + sp + d + rest
    ensures s[..5] == "LIMIT" && s[5..] == sp + (d + rest) && s[5 + |sp|..] == d + rest
    ensures |rest| > 0 ==> s[5 + |sp| + |d|] == rest[0]
  {
  }


  /** Spaces, `LIMIT`, spaces and then no number are not removable. */
  lemma WordNotRemovable(sp1: string, sp2: string, rest: string)
    requires |sp1| > 0 && PyAllSpace(sp1) && |sp2| > 0 && PyAllSpace(sp2)
    requires |rest| > 0 && !PyIsSpace(rest[0]) && !IsDigit(rest[0])
    ensures RemovableAt(sp1 + ("LIMIT" + sp2 + rest)).None?
  {
    var t := "LIMIT" + sp2 + rest;
    RunAppend(sp1, t, PyIsSpace);
    assert (sp1 + t)[|sp1|..] == t;
    LimitMatchWithoutNumber(sp2, rest);
  }

  lemma {:induction false} RunAppend(a: string, b: string, p: char -> bool)
    requires forall i :: 0 <= i < |a| ==> p(a[i])
    requires |b| == 0 || !p(b[0])
    ensures Run(a + b, p) == |a|
  {
    if |a| > 0 {
      assert (a + b)[0] == a[0];
      assert (a + b)[1..] == a[1..] + b;
      RunAppend(a[1..], b, p);
    } else {
      assert a + b == b;
    }
  }

  /** Text that starts with `LIMIT` starts with it in any letter case. */
  lemma LimitPrefix(s: string)
    requires |s| >= 5 && s[..5] == "LIMIT"
    ensures CiPrefix(s, "limit")
  {
    assert s[0] == 'L' && s[1] == 'I' && s[2] == 'M' && s[3] == 'I' && s[4] == 'T';
  }

  /** `LIMIT`, spaces, a number and a non-word character (or the end) match. */
  lemma LimitMatchOfClause(sp: string, d: string, rest: string)
    requires |sp| > 0 && PyAllSpace(sp) && |d| > 0 && AllDigits(d)
    requires |rest| == 0 || !IsWordChar(rest[0])
    ensures LimitMatch("LIMIT" + sp + d + rest) == Some((5 + |sp|, 5 + |sp| + |d|))
  {
    ClauseParts(sp, d, rest);
    LimitMatchOfParts("LIMIT" + sp + d + rest, |sp|, |d|);
  }

  /** A `LIMIT` clause meets each requirement of LimitMatchOfParts. */
  lemma ClauseParts(sp: string, d: string, rest: string)
    requires |sp| > 0 && PyAllSpace(sp) && |d| > 0 && AllDigits(d)
    requires |rest| == 0 || !IsWordChar(rest[0])
    ensures var s := "LIMIT" + sp + d + rest;
            CiPrefix(s, "limit") && 5 + |sp| + |d| <= |s|
            && Run(s[5..], PyIsSpace) == |sp| && Run(s[5 + |sp|..], IsDigit) == |d|
            && (5 + |sp| + |d| == |s| || !IsWordChar(s[5 + |sp| + |d|]))
  {
    var s := "LIMIT" + sp + d + rest;
    ClauseShape(sp, d, rest, s);
    LimitPrefix(s);
    ClauseRuns(sp, d, rest);
  }

  lemma ClauseRuns(sp: string, d: string, rest: string)
    requires |sp| > 0 && PyAllSpace(sp) && |d| > 0 && AllDigits(d)
    requires |rest| == 0 || !IsWordChar(rest[0])
    ensures Run(sp + (d + rest), PyIsSpace) == |sp| && Run(d + rest, IsDigit) == |d|
  {
    assert (d + rest)[0] == d[0];
    RunAppend(sp, d + rest, PyIsSpace);
    RunAppend(d, rest, IsDigit);
  }

  /** The match read off its parts: the prefix, the run of spaces, the run of digits and
      what follows them. */
  lemma LimitMatchOfParts(s: string, a: nat, d: nat)
    requires CiPrefix(s, "limit") && 0 < a && 0 < d && 5 + a + d <= |s|
    requires Run(s[5..], PyIsSpace) == a && Run(s[5 + a..], IsDigit) == d
    requires 5 + a + d == |s| || !IsWordChar(s[5 + a + d])
    ensures LimitMatch(s) == Some((5 + a, 5 + a + d))
  {
  }

  /** `LIMIT` and spaces followed by something other than a number do not match. */
  lemma LimitMatchWithoutNumber(sp: string, rest: string)
    requires |sp| > 0 && PyAllSpace(sp)
    requires |rest| > 0 && !PyIsSpace(rest[0]) && !IsDigit(rest[0])
    ensures LimitMatch("LIMIT" + sp + rest).None?
  {
    var s := "LIMIT" + sp + rest;
    assert s[..5] == "LIMIT";
    LimitPrefix(s);
    assert s[5..] == sp + rest;
    RunAppend(sp, rest, PyIsSpace);
    assert s[5 + |sp|..] == rest;
  }

  /** Letters with no space before them are kept as they are. */
  lemma {:induction false} StripLimitsWord(w: string, rest: string)
    requires forall i :: 0 <= i < |w| ==> !PyIsSpace(w[i])
    ensures StripLimits(w + rest) == w + StripLimits(rest)
  {
    if |w| > 0 {
      var t := w[1..];
      forall i | 0 <= i < |t|
        ensures !PyIsSpace(t[i])
      {
        assert t[i] == w[i + 1];
      }
      StripLimitsWord(t, rest);
      WordCons(w, rest);
      ConsOfTail(w, StripLimits(w + rest), StripLimits(t + rest), StripLimits(rest));
    } else {
      assert w + rest == rest;
    }
  }

  /** Nothing is removed at a position that does not start with a space. */
  lemma NoSpaceNotRemovable(s: string)
    requires |s| > 0 && !PyIsSpace(s[0])
    ensures RemovableAt(s).None?
  {
  }

  lemma ConsOfTail(w: string, a: string, b: string, x: string)
    requires |w| > 0 && a == [w[0]] + b && b == w[1..] + x
    ensures a == w + x
  {
    assert w == [w[0]] + w[1..];
  }

  lemma WordCons(w: string, rest: string)
    requires |w| > 0 && !PyIsSpace(w[0])
    ensures StripLimits(w + rest) == [w[0]] + StripLimits(w[1..] + rest)
  {
    var s := w + rest;
    assert s[0] == w[0];
    NoSpaceNotRemovable(s);
    StripKeeps(s);
    assert s[1..] == w[1..] + rest;
  }

  // ------------------------------------------------------- the rewrite, end to end

  /** No `limit`, in any letter case, starts anywhere in `s`. */
  predicate NoLimitWord(s: string) {
    forall k :: 0 <= k <= |s| ==> !CiPrefix(s[k..], "limit")
  }

  /** A whitespace character is none of the letters of `limit`. */
  lemma SpaceBreaksLimit(s: string, m: nat)
    requires m < 5 && m < |s| && PyIsSpace(s[m])
    ensures !CiPrefix(s, "limit")
  {
    assert LowerChar(s[m]) == s[m];
    var w := "limit";
    assert w[0] == 'l' && w[1] == 'i' && w[2] == 'm' && w[3] == 'i' && w[4] == 't';
  }

  /** A case-insensitive prefix test reads only the first `|w|` characters. */
  lemma CiPrefixAppend(x: string, y: string, w: string)
    requires |x| >= |w|
    ensures CiPrefix(x + y, w) <==> CiPrefix(x, w)
  {
    assert forall i :: 0 <= i < |w| ==> (x + y)[i] == x[i];
  }

  /** Before a run of whitespace, and inside it, no `LIMIT` starts when none starts in `pre`. */
  lemma NoLimitBefore(pre: string, sp: string, more: string)
    requires NoLimitWord(pre) && |sp| > 0 && PyAllSpace(sp)
    ensures forall k :: 0 <= k < |pre| + |sp| ==> !CiPrefix((pre + sp + more)[k..], "limit")
  {
    var t := pre + sp + more;
    forall k | 0 <= k < |pre| + |sp|
      ensures !CiPrefix(t[k..], "limit")
    {
      if k >= |pre| {
        assert t[k..][0] == sp[k - |pre|];
        SpaceBreaksLimit(t[k..], 0);
      } else if k + 5 <= |pre| {
        assert t[k..] == pre[k..] + (sp + more);
        CiPrefixAppend(pre[k..], sp + more, "limit");
      } else {
        assert t[k..][|pre| - k] == sp[0];
        SpaceBreaksLimit(t[k..], |pre| - k);
      }
    }
  }

  /** Nothing inside `pre` is removed when it ends in a non-space and whitespace follows it. */
  lemma PrefixKept(pre: string, sp: string, more: string)
    requires NoLimitWord(pre) && |pre| > 0 && !PyIsSpace(pre[|pre| - 1]) && |sp| > 0 && PyAllSpace(sp)
    ensures forall k :: 0 <= k < |pre| ==> RemovableAt((pre + sp + more)[k..]).None?
  {
    var t := pre + sp + more;
    NoLimitBefore(pre, sp, more);
    forall k | 0 <= k < |pre|
      ensures RemovableAt(t[k..]).None?
    {
      var a := Run(t[k..], PyIsSpace);
      assert !PyIsSpace(t[k..][|pre| - 1 - k]);
      assert t[k..][a..] == t[k + a..];
    }
  }

  /** A part in which nothing is removable is kept, and the removal goes on after it. */
  lemma {:induction false} StripLimitsSplit(x: string, y: string)
    requires forall k :: 0 <= k < |x| ==> RemovableAt((x + y)[k..]).None?
    ensures StripLimits(x + y) == x + StripLimits(y)
    decreases |x|
  {
    if |x| == 0 {
      assert x + y == y;
    } else {
      assert (x + y)[0..] == x + y;
      KeepFirst(x, y);
      forall k | 0 <= k < |x[1..]|
        ensures RemovableAt((x[1..] + y)[k..]).None?
      {
        DropOneMore(x, y, k);
      }
      StripLimitsSplit(x[1..], y);
      ConsOfTail(x, StripLimits(x + y), StripLimits(x[1..] + y), StripLimits(y));
    }
  }

  lemma DropOneMore(x: string, y: string, k: nat)
    requires k < |x| - 1
    ensures (x[1..] + y)[k..] == (x + y)[k + 1..]
  {
  }

  lemma KeepFirst(x: string, y: string)
    requires |x| > 0 && RemovableAt(x + y).None?
    ensures StripLimits(x + y) == [x[0]] + StripLimits(x[1..] + y)
  {
    var t := x + y;
    StripKeeps(t);
    assert t[1..] == x[1..] + y && t[0] == x[0];
  }

  /** Text in which no `LIMIT` starts comes out of the removal unchanged. */
  lemma NoLimitKept(s: string)
    requires NoLimitWord(s)
    ensures StripLimits(s) == s
  {
    forall k | 0 <= k < |s|
      ensures RemovableAt((s + "")[k..]).None?
    {
      var a := Run(s[k..], PyIsSpace);
      assert s[k..][a..] == s[k + a..];
      assert (s + "")[k..] == s[k..];
    }
    StripLimitsSplit(s, "");
    assert s + "" == s;
  }

  /** A `LIMIT n` clause is removed together with the whitespace before it. */
  lemma ClauseDropped(sp: string, sp2: string, d: string, rest: string)
    requires |sp| > 0 && PyAllSpace(sp) && |sp2| > 0 && PyAllSpace(sp2) && |d| > 0 && AllDigits(d)
    requires |rest| == 0 || !IsWordChar(rest[0])
    ensures StripLimits(sp + ("LIMIT" + sp2 + d + rest)) == StripLimits(rest)
  {
    var t := sp + ("LIMIT" + sp2 + d + rest);
    var n := |sp| + 5 + |sp2| + |d|;
    ClauseRemovable(sp, sp2, d, rest);
    StripDrops(t, n);
    assert t[n..] == rest;
  }

  lemma StripDrops(s: string, n: nat)
    requires RemovableAt(s).Some? && RemovableAt(s).value == n
    ensures StripLimits(s) == StripLimits(s[n..])
  {
  }

  /** The search finds the number of the first clause when no `LIMIT` comes before it. */
  lemma LimitFound(pre: string, sp: string, sp2: string, d: string, rest: string)
    requires NoLimitWord(pre)
    requires |sp| > 0 && PyAllSpace(sp) && |sp2| > 0 && PyAllSpace(sp2) && |d| > 0 && AllDigits(d)
    requires |rest| == 0 || !IsWordChar(rest[0])
    ensures SearchLimit(pre + sp + ("LIMIT" + sp2 + d + rest), 0) == Some(d)
  {
    var tail := "LIMIT" + sp2 + d + rest;
    var t := pre + sp + tail;
    var p := |pre| + |sp|;
    NoLimitBefore(pre, sp, tail);
    assert t[p..] == tail;
    LimitMatchOfClause(sp2, d, rest);
    assert t[p - 1] == sp[|sp| - 1];
    assert !IsWordChar(t[p - 1]) by {
      assert PyIsSpace(t[p - 1]);
    }
    assert MatchesAt(t, p);
    assert tail[5 + |sp2|..5 + |sp2| + |d|] == d;
  }

  /** The whole statement after the removal: the text before the clause, then the text after. */
  lemma LimitStripped(pre: string, sp: string, sp2: string, d: string, rest: string)
    requires NoLimitWord(pre) && |pre| > 0 && !PyIsSpace(pre[|pre| - 1]) && NoLimitWord(rest)
    requires |sp| > 0 && PyAllSpace(sp) && |sp2| > 0 && PyAllSpace(sp2) && |d| > 0 && AllDigits(d)
    requires |rest| == 0 || !IsWordChar(rest[0])
    ensures StripLimits(pre + sp + ("LIMIT" + sp2 + d + rest)) == pre + rest
  {
    var tail := "LIMIT" + sp2 + d + rest;
    PrefixKept(pre, sp, tail);
    assert pre + sp + tail == pre + (sp + tail);
    StripLimitsSplit(pre, sp + tail);
    ClauseDropped(sp, sp2, d, rest);
    NoLimitKept(rest);
  }

  /** `select` in any letter case does not start with whitespace. */
  lemma SelectNotSpace(sel: string, w: string)
    requires |w| > 0 && 'a' <= w[0] <= 'z' && |sel| >= |w| && CiPrefix(sel, w)
    ensures !PyIsSpace(sel[0])
  {
  }

  /** After optional whitespace and `SELECT` in any case, `FIRST n` takes the place of
      the keyword. */
  lemma InsertFirstPlain(ws: string, sel: string, body: string, n: string)
    requires PyAllSpace(ws) && |sel| == 6 && CiPrefix(sel, "select") && !DistinctNext(body)
    ensures InsertFirst(ws + sel + body, n) == "SELECT FIRST " + n + body
  {
    var s := ws + sel + body;
    SelectNotSpace(sel, "select");
    assert s == ws + (sel + body);
    RunAppend(ws, sel + body, PyIsSpace);
    assert s[|ws|..] == sel + body;
    CiPrefixAppend(sel, body, "select");
    assert s[|ws| + 6..] == body;
  }

  /** After optional whitespace, `SELECT`, whitespace and `DISTINCT` in any case,
      `SELECT DISTINCT FIRST n` takes the place of the keywords. */
  lemma InsertFirstDistinct(ws: string, sel: string, sp: string, dis: string, body: string, n: string)
    requires PyAllSpace(ws) && |sel| == 6 && CiPrefix(sel, "select")
    requires |sp| > 0 && PyAllSpace(sp) && |dis| == 8 && CiPrefix(dis, "distinct")
    ensures InsertFirst(ws + sel + sp + dis + body, n) == "SELECT DISTINCT FIRST " + n + body
  {
    var t := sel + sp + dis + body;
    var s := ws + t;
    assert ws + sel + sp + dis + body == s;
    SelectNotSpace(sel, "select");
    RunAppend(ws, t, PyIsSpace);
    assert s[|ws|..] == t;
    DistinctKeywords(sel, sp, dis, body);
    assert s[|ws| + 6..] == t[6..];
    assert s[|ws| + 6 + |sp| + 8..] == t[6 + |sp| + 8..];
  }

  /** `SELECT`, whitespace and `DISTINCT`, then the rest of the statement. */
  lemma DistinctKeywords(sel: string, sp: string, dis: string, body: string)
    requires |sel| == 6 && CiPrefix(sel, "select")
    requires |sp| > 0 && PyAllSpace(sp) && |dis| == 8 && CiPrefix(dis, "distinct")
    ensures var t := sel + sp + dis + body;
            CiPrefix(t, "select") && DistinctNext(t[6..]) && Run(t[6..], PyIsSpace) == |sp|
            && t[6 + |sp| + 8..] == body
  {
    var v := sp + dis + body;
    CiPrefixAppend(sel, v, "select");
    assert sel + sp + dis + body == sel + v;
    assert (sel + v)[6..] == v;
    SelectNotSpace(dis, "distinct");
    assert v == sp + (dis + body);
    RunAppend(sp, dis + body, PyIsSpace);
    assert v[|sp|..] == dis + body;
    CiPrefixAppend(dis, body, "distinct");
  }

  lemma NoTickInSpaceOrDigits(sp: string, d: string)
    requires PyAllSpace(sp) && AllDigits(d)
    ensures '`' !in sp && '`' !in d
  {
    assert forall i :: 0 <= i < |sp| ==> PyIsSpace(sp[i]);
    assert forall i :: 0 <= i < |d| ==> IsDigit(d[i]);
  }

  /** `Normalize` of a statement without backticks in which the search finds `n`. */
  lemma NormalizeOfLimit(op: string, n: string)
    requires '`' !in op && SearchLimit(op, 0) == Some(n)
    ensures Normalize(op, false) == InsertFirst(StripLimits(op), n)
    ensures Normalize(op, true) == ReplacePlaceholders(InsertFirst(StripLimits(op), n))
  {
    WithoutAbsent(op, '`');
  }

  /** The headline rewrite: `SELECT … LIMIT n …` goes to the driver as `SELECT FIRST n …`,
      with the clause and the whitespace before it gone. */
  lemma LimitBecomesFirst(body: string, sp: string, sp2: string, d: string, rest: string)
    requires NoLimitWord("SELECT" + body) && NoLimitWord(rest)
    requires |body| == 0 || !PyIsSpace(body[|body| - 1])
    requires |sp| > 0 && PyAllSpace(sp) && |sp2| > 0 && PyAllSpace(sp2) && |d| > 0 && AllDigits(d)
    requires |rest| == 0 || !IsWordChar(rest[0])
    requires '`' !in body && '`' !in rest && !DistinctNext(body + rest)
    ensures var op := "SELECT" + body + sp + "LIMIT" + sp2 + d + rest;
            Normalize(op, false) == "SELECT FIRST " + d + body + rest
            && Normalize(op, true) == ReplacePlaceholders("SELECT FIRST " + d + body + rest)
  {
    var pre := "SELECT" + body;
    var op := pre + sp + ("LIMIT" + sp2 + d + rest);
    assert op == "SELECT" + body + sp + "LIMIT" + sp2 + d + rest;
    PreEnd("SELECT", body);
    NoTickInClause(pre, sp, sp2, d, rest);
    LimitFound(pre, sp, sp2, d, rest);
    LimitStripped(pre, sp, sp2, d, rest);
    NormalizeOfLimit(op, d);
    CiSelect();
    InsertFirstPlain("", "SELECT", body + rest, d);
    Assoc("", "SELECT", body + rest);
    Assoc("SELECT", body, rest);
    Assoc("SELECT FIRST " + d, body, rest);
  }

  /** The same for `SELECT DISTINCT … LIMIT n …`, which becomes `SELECT DISTINCT FIRST n …`. */
  lemma DistinctLimitBecomesFirst(sp0: string, body: string, sp: string, sp2: string, d: string, rest: string)
    requires |sp0| > 0 && PyAllSpace(sp0)
    requires NoLimitWord("SELECT" + sp0 + "DISTINCT" + body) && NoLimitWord(rest)
    requires |body| == 0 || !PyIsSpace(body[|body| - 1])
    requires |sp| > 0 && PyAllSpace(sp) && |sp2| > 0 && PyAllSpace(sp2) && |d| > 0 && AllDigits(d)
    requires |rest| == 0 || !IsWordChar(rest[0])
    requires '`' !in body && '`' !in rest
    ensures var op := "SELECT" + sp0 + "DISTINCT" + body + sp + "LIMIT" + sp2 + d + rest;
            Normalize(op, false) == "SELECT DISTINCT FIRST " + d + body + rest
            && Normalize(op, true) == ReplacePlaceholders("SELECT DISTINCT FIRST " + d + body + rest)
  {
    var head := "SELECT" + sp0 + "DISTINCT";
    var pre := head + body;
    var op := pre + sp + ("LIMIT" + sp2 + d + rest);
    assert op == "SELECT" + sp0 + "DISTINCT" + body + sp + "LIMIT" + sp2 + d + rest;
    PreEnd(head, body);
    NoTickInSpaceOrDigits(sp0, "");
    assert '`' !in head;
    NoTickInClause(pre, sp, sp2, d, rest);
    LimitFound(pre, sp, sp2, d, rest);
    LimitStripped(pre, sp, sp2, d, rest);
    NormalizeOfLimit(op, d);
    CiSelect();
    InsertFirstDistinct("", "SELECT", sp0, "DISTINCT", body + rest, d);
    EmptyFront("SELECT", sp0, "DISTINCT", body + rest);
    Assoc(head, body, rest);
    Assoc("SELECT DISTINCT FIRST " + d, body, rest);
  }

  lemma EmptyFront(a: string, b: string, c: string, x: string)
    ensures "" + a + b + c + x == a + b + c + x
  {
  }

  lemma Assoc(a: string, b: string, c: string)
    ensures a + b + c == a + (b + c) && "" + a == a
  {
  }

  /** The text before the clause ends in a non-space. */
  lemma PreEnd(head: string, body: string)
    requires |head| > 0 && head[|head| - 1] == 'T'
    requires |body| == 0 || !PyIsSpace(body[|body| - 1])
    ensures |head + body| > 0 && !PyIsSpace((head + body)[|head + body| - 1])
  {
  }

  lemma NoTickInClause(pre: string, sp: string, sp2: string, d: string, rest: string)
    requires '`' !in pre && '`' !in rest && PyAllSpace(sp) && PyAllSpace(sp2) && AllDigits(d)
    ensures '`' !in pre + sp + ("LIMIT" + sp2 + d + rest)
  {
    NoTickInSpaceOrDigits(sp + sp2, d);
    assert '`' !in "LIMIT";
  }

  lemma CiSelect()
    ensures CiPrefix("SELECT", "select") && CiPrefix("DISTINCT", "distinct")
  {
    var s := "SELECT";
    var t := "DISTINCT";
    assert s[0] == 'S' && s[1] == 'E' && s[2] == 'L' && s[3] == 'E' && s[4] == 'C' && s[5] == 'T';
    assert t[0] == 'D' && t[1] == 'I' && t[2] == 'S' && t[3] == 'T' && t[4] == 'I' && t[5] == 'N' && t[6] == 'C' && t[7] == 'T';
  }
}

=== FILE: templates.dfy ===
/** The template screen (`frontend/src/pages/PlantillasPage.tsx`): templates
    are grouped by message type, and choosing one assigns it, with its flag
    switched on, to every row handed over by the bulk toggle. A reminder also
    carries how many days before the appointment it is sent. */
module Templates {
  import opened Wrappers
  import opened Seqs
  import opened Text
  import opened Assoc
  import opened Ui
  import Keyed

  /** A message template with its type id. */
  datatype Template = Template(id: int, idTipo: int)

  /** `tipoToId`. */
  function TipoToId(tipo: string): (r: Option<int>)
    ensures r.Some? <==> tipo in TypeNames
    ensures r.Some? ==> 1 <= r.value <= 4
  {
    match FieldOfName(tipo)
    case Some(f) => Some(TypeId(f))
    case None => None
  }

  /** `idToTipoKey`. */
  function IdToTipoKey(n: int): (r: Option<string>)
    ensures r.Some? <==> 1 <= n <= 4
    ensures r.Some? ==> r.value in TypeNames
  {
    match FieldOfTypeId(n)
    case Some(f) => Some(FieldName(f))
    case None => None
  }

  /** `tipoToCampo[tipo] ?? "plantilla_reco"`. */
  function CampoOf(tipo: string): string {
    match FieldOfName(tipo)
    case Some(f) => TemplateName(f)
    case None => "plantilla_reco"
  }

  /** The bucket a template lands in: the type name, or `"undefined"` for an unknown type id
      (the object key an `undefined` lookup produces). */
  function BucketOf(idTipo: int): string {
    IdToTipoKey(idTipo).GetOr("undefined")
  }

  const TypeNames: set<string> := {"confirmacion", "reprogramacion", "cancelacion", "recordatorio"}

  /** `groupByType`: the four buckets exist from the start; every template is appended to its
      bucket, which is created when missing. */
  function GroupByType(ps: seq<Template>): (r: map<string, seq<Template>>)
    ensures forall k :: k in r <==> k in TypeNames || exists p :: p in ps && BucketOf(p.idTipo) == k
    ensures forall k :: k in r ==> r[k] == Filter(ps, (p: Template) => BucketOf(p.idTipo) == k)
  {
    if |ps| == 0 then
      map["confirmacion" := [], "reprogramacion" := [], "cancelacion" := [], "recordatorio" := []]
    else
      var last := ps[|ps| - 1];
      var init := ps[..|ps| - 1];
      assert ps == init + [last];
      var g := GroupByType(init);
      var key := BucketOf(last.idTipo);
      var r := g[key := (if key in g then g[key] else []) + [last]];
      forall k | k in r
        ensures r[k] == Filter(ps, (p: Template) => BucketOf(p.idTipo) == k)
      {
        FilterAppend(init, last, (p: Template) => BucketOf(p.idTipo) == k);
        if k == key && key !in g {
          assert forall p :: p in init ==> BucketOf(p.idTipo) != k;
          FilterNone(init, (p: Template) => BucketOf(p.idTipo) == k);
        }
      }
      r
  }

  /** The days input's filter: blank text, or a number from 0 to 5. */
  predicate DaysAccepted(val: string)
    ensures DaysAccepted(val) <==> val == "" || DaysProblem(val).None?
  {
    val == "" || (JsNumber(val).Some? && Between(JsNumber(val).value, 0, 5))
  }

  /** A key-value object built by assignments in order: a later assignment to the same key
      replaces the earlier value in place. */
  function Put(p: Payload, name: string, v: Value): Payload {
    Payload(Keyed.Set(p.entries, (name, v), EntryName))
  }

  function EntryName(e: (string, Value)): string { e.0 }

  /** `payload[name]`. */
  function Get(p: Payload, name: string): Option<Value> {
    match Keyed.Lookup(p.entries, name, EntryName)
    case Some(e) => Some(e.1)
    case None => None
  }

  /** The body `handleCardAssign` sends: the type's flag on, its template set, and for a
      reminder the days before. */
  function AssignPayload(tipo: string, plantillaId: int, dias: Option<Decimal>): (r: Payload)
    ensures Get(r, CampoOf(tipo)) == Some(IntValue(plantillaId))
    ensures tipo != CampoOf(tipo) ==> Get(r, tipo) == Some(IntValue(1))
    ensures tipo == "recordatorio" && dias.Some? ==> Get(r, "dias_antes") == Some(Number(dias.value))
    ensures tipo != "recordatorio" && tipo != "dias_antes" ==> Get(r, "dias_antes").None?
  {
    var campo := CampoOf(tipo);
    var base0 := Put(Payload([]), tipo, IntValue(1));
    var base := Put(base0, campo, IntValue(plantillaId));
    CampoNotDays(tipo);
    GetPut(Payload([]), tipo, IntValue(1), tipo);
    GetPut(Payload([]), tipo, IntValue(1), "dias_antes");
    GetPut(base0, campo, IntValue(plantillaId), campo);
    GetPut(base0, campo, IntValue(plantillaId), tipo);
    GetPut(base0, campo, IntValue(plantillaId), "dias_antes");
    if tipo == "recordatorio" && dias.Some? then
      GetPut(base, "dias_antes", Number(dias.value), campo);
      GetPut(base, "dias_antes", Number(dias.value), tipo);
      GetPut(base, "dias_antes", Number(dias.value), "dias_antes");
      Put(base, "dias_antes", Number(dias.value))
    else base
  }

  lemma CampoNotDays(tipo: string)
    ensures CampoOf(tipo) != "dias_antes"
  {
  }

  /** What an assignment did: the PATCHes, the alert, whether the button stays blocked, and the
      route navigated to once the two-second delay has passed. */
  datatype Assigned = Assigned(patches: seq<(int, Payload)>, alert: Alert, updating: bool, navigation: Option<string>)

  const NotModifying := "No está en modo de modificación o no hay especialidades seleccionadas."
  const BadDays := "Por favor ingrese un número válido de días antes."
  const DaysOutOfRange := "Por favor ingrese un número entre 0 y 5."

  /** Validation of the days input a reminder needs: the warning it raises, if any. */
  function DaysProblem(diasAntes: string): (r: Option<string>)
    ensures r.None? <==> diasAntes != "" && JsNumber(diasAntes).Some? && Between(JsNumber(diasAntes).value, 0, 5)
    ensures r.Some? && diasAntes != "" && JsNumber(diasAntes).Some? ==> r.value == DaysOutOfRange
    ensures r.Some? && (diasAntes == "" || JsNumber(diasAntes).None?) ==> r.value == BadDays
  {
    if diasAntes == "" || JsNumber(diasAntes).None? then Some(BadDays)
    else if !Between(JsNumber(diasAntes).value, 0, 5) then Some(DaysOutOfRange)
    else None
  }

  /** The same payload sent to every row in turn; the outcome is a success only when every
      PATCH succeeded. */
  function SendAll(ids: seq<int>, payload: Payload, ok: int -> bool): (r: Assigned)
    requires |ids| > 0
    ensures |r.patches| == |ids| && r.patches != []
    ensures forall i :: 0 <= i < |ids| ==> r.patches[i] == (ids[i], payload)
    ensures (forall id :: id in ids ==> ok(id)) <==> r.alert.severity == Success
    ensures r.alert.severity == Success || r.alert.severity == Error
    ensures r.updating <==> r.alert.severity == Success
    ensures r.navigation.Some? <==> r.alert.severity == Success
  {
    var patches := Map(ids, (id: int) => (id, payload));
    if forall id :: id in ids ==> ok(id) then
      Assigned(patches, Alert(Success, "Plantillas asignadas con éxito."), true, Some("/list"))
    else
      Assigned(patches, Alert(Error, "Ocurrió un error al actualizar. Revise la consola."), false, None)
  }

  /** `handleCardAssign`. `tipo` is the route's type (`""` when absent), `ids` the rows handed
      over, `diasAntes` the days input's text and `ok(id)` whether the PATCH of a row succeeds. */
  function Assign(tipo: string, ids: seq<int>, diasAntes: string, plantillaId: int, ok: int -> bool): (r: Assigned)
    ensures tipo == "" || |ids| == 0 ==> r == Assigned([], Alert(Warning, NotModifying), false, None)
    ensures tipo != "" && |ids| > 0 && tipo == "recordatorio" ==>
              (r.patches != [] <==> diasAntes != "" && JsNumber(diasAntes).Some? && Between(JsNumber(diasAntes).value, 0, 5))
    ensures tipo != "" && |ids| > 0 && tipo != "recordatorio" ==> r.patches != []
    ensures r.patches == [] ==> r.alert.severity == Warning && !r.updating
    ensures r.patches != [] ==>
              |r.patches| == |ids|
              && (forall i :: 0 <= i < |ids| ==> r.patches[i].0 == ids[i])
              && (forall i :: 0 <= i < |ids| ==> r.patches[i].1 == AssignPayload(tipo, plantillaId, JsNumber(diasAntes)))
              && ((forall id :: id in ids ==> ok(id)) <==> r.alert.severity == Success)
              && (r.updating <==> r.alert.severity == Success)
              && (r.navigation.Some? <==> r.alert.severity == Success)
  {
    if tipo == "" || |ids| == 0 then Assigned([], Alert(Warning, NotModifying), false, None)
    else if tipo == "recordatorio" && DaysProblem(diasAntes).Some? then
      Assigned([], Alert(Warning, DaysProblem(diasAntes).value), false, None)
    else
      SendAll(ids, AssignPayload(tipo, plantillaId, JsNumber(diasAntes)), ok)
  }

  // ---------------------------------------------------------------- lemmas

  lemma FilterNone<T(!new)>(s: seq<T>, p: T -> bool)
    requires forall x :: x in s ==> !p(x)
    ensures Filter(s, p) == []
  {
  }

  /** The type tables are inverse to each other on the four message types. */
  lemma TipoTablesInverse(tipo: string, n: int)
    ensures TipoToId(tipo).Some? ==> IdToTipoKey(TipoToId(tipo).value) == Some(tipo)
    ensures IdToTipoKey(n).Some? ==> TipoToId(IdToTipoKey(n).value) == Some(n)
    ensures TipoToId(tipo).Some? <==> tipo in TypeNames
    ensures IdToTipoKey(n).Some? <==> 1 <= n <= 4
  {
    if FieldOfName(tipo).None? {
      forall f: Field
        ensures FieldName(f) != tipo
      {
      }
    }
  }

  /** The payload sets the flag of the type to 1 and its paired template to the chosen one; the
      days before are present exactly for a reminder. */
  lemma AssignPayloadFields(tipo: string, plantillaId: int, dias: Option<Decimal>, f: Field)
    requires FieldOfName(tipo) == Some(f)
    ensures var p := AssignPayload(tipo, plantillaId, dias);
            Get(p, FieldName(f)) == Some(IntValue(1))
            && Get(p, TemplateName(f)) == Some(IntValue(plantillaId))
            && (Get(p, "dias_antes").Some? <==> f == Recordatorio && dias.Some?)
  {
    assert FieldName(f) == tipo;
    var base0 := Put(Payload([]), tipo, IntValue(1));
    var base := Put(base0, CampoOf(tipo), IntValue(plantillaId));
    NamesDistinct(f);
    GetPut(Payload([]), tipo, IntValue(1), FieldName(f));
    GetPut(base0, CampoOf(tipo), IntValue(plantillaId), FieldName(f));
    GetPut(base0, CampoOf(tipo), IntValue(plantillaId), TemplateName(f));
    GetPut(Payload([]), tipo, IntValue(1), "dias_antes");
    GetPut(base0, CampoOf(tipo), IntValue(plantillaId), "dias_antes");
    if tipo == "recordatorio" && dias.Some? {
      GetPut(base, "dias_antes", Number(dias.value), FieldName(f));
      GetPut(base, "dias_antes", Number(dias.value), TemplateName(f));
      GetPut(base, "dias_antes", Number(dias.value), "dias_antes");
    }
  }

  /** The flag, its template field and the days field have three different names. */
  lemma NamesDistinct(f: Field)
    ensures FieldName(f) != TemplateName(f)
    ensures FieldName(f) != "dias_antes" && TemplateName(f) != "dias_antes"
    ensures FieldName(f) == "recordatorio" <==> f == Recordatorio
  {
  }

  /** Reading a field after an assignment. */
  lemma GetPut(p: Payload, name: string, v: Value, k: string)
    ensures Get(Put(p, name, v), k) == if k == name then Some(v) else Get(p, k)
  {
  }

  /** An unknown type still names the reminder's template field. */
  lemma UnknownTypeUsesReminderTemplate(tipo: string, plantillaId: int)
    requires tipo !in TypeNames && tipo != "plantilla_reco"
    ensures Get(AssignPayload(tipo, plantillaId, None), "plantilla_reco") == Some(IntValue(plantillaId))
            && Get(AssignPayload(tipo, plantillaId, None), tipo) == Some(IntValue(1))
  {
    assert FieldOfName(tipo).None?;
  }

  /** The days input accepts every whole number of days from 0 to 5 and no other integer. */
  lemma DaysAcceptedWholeDays(d: int)
    ensures DaysAccepted(IntToString(d)) <==> 0 <= d <= 5
  {
    JsNumberOfIntToString(d);
  }

  /** Whatever the input lets through is also accepted by the assignment, blank text aside. */
  lemma AcceptedDaysAssign(ids: seq<int>, diasAntes: string, plantillaId: int, ok: int -> bool)
    requires |ids| > 0 && diasAntes != "" && DaysAccepted(diasAntes)
    ensures Assign("recordatorio", ids, diasAntes, plantillaId, ok).patches != []
  {
  }

  /** Every template lands in the bucket of its type, and buckets keep the templates' order. */
  lemma GroupedByType(ps: seq<Template>, p: Template)
    requires p in ps
    ensures var g := GroupByType(ps);
            BucketOf(p.idTipo) in g && p in g[BucketOf(p.idTipo)]
  {
  }
}

=== FILE: text.dfy ===
/** Character-level helpers shared by the backend and the frontend models:
    decimal rendering of integers (JavaScript `String(n)`, Python `str(n)`),
    Python's `int(text)`, `str.strip` and JavaScript's `trim`, `str.split`,
    `",".join`, ASCII case mapping and substring search. Character classes are
    the ASCII parts of the ones the two languages use. */
module Text {
  import opened Wrappers

  predicate IsDigit(c: char) { '0' <= c <= '9' }

  /** The ASCII characters JavaScript's `String.prototype.trim` removes. */
  predicate IsSpace(c: char) {
    c == ' ' || c == '\t' || c == '\n' || c == '\r' || c == '\U{000B}' || c == '\U{000C}'
  }

  /** The ASCII characters Python's `str.isspace` accepts: JavaScript's six and the four
      separators `\x1c` to `\x1f`. `str.strip()`, `int()` and the `\s` of a `re` pattern
      use this class. */
  predicate PyIsSpace(c: char) {
    IsSpace(c) || '\U{001C}' <= c <= '\U{001F}'
  }

  /** Every character of `s` satisfies `p`. */
  predicate All(s: string, p: char -> bool) { forall i :: 0 <= i < |s| ==> p(s[i]) }

  predicate AllDigits(s: string) { forall i :: 0 <= i < |s| ==> IsDigit(s[i]) }

  predicate AllSpace(s: string) { All(s, IsSpace) }

  predicate PyAllSpace(s: string) { All(s, PyIsSpace) }

  function DigitValue(c: char): (d: nat)
    requires IsDigit(c)
    ensures d < 10
  {
    (c as int) - ('0' as int)
  }

  function DigitChar(d: nat): (c: char)
    requires d < 10
    ensures IsDigit(c) && DigitValue(c) == d
  {
    (('0' as int) + d) as char
  }

  /** The number a run of decimal digits denotes (most significant digit first). */
  function DigitsValue(s: string): nat
    requires AllDigits(s)
  {
    if |s| == 0 then 0 else DigitsValue(s[..|s| - 1]) * 10 + DigitValue(s[|s| - 1])
  }

  /** Shortest decimal rendering of a natural number. */
  function NatToDigits(n: nat): (r: string)
    ensures 1 <= |r| && AllDigits(r)
    ensures DigitsValue(r) == n
    ensures |r| > 1 ==> r[0] != '0'
  {
    if n < 10 then [DigitChar(n)]
    else
      var prefix := NatToDigits(n / 10);
      var r := prefix + [DigitChar(n % 10)];
      assert r[..|r| - 1] == prefix;
      r
  }

  /** `String(n)` in JavaScript and `str(n)` in Python for an integer. */
  function IntToString(i: int): (r: string)
    ensures 1 <= |r|
    ensures i >= 0 <==> IsDigit(r[0])
    ensures i < 0 <==> r[0] == '-'
  {
    if i < 0 then "-" + NatToDigits(-i) else NatToDigits(i)
  }

  /** `s` without the characters of class `sp` at its start. */
  function TrimStart(s: string, sp: char -> bool): (r: string)
    ensures |r| <= |s| && r == s[|s| - |r|..]
    ensures All(s[..|s| - |r|], sp)
    ensures r == [] || !sp(r[0])
  {
    if |s| > 0 && sp(s[0]) then
      var r := TrimStart(s[1..], sp);
      assert s[..|s| - |r|] == [s[0]] + s[1..][..|s[1..]| - |r|];
      r
    else s
  }

  /** `s` without the characters of class `sp` at its end. */
  function TrimEnd(s: string, sp: char -> bool): (r: string)
    ensures |r| <= |s| && r == s[..|r|]
    ensures All(s[|r|..], sp)
    ensures r == [] || !sp(r[|r| - 1])
  {
    if |s| > 0 && sp(s[|s| - 1]) then
      var r := TrimEnd(s[..|s| - 1], sp);
      assert s[|r|..] == s[..|s| - 1][|r|..] + [s[|s| - 1]];
      r
    else s
  }

  /** `s` without the characters of class `sp` at either end. */
  function Trim(s: string, sp: char -> bool): string {
    TrimEnd(TrimStart(s, sp), sp)
  }

  /** JavaScript's `String.prototype.trim()`. */
  function Strip(s: string): string {
    Trim(s, IsSpace)
  }

  /** Python's `str.strip()` without arguments. */
  function PyStrip(s: string): string {
    Trim(s, PyIsSpace)
  }

  /** Python's `int(text)` in base 10: Python's whitespace around it, an optional sign and a
      numeral; any other ASCII text raises `ValueError`, modelled as `None`. Non-ASCII
      digits and spaces, which `int()` also accepts, are not modelled. */
  function ParseInt(s: string): Option<int> {
    ParseSigned(PyStrip(s))
  }

  /** The digits `int()` accepts: decimal digits, where a single underscore may separate two
      of them (`1_000`). Leading zeros are allowed. */
  predicate Numeral(b: string) {
    |b| > 0 && forall i :: 0 <= i < |b| ==> IsDigit(b[i]) || UnderscoreAt(b, i)
  }

  /** `b[i]` is an underscore with a digit on either side. */
  predicate UnderscoreAt(b: string, i: int)
    requires 0 <= i < |b|
  {
    b[i] == '_' && 0 < i < |b| - 1 && IsDigit(b[i - 1]) && IsDigit(b[i + 1])
  }

  /** The value of a numeral: its digits, underscores left out. */
  function NumeralValue(b: string): nat
    requires Numeral(b)
  {
    NumeralDigits(b);
    DigitsValue(Without(b, '_'))
  }

  /** An optional sign followed by a numeral, with nothing around it. */
  function ParseSigned(t: string): Option<int> {
    if |t| > 0 && (t[0] == '-' || t[0] == '+') then
      var body := t[1..];
      if Numeral(body) then
        Some(if t[0] == '-' then -(NumeralValue(body) as int) else NumeralValue(body))
      else None
    else if Numeral(t) then Some(NumeralValue(t))
    else None
  }

  /** Python's `str.split(sep)` for a one-character separator. */
  function Split(s: string, sep: char): (parts: seq<string>)
    ensures |parts| >= 1
    ensures forall i :: 0 <= i < |parts| ==> sep !in parts[i]
  {
    if |s| == 0 then [""]
    else
      var rest := Split(s[1..], sep);
      if s[0] == sep then [""] + rest else [[s[0]] + rest[0]] + rest[1..]
  }

  /** `parts.join(sep)`, the same in Python and JavaScript. */
  function Join(parts: seq<string>, sep: string): string {
    if |parts| == 0 then ""
    else if |parts| == 1 then parts[0]
    else parts[0] + sep + Join(parts[1..], sep)
  }

  /** A character `\w` matches in a Python pattern (ASCII). */
  predicate IsWordChar(c: char) {
    'a' <= c <= 'z' || 'A' <= c <= 'Z' || '0' <= c <= '9' || c == '_'
  }

  /** The length of the longest prefix of `s` whose characters all satisfy `p`: what a greedy
      `x+` or `x*` consumes. */
  function Run(s: string, p: char -> bool): (n: nat)
    ensures n <= |s|
    ensures forall i :: 0 <= i < n ==> p(s[i])
    ensures n < |s| ==> !p(s[n])
  {
    if |s| == 0 || !p(s[0]) then 0 else 1 + Run(s[1..], p)
  }

  /** Every character of `s` except the occurrences of `c`. */
  function Without(s: string, c: char): (r: string)
    ensures c !in r
    ensures forall x :: x != c ==> (x in r <==> x in s)
    ensures |r| <= |s|
  {
    if |s| == 0 then ""
    else if s[0] == c then Without(s[1..], c)
    else [s[0]] + Without(s[1..], c)
  }

  function LowerChar(c: char): char {
    if 'A' <= c <= 'Z' then (c as int + 32) as char else c
  }

  function UpperChar(c: char): char {
    if 'a' <= c <= 'z' then (c as int - 32) as char else c
  }

  /** `toLowerCase()` on ASCII text. */
  function Lower(s: string): (r: string)
    ensures |r| == |s|
    ensures forall i :: 0 <= i < |s| ==> r[i] == LowerChar(s[i])
  {
    if |s| == 0 then "" else [LowerChar(s[0])] + Lower(s[1..])
  }

  /** `toUpperCase()` on ASCII text. */
  function Upper(s: string): (r: string)
    ensures |r| == |s|
    ensures forall i :: 0 <= i < |s| ==> r[i] == UpperChar(s[i])
  {
    if |s| == 0 then "" else [UpperChar(s[0])] + Upper(s[1..])
  }

  /** `s.includes(p)` / Python's `p in s`. */
  predicate Contains(s: string, p: string) {
    exists i {:trigger s[i..]} :: 0 <= i <= |s| - |p| && p <= s[i..]
  }

  /** A finite decimal, `mantissa / 10^scale`. */
  datatype Decimal = Decimal(mantissa: int, scale: nat)

  function Pow10(n: nat): (r: nat)
    ensures r >= 1
  {
    if n == 0 then 1 else 10 * Pow10(n - 1)
  }

  /** `lo <= d && d <= hi`. */
  predicate Between(d: Decimal, lo: int, hi: int) {
    lo * Pow10(d.scale) <= d.mantissa <= hi * Pow10(d.scale)
  }

  /** JavaScript's `Number(text)` on plain decimal text: surrounding whitespace is ignored,
      blank text is 0, otherwise an optional sign and digits with at most one `.` and at least
      one digit. Anything else is `NaN`, modelled as `None`. */
  function JsNumber(s: string): Option<Decimal> {
    var t := Strip(s);
    if |t| == 0 then Some(Decimal(0, 0))
    else
      var neg := t[0] == '-';
      var body := if t[0] == '-' || t[0] == '+' then t[1..] else t;
      match UnsignedDecimal(body)
      case None => None
      case Some(d) => Some(if neg then Decimal(-d.mantissa, d.scale) else d)
  }

  /** Digits with at most one `.` and at least one digit. */
  function UnsignedDecimal(b: string): (r: Option<Decimal>)
    ensures r.Some? ==> r.value.mantissa >= 0
  {
    var parts := Split(b, '.');
    if |parts| == 1 && |b| > 0 && AllDigits(b) then Some(Decimal(DigitsValue(b), 0))
    else if |parts| == 2 && AllDigits(parts[0]) && AllDigits(parts[1]) && |parts[0]| + |parts[1]| > 0 then
      AllDigitsAppend(parts[0], parts[1]);
      Some(Decimal(DigitsValue(parts[0] + parts[1]), |parts[1]|))
    else None
  }

  // ---------------------------------------------------------------- lemmas

  /** Decimal rendering followed by Python's `int()` gives the number back. */
  lemma ParseIntOfIntToString(i: int)
    ensures ParseInt(IntToString(i)) == Some(i)
  {
    var s := IntToString(i);
    IntToStringNoSpace(i);
    PyStripNoSpace(s);
    ParseSignedOfIntToString(i);
  }

  lemma ParseSignedOfIntToString(i: int)
    ensures ParseSigned(IntToString(i)) == Some(i)
  {
    var s := IntToString(i);
    var d := NatToDigits(if i < 0 then -i else i);
    NumeralOfDigits(d);
    if i < 0 {
      assert s[1..] == d;
    }
  }

  /** A run of digits is a numeral worth its digits' value. */
  lemma NumeralOfDigits(d: string)
    requires |d| > 0 && AllDigits(d)
    ensures Numeral(d) && NumeralValue(d) == DigitsValue(d)
    ensures Without(d, '_') == d
  {
    assert '_' !in d by {
      forall k | 0 <= k < |d|
        ensures d[k] != '_'
      {
        assert IsDigit(d[k]);
      }
    }
    WithoutAbsent(d, '_');
  }

  /** Leaving out the underscores of a numeral leaves digits. */
  lemma NumeralDigits(b: string)
    requires Numeral(b)
    ensures AllDigits(Without(b, '_'))
  {
    forall i | 0 <= i < |b|
      ensures b[i] == '_' || IsDigit(b[i])
    {
    }
    WithoutAll(b, '_', IsDigit);
  }

  lemma {:induction false} WithoutAll(s: string, c: char, p: char -> bool)
    requires forall i :: 0 <= i < |s| ==> s[i] == c || p(s[i])
    ensures All(Without(s, c), p)
    decreases |s|
  {
    if |s| > 0 {
      WithoutAll(s[1..], c, p);
    }
  }

  lemma IntToStringNoSpace(i: int)
    ensures forall k :: 0 <= k < |IntToString(i)| ==> !PyIsSpace(IntToString(i)[k])
    ensures forall k :: 0 <= k < |IntToString(i)| ==> !IsSpace(IntToString(i)[k])
  {
    var s := IntToString(i);
    var d := NatToDigits(if i < 0 then -i else i);
    NoSpaceInDigits(d);
    if i < 0 {
      assert s == "-" + d;
      forall k | 0 <= k < |s|
        ensures !PyIsSpace(s[k])
      {
        if k > 0 {
          assert s[k] == d[k - 1];
        }
      }
    }
  }

  lemma NoSpaceInDigits(d: string)
    requires AllDigits(d)
    ensures forall k :: 0 <= k < |d| ==> !PyIsSpace(d[k])
  {
    forall k | 0 <= k < |d|
      ensures !PyIsSpace(d[k])
    {
      assert IsDigit(d[k]);
    }
  }

  lemma TrimNoSpace(s: string, sp: char -> bool)
    requires forall k :: 0 <= k < |s| ==> !sp(s[k])
    ensures Trim(s, sp) == s
  {
    if |s| > 0 {
      assert !sp(s[0]);
      assert TrimStart(s, sp) == s;
      assert !sp(s[|s| - 1]);
    }
  }

  lemma StripNoSpace(s: string)
    requires forall k :: 0 <= k < |s| ==> !IsSpace(s[k])
    ensures Strip(s) == s
  {
    TrimNoSpace(s, IsSpace);
  }

  lemma PyStripNoSpace(s: string)
    requires forall k :: 0 <= k < |s| ==> !PyIsSpace(s[k])
    ensures PyStrip(s) == s
  {
    TrimNoSpace(s, PyIsSpace);
  }

  lemma TrimIdempotent(s: string, sp: char -> bool)
    ensures Trim(Trim(s, sp), sp) == Trim(s, sp)
  {
    var u := TrimStart(s, sp);
    var t := TrimEnd(u, sp);
    if |t| > 0 {
      assert t[0] == u[0];
      assert TrimStart(t, sp) == t;
    }
  }

  /** Stripping twice is stripping once, in either language, so `int(p.strip())` is
      `int(p)`. */
  lemma StripIdempotent(s: string)
    ensures Strip(Strip(s)) == Strip(s)
    ensures PyStrip(PyStrip(s)) == PyStrip(s)
    ensures ParseInt(PyStrip(s)) == ParseInt(s)
  {
    TrimIdempotent(s, IsSpace);
    TrimIdempotent(s, PyIsSpace);
  }

  /** Python's `int()` ignores the whitespace around a number, the four separator controls
      included. */
  lemma ParseIntIgnoresPadding(pre: string, s: string, post: string)
    requires PyAllSpace(pre) && PyAllSpace(post)
    ensures ParseInt(pre + s + post) == ParseInt(s)
  {
    TrimPadding(pre, s, post, PyIsSpace);
  }

  /** `int()` reads past an underscore between two digits: `int("1_0")` is 10. */
  lemma ParseIntSkipsUnderscore(a: string, b: string)
    requires |a| > 0 && AllDigits(a) && |b| > 0 && AllDigits(b)
    ensures ParseInt(a + "_" + b) == ParseInt(a + b)
  {
    var u := a + "_" + b;
    var v := a + b;
    AllDigitsAppend(a, b);
    NumeralOfDigits(v);
    NumeralJoin(a, b);
    ParseIntOfNumeral(u);
    ParseIntOfNumeral(v);
    NumeralJoinValue(a, b);
  }

  /** A numeral, with nothing around it, is what `int()` reads it as. */
  lemma ParseIntOfNumeral(t: string)
    requires Numeral(t)
    ensures ParseInt(t) == Some(NumeralValue(t) as int)
  {
    assert IsDigit(t[0]) && IsDigit(t[|t| - 1]);
    TrimEndsKept(t, PyIsSpace);
  }

  lemma NumeralJoin(a: string, b: string)
    requires |a| > 0 && AllDigits(a) && |b| > 0 && AllDigits(b)
    ensures Numeral(a + "_" + b)
  {
    var u := a + "_" + b;
    forall i | 0 <= i < |u|
      ensures IsDigit(u[i]) || UnderscoreAt(u, i)
    {
      if i < |a| {
        assert u[i] == a[i];
      } else if i > |a| {
        assert u[i] == b[i - |a| - 1];
      } else {
        assert u[i - 1] == a[|a| - 1] && u[i + 1] == b[0];
      }
    }
  }

  lemma NumeralJoinValue(a: string, b: string)
    requires |a| > 0 && AllDigits(a) && |b| > 0 && AllDigits(b)
    requires Numeral(a + "_" + b) && Numeral(a + b)
    ensures NumeralValue(a + "_" + b) == NumeralValue(a + b)
  {
    NumeralOfDigits(a);
    NumeralOfDigits(b);
    WithoutAppend(a + "_", b, '_');
    WithoutAppend(a, "_", '_');
    assert Without("_", '_') == "";
    WithoutAppend(a, b, '_');
    assert Without(a + "_" + b, '_') == a + b;
  }

  /** Text whose first and last characters are outside `sp` is not trimmed. */
  lemma TrimEndsKept(s: string, sp: char -> bool)
    requires |s| > 0 && !sp(s[0]) && !sp(s[|s| - 1])
    ensures Trim(s, sp) == s
  {
    assert TrimStart(s, sp) == s;
  }

  lemma StripPadding(pre: string, s: string, post: string)
    requires AllSpace(pre) && AllSpace(post)
    ensures Strip(pre + s + post) == Strip(s)
  {
    TrimPadding(pre, s, post, IsSpace);
  }

  lemma PyStripPadding(pre: string, s: string, post: string)
    requires PyAllSpace(pre) && PyAllSpace(post)
    ensures PyStrip(pre + s + post) == PyStrip(s)
  {
    TrimPadding(pre, s, post, PyIsSpace);
  }

  lemma TrimPadding(pre: string, s: string, post: string, sp: char -> bool)
    requires All(pre, sp) && All(post, sp)
    ensures Trim(pre + s + post, sp) == Trim(s, sp)
  {
    assert pre + s + post == pre + (s + post);
    TrimStartDropSpace(pre, s + post, sp);
    TrimStartAppendSpace(s, post, sp);
    if !(TrimStart(s, sp) == [] && TrimStart(s + post, sp) == []) {
      TrimEndDropSpace(TrimStart(s, sp), post, sp);
    }
  }

  lemma {:induction false} TrimStartDropSpace(pre: string, x: string, sp: char -> bool)
    requires All(pre, sp)
    ensures TrimStart(pre + x, sp) == TrimStart(x, sp)
    decreases |pre|
  {
    if |pre| == 0 {
      assert pre + x == x;
    } else {
      assert (pre + x)[0] == pre[0];
      assert (pre + x)[1..] == pre[1..] + x;
      TrimStartDropSpace(pre[1..], x, sp);
    }
  }

  lemma {:induction false} TrimStartAppendSpace(s: string, post: string, sp: char -> bool)
    requires All(post, sp)
    ensures TrimStart(s + post, sp) == TrimStart(s, sp) + post
             || (TrimStart(s, sp) == [] && TrimStart(s + post, sp) == [])
    decreases |s|
  {
    if |s| == 0 {
      assert s + post == post;
      TrimStartAllSpace(post, sp);
    } else if sp(s[0]) {
      assert (s + post)[1..] == s[1..] + post;
      TrimStartAppendSpace(s[1..], post, sp);
    } else {
      assert (s + post)[0] == s[0];
    }
  }

  lemma {:induction false} TrimStartAllSpace(s: string, sp: char -> bool)
    requires All(s, sp)
    ensures TrimStart(s, sp) == []
    decreases |s|
  {
    if |s| > 0 {
      TrimStartAllSpace(s[1..], sp);
    }
  }

  lemma {:induction false} TrimEndDropSpace(s: string, post: string, sp: char -> bool)
    requires All(post, sp)
    ensures TrimEnd(s + post, sp) == TrimEnd(s, sp)
    decreases |post|
  {
    if |post| > 0 {
      var t := s + post;
      assert t[|t| - 1] == post[|post| - 1];
      assert t[..|t| - 1] == s + post[..|post| - 1];
      TrimEndDropSpace(s, post[..|post| - 1], sp);
    } else {
      assert s + post == s;
    }
  }

  /** Splitting text that begins with a separator-free chunk `a` puts `a` at the head of the first piece. */
  lemma {:induction false} SplitPrefix(a: string, t: string, sep: char)
    requires sep !in a
    ensures Split(a + t, sep) == [a + Split(t, sep)[0]] + Split(t, sep)[1..]
    decreases |a|
  {
    if |a| == 0 {
      assert a + t == t;
      assert a + Split(t, sep)[0] == Split(t, sep)[0];
      assert Split(t, sep) == [Split(t, sep)[0]] + Split(t, sep)[1..];
    } else {
      assert (a + t)[0] == a[0];
      assert (a + t)[1..] == a[1..] + t;
      SplitPrefix(a[1..], t, sep);
      assert [a[0]] + (a[1..] + Split(t, sep)[0]) == a + Split(t, sep)[0];
    }
  }

  /** `split` undoes `join` when no piece contains the separator. */
  lemma {:induction false} SplitJoin(parts: seq<string>, sep: char)
    requires |parts| >= 1
    requires forall i :: 0 <= i < |parts| ==> sep !in parts[i]
    ensures Split(Join(parts, [sep]), sep) == parts
    decreases |parts|
  {
    if |parts| == 1 {
      SplitPrefix(parts[0], "", sep);
      assert parts[0] + "" == parts[0];
    } else {
      var rest := Join(parts[1..], [sep]);
      SplitJoin(parts[1..], sep);
      assert Join(parts, [sep]) == parts[0] + ([sep] + rest);
      SplitPrefix(parts[0], [sep] + rest, sep);
      assert ([sep] + rest)[0] == sep && ([sep] + rest)[1..] == rest;
      assert Split([sep] + rest, sep) == [""] + parts[1..];
      assert parts[0] + "" == parts[0];
    }
  }

  /** `join` undoes `split`. */
  lemma {:induction false} JoinSplit(s: string, sep: char)
    ensures Join(Split(s, sep), [sep]) == s
    decreases |s|
  {
    if |s| > 0 {
      var rest := Split(s[1..], sep);
      JoinSplit(s[1..], sep);
      if s[0] == sep {
        assert Join([""] + rest, [sep]) == "" + [sep] + Join(rest, [sep]) by {
          assert ([""] + rest)[1..] == rest;
        }
        assert s == [s[0]] + s[1..];
      } else {
        var head := [s[0]] + rest[0];
        var parts := [head] + rest[1..];
        if |rest| == 1 {
          assert Join(parts, [sep]) == head;
        } else {
          assert parts[1..] == rest[1..];
          assert Join(rest, [sep]) == rest[0] + [sep] + Join(rest[1..], [sep]);
        }
        assert s == [s[0]] + s[1..];
      }
    }
  }

  lemma AllDigitsAppend(a: string, b: string)
    requires AllDigits(a) && AllDigits(b)
    ensures AllDigits(a + b)
  {
    assert forall i :: 0 <= i < |a + b| ==> (a + b)[i] == if i < |a| then a[i] else b[i - |a|];
  }

  /** Removing a character distributes over concatenation. */
  lemma {:induction false} WithoutAppend(a: string, b: string, c: char)
    ensures Without(a + b, c) == Without(a, c) + Without(b, c)
  {
    if |a| > 0 {
      assert (a + b)[1..] == a[1..] + b;
      WithoutAppend(a[1..], b, c);
    } else {
      assert a + b == b;
    }
  }

  /** Removing a character that does not occur changes nothing. */
  lemma {:induction false} WithoutAbsent(s: string, c: char)
    requires c !in s
    ensures Without(s, c) == s
  {
    if |s| > 0 {
      assert s[0] != c;
      assert c !in s[1..] by {
        forall i | 0 <= i < |s[1..]|
          ensures s[1..][i] != c
        {
          assert s[1..][i] == s[i + 1];
        }
      }
      WithoutAbsent(s[1..], c);
      assert s == [s[0]] + s[1..];
    }
  }

  lemma TrimBlank(s: string, sp: char -> bool)
    ensures |Trim(s, sp)| == 0 <==> All(s, sp)
  {
    var t := TrimStart(s, sp);
    if |Trim(s, sp)| == 0 {
      assert t[0..] == t;
      assert t == [];
      assert s[..|s|] == s;
    } else if All(s, sp) {
      TrimStartAllSpace(s, sp);
    }
  }

  /** Text whose trimmed form is empty is all whitespace. */
  lemma StripBlank(s: string)
    ensures |Strip(s)| == 0 <==> AllSpace(s)
  {
    TrimBlank(s, IsSpace);
  }

  /** The same for Python's `strip()`. */
  lemma PyStripBlank(s: string)
    ensures |PyStrip(s)| == 0 <==> PyAllSpace(s)
  {
    TrimBlank(s, PyIsSpace);
  }

  /** Blank text is the number 0. */
  lemma JsNumberOfBlank(s: string)
    requires AllSpace(s)
    ensures JsNumber(s) == Some(Decimal(0, 0))
  {
    StripBlank(s);
  }

  /** `Number(String(i))` is `i`. */
  lemma JsNumberOfIntToString(i: int)
    ensures JsNumber(IntToString(i)) == Some(Decimal(i, 0))
  {
    var s := IntToString(i);
    IntToStringNoSpace(i);
    StripNoSpace(s);
    var digits := NatToDigits(if i < 0 then -i else i);
    assert '.' !in digits by {
      forall k | 0 <= k < |digits|
        ensures digits[k] != '.'
      {
        assert IsDigit(digits[k]);
      }
    }
    SplitJoin([digits], '.');
    assert Join([digits], ".") == digits;
    if i < 0 {
      assert s[1..] == digits;
    } else {
      assert s == digits;
    }
  }

  /** Unsigned text: `Number` reads what is left after trimming. */
  lemma JsNumberUnsigned(s: string)
    requires |Strip(s)| > 0 && Strip(s)[0] != '-' && Strip(s)[0] != '+'
    ensures JsNumber(s) == UnsignedDecimal(Strip(s))
  {
  }
}

=== FILE: turnotable.dfy ===
/** The appointment table (`frontend/src/pages/TurnoPage.tsx`): the services
    offered for the chosen providers, the page request, the page count, the
    lookup of a turn's message of a given type and the CSV export. */
module TurnoTable {
  import opened Wrappers
  import opened Seqs
  import opened Text
  import Keyed
  import Csv
  import Url
  import CountQuery

  /** `pageSize`. */
  const PageSize: int := 25

  datatype Service = Service(id: int, nombre: Option<string>)

  function ServiceId(s: Service): int { s.id }

  /** The service list and the selected service ids. */
  datatype Services = Services(servicios: seq<Service>, selected: seq<int>)

  /** The ids of the listed services. */
  function ServiceIds(s: seq<Service>): seq<int> { Keyed.Keys(s, ServiceId) }

  /** `loadServicio`. `results` is the outcome of the per-provider requests combined by
      `Promise.all`: `None` when one of them failed, otherwise the service lists in order. The
      merged list is one service per id, the last one fetched for that id; its order (a
      locale-aware sort by name) is not modelled. */
  function LoadServicio(efectores: seq<int>, results: Option<seq<seq<Service>>>, prev: Services): (r: Services)
    ensures |efectores| == 0 ==> r == Services([], [])
    ensures |efectores| > 0 && results.None? ==> r == Services([], prev.selected)
    ensures |efectores| > 0 && results.Some? ==>
              Keyed.UniqueKeys(r.servicios, ServiceId)
              && (forall k :: k in ServiceIds(r.servicios) <==> exists i :: 0 <= i < |results.value| && k in ServiceIds(results.value[i]))
              && (forall k :: Keyed.Lookup(r.servicios, k, ServiceId) == Keyed.LastWith(Flatten(results.value), k, ServiceId))
              && (forall id :: id in r.selected <==> id in prev.selected && id in ServiceIds(r.servicios))
  {
    if |efectores| == 0 then Services([], [])
    else match results
      case None => Services([], prev.selected)
      case Some(lists) =>
        var all := Flatten(lists);
        var merged := Keyed.ById(all, ServiceId);
        forall k
          ensures k in ServiceIds(merged) <==> exists i :: 0 <= i < |lists| && k in ServiceIds(lists[i])
        {
          assert Keyed.Lookup(merged, k, ServiceId) == Keyed.LastWith(all, k, ServiceId);
          KeyInFlatten(lists, k);
        }
        Services(merged, Filter(prev.selected, (id: int) => id in ServiceIds(merged)))
  }

  /** The request of a page: at most `limit` rows starting at row `offset`. */
  datatype PageRequest = PageRequest(limit: int, offset: int)

  /** The table: its rows and the row count the server reported. */
  datatype Table<T> = Table(rows: seq<T>, total: int)

  /** `(page - 1) * pageSize`. */
  function Offset(page: int): int { (page - 1) * PageSize }

  /** What the page holds in `turnos` and `total`; `None` stands for `undefined`. */
  datatype Loaded<T> = Loaded(rows: Option<seq<T>>, total: Option<int>)

  /** `loadPage` as written. The offset, providers, services and dates it passes are extra
      arguments to `getTurnosMergedLimit`, which takes only the amount, so every page sends
      `?cantidad=25`. The view answers with a plain list, which has no `response` and no
      `count`, so both become `undefined`. `answer` is that list, `None` when the request
      failed, in which case the page keeps what it held. */
  function LoadPageAsWritten<T>(efectores: seq<int>, page: int, answer: Option<seq<T>>, prev: Loaded<T>): (r: (CountQuery.Request, Loaded<T>))
    ensures |efectores| == 0 <==> r.0.NoRequest?
    ensures |efectores| == 0 ==> r.1 == Loaded(Some([]), Some(0))
    ensures r.0.Fetch? ==> Url.Get(r.0.params, "cantidad") == Some(IntToString(PageSize))
                           && Url.Get(r.0.params, "offset").None? && |r.0.params| == 1
    ensures |efectores| > 0 && answer.Some? ==> r.1.rows.None? && r.1.total.None?
    ensures |efectores| > 0 && answer.None? ==> r.1 == prev
  {
    if |efectores| == 0 then (CountQuery.NoRequest, Loaded(Some([]), Some(0)))
    else
      var req := CountQuery.MergedLimitRequest(PageSize);
      (req, if answer.Some? then Loaded(None, None) else prev)
  }

  /** `loadPage` as intended: the page's rows are asked for by offset, and the answer carries
      them with the total count. `response` is `None` when the request failed, in which case
      the table keeps what it showed. Returns the request issued, if any. */
  function LoadPage<T>(efectores: seq<int>, page: int, response: Option<Table<T>>, prev: Table<T>): (r: (Option<PageRequest>, Table<T>))
    ensures |efectores| == 0 <==> r.0.None?
    ensures |efectores| == 0 ==> r.1 == Table([], 0)
    ensures r.0.Some? ==> r.0.value.limit == PageSize && r.0.value.offset == Offset(page)
    ensures |efectores| > 0 ==> r.1 == response.GetOr(prev)
  {
    if |efectores| == 0 then (None, Table([], 0))
    else (Some(PageRequest(PageSize, (page - 1) * PageSize)), response.GetOr(prev))
  }

  /** `Math.ceil(total / pageSize)` for an integer `total`. */
  function CeilDiv(total: int): int { -((-total) / PageSize) }

  /** `totalPages` when `total` may be `undefined`: `Math.ceil(undefined / 25)` is `NaN` and so
      is `Math.max(1, NaN)`; `None` stands for `NaN`. */
  function TotalPagesShown(total: Option<int>): (n: Option<int>)
    ensures n.None? <==> total.None?
    ensures n.Some? ==> n.value >= 1 && (total.value > 0 ==> (n.value - 1) * PageSize < total.value <= n.value * PageSize)
  {
    match total
    case None => None
    case Some(t) => Some(TotalPages(t))
  }

  /** `totalPages`: `Math.max(1, Math.ceil(total / pageSize))`. */
  function TotalPages(total: int): (n: int)
    ensures n >= 1
    ensures total <= PageSize ==> n == 1
    ensures total > 0 ==> (n - 1) * PageSize < total <= n * PageSize
  {
    var c := CeilDiv(total);
    if c < 1 then 1 else c
  }

  /** A message linked to a turn: the id of its template's type (`item?.plantilla?.tipo?.id`)
      and the meaning of its state. */
  datatype Message = Message(tipo: Option<int>, significado: Option<string>)

  /** `item?.plantilla?.tipo?.id === tipo`. */
  predicate OfType(tipo: int, m: Message) { m.tipo == Some(tipo) }

  /** `getMsj`: the first message whose template type is `tipo`; nothing for a missing list. */
  function GetMsj(tipo: int, list: Option<seq<Message>>): (r: Option<Message>)
    ensures r.Some? <==> list.Some? && exists i :: 0 <= i < |list.value| && list.value[i].tipo == Some(tipo)
    ensures r.Some? ==> exists i :: 0 <= i < |list.value| && list.value[i] == r.value && r.value.tipo == Some(tipo)
                                      && forall j :: 0 <= j < i ==> list.value[j].tipo != Some(tipo)
  {
    match list
    case None => None
    case Some(l) => Find(l, (m: Message) => OfType(tipo, m))
  }

  /** `getMsjReco`: the first reminder message. */
  function GetMsjReco(list: Option<seq<Message>>): (r: Option<Message>)
    ensures r.Some? <==> list.Some? && exists i :: 0 <= i < |list.value| && list.value[i].tipo == Some(4)
    ensures r.Some? ==> exists i :: 0 <= i < |list.value| && list.value[i] == r.value && r.value.tipo == Some(4)
                                      && forall j :: 0 <= j < i ==> list.value[j].tipo != Some(4)
  {
    match list
    case None => None
    case Some(l) => Find(l, (m: Message) => OfType(4, m))
  }

  // ---------------------------------------------------------------- CSV export

  datatype Column = Respuesta | Dni | Nombre | Apellido | Efector | Servicio | Especialidad
                  | ProfNombre | ProfApellido | Estado | Confirmacion | Cancelacion
                  | Reprogramacion | Recordatorio | Fecha | Hora

  /** `allColumns`, in display order. */
  const AllColumns: seq<Column> := [Respuesta, Dni, Nombre, Apellido, Efector, Servicio, Especialidad,
                                    ProfNombre, ProfApellido, Estado, Confirmacion, Cancelacion,
                                    Reprogramacion, Recordatorio, Fecha, Hora]

  function Label(c: Column): string {
    match c
    case Respuesta => "Respuesta"
    case Dni => "DNI"
    case Nombre => "Nombre"
    case Apellido => "Apellido"
    case Efector => "Efector"
    case Servicio => "Servicio"
    case Especialidad => "Especialidad"
    case ProfNombre => "Nombre profesional"
    case ProfApellido => "Apellido profesional"
    case Estado => "Estado"
    case Confirmacion => "Confirmacion"
    case Cancelacion => "Cancelacion"
    case Reprogramacion => "Reprogramacion"
    case Recordatorio => "Recordatorio"
    case Fecha => "Fecha"
    case Hora => "Hora"
  }

  /** `initialVisibility`: every column but the patient's and the professional's names. */
  const InitialVisibility: set<Column> := set c | c in AllColumns && c !in {Nombre, Apellido, ProfNombre, ProfApellido}

  /** A provider, service or specialty as a turn carries it: its name when present, else its id. */
  datatype Named = Named(id: Option<int>, nombre: Option<string>)

  /** `nombre ?? String(id ?? '')`. */
  function NamedText(n: Named): string {
    match n.nombre
    case Some(s) => s
    case None => if n.id.Some? then IntToString(n.id.value) else ""
  }

  /** The fields of a turn the export reads. */
  datatype Turn = Turn(respuesta: Option<string>, dni: Option<string>, nombre: Option<string>,
                       apellido: Option<string>, efector: Named, servicio: Named, especialidad: Named,
                       profNombre: Option<string>, profApellido: Option<string>, estado: Option<string>,
                       mensajes: Option<seq<Message>>, fecha: Option<string>, hora: Option<string>)

  /** The cell of column `c` for turn `t`, as the export's `switch` fills it. */
  function Cell(c: Column, t: Turn): string {
    match c
    case Respuesta => t.respuesta.GetOr("")
    case Dni => t.dni.GetOr("")
    case Nombre => t.nombre.GetOr("")
    case Apellido => t.apellido.GetOr("")
    case Efector => NamedText(t.efector)
    case Servicio => NamedText(t.servicio)
    case Especialidad => NamedText(t.especialidad)
    case ProfNombre => t.profNombre.GetOr("")
    case ProfApellido => t.profApellido.GetOr("")
    case Estado => t.estado.GetOr("")
    case Recordatorio => (
      match GetMsjReco(t.mensajes)
      case Some(m) => m.significado.GetOr("")
      case None => "")
    case Fecha => t.fecha.GetOr("")
    case Hora => t.hora.GetOr("")
    case _ => ""
  }

  /** The visible columns, in display order. */
  function Shown(visible: set<Column>): (r: seq<Column>)
    ensures forall c :: c in r <==> c in visible
  {
    forall c: Column
      ensures c in AllColumns
    {
      EveryColumnListed(c);
    }
    Select(AllColumns, visible)
  }

  /** The cells of one turn under the given columns. */
  function CsvRow(cols: seq<Column>, t: Turn): (r: seq<string>)
    ensures |r| == |cols|
    ensures forall j :: 0 <= j < |cols| ==> r[j] == Cell(cols[j], t)
  {
    Map(cols, (c: Column) => Cell(c, t))
  }

  /** The rows of the export under the given columns, one per turn. */
  function CsvBody(cols: seq<Column>, turnos: seq<Turn>): (r: seq<seq<string>>)
    ensures |r| == |turnos|
    ensures forall i :: 0 <= i < |turnos| ==> r[i] == CsvRow(cols, turnos[i])
  {
    Map(turnos, (t: Turn) => CsvRow(cols, t))
  }

  /** The header and the rows of the export, before quoting. */
  function CsvRows(turnos: seq<Turn>, visible: set<Column>): (r: seq<seq<string>>)
    ensures |r| == |turnos| + 1
    ensures r[0] == Map(Shown(visible), Label)
    ensures forall i :: 0 <= i < |turnos| ==> r[i + 1] == CsvRow(Shown(visible), turnos[i])
  {
    var cols := Shown(visible);
    var body := CsvBody(cols, turnos);
    var r := [Map(cols, Label)] + body;
    assert r[1..] == body;
    r
  }

  /** `downloadCSV`'s text. */
  function CsvText(turnos: seq<Turn>, visible: set<Column>): string {
    Csv.Document(CsvRows(turnos, visible))
  }

  // ---------------------------------------------------------------- lemmas

  lemma EveryColumnListed(c: Column)
    ensures c in AllColumns
  {
    match c
    case Respuesta => assert AllColumns[0] == c;
    case Dni => assert AllColumns[1] == c;
    case Nombre => assert AllColumns[2] == c;
    case Apellido => assert AllColumns[3] == c;
    case Efector => assert AllColumns[4] == c;
    case Servicio => assert AllColumns[5] == c;
    case Especialidad => assert AllColumns[6] == c;
    case ProfNombre => assert AllColumns[7] == c;
    case ProfApellido => assert AllColumns[8] == c;
    case Estado => assert AllColumns[9] == c;
    case Confirmacion => assert AllColumns[10] == c;
    case Cancelacion => assert AllColumns[11] == c;
    case Reprogramacion => assert AllColumns[12] == c;
    case Recordatorio => assert AllColumns[13] == c;
    case Fecha => assert AllColumns[14] == c;
    case Hora => assert AllColumns[15] == c;
  }

  lemma {:induction false} KeyInFlatten(lists: seq<seq<Service>>, k: int)
    ensures k in ServiceIds(Flatten(lists)) <==> exists i :: 0 <= i < |lists| && k in ServiceIds(lists[i])
    decreases |lists|
  {
    if |lists| > 0 {
      KeyInFlatten(lists[1..], k);
      KeysAppend(lists[0], Flatten(lists[1..]));
      if exists i :: 0 <= i < |lists[1..]| && k in ServiceIds(lists[1..][i]) {
        var i :| 0 <= i < |lists[1..]| && k in ServiceIds(lists[1..][i]);
        assert lists[i + 1] == lists[1..][i];
      }
      if exists i :: 0 <= i < |lists| && k in ServiceIds(lists[i]) {
        var i :| 0 <= i < |lists| && k in ServiceIds(lists[i]);
        if i > 0 { assert lists[1..][i - 1] == lists[i]; }
      }
    }
  }

  lemma KeysAppend(a: seq<Service>, b: seq<Service>)
    ensures ServiceIds(a + b) == ServiceIds(a) + ServiceIds(b)
  {
    var l := ServiceIds(a + b);
    assert |l| == |ServiceIds(a) + ServiceIds(b)|;
    forall i | 0 <= i < |l|
      ensures l[i] == (ServiceIds(a) + ServiceIds(b))[i]
    {
      if i < |a| { assert (a + b)[i] == a[i]; } else { assert (a + b)[i] == b[i - |a|]; }
    }
  }

  /** Every row the server counts lies on exactly one page the pager offers: page
      `k / pageSize + 1`, whose request starts at or before it and covers it. */
  lemma RowOnPage(total: int, k: int)
    requires 0 <= k < total
    ensures var p := k / PageSize + 1;
            1 <= p <= TotalPages(total) && Offset(p) <= k < Offset(p) + PageSize
    ensures forall q :: 1 <= q <= TotalPages(total) && Offset(q) <= k < Offset(q) + PageSize ==> q == k / PageSize + 1
  {
    var n := TotalPages(total);
    var p := k / PageSize + 1;
    assert (p - 1) * PageSize <= k < p * PageSize;
    assert (n - 1) * PageSize < total <= n * PageSize;
  }

  /** As written, every page sends the same request as the first, and an answered load leaves
      no rows and no page count to show. As intended, the second page asks for the rows after
      the first page's. */
  lemma LaterPagesRepeatFirst<T>(efectores: seq<int>, answer: seq<T>, prev: Loaded<T>, page: int)
    requires |efectores| > 0
    ensures LoadPageAsWritten(efectores, page, Some(answer), prev).0 == LoadPageAsWritten(efectores, 1, Some(answer), prev).0
    ensures var r := LoadPageAsWritten(efectores, page, Some(answer), prev).1;
            r.rows.None? && TotalPagesShown(r.total).None?
    ensures var p1 := LoadPage<T>(efectores, 1, None, Table([], 0)).0;
            var p2 := LoadPage<T>(efectores, 2, None, Table([], 0)).0;
            p1.Some? && p2.Some? && p2.value.offset == p1.value.offset + p1.value.limit
  {
  }

  /** The request asks for row `k` of the server's ordering. */
  predicate Covers(req: Option<PageRequest>, k: int)
  {
    req.Some? && req.value.offset <= k < req.value.offset + req.value.limit
  }

  /** As intended, every row the server counts is asked for by exactly one page's request. */
  lemma LoadPageCoversRow<T>(efectores: seq<int>, total: int, k: int, response: Option<Table<T>>, prev: Table<T>)
    requires |efectores| > 0 && 0 <= k < total
    ensures var p := k / PageSize + 1;
            1 <= p <= TotalPages(total) && Covers(LoadPage(efectores, p, response, prev).0, k)
    ensures forall q :: 1 <= q <= TotalPages(total) && Covers(LoadPage(efectores, q, response, prev).0, k) ==> q == k / PageSize + 1
  {
    RowOnPage(total, k);
  }

  /** With no rows there is still the one (empty) page; each further block of up to 25 rows
      adds a page. */
  lemma PagesGrowByBlocks(total: int)
    requires total >= 0
    ensures TotalPages(total + PageSize) == TotalPages(total) + (if total == 0 then 0 else 1)
  {
    var n := TotalPages(total);
    var m := TotalPages(total + PageSize);
    if total > 0 {
      assert (n - 1) * PageSize < total <= n * PageSize;
      assert (m - 1) * PageSize < total + PageSize <= m * PageSize;
      assert (m - 2) * PageSize < total <= (m - 1) * PageSize;
    }
  }

  /** `getMsjReco` is `getMsj` for the reminder type (4). */
  lemma ReminderIsTypeFour(list: Option<seq<Message>>)
    ensures GetMsjReco(list) == GetMsj(4, list)
  {
  }

  /** The reminder cell is the state meaning of the first reminder message, and empty when the
      turn has no reminder or its state has no meaning. */
  lemma ReminderCell(t: Turn)
    ensures Cell(Recordatorio, t) == if GetMsj(4, t.mensajes).Some? then GetMsj(4, t.mensajes).value.significado.GetOr("") else ""
  {
    ReminderIsTypeFour(t.mensajes);
  }

  /** The confirmation, cancellation and rescheduling columns can be shown in the table but
      always export empty: the export's `switch` has no case for them. */
  lemma MessageColumnsExportBlank(t: Turn, c: Column)
    requires c in {Confirmacion, Cancelacion, Reprogramacion}
    ensures Cell(c, t) == ""
  {
  }

  /** The export loses nothing: as long as one column is visible, reading the CSV back gives
      the header labels and every cell. */
  lemma CsvReadsBack(turnos: seq<Turn>, visible: set<Column>)
    requires visible != {}
    ensures Csv.ReadDocument(CsvText(turnos, visible)) == Some(CsvRows(turnos, visible))
  {
    RowsNotEmpty(turnos, visible);
    Csv.ReadDocumentOfDocument(CsvRows(turnos, visible));
  }

  lemma ShownNotEmpty(visible: set<Column>)
    requires visible != {}
    ensures |Shown(visible)| >= 1
  {
    var c :| c in visible;
    assert c in Shown(visible);
  }

  /** With a visible column, every line of the export, the header included, has a cell. */
  lemma RowsNotEmpty(turnos: seq<Turn>, visible: set<Column>)
    requires visible != {}
    ensures forall i :: 0 <= i < |CsvRows(turnos, visible)| ==> |CsvRows(turnos, visible)[i]| >= 1
  {
    var rows := CsvRows(turnos, visible);
    var cols := Shown(visible);
    ShownNotEmpty(visible);
    forall i | 0 <= i < |rows|
      ensures |rows[i]| >= 1
    {
      if i > 0 {
        assert rows[i] == CsvRow(cols, turnos[i - 1]);
      }
    }
  }
}

=== FILE: ui.dfy ===
/** What the screens report to the user: the snackbar alert with its
    severity, and navigation to another route carrying ids. */
module Ui {

  datatype Severity = Info | Success | Warning | Error

  /** `setAlertSeverity(severity); setAlertMsg(msg); setAlertOpen(true)`. */
  datatype Alert = Alert(severity: Severity, msg: string)

  /** `navigate(path, { state: { especialidades: ids } })`. */
  datatype Navigation = Navigation(path: string, ids: seq<int>)
}

=== FILE: url.dfy ===
/** Query strings as the frontend builds them (`encodeURIComponent`, `key=value`
    pairs joined by `&` after a `?`) and as Django reads them back
    (`QueryDict`: split on `&`, split each piece at its first `=`, `+` is a space,
    `%XY` is the character with hex code XY, the last value of a key wins).
    Characters are ASCII; see the README for what lies outside. */
module Url {
  import opened Wrappers
  import opened Text
  import opened Seqs

  datatype Param = Param(key: string, value: string)

  predicate IsAscii(s: string) { forall i :: 0 <= i < |s| ==> s[i] < 128 as char }

  predicate AsciiParams(ps: seq<Param>) {
    forall i :: 0 <= i < |ps| ==> IsAscii(ps[i].key) && IsAscii(ps[i].value)
  }

  /** The characters `encodeURIComponent` leaves alone. */
  predicate Unreserved(c: char) {
    ('A' <= c <= 'Z') || ('a' <= c <= 'z') || ('0' <= c <= '9')
    || c == '-' || c == '_' || c == '.' || c == '!' || c == '~' || c == '*'
    || c == '\'' || c == '(' || c == ')'
  }

  function HexDigit(d: nat): (c: char)
    requires d < 16
    ensures Unreserved(c) && c != '+'
  {
    if d < 10 then ('0' as int + d) as char else ('A' as int + d - 10) as char
  }

  /** The value of a hexadecimal digit, either case. */
  function HexValue(c: char): Option<nat> {
    if '0' <= c <= '9' then Some(c as int - '0' as int)
    else if 'A' <= c <= 'F' then Some(c as int - 'A' as int + 10)
    else if 'a' <= c <= 'f' then Some(c as int - 'a' as int + 10)
    else None
  }

  /** `encodeURIComponent` of one ASCII character. */
  function EncodeChar(c: char): (r: string)
    ensures '&' !in r && '=' !in r && '?' !in r
  {
    if Unreserved(c) || c >= 128 as char then [c]
    else ['%', HexDigit((c as int) / 16 % 16), HexDigit((c as int) % 16)]
  }

  /** `encodeURIComponent(s)`. */
  function Encode(s: string): (r: string)
    ensures '&' !in r && '=' !in r && '?' !in r
  {
    if |s| == 0 then "" else EncodeChar(s[0]) + Encode(s[1..])
  }

  /** Python's `unquote_plus`: `+` becomes a space, `%XY` becomes the character XY;
      a `%` not followed by two hex digits is kept as it is. */
  function Decode(s: string): string
    decreases |s|
  {
    if |s| == 0 then ""
    else if s[0] == '+' then " " + Decode(s[1..])
    else if s[0] == '%' && |s| >= 3 && HexValue(s[1]).Some? && HexValue(s[2]).Some? then
      [(HexValue(s[1]).value * 16 + HexValue(s[2]).value) as char] + Decode(s[3..])
    else [s[0]] + Decode(s[1..])
  }

  function Pair(p: Param): string {
    Encode(p.key) + "=" + Encode(p.value)
  }

  /** `path` followed by `?k1=v1&k2=v2…`, or `path` alone when there are no parameters. */
  function WithQuery(path: string, ps: seq<Param>): (url: string)
    ensures |ps| == 0 <==> url == path
    ensures '?' !in path ==> ('?' in url <==> |ps| > 0)
  {
    if |ps| == 0 then path
    else
      var url := path + "?" + Join(Map(ps, Pair), "&");
      assert url[|path|] == '?';
      url
  }

  /** The text after the first `?`, or "" when there is none. */
  function QueryPart(url: string): string {
    if |url| == 0 then ""
    else if url[0] == '?' then url[1..]
    else QueryPart(url[1..])
  }

  /** One `name=value` piece; a piece without `=` has an empty value. */
  function ParsePair(piece: string): Param {
    if '=' !in piece then Param(Decode(piece), "")
    else
      var k := FirstIndex(piece, '=');
      Param(Decode(piece[..k]), Decode(piece[k + 1..]))
  }

  function FirstIndex(s: string, c: char): (k: nat)
    requires c in s
    ensures k < |s| && s[k] == c && c !in s[..k]
  {
    if s[0] == c then 0 else 1 + FirstIndex(s[1..], c)
  }

  /** Django's reading of a query string: blank pieces are skipped. */
  function ParseQuery(q: string): seq<Param> {
    ParsePieces(Split(q, '&'))
  }

  function ParsePieces(pieces: seq<string>): seq<Param> {
    if |pieces| == 0 then []
    else if pieces[0] == "" then ParsePieces(pieces[1..])
    else [ParsePair(pieces[0])] + ParsePieces(pieces[1..])
  }

  /** `request.query_params.get(name)`: the last value given for `name`. */
  function Get(ps: seq<Param>, name: string): (r: Option<string>)
    ensures r.None? <==> forall i :: 0 <= i < |ps| ==> ps[i].key != name
    ensures r.Some? ==> exists i :: 0 <= i < |ps| && ps[i] == Param(name, r.value)
  {
    if |ps| == 0 then None
    else
      var later := Get(ps[1..], name);
      if later.Some? then
        assert forall i :: 0 <= i < |ps[1..]| ==> ps[1..][i] == ps[i + 1];
        later
      else if ps[0].key == name then Some(ps[0].value)
      else None
  }

  // ---------------------------------------------------------------- lemmas

  /** Percent-decoding undoes `encodeURIComponent` on ASCII text. */
  lemma {:induction false} DecodeEncode(s: string)
    requires IsAscii(s)
    ensures Decode(Encode(s)) == s
    decreases |s|
  {
    if |s| > 0 {
      DecodeEncode(s[1..]);
      DecodeEncodeChar(s[0], Encode(s[1..]));
      assert s == [s[0]] + s[1..];
    }
  }

  lemma DecodeEncodeChar(c: char, rest: string)
    requires c < 128 as char
    ensures Decode(EncodeChar(c) + rest) == [c] + Decode(rest)
  {
    if Unreserved(c) {
      assert (EncodeChar(c) + rest)[1..] == rest;
    } else {
      DecodeEscaped(c, rest);
    }
  }

  lemma DecodeEscaped(c: char, rest: string)
    requires c < 128 as char && !Unreserved(c)
    ensures Decode(EncodeChar(c) + rest) == [c] + Decode(rest)
  {
    var hi := (c as int) / 16 % 16;
    var lo := (c as int) % 16;
    var e := EncodeChar(c) + rest;
    assert e[0] == '%' && e[1] == HexDigit(hi) && e[2] == HexDigit(lo);
    HexRoundTrip(hi);
    HexRoundTrip(lo);
    assert hi * 16 + lo == c as int;
    assert e[3..] == rest;
  }

  lemma HexRoundTrip(d: nat)
    requires d < 16
    ensures HexValue(HexDigit(d)) == Some(d)
  {
  }

  lemma QueryPartOf(path: string, q: string)
    requires '?' !in path
    ensures QueryPart(path + "?" + q) == q
  {
    if |path| == 0 {
      assert path + "?" + q == "?" + q;
    } else {
      assert (path + "?" + q)[1..] == path[1..] + "?" + q;
      QueryPartOf(path[1..], q);
    }
  }

  /** Django reads back exactly the parameters the frontend put in the URL. */
  lemma {:induction false} ParseQueryOfUrl(path: string, ps: seq<Param>)
    requires '?' !in path
    requires AsciiParams(ps)
    ensures ParseQuery(QueryPart(WithQuery(path, ps))) == ps
  {
    if |ps| == 0 {
      assert QueryPart(path) == "" by { QueryPartNone(path); }
      assert Split("", '&') == [""];
    } else {
      var pieces := Map(ps, Pair);
      QueryPartOf(path, Join(pieces, "&"));
      forall i | 0 <= i < |pieces|
        ensures '&' !in pieces[i]
      {
      }
      SplitJoin(pieces, '&');
      ParsePiecesOfPairs(ps);
    }
  }

  lemma QueryPartNone(url: string)
    requires '?' !in url
    ensures QueryPart(url) == ""
  {
    if |url| > 0 {
      assert forall i :: 0 <= i < |url[1..]| ==> url[1..][i] == url[i + 1];
      QueryPartNone(url[1..]);
    }
  }

  /** One encoded pair reads back as the pair. */
  lemma ParsePairOfPair(p: Param)
    requires IsAscii(p.key) && IsAscii(p.value)
    ensures Pair(p) != "" && ParsePair(Pair(p)) == p
  {
    var piece := Pair(p);
    var ek := Encode(p.key);
    assert piece == ek + "=" + Encode(p.value);
    assert piece[|ek|] == '=';
    var k := FirstIndex(piece, '=');
    assert k == |ek| by {
      assert forall i :: 0 <= i < |ek| ==> piece[i] == ek[i];
    }
    assert piece[..k] == ek;
    assert piece[k + 1..] == Encode(p.value);
    DecodeEncode(p.key);
    DecodeEncode(p.value);
  }

  lemma {:induction false} ParsePiecesOfPairs(ps: seq<Param>)
    requires AsciiParams(ps)
    ensures ParsePieces(Map(ps, Pair)) == ps
    decreases |ps|
  {
    if |ps| > 0 {
      ParsePairOfPair(ps[0]);
      assert Map(ps, Pair)[1..] == Map(ps[1..], Pair);
      ParsePiecesOfPairs(ps[1..]);
    }
  }

  /** Looking a name up in a concatenation: the later part wins. */
  lemma {:induction false} GetAppend(a: seq<Param>, b: seq<Param>, name: string)
    ensures Get(a + b, name) == if Get(b, name).Some? then Get(b, name) else Get(a, name)
    decreases |a|
  {
    if |a| == 0 {
      assert a + b == b;
    } else {
      assert (a + b)[1..] == a[1..] + b;
      GetAppend(a[1..], b, name);
    }
  }

  lemma AsciiParamsAppend(a: seq<Param>, b: seq<Param>)
    requires AsciiParams(a) && AsciiParams(b)
    ensures AsciiParams(a + b)
  {
    forall i | 0 <= i < |a + b|
      ensures IsAscii((a + b)[i].key) && IsAscii((a + b)[i].value)
    {
      if i >= |a| {
        assert (a + b)[i] == b[i - |a|];
      }
    }
  }
}

=== FILE: waitform.dfy ===
/** The add-to-waiting-list form (`frontend/src/pages/AddEsperaPage.tsx`): the
    requesting provider, the patient, the professional and the route are chosen
    in turn; a priority can be picked only once all four are set, and is
    cleared whenever one of them goes away; confirming posts the entry once. */
module WaitForm {
  import opened Wrappers
  import opened Ui
  import WaitList

  /** `mapPriority[p]`: the priority number stored for a level; an unknown level has none. */
  function MapPriority(p: string): (r: Option<int>)
    ensures r.Some? <==> p == "baja" || p == "media" || p == "alta"
    ensures r.Some? ==> 0 <= r.value <= 2
  {
    if p == "baja" then Some(2)
    else if p == "media" then Some(1)
    else if p == "alta" then Some(0)
    else None
  }

  /** The form. `efector` is the loaded requesting provider's id, `efectorId` the id the route
      carried; the other selections are the ids chosen in the pickers, each with the flag its
      picker raises when it is done. */
  datatype Form = Form(efector: Option<int>, efectorId: Option<int>,
                       paciente: Option<int>, finishPaciente: bool,
                       profesional: Option<int>, finishProfesional: bool,
                       efeSerEsp: Option<int>, finishEfeSerEsp: bool,
                       priority: Option<string>, submitting: bool,
                       alert: Option<Alert>, navigation: Option<string>)

  /** `efector || efectorId`: a loaded provider, or a route id other than 0. */
  predicate HasProvider(f: Form) {
    f.efector.Some? || (f.efectorId.Some? && f.efectorId.value != 0)
  }

  /** `canSelectPriority`: a provider (loaded or from the route), a patient, a professional
      and a route are all chosen. */
  predicate CanSelectPriority(f: Form)
    ensures CanSelectPriority(f) ==> f.paciente.Some? && f.profesional.Some? && f.efeSerEsp.Some?
    ensures CanSelectPriority(f) ==> f.efector.Some? || f.efectorId.Some?
    ensures f.efector.Some? && f.paciente.Some? && f.profesional.Some? && f.efeSerEsp.Some? ==> CanSelectPriority(f)
  {
    HasProvider(f) && f.paciente.Some? && f.profesional.Some? && f.efeSerEsp.Some?
  }

  /** `canConfirm`, written out on its own as the page does: the same four selections and a
      (non-empty) priority. */
  predicate CanConfirm(f: Form)
    ensures CanConfirm(f) <==> CanSelectPriority(f) && f.priority.Some? && f.priority.value != ""
  {
    (f.efector.Some? || (f.efectorId.Some? && f.efectorId.value != 0))
    && f.paciente.Some? && f.profesional.Some? && f.efeSerEsp.Some?
    && f.priority.Some? && f.priority.value != ""
  }

  /** The effect on `canSelectPriority`: when it does not hold, the priority is cleared. */
  function Settle(f: Form): (r: Form)
    ensures r.priority.Some? ==> CanSelectPriority(r)
    ensures CanSelectPriority(f) ==> r == f
    ensures r == f.(priority := r.priority)
  {
    if CanSelectPriority(f) then f else f.(priority := None)
  }

  /** What the user does on the form. */
  datatype Event =
    | LoadedProvider(provider: Option<int>)
    | ChosePatient(patient: int)
    | ChoseProfessional(professional: int)
    | ChoseRoute(route: int)
    | ResetPatient
    | ResetProfessional
    | ResetRoute
    | PickedPriority(level: string)

  /** The state change an event makes, before the effect runs. */
  function Apply(f: Form, e: Event): (r: Form)
    ensures r.submitting == f.submitting && r.alert == f.alert && r.navigation == f.navigation
    ensures e.PickedPriority? && CanSelectPriority(f) ==> r.priority == Some(e.level)
    ensures e.PickedPriority? && !CanSelectPriority(f) ==> r == f
    ensures e.ResetPatient? || e.ResetProfessional? || e.ResetRoute? ==> r.priority.None? && !CanSelectPriority(r)
    ensures !e.PickedPriority? && !e.ResetPatient? && !e.ResetProfessional? && !e.ResetRoute? ==> r.priority == f.priority
  {
    match e
    case LoadedProvider(p) => f.(efector := p)
    case ChosePatient(p) => f.(paciente := Some(p), finishPaciente := true)
    case ChoseProfessional(p) => f.(profesional := Some(p), finishProfesional := true)
    case ChoseRoute(r) => f.(efeSerEsp := Some(r), finishEfeSerEsp := true)
    case ResetPatient => f.(paciente := None, finishPaciente := false, priority := None)
    case ResetProfessional => f.(profesional := None, finishProfesional := false, priority := None)
    case ResetRoute => f.(efeSerEsp := None, finishEfeSerEsp := false, priority := None)
    case PickedPriority(level) => if CanSelectPriority(f) then f.(priority := Some(level)) else f
  }

  /** An event and the effect it triggers. */
  function Step(f: Form, e: Event): (r: Form)
    ensures r.priority.Some? ==> CanSelectPriority(r)
    ensures e.PickedPriority? ==> (r.priority == Some(e.level) <==> CanSelectPriority(f))
    ensures e.PickedPriority? && !CanSelectPriority(f) ==> r == Settle(f)
  {
    Settle(Apply(f, e))
  }

  /** The body of the request `handleConfirm` sends. */
  datatype Post = Post(efeSerEsp: int, profesional: int, solicitante: int, paciente: int, prioridad: Option<int>)

  /** Why a request failed: the server's `detail` and the error's message, either possibly
      absent. */
  datatype Failure = Failure(detail: Option<string>, message: Option<string>)

  /** `detail || message || "Error al crear turno en espera"`: the first non-empty text. */
  function FailureText(e: Failure): (r: string)
    ensures r != ""
    ensures e.detail.Some? && e.detail.value != "" ==> r == e.detail.value
  {
    if e.detail.Some? && e.detail.value != "" then e.detail.value
    else if e.message.Some? && e.message.value != "" then e.message.value
    else "Error al crear turno en espera"
  }

  const Created := "Turno en espera creado correctamente."

  /** `handleConfirm`. `outcome` is the result of the post. Returns the request sent, if any.
      On success the button stays blocked; `AfterDelay` is the timer that then navigates. */
  function Confirm(f: Form, outcome: Result<(), Failure>): (r: (Option<Post>, Form))
    ensures r.0.None? <==> !CanConfirm(f) || f.submitting
    ensures r.0.None? ==> r.1 == f
    ensures r.0.Some? ==>
              var solicitante := if f.efector.Some? then f.efector.value else f.efectorId.value;
              r.0.value == Post(f.efeSerEsp.value, f.profesional.value, solicitante, f.paciente.value, MapPriority(f.priority.value))
    ensures r.0.Some? && outcome.Ok? ==> r.1 == f.(submitting := true, alert := Some(Alert(Success, Created)))
    ensures r.0.Some? && outcome.Err? ==> r.1 == f.(submitting := false, alert := Some(Alert(Error, FailureText(outcome.error))))
  {
    if !CanConfirm(f) || f.submitting then (None, f)
    else
      var post := Post(f.efeSerEsp.value, f.profesional.value,
                       if f.efector.Some? then f.efector.value else f.efectorId.value,
                       f.paciente.value, MapPriority(f.priority.value));
      match outcome
      case Ok(_) => (Some(post), f.(submitting := true, alert := Some(Alert(Success, Created))))
      case Err(e) => (Some(post), f.(submitting := false, alert := Some(Alert(Error, FailureText(e)))))
  }

  /** The three-second timer started after a successful post. */
  function AfterDelay(f: Form): (r: Form)
    ensures !r.submitting && r.navigation == Some("/espera")
  {
    f.(submitting := false, navigation := Some("/espera"))
  }

  // ---------------------------------------------------------------- lemmas

  /** The three levels are stored as distinct numbers, the most urgent as the smallest. */
  lemma PriorityLevelsOrdered()
    ensures MapPriority("alta").value < MapPriority("media").value < MapPriority("baja").value
  {
  }

  /** Whatever the form files sorts, in the waiting list's priority order, ahead of every entry
      that has no priority. */
  lemma FiledEntriesPrecedeUnprioritised(turnos: seq<WaitList.Entry>, sel: Option<int>, i: int, j: int, level: string)
    requires var r := WaitList.Visible(turnos, sel, WaitList.Priority);
             0 <= i < |r| && 0 <= j < |r| && r[i].prioridad.None? && r[j].prioridad == MapPriority(level)
             && MapPriority(level).Some?
    ensures j < i
  {
    WaitList.MissingPriorityLast(turnos, sel, i, j);
  }

  /** A second confirm while the first is in flight, or after it succeeded and before the timer,
      sends nothing. */
  lemma NoDoubleSubmit(f: Form, first: Result<(), Failure>, second: Result<(), Failure>)
    requires first.Ok?
    ensures var (_, g) := Confirm(f, first);
            Confirm(g, second) == (None, g)
  {
  }

  /** Each reset clears its own selection, its done flag and the priority, and nothing else. */
  lemma ResetsClearPriority(f: Form)
    ensures var r := Step(f, ResetPatient);
            r == f.(paciente := None, finishPaciente := false, priority := None)
    ensures var r := Step(f, ResetProfessional);
            r == f.(profesional := None, finishProfesional := false, priority := None)
    ensures var r := Step(f, ResetRoute);
            r == f.(efeSerEsp := None, finishEfeSerEsp := false, priority := None)
  {
  }

  /** After any sequence of events a chosen priority implies that all four selections are set,
      so the form can confirm exactly when a non-empty priority has been picked. */
  lemma {:induction false} PriorityNeedsSelections(f: Form, es: seq<Event>)
    requires f.priority.Some? ==> CanSelectPriority(f)
    ensures var r := Run(f, es);
            (r.priority.Some? ==> CanSelectPriority(r))
            && (CanConfirm(r) <==> r.priority.Some? && r.priority.value != "")
    decreases |es|
  {
    if |es| > 0 {
      PriorityNeedsSelections(Step(f, es[0]), es[1..]);
    }
  }

  /** The form after a sequence of events. */
  function Run(f: Form, es: seq<Event>): Form
    decreases |es|
  {
    if |es| == 0 then f else Run(Step(f, es[0]), es[1..])
  }
}

=== FILE: waithistory.dfy ===
/** The waiting-list history of one patient (`frontend/src/pages/EsperaHistoricoPage.tsx`):
    once the patient picker reports a patient, that patient's entries are fetched, ordered by
    creation time and can be exported as CSV; the state chip is coloured for the two states
    the screen knows. */
module WaitHistory {
  import opened Wrappers
  import opened Seqs
  import opened Text
  import opened Sorting
  import Csv

  /** A waiting-list entry. `creacionMs` is `new Date(fecha_hora_creacion).getTime()`; the other
      fields hold the text each one renders as, absent when the field (or the object that
      carries it) is missing. */
  datatype Entry = Entry(creacion: Option<string>, creacionMs: int, cierre: Option<string>,
                         estado: Option<string>, nroDoc: Option<string>,
                         nombre: Option<string>, apellido: Option<string>,
                         profNombre: Option<string>, profApellido: Option<string>,
                         efector: Option<string>, servicio: Option<string>,
                         especialidad: Option<string>, prioridad: Option<int>)

  datatype Screen = Screen(paciente: Option<int>, finishPaciente: bool, rows: seq<Entry>, error: Option<string>)

  const QueryFailed := "Error al consultar turnos"

  /** The effect on `finishPaciente` and `paciente`: once the picker is done and the patient has
      a (truthy) id, that patient's entries are fetched. `answer` is the reply, or the error's
      message (which may be absent). Returns the id requested, if any. */
  function Fetch(s: Screen, answer: Result<seq<Entry>, Option<string>>): (r: (Option<int>, Screen))
    ensures r.0.Some? <==> s.finishPaciente && s.paciente.Some? && s.paciente.value != 0
    ensures r.0.Some? ==> r.0 == s.paciente
    ensures r.0.None? ==> r.1 == s
    ensures r.0.Some? && answer.Ok? ==> r.1 == s.(rows := answer.value, error := None)
    ensures r.0.Some? && answer.Err? ==> r.1 == s.(rows := [], error := Some(answer.error.GetOr(QueryFailed)))
  {
    if !(s.finishPaciente && s.paciente.Some? && s.paciente.value != 0) then (None, s)
    else
      match answer
      case Ok(rows) => (s.paciente, s.(rows := rows, error := None))
      case Err(msg) => (s.paciente, s.(rows := [], error := Some(msg.GetOr(QueryFailed))))
  }

  /** `handleClear`. */
  function Clear(s: Screen): (r: Screen)
    ensures r.paciente.None? && !r.finishPaciente && r.rows == [] && r.error.None?
  {
    Screen(None, false, [], None)
  }

  /** `handleDeselect`, which frees the patient picker for a new search. */
  function Deselect(s: Screen): (r: Screen)
    ensures r.paciente.None? && !r.finishPaciente && r.rows == [] && r.error.None?
  {
    s.(paciente := None, finishPaciente := false, rows := [], error := None)
  }

  function CreationKey(e: Entry): int { e.creacionMs }

  /** `displayedRows`: newest first when `sortDesc`, oldest first otherwise. */
  function Displayed(rows: seq<Entry>, sortDesc: bool): (r: seq<Entry>)
    ensures multiset(r) == multiset(rows)
    ensures sortDesc ==> SortedBy(r, Descending(CreationKey))
    ensures !sortDesc ==> SortedBy(r, Ascending(CreationKey))
  {
    DescendingIsPreorder(CreationKey);
    AscendingIsPreorder(CreationKey);
    SortBySorted(rows, Descending(CreationKey));
    SortBySorted(rows, Ascending(CreationKey));
    if sortDesc then SortBy(rows, Descending(CreationKey)) else SortBy(rows, Ascending(CreationKey))
  }

  // ---------------------------------------------------------------- table and export

  datatype Column = Creacion | Cierre | Estado | NroDoc | PacienteNombre | PacienteApellido
                  | Profesional | Efector | Servicio | Especialidad | Prioridad

  const AllColumns: seq<Column> := [Creacion, Cierre, Estado, NroDoc, PacienteNombre, PacienteApellido,
                                    Profesional, Efector, Servicio, Especialidad, Prioridad]

  function Label(c: Column): string {
    match c
    case Creacion => "Creación"
    case Cierre => "Cierre"
    case Estado => "Estado"
    case NroDoc => "DNI"
    case PacienteNombre => "Nombre"
    case PacienteApellido => "Apellido"
    case Profesional => "Profesional"
    case Efector => "Efector"
    case Servicio => "Servicio"
    case Especialidad => "Especialidad"
    case Prioridad => "Prioridad"
  }

  /** `safeFormat`: a dash for a missing or empty date, otherwise the date as `format` (the locale
      rendering, not modelled) shows it. */
  function SafeFormat(v: Option<string>, format: string -> string): (r: string)
    ensures v.None? || v.value == "" ==> r == "—"
  {
    if v.None? || v.value == "" then "—" else format(v.value)
  }

  /** The requesting professional: first and last name separated by a space, trimmed. */
  function ProfessionalText(e: Entry): string {
    Strip(e.profNombre.GetOr("") + " " + e.profApellido.GetOr(""))
  }

  /** The text of an export cell, before quoting. */
  function Cell(c: Column, e: Entry, format: string -> string): string {
    match c
    case Creacion => SafeFormat(e.creacion, format)
    case Cierre => SafeFormat(e.cierre, format)
    case Estado => e.estado.GetOr("")
    case NroDoc => e.nroDoc.GetOr("")
    case PacienteNombre => e.nombre.GetOr("")
    case PacienteApellido => e.apellido.GetOr("")
    case Profesional => ProfessionalText(e)
    case Efector => e.efector.GetOr("")
    case Servicio => e.servicio.GetOr("")
    case Especialidad => e.especialidad.GetOr("")
    case Prioridad => if e.prioridad.Some? then IntToString(e.prioridad.value) else ""
  }

  /** The priority as the table shows it: `r.prioridad ?? '—'`. */
  function PriorityShown(e: Entry): string {
    if e.prioridad.Some? then IntToString(e.prioridad.value) else "—"
  }

  /** The visible columns, in display order. */
  function Shown(visible: set<Column>): (r: seq<Column>)
    ensures forall c :: c in r <==> c in visible
  {
    forall c: Column
      ensures c in AllColumns
    {
      EveryColumnListed(c);
    }
    Select(AllColumns, visible)
  }

  function CsvRow(cols: seq<Column>, e: Entry, format: string -> string): (r: seq<string>)
    ensures |r| == |cols|
    ensures forall j :: 0 <= j < |cols| ==> r[j] == Cell(cols[j], e, format)
  {
    Map(cols, (c: Column) => Cell(c, e, format))
  }

  /** `downloadCSV`: the header of the visible labels, then one line per displayed row. */
  function CsvRows(rows: seq<Entry>, visible: set<Column>, format: string -> string): (r: seq<seq<string>>)
    ensures |r| == |rows| + 1 && r[0] == Map(Shown(visible), Label)
    ensures forall i :: 0 <= i < |rows| ==> r[i + 1] == CsvRow(Shown(visible), rows[i], format)
  {
    var cols := Shown(visible);
    var body := Map(rows, (e: Entry) => CsvRow(cols, e, format));
    var r := [Map(cols, Label)] + body;
    assert forall i :: 0 <= i < |rows| ==> r[i + 1] == body[i];
    r
  }

  function CsvText(rows: seq<Entry>, visible: set<Column>, format: string -> string): string {
    Csv.Document(CsvRows(rows, visible, format))
  }

  // ---------------------------------------------------------------- state chip

  datatype Color = WarningColor | SuccessColor

  /** `estadoColor`: by the trimmed, upper-cased state; no colour for any other state. */
  function EstadoColor(estado: string): (r: Option<Color>)
    ensures r == Some(WarningColor) <==> Upper(Strip(estado)) == "ESPERA"
    ensures r == Some(SuccessColor) <==> Upper(Strip(estado)) == "OTORGADO"
  {
    var e := Upper(Strip(estado));
    if e == "ESPERA" then Some(WarningColor)
    else if e == "OTORGADO" then Some(SuccessColor)
    else None
  }

  // ---------------------------------------------------------------- lemmas

  /** The two ways back to the patient picker leave the screen in the same state. */
  lemma ClearIsDeselect(s: Screen)
    ensures Clear(s) == Deselect(s)
  {
  }

  /** After either reset nothing is fetched until the picker is done again. */
  lemma ResetStopsFetching(s: Screen, answer: Result<seq<Entry>, Option<string>>)
    ensures Fetch(Clear(s), answer) == (None, Clear(s))
  {
  }

  lemma EveryColumnListed(c: Column)
    ensures c in AllColumns
  {
    match c
    case Creacion => assert AllColumns[0] == c;
    case Cierre => assert AllColumns[1] == c;
    case Estado => assert AllColumns[2] == c;
    case NroDoc => assert AllColumns[3] == c;
    case PacienteNombre => assert AllColumns[4] == c;
    case PacienteApellido => assert AllColumns[5] == c;
    case Profesional => assert AllColumns[6] == c;
    case Efector => assert AllColumns[7] == c;
    case Servicio => assert AllColumns[8] == c;
    case Especialidad => assert AllColumns[9] == c;
    case Prioridad => assert AllColumns[10] == c;
  }

  /** The export loses nothing: with one visible column or more, reading the CSV back gives the
      labels and the cell texts. */
  lemma CsvReadsBack(rows: seq<Entry>, visible: set<Column>, format: string -> string)
    requires visible != {}
    ensures Csv.ReadDocument(CsvText(rows, visible, format)) == Some(CsvRows(rows, visible, format))
  {
    RowsNotEmpty(rows, visible, format);
    Csv.ReadDocumentOfDocument(CsvRows(rows, visible, format));
  }

  lemma ShownNotEmpty(visible: set<Column>)
    requires visible != {}
    ensures |Shown(visible)| >= 1
  {
    var c :| c in visible;
    assert c in Shown(visible);
  }

  /** With a visible column, every line of the export, the header included, has a cell. */
  lemma RowsNotEmpty(rows: seq<Entry>, visible: set<Column>, format: string -> string)
    requires visible != {}
    ensures forall i :: 0 <= i < |CsvRows(rows, visible, format)| ==> |CsvRows(rows, visible, format)[i]| >= 1
  {
    var r := CsvRows(rows, visible, format);
    var cols := Shown(visible);
    ShownNotEmpty(visible);
    forall i | 0 <= i < |r|
      ensures |r[i]| >= 1
    {
      if i > 0 {
        assert r[i] == CsvRow(cols, rows[i - 1], format);
      }
    }
  }

  /** A professional with only one name part known is exported as that part alone, without the
      separating space. */
  lemma ProfessionalOneName(e: Entry, name: string)
    requires forall k :: 0 <= k < |name| ==> !IsSpace(name[k])
    requires (e.profNombre == Some(name) && e.profApellido.None?)
             || (e.profNombre.None? && e.profApellido == Some(name))
    ensures ProfessionalText(e) == name
  {
    if e.profNombre.Some? {
      assert e.profNombre.GetOr("") + " " + e.profApellido.GetOr("") == "" + name + " ";
      assert AllSpace(" ");
      PaddedName("", name, " ");
    } else {
      assert e.profNombre.GetOr("") + " " + e.profApellido.GetOr("") == " " + name + "";
      assert AllSpace(" ");
      PaddedName(" ", name, "");
    }
  }

  /** A single word between blanks trims to itself. */
  lemma PaddedName(pre: string, name: string, post: string)
    requires AllSpace(pre) && AllSpace(post)
    requires forall k :: 0 <= k < |name| ==> !IsSpace(name[k])
    ensures Strip(pre + name + post) == name
  {
    StripPadding(pre, name, post);
    StripNoSpace(name);
  }

  /** Without a professional the cell is empty rather than a lone space. */
  lemma NoProfessionalIsEmpty(e: Entry)
    requires e.profNombre.None? && e.profApellido.None?
    ensures ProfessionalText(e) == ""
  {
    assert e.profNombre.GetOr("") + " " + e.profApellido.GetOr("") == " ";
    assert AllSpace(" ");
    StripBlank(" ");
  }

  /** A missing priority shows as a dash in the table and as an empty cell in the export; a
      present one reads back as the same number in both. */
  lemma PriorityTableAndExport(e: Entry, format: string -> string)
    ensures e.prioridad.None? ==> PriorityShown(e) == "—" && Cell(Prioridad, e, format) == ""
    ensures e.prioridad.Some? ==> PriorityShown(e) == Cell(Prioridad, e, format)
                                  && JsNumber(Cell(Prioridad, e, format)) == Some(Decimal(e.prioridad.value, 0))
  {
    var cell := Cell(Prioridad, e, format);
    if e.prioridad.Some? {
      assert cell == IntToString(e.prioridad.value);
      JsNumberOfIntToString(e.prioridad.value);
    } else {
      assert cell == "";
    }
  }

  /** The chip colour ignores surrounding whitespace. */
  lemma ColorIgnoresPadding(pre: string, estado: string, post: string)
    requires AllSpace(pre) && AllSpace(post)
    ensures EstadoColor(pre + estado + post) == EstadoColor(estado)
  {
    StripPadding(pre, estado, post);
  }

  lemma UpperLower(s: string)
    ensures Upper(Lower(s)) == Upper(s)
  {
    var a := Upper(Lower(s));
    assert |a| == |Upper(s)|;
    forall i | 0 <= i < |s|
      ensures a[i] == Upper(s)[i]
    {
    }
  }

  /** The chip colour ignores letter case. */
  lemma ColorIgnoresCase(estado: string)
    requires forall k :: 0 <= k < |estado| ==> !IsSpace(estado[k])
    ensures EstadoColor(Lower(estado)) == EstadoColor(estado)
  {
    assert Upper(Strip(Lower(estado))) == Upper(Strip(estado)) by {
      LowerUnpadded(estado);
      UpperLower(estado);
      UpperOfUnpadded(Lower(estado));
      UpperOfUnpadded(estado);
    }
  }

  lemma LowerUnpadded(s: string)
    requires forall k :: 0 <= k < |s| ==> !IsSpace(s[k])
    ensures forall k :: 0 <= k < |Lower(s)| ==> !IsSpace(Lower(s)[k])
  {
  }

  lemma UpperOfUnpadded(s: string)
    requires forall k :: 0 <= k < |s| ==> !IsSpace(s[k])
    ensures Upper(Strip(s)) == Upper(s)
  {
    StripNoSpace(s);
  }
}

=== FILE: waitlist.dfy ===
/** The waiting-list screen (`frontend/src/pages/ListaEsperaPage.tsx`): the
    referral destinations of the chosen provider, the specialty filter built
    from the loaded entries, the two orders of the visible list, the phone
    check shown next to each patient, and taking an entry off the list. */
module WaitList {
  import opened Wrappers
  import opened Seqs
  import opened Sorting
  import opened Ui
  import Keyed

  datatype Provider = Provider(id: int, nombre: string)

  /** A referral row: the provider the chosen one refers patients to. */
  datatype Referral = Referral(efectorDeriva: Provider)

  datatype Specialty = Specialty(id: int, nombre: string)

  /** A waiting-list entry. `dias` is the number of days it has waited, computed from its creation
      date by a date routine that is not part of this model. */
  datatype Entry = Entry(id: int, especialidad: Specialty, prioridad: Option<int>, dias: int)

  function ProviderId(p: Provider): int { p.id }

  function Destination(d: Referral): Provider { d.efectorDeriva }

  /** The referral destinations, one per provider id (`new Map(...).values()`). */
  function Destinations(data: seq<Referral>): (r: seq<Provider>)
    ensures Keyed.UniqueKeys(r, ProviderId)
    ensures forall k :: k in Keyed.Keys(r, ProviderId) <==> exists d :: d in data && d.efectorDeriva.id == k
    ensures Keyed.Keys(r, ProviderId) == Dedup(Keyed.Keys(Map(data, Destination), ProviderId))
    ensures forall k {:trigger Keyed.Lookup(r, k, ProviderId)} ::
              Keyed.Lookup(r, k, ProviderId) == Keyed.LastWith(Map(data, Destination), k, ProviderId)
  {
    var xs := Map(data, Destination);
    var r := Keyed.ById(xs, ProviderId);
    forall k
      ensures k in Keyed.Keys(r, ProviderId) <==> exists d :: d in data && d.efectorDeriva.id == k
    {
      assert Keyed.Lookup(r, k, ProviderId) == Keyed.LastWith(xs, k, ProviderId);
      if k in Keyed.Keys(xs, ProviderId) {
        var i :| 0 <= i < |xs| && Keyed.Keys(xs, ProviderId)[i] == k;
        assert data[i] in data && data[i].efectorDeriva.id == k;
      }
      if exists d :: d in data && d.efectorDeriva.id == k {
        var d :| d in data && d.efectorDeriva.id == k;
        var i :| 0 <= i < |data| && data[i] == d;
        assert Keyed.Keys(xs, ProviderId)[i] == k;
      }
    }
    r
  }

  function SpecialtyId(s: Specialty): int { s.id }

  function SpecialtyOf(t: Entry): Specialty { t.especialidad }

  /** `especialidadesOptions`: one option per specialty id, named as the first entry that
      carries it. */
  function Options(turnos: seq<Entry>): (r: seq<Specialty>)
    ensures Keyed.UniqueKeys(r, SpecialtyId)
    ensures forall k :: Keyed.Lookup(r, k, SpecialtyId) == Keyed.Lookup(Map(turnos, SpecialtyOf), k, SpecialtyId)
  {
    assert Keyed.UniqueKeys([], SpecialtyId);
    Keyed.SetAllIfAbsent([], Map(turnos, SpecialtyOf), SpecialtyId)
  }

  /** The selection reset: a selected specialty that no option carries any more is dropped. */
  function ResetSelection(sel: Option<int>, options: seq<Specialty>): (r: Option<int>)
    ensures r.Some? ==> r == sel && r.value in Keyed.Keys(options, SpecialtyId)
    ensures r.None? <==> sel.None? || sel.value !in Keyed.Keys(options, SpecialtyId)
  {
    if sel.Some? && sel.value !in Keyed.Keys(options, SpecialtyId) then None else sel
  }

  /** `t.prioridad ?? 99`. */
  function Prio(t: Entry): int { t.prioridad.GetOr(99) }

  /** The priority order: ascending priority. Its tie-break subtracts `Number` of the creation
      timestamps, which are ISO date texts and so `NaN`, and a `NaN` comparison leaves the pair in
      place; the order is therefore the stable sort by priority alone. */
  function ByPriority(): (le: (Entry, Entry) -> bool)
    ensures forall a, b :: le(a, b) <==> Prio(a) <= Prio(b)
  {
    Ascending(Prio)
  }

  /** The days order: more days waited first, ties by ascending priority. */
  function ByDays(): (le: (Entry, Entry) -> bool)
    ensures forall a: Entry, b: Entry :: a.dias > b.dias ==> le(a, b) && !le(b, a)
    ensures forall a: Entry, b: Entry :: a.dias == b.dias ==> (le(a, b) <==> Prio(a) <= Prio(b))
  {
    (a: Entry, b: Entry) => a.dias > b.dias || (a.dias == b.dias && Prio(a) <= Prio(b))
  }

  datatype SortKey = Priority | Days

  function Order(k: SortKey): (Entry, Entry) -> bool {
    if k == Priority then ByPriority() else ByDays()
  }

  predicate OfSpecialty(sel: Option<int>, t: Entry) {
    sel.None? || t.especialidad.id == sel.value
  }

  /** `visibleTurnos`: the entries of the selected specialty (all when none is selected), in the
      chosen order. */
  function Visible(turnos: seq<Entry>, sel: Option<int>, k: SortKey): (r: seq<Entry>)
    ensures multiset(r) == multiset(Filter(turnos, (t: Entry) => OfSpecialty(sel, t)))
    ensures forall t :: t in r <==> t in turnos && OfSpecialty(sel, t)
    ensures SortedBy(r, Order(k))
  {
    var arr := Filter(turnos, (t: Entry) => OfSpecialty(sel, t));
    var r := SortBy(arr, Order(k));
    OrdersArePreorders(k);
    SortBySorted(arr, Order(k));
    SortByMembers(arr, Order(k));
    r
  }

  datatype PhoneStatus = Missing | Valid | Invalid

  /** `telefonoEstado`: missing when a part is absent, valid for a 3-character area code and a
      7-character number, invalid otherwise. */
  function TelefonoEstado(carac: Option<string>, nro: Option<string>): (r: PhoneStatus)
    ensures r == Missing <==> carac.None? || nro.None?
    ensures r == Valid <==> carac.Some? && nro.Some? && |carac.value| == 3 && |nro.value| == 7
  {
    if carac.None? || nro.None? then Missing
    else if |carac.value| == 3 && |nro.value| == 7 then Valid
    else Invalid
  }

  /** The part of the screen `handleRemove` touches. */
  datatype Screen = Screen(turnos: seq<Entry>, removing: seq<int>, active: Option<Entry>, dialogOpen: bool, alert: Option<Alert>)

  const Removed := "Turno sacado de la lista de espera."

  /** `handleRemove`: the entry is marked as being removed while the close request runs
      (`during`), taken off the list when the request succeeds (`ok`), and unmarked in the
      `finally` block, which also closes the dialog. */
  function HandleRemove(s: Screen, ok: bool, error: string): (r: (seq<int>, Screen))
    ensures s.active.None? ==> r == (s.removing, s)
    ensures s.active.Some? ==>
              var id := s.active.value.id;
              var (during, after) := r;
              id in during && (forall x :: x in during <==> x in s.removing || x == id)
              && (NoDup(s.removing) ==> NoDup(during))
              && (forall x :: x in after.removing <==> x in s.removing && x != id)
              && after.active.None? && !after.dialogOpen
              && (ok ==> after.turnos == Filter(s.turnos, (t: Entry) => t.id != id) && after.alert == Some(Alert(Success, Removed)))
              && (!ok ==> after.turnos == s.turnos && after.alert == Some(Alert(Error, error)))
  {
    match s.active
    case None => (s.removing, s)
    case Some(t) =>
      var id := t.id;
      var during := if id in s.removing then s.removing else s.removing + [id];
      MarkKeepsNoDup(s.removing, id);
      var turnos := if ok then Filter(s.turnos, (e: Entry) => e.id != id) else s.turnos;
      var alert := if ok then Alert(Success, Removed) else Alert(Error, error);
      (during, Screen(turnos, Filter(during, (x: int) => x != id), None, false, Some(alert)))
  }

  // ---------------------------------------------------------------- lemmas

  lemma MarkKeepsNoDup(removing: seq<int>, id: int)
    ensures NoDup(removing) ==> NoDup(if id in removing then removing else removing + [id])
  {
    if id !in removing && NoDup(removing) {
      AppendKeepsNoDup(removing, id);
    }
  }

  /** Both comparators are total preorders, so the sort is well defined. */
  lemma OrdersArePreorders(k: SortKey)
    ensures TotalPreorder(Order(k))
  {
    if k == Priority {
      AscendingIsPreorder(Prio);
    } else {
      var le := ByDays();
      forall a, b, c | le(a, b) && le(b, c)
        ensures le(a, c)
      {
        if a.dias == b.dias && b.dias == c.dias {
          assert Prio(a) <= Prio(b) <= Prio(c);
        }
      }
    }
  }

  /** In priority order a missing priority sorts after every priority below 99. */
  lemma MissingPriorityLast(turnos: seq<Entry>, sel: Option<int>, i: int, j: int)
    requires var r := Visible(turnos, sel, Priority);
             0 <= i < |r| && 0 <= j < |r| && r[i].prioridad.None? && r[j].prioridad.Some? && r[j].prioridad.value < 99
    ensures j < i
  {
    var r := Visible(turnos, sel, Priority);
    assert Prio(r[i]) == 99 && Prio(r[j]) < 99;
  }

  /** In days order an entry that waited longer comes first. */
  lemma LongerWaitFirst(turnos: seq<Entry>, sel: Option<int>, i: int, j: int)
    requires var r := Visible(turnos, sel, Days);
             0 <= i < |r| && 0 <= j < |r| && r[i].dias > r[j].dias
    ensures i < j
  {
    var r := Visible(turnos, sel, Days);
    var le := ByDays();
    assert le == Order(Days);
    assert !le(r[j], r[i]);
    OutOfOrderPair(r, le, i, j);
  }

  /** In a sorted list, an element that may not precede another stands behind it. */
  lemma OutOfOrderPair<T>(r: seq<T>, le: (T, T) -> bool, i: int, j: int)
    requires SortedBy(r, le) && 0 <= i < |r| && 0 <= j < |r| && i != j && !le(r[j], r[i])
    ensures i < j
  {
  }

  /** The option for a specialty id carries the name of the first entry of that specialty. */
  lemma FirstNameWins(turnos: seq<Entry>, i: int)
    requires 0 <= i < |turnos|
    requires forall j :: 0 <= j < i ==> turnos[j].especialidad.id != turnos[i].especialidad.id
    ensures Keyed.Lookup(Options(turnos), turnos[i].especialidad.id, SpecialtyId) == Some(turnos[i].especialidad)
  {
    FirstWithKey(Map(turnos, SpecialtyOf), i);
  }

  lemma {:induction false} FirstWithKey(xs: seq<Specialty>, i: int)
    requires 0 <= i < |xs|
    requires forall j :: 0 <= j < i ==> xs[j].id != xs[i].id
    ensures Keyed.Lookup(xs, xs[i].id, SpecialtyId) == Some(xs[i])
    decreases i
  {
    if i > 0 {
      assert xs[1..][i - 1] == xs[i];
      FirstWithKey(xs[1..], i - 1);
    }
  }

  /** A selection reset against the options of the same entries keeps exactly the selections
      some entry carries. */
  lemma ResetKeepsPresentSpecialty(turnos: seq<Entry>, sel: int)
    ensures ResetSelection(Some(sel), Options(turnos)).Some? <==> exists t :: t in turnos && t.especialidad.id == sel
  {
    var xs := Map(turnos, SpecialtyOf);
    var opts := Options(turnos);
    assert Keyed.Lookup(opts, sel, SpecialtyId) == Keyed.Lookup(xs, sel, SpecialtyId);
    if exists t :: t in turnos && t.especialidad.id == sel {
      var t :| t in turnos && t.especialidad.id == sel;
      var i :| 0 <= i < |turnos| && turnos[i] == t;
      assert Keyed.Keys(xs, SpecialtyId)[i] == sel;
    }
    if sel in Keyed.Keys(xs, SpecialtyId) {
      var i :| 0 <= i < |xs| && Keyed.Keys(xs, SpecialtyId)[i] == sel;
      assert turnos[i] in turnos;
    }
  }

  /** With no specialty selected every entry is visible. */
  lemma NoSelectionShowsAll(turnos: seq<Entry>, k: SortKey)
    ensures multiset(Visible(turnos, None, k)) == multiset(turnos)
  {
    FilterAll(turnos, (t: Entry) => OfSpecialty(None, t));
  }

  lemma {:induction false} FilterAll<T(!new)>(s: seq<T>, p: T -> bool)
    requires forall x :: x in s ==> p(x)
    ensures Filter(s, p) == s
    decreases |s|
  {
    if |s| > 0 {
      FilterAll(s[1..], p);
      assert s == [s[0]] + s[1..];
    }
  }

  /** Removing the same entry twice in a row leaves the list as the first removal did. */
  lemma RemoveTwice(s: Screen, t: Entry, error: string)
    requires s.active == Some(t)
    ensures var after := HandleRemove(s, true, error).1;
            HandleRemove(after.(active := Some(t)), true, error).1.turnos == after.turnos
  {
    var after := HandleRemove(s, true, error).1;
    FilterIdempotent(s.turnos, (e: Entry) => e.id != t.id);
  }
}

=== FILE: wrappers.dfy ===
/** Optional values and fallible results, shared by every module of the model.
    `None` stands for JavaScript's `undefined`/`null` and Python's `None`. */
module Wrappers {

  datatype Option<T> = None | Some(value: T) {
    /** The value, or `default` when absent (the `??` operator). */
    function GetOr(default: T): T {
      match this
      case Some(v) => v
      case None => default
    }
  }

  /** The outcome of a request or a conversion that can fail with an error of type `E`. */
  datatype Result<T, E> = Ok(value: T) | Err(error: E)
}
